=== FILE: README.md ===
# hammers, modelled in Dafny

`hammers` is a set of maintenance scripts for an OpenStack bare-metal cloud
(Chameleon). Each script fetches records from the cloud's REST services or
databases, filters and joins them in memory, and then acts on the result. It may
delete leases, floating IPs or ports, return hosts to the free pool, send e-mail
or update Blazar metadata. This project models those in-memory decisions and
proves what they promise:

- **Lease stacking.** The notifier (`lease_stack_notifier.dfy`) models a shared
  object graph. Hosts are shared between leases, and leases are gathered into
  projects. Per node type, it keeps the furthest end and the earliest start. From
  these come the two violations checked per project: coverage of the period
  ahead, and hogging of high-end node types. The two reapers
  (`gpu_lease_stacking.dfy`, `lease_stack_reaper.dfy`) share one rule
  (`lease_stacking.dfy`). A user's leases on a node are de-duplicated and sorted
  by start. A lease less than a day from a neighbour is stacked. Every stacked
  lease but the first is queued for deletion.
- **Gap search and naming.** `maintenance_reservation.dfy` models the
  earliest gap in a node's schedule, the start-time argument and the
  maintenance lease's name.
- **Diff and flatten.** `metadata_sync.dfy` models the flattening of
  nested JSON into dotted keys, the comparison of two capability maps, and the
  collation of the resulting actions.
- **Detectors and reapers.** These are the set and map logic of:
  - `conflict_macs`, `dirty_ports` and `unutilized_lease_reaper`;
  - `node_doctor` and `undead_instances`;
  - `neutron_reaper`, `reaper` and `floatingip_reaper`;
  - `orphans_detector`, `clean_old_aggregates` and `k8s_calico_ip_cleanup`.
- **Shared utilities.** These are `util`, `osapi` (RC files, credential
  checks, token refresh, endpoint choice), `mysqlargs`, `mysqlshim` (the
  batched row reader), `query` (the registry, the column choice and the merge of
  two Nova databases) and `ccmanage/stack.py`'s `Stack`.

## Modelling conventions

- **Shape follows the code.** Code that changes objects in place is
  modelled in place: a `class` whose methods have `modifies` clauses. Examples
  are `Lease.add_host`, `Project.add_lease`, `LeaseComplianceManager`, `GPUUser`,
  `User`, the node doctor's ailment lists, the cursor and the Heat stack. A
  generator is an object too: the lazy `islice` over `MySqlShim._query` is a
  `RowStream` whose `Next` resumes it on the shared cursor. Loops
  become `for` loops with invariants, proved against a function that states
  the result. Pure code becomes functions and lemmas.
- **Python built-ins.** A Python `dict` is `Dicts.Dict`: a map together with
  the order in which its keys were first inserted, which is what iteration
  follows. Strings are `seq<char>`, with ASCII case mapping (`strs.dfy`).
- **Exceptions** are `Err` values of `Wrappers.Result`. They carry the
  exception Python would raise: `KeyError`, `TypeError`, `AttributeError`,
  `NameError`, `ZeroDivisionError` and so on.
- **Time and numbers.** Times are whole seconds since the epoch, and the
  clock (`utcnow()`, `DATETIME_NOW`) is a parameter `now`. Percentages and
  ratios are exact reals.
- **Behaviour as written.** Defects are modelled as they behave. For example,
  the endpoint choice of `osapi.Auth.endpoint` indexes the filtered list before
  its `if not endpoint` test. So a missing endpoint is an `IndexError`, and the
  `RuntimeError` branch is unreachable (`OsApi.EndpointFor`). Where a defect
  stops the script, the model has both the as-written member and the corrected
  one, which the rest of the model uses. The section "Findings" lists them.

## Model

| member | source | states |
|---|---|---|
| Util.DropPrefix | hammers/util.py:21-27 | succeeds iff `start` is a prefix of `s`, and then `start` followed by the result is `s`; otherwise a ValueError |
| Util.DropPrefixRoundTrip | hammers/util.py:21-27 | dropping a prefix from a string it was prepended to gives back the rest |
| Util.DropPrefixExamples | hammers/util.py:38-46 | the three self-checks at the foot of the file hold |
| Util.ErrorWithMessage | hammers/util.py:12-18 | always ends in a RuntimeError carrying the reason; something is posted iff a Slack client is given, and each post has the subcommand as title and the reason as text |
| OsApi.AssignmentsLastWins | hammers/osapi.py:50-57 | a key is in the parsed RC map iff some line assigns it, and it holds the value of the last line that does |
| OsApi.LoadOsrc | hammers/osapi.py:39-70 | the map is the parsed assignments with a `$OS_PASSWORD_INPUT` password removed, then the prompted password stored when one was asked for; no other keys appear |
| OsApi.FromEnvOrArgs | hammers/osapi.py:92-109 | a key is present iff it is an `OS_` variable of the environment (when the environment is used) or a key of the RC file; the file's value wins |
| OsApi.NoneMissing | hammers/osapi.py:113-117 | no required variable is missing exactly when all are present |
| OsApi.MissingVars | hammers/osapi.py:113-117 | nothing is reported missing iff all four required variables and a project domain name or id are present; only those names are reported |
| OsApi.FixAuthUrl | hammers/osapi.py:118-121 | the URL ends in `v3`; it is unchanged when it already did, and otherwise gains `/v3` |
| OsApi.FixAuthUrlIdempotent | hammers/osapi.py:118-121 | fixing the URL twice is fixing it once |
| OsApi.DomainInfo | hammers/osapi.py:130-133 | the domain is given by id when the RC has one, otherwise by name |
| OsApi.MatchingServices | hammers/osapi.py:194-199 | exactly the catalog's services of the type with at least one endpoint |
| OsApi.PublicInRegion | hammers/osapi.py:205-208 | exactly the public endpoints in the session's region |
| OsApi.PublicInRegionFirst | hammers/osapi.py:205-208 | the head of the filtered list is the first endpoint of the service that is public and in the region |
| OsApi.EndpointFor | hammers/osapi.py:188-213 | succeeds iff exactly one service matches and it has a public endpoint in the region; the URL returned is that of the first such endpoint in the service's list; no or several services are RuntimeErrors, and a lone service without such an endpoint is an IndexError |
| OsApi.Auth.constructor | hammers/osapi.py:111-124 | a validated RC and a 201 response give the session: fixed URL, region when set, token, expiry and catalog of the response |
| OsApi.Auth.Create | hammers/osapi.py:111-164 | a RuntimeError when variables are missing or Keystone does not answer 201; otherwise a fresh session over the RC with the fixed URL and the response's token |
| OsApi.Auth.Token | hammers/osapi.py:176-186 | with at least 60 s left the old token is returned and nothing changes; otherwise the session re-authenticates, a non-201 answer failing without change and a 201 answer replacing token, expiry and catalog |
| OsApi.Auth.Endpoint | hammers/osapi.py:188-213 | over the session's catalog and region: a URL exactly when one service of the type has endpoints and it has a public one in the region, and then the first such endpoint's URL; no or several services are a RuntimeError, a lone service without one an IndexError |
| OsApi.SelfLink | hammers/osapi.py:274-277 | the href of the first link whose rel is `self`; none iff no link has that rel |
| OsApi.FindV2Root | hammers/osapi.py:271-281 | a result is the self link of a v2.0 entry; with no v2.0 entry the search fails with "could not find Keystone v2 root"; every failure is a RuntimeError |
| OsApi.FirstV2Rule | hammers/osapi.py:271-279 | the first v2.0 entry decides: the root is its first self link, and without one the search fails with "could not find self-link among v2 data", whatever later entries hold |
| OsApi.FindKeystone2Root | hammers/osapi.py:261-281 | a document with neither `version` nor `versions` is a KeyError; a lone `version` is searched as a one-entry list |
| OsApi.FirstV2Decides | hammers/osapi.py:271-279 | a first v2.0 entry without a self link fails the search even when a later v2.0 entry has one |
| OsApi.Authv2Init | hammers/osapi.py:252-258 | missing variables are a RuntimeError; otherwise it succeeds iff the root search does, with the root found |
| MySqlArgsMod.OverrideAt | hammers/mysqlargs.py:33-38 | after the override loop a key is present iff it was a default or a client key among the four, holding the client's value in the latter case |
| MySqlArgsMod.StripQuotes | hammers/mysqlargs.py:96-99 | a password of more than one character wrapped in matching single or double quotes loses them; any other value, or none, is unchanged |
| MySqlArgsMod.StripQuotesRoundTrip | hammers/mysqlargs.py:96-99 | quoting a password and stripping it gives the password back |
| MySqlArgsMod.StripQuotesLoneQuote | hammers/mysqlargs.py:98 | a lone quote character is kept |
| MySqlArgsMod.ConnectionFor | hammers/mysqlargs.py:83-106 | with a service configuration the user, password and host come from its URL and the port is the URL's or 3306; otherwise the command-line values, with the password's quotes stripped |
| MySqlArgsMod.MySqlArgs.constructor | hammers/mysqlargs.py:30-40 | the defaults are overridden key by key from the `[client]` section; nothing is extracted yet |
| MySqlArgsMod.MySqlArgs.Extract | hammers/mysqlargs.py:77-106 | records the connection arguments for the given arguments |
| MySqlShimMod.ZipDictAt | hammers/mysqlshim.py:64 | with distinct column names each name of the zipped row maps to the cell in its position |
| MySqlShimMod.ZipDictKeys | hammers/mysqlshim.py:64 | the keys of a zipped row are the column names that have a cell, the surplus of the longer side being dropped |
| MySqlShimMod.RowDicts | hammers/mysqlshim.py:63-64 | one dictionary per row, in order |
| MySqlShimMod.Take | hammers/mysqlshim.py:53-55 | `islice`: a prefix of the items, all of them without a limit, exactly `min(len, limit)` of them with one |
| MySqlShimMod.Cursor.constructor | hammers/mysqlshim.py:28 | a new cursor has no description and nothing to fetch |
| MySqlShimMod.Cursor.Execute | hammers/mysqlshim.py:58-70 | executing sets the description and the pending rows and answers the affected-row count |
| MySqlShimMod.Cursor.FetchMany | hammers/mysqlshim.py:61-65 | the next `n` pending rows (fewer at the end) are handed out and removed; the batch is empty exactly when nothing was pending |
| MySqlShimMod.MySqlShim.constructor | hammers/mysqlshim.py:19-29 | batch size 100, limit 1000, version liberty, on a fresh cursor |
| MySqlShimMod.MySqlShim.Columns | hammers/mysqlshim.py:31-33 | the names of the described columns, in order |
| MySqlShimMod.MySqlShim.Query | hammers/mysqlshim.py:35-55 | with `no_rows` the affected-row count; with `immediate` exactly the first rows up to the limit (default 1000) as dictionaries; otherwise a fresh, unstarted iterator over the statement and the cursor untouched, nothing executed yet |
| MySqlShimMod.MySqlShim.QueryNoRows | hammers/mysqlshim.py:67-70 | executes and answers the affected-row count |
| MySqlShimMod.Refill | hammers/mysqlshim.py:61-65 | resuming the generator keeps the rest of its batch, or else fetches the next `batch_size` rows; nothing is lost or reordered between batch and cursor |
| MySqlShimMod.RowStream.constructor | hammers/mysqlshim.py:55 | `islice` over the generator: nothing executed, nothing handed out |
| MySqlShimMod.RowStream.Resume | hammers/mysqlshim.py:57-65 | the first resumption executes the statement, reads its column names and fetches a batch; a later one fetches from the shared cursor only when the batch is used up; while nothing else uses the cursor, the batch and the pending rows are the statement's rows not yet handed out |
| MySqlShimMod.RowStream.Next | hammers/mysqlshim.py:55-65 | after `limit` items or once the generator has returned, nothing and no change; otherwise the generator resumes and yields the first row of its batch as a dictionary keyed by the fields read at its start, or returns when the fetch is empty; while nothing else uses the cursor the item is the statement's next row |
| MySqlShimMod.RowStream.Drain | hammers/mysqlshim.py:53-65 | consuming the iterator, with no other statement on the cursor meanwhile, yields exactly the statement's first rows up to the limit as dictionaries; with limit 0 nothing is executed |
| MySqlShimMod.TakeRowDicts | hammers/mysqlshim.py:53-65 | stopping when the rows or the limit run out yields the limited prefix |
| MySqlShimMod.NamesOf | hammers/mysqlshim.py:33 | the first element of each column description, in order |
| Query.Registry.constructor | hammers/query.py:7 | the registry starts empty |
| Query.Registry.Register | hammers/query.py:10-14 | the query is stored under its name, replacing an earlier one, and handed back unchanged |
| Query.ProjectCol | hammers/query.py:17-27 | `tenant_id` for Liberty, `project_id` for Ocata, a KeyError naming the release otherwise |
| Query.Fold | hammers/query.py:75-92 | the intended merge stores every project that appears, once, in first-appearance order |
| Query.Kept | hammers/query.py:94 | exactly the stored rows that keep a date, taken in insertion order |
| Query.FoldLatest | hammers/query.py:76-92 | a project's stored date is none when any of its rows had none, else the latest of its dates |
| Query.DatedAfterUndatedIff | hammers/query.py:79-90 | the recursive and the quantified descriptions of a dated row following an undated row of the same project agree |
| Query.FoldAsWrittenAgrees | hammers/query.py:76-92 | the loop as written raises a TypeError exactly when a dated row follows an undated row of the same project, and otherwise agrees with the intended merge |
| Query.FoldAsWrittenRec | hammers/query.py:76-92 | the same agreement, by induction over the rows |
| Query.MergeAsWrittenCounterexample | hammers/query.py:79-90 | two rows of one project, undated then dated, make the loop as written fail |
| Query.MergeLatestAsWritten | hammers/query.py:75-95 | the loop as written fails exactly on a dated-after-undated input and otherwise returns the intended result |
| Query.FoldPrefixErr | hammers/query.py:76-90 | once a prefix of the rows raises, the whole loop raises |
| Query.MergeLatest | hammers/query.py:75-95 | the corrected loop returns the kept rows of the intended merge |
| Query.CollectKept | hammers/query.py:94 | the comprehension returns the kept rows |
| Query.MergeLatestMeaning | hammers/query.py:75-95 | the intended merge reports exactly the projects none of whose rows lacks a date, each with the latest of its dates |
| Query.OrderHasKeys | hammers/query.py:92 | every stored project is listed in the insertion order |
| Query.IdleProjects | hammers/query.py:65-98 | a KeyError for an unknown release; Liberty returns the `nova` rows as they are; Ocata returns the corrected merge (`Query.MergeLatest`) of the `nova` and `nova_cell0` rows |
| Query.LatestInstanceInteraction | hammers/query.py:101-135 | only `nova` and `nova_cell0` are accepted (a RuntimeError otherwise); the table names that database; KVM reads `project_id` for both columns, the other sites the joined project's name and id |
| Query.Placeholders | hammers/query.py:160 | `n` comma-separated `%s` placeholders, nothing for zero |
| Query.PlaceholdersJoin | hammers/query.py:160 | the placeholder list is the join of `n` copies of `%s` with commas |
| Query.Orphans | hammers/query.py:261-308 | a RuntimeError for types other than lease and instance, then a KeyError for an unknown release; leases scan `blazar.leases`, instances the two instance tables, and the rows are concatenated in table order |
| Query.ConcatRows | hammers/query.py:279-306 | the result is each table's rows in turn |
| Query.MainArity | hammers/query.py:459-469 | too many query arguments give the -1 exit; too few re-raise the TypeError; a count in range runs the query |
| Stack.ParamStringAppend | ccmanage/stack.py:67 | each parameter adds one space-separated `--parameter key=value`, and no parameters give the empty string |
| Stack.PopenCheck | ccmanage/stack.py:62-64 | when checking, a non-zero exit code raises a RuntimeError; otherwise the code is handed back |
| Stack.HeatStack.constructor | ccmanage/stack.py:26-37 | the fields are set as given and the stack has no id yet |
| Stack.HeatStack.New | ccmanage/stack.py:23-37 | a ValueError without a name or unless exactly one of url, path and template is given; url or path becomes the location, otherwise the template text is kept; parameters default to none |
| Stack.HeatStack.Create | ccmanage/stack.py:66-108 | a text template raises a NameError; a failed create runs `stack show`, deletes a stack that exists and raises; on success `stack show` must succeed and its id is recorded |
| Stack.HeatStack.Delete | ccmanage/stack.py:110-114 | a stack with an id is deleted by id and forgets the id once the command succeeds; a failing command raises and keeps the id; without an id nothing runs |
| K8sCalico.Offline | hammers/scripts/k8s_calico_ip_cleanup.py:63-78 | a node is offline iff it has conditions, none of them Ready-and-True, and both unreachable taints; reaching the taints of a node without taints raises |
| K8sCalico.OfflineNames | hammers/scripts/k8s_calico_ip_cleanup.py:60-79 | the names of exactly the offline nodes; any raising node aborts the comprehension |
| K8sCalico.GetOfflineNodes | hammers/scripts/k8s_calico_ip_cleanup.py:53-85 | the offline names, or none when the listing fails or a node raises |
| K8sCalico.Cleared | hammers/scripts/k8s_calico_ip_cleanup.py:44-45 | the node loses exactly the Calico IPv4 annotation and nothing else changes |
| K8sCalico.Cluster.constructor | hammers/scripts/k8s_calico_ip_cleanup.py:29-34 | the cluster holds the listed nodes, names distinct |
| K8sCalico.Cluster.ClearCalicoIpv4Annotation | hammers/scripts/k8s_calico_ip_cleanup.py:37-51 | only the named node changes, and only when it has the annotation and the replacement succeeds; an unknown node is an error |
| K8sCalico.Cluster.CleanupOffline | hammers/scripts/k8s_calico_ip_cleanup.py:87-111 | a dry run changes nothing; otherwise exactly the offline nodes with the annotation whose replacement succeeds lose it |
| CleanOldAggregates.TerminatedStaysTerminated | hammers/scripts/clean_old_aggregates.py:38-44 | a lease whose end has passed stays terminated later on |
| CleanOldAggregates.PhysicalReservationIds | hammers/scripts/clean_old_aggregates.py:48-51 | exactly the ids of the lease's `physical:host` reservations |
| CleanOldAggregates.AggregatesForLease | hammers/scripts/clean_old_aggregates.py:47-55 | exactly the aggregates named after one of the lease's host reservations |
| CleanOldAggregates.AggregatesForLeaseInOrder | hammers/scripts/clean_old_aggregates.py:52-55 | the filter keeps Nova's order and multiplicity: the filter of two lists joined is the two filters joined |
| CleanOldAggregates.AggregatesForLeaseOne | hammers/scripts/clean_old_aggregates.py:52-55 | a single aggregate is kept iff it is named after one of the lease's host reservations |
| CleanOldAggregates.MoveHostsCounts | hammers/scripts/clean_old_aggregates.py:64-75 | one report line per host, and an error exactly for each failing move |
| CleanOldAggregates.ClearBookkeeping | hammers/scripts/clean_old_aggregates.py:58-83 | one report line per host plus one per aggregate with hosts; an error exactly for each failing move and each failing deletion; aggregates without hosts contribute nothing |
| CleanOldAggregates.ClearOneBookkeeping | hammers/scripts/clean_old_aggregates.py:63-81 | one aggregate contributes a line per host and one for its deletion, and exactly its own failures |
| CleanOldAggregates.ClearAggregates | hammers/scripts/clean_old_aggregates.py:58-83 | the loop produces the errors and report of the whole list |
| CleanOldAggregates.ClearAggregate | hammers/scripts/clean_old_aggregates.py:62-81 | one pass of the loop appends the aggregate's own errors and lines |
| CleanOldAggregates.MoveAll | hammers/scripts/clean_old_aggregates.py:64-75 | the inner loop appends each host's move or failure |
| CleanOldAggregates.FirstHostId | hammers/scripts/clean_old_aggregates.py:99-101 | none when no Blazar host has the node's uid, otherwise the id of the first that does |
| CleanOldAggregates.HostsFromAggs | hammers/scripts/clean_old_aggregates.py:88-91 | exactly the hosts listed in some aggregate |
| CleanOldAggregates.OrphansMeaning | hammers/scripts/clean_old_aggregates.py:96-106 | a ValueError exactly when a node outside every aggregate has no Blazar host (or a falsy id); otherwise every listed id belongs to a Blazar host of such a node |
| CleanOldAggregates.Unaggregated | hammers/scripts/clean_old_aggregates.py:97-98 | a node is kept iff it is listed and no aggregate lists it, in the given order |
| CleanOldAggregates.OrphansComplete | hammers/scripts/clean_old_aggregates.py:96-106 | a successful search lists exactly one id per node outside every aggregate, in node order, each the id of the first Blazar host with the node's uid |
| CleanOldAggregates.OrphansErrExtends | hammers/scripts/clean_old_aggregates.py:97-105 | the first unmatched node decides: an error on a prefix is the error of the whole list |
| CleanOldAggregates.OrphanFind | hammers/scripts/clean_old_aggregates.py:86-106 | the loop lists the Blazar host ids of the nodes no aggregate lists, or raises; on success one id per such node, in node order, each the first matching host's id |
| CleanOldAggregates.ConcatAppend | hammers/scripts/clean_old_aggregates.py:89-91 | each aggregate appends its hosts |
| CleanOldAggregates.ConcatIsHostsFromAggs | hammers/scripts/clean_old_aggregates.py:88-91 | the appended hosts are the hosts from the aggregates |
| CleanOldAggregates.MatchingAllocs | hammers/scripts/clean_old_aggregates.py:110-113 | exactly the allocations for the host, the first kept first |
| CleanOldAggregates.HasActiveAllocation | hammers/scripts/clean_old_aggregates.py:109-117 | False when no allocation is for the host; otherwise the first reservation id of the first one that is, or an IndexError when it has no reservations |
| CleanOldAggregates.FirstMatch | hammers/scripts/clean_old_aggregates.py:110-116 | the first matching allocation is the first allocation for the host |
| CleanOldAggregates.OrphanDestination | hammers/scripts/clean_old_aggregates.py:139-149 | a `None` id is reported, no allocation returns the host to the free pool, otherwise the host goes to the first aggregate named after the reservation, an IndexError when there is none |
| CleanOldAggregates.AggregatesNamed | hammers/scripts/clean_old_aggregates.py:147 | exactly the aggregates with that name, the first of them first |
| OrphansDetector.Deactivations | hammers/scripts/orphans_detector.py:40-45 | the user note, the project note, or both joined by " and ", user first |
| OrphansDetector.OrphanInfo | hammers/scripts/orphans_detector.py:31-47 | the dictionary filled from the rows is well formed |
| OrphansDetector.OrphanInfoKeys | hammers/scripts/orphans_detector.py:33-45 | exactly the row ids are keys |
| OrphansDetector.OrphanInfoLastWins | hammers/scripts/orphans_detector.py:33-45 | each id maps to the message of the last row carrying it |
| OrphansDetector.GetOrphanInfoFromQuery | hammers/scripts/orphans_detector.py:31-47 | the loop builds that dictionary |
| OrphansDetector.KvmNote | hammers/scripts/orphans_detector.py:58-84 | an instance gets no note exactly when its user exists and is enabled, its project exists and the user is a member of it |
| OrphansDetector.KvmOrphans | hammers/scripts/orphans_detector.py:55-86 | the dictionary filled from the instances is well formed |
| OrphansDetector.KvmOrphansMeaning | hammers/scripts/orphans_detector.py:55-86 | an instance is reported iff some row for it has a disabled or missing user or project, or a user no longer in the project |
| OrphansDetector.GetOrphanInstancesKvm | hammers/scripts/orphans_detector.py:55-86 | the loop builds that dictionary |
| OrphansDetector.LJust | hammers/scripts/orphans_detector.py:95-97 | `{:<width}` pads the text with spaces to the width and never truncates |
| OrphansDetector.ReportLineColumns | hammers/scripts/orphans_detector.py:97 | a key of at most 45 characters leaves its message at column 46 of a line of at least 96 characters |
| OrphansDetector.ReportLines | hammers/scripts/orphans_detector.py:96-97 | one aligned line per orphan, in insertion order |
| OrphansDetector.GenerateReportAsWritten | hammers/scripts/orphans_detector.py:89-99 | no orphans give None |
| OrphansDetector.GenerateReportAsWrittenFails | hammers/scripts/orphans_detector.py:96 | one orphan makes the code as written raise an AttributeError where the intended report exists |
| OrphansDetector.GenerateReport | hammers/scripts/orphans_detector.py:89-99 | None exactly when there are no orphans; otherwise the title, the header line and one aligned line per orphan in insertion order (`ReportLines`), joined by newlines, so the report starts with the title and the header |
| OrphansDetector.ReportReadsBack | hammers/scripts/orphans_detector.py:93-99 | read back line by line, a report whose title, keys and messages hold no newline is exactly the title, the header and one `{:<45} {:<50}` line per orphan, in insertion order |
| OrphansDetector.ReportLineNoNewline | hammers/scripts/orphans_detector.py:97 | padding adds only spaces, so an orphan's line holds no newline unless its key or message does |
| OrphansDetector.JoinHead | hammers/scripts/orphans_detector.py:99 | joining starts with the first two lines and the separator |
| FloatingIpReaper.Collect | hammers/scripts/floatingip_reaper.py:28-38 | the collected dictionary is well formed |
| FloatingIpReaper.IdsOf | hammers/scripts/floatingip_reaper.py:36-38 | a project's ids are drawn from the rows |
| FloatingIpReaper.CollectGroups | hammers/scripts/floatingip_reaper.py:30-38 | the keys are exactly the projects of non-whitelisted rows, each holding its rows' ids in query order |
| FloatingIpReaper.IdsOfAbsent | hammers/scripts/floatingip_reaper.py:36-38 | a project without rows collects no ids |
| FloatingIpReaper.FlattenAppendAt | hammers/scripts/floatingip_reaper.py:38 | appending an id to a listed group adds exactly that id to the flattened ids |
| FloatingIpReaper.FlattenNewKey | hammers/scripts/floatingip_reaper.py:36-38 | a new group of one id adds exactly that id |
| FloatingIpReaper.CollectStep | hammers/scripts/floatingip_reaper.py:30-38 | one more row adds its id unless its project is whitelisted |
| FloatingIpReaper.CollectKeepsEveryId | hammers/scripts/floatingip_reaper.py:28-38 | grouping neither loses nor duplicates ids: the groups hold exactly the non-whitelisted ids |
| FloatingIpReaper.Reaper | hammers/scripts/floatingip_reaper.py:27-46 | returns the collection; a dry run deletes nothing, otherwise every collected id is deleted, project by project in insertion order |
| FloatingIpReaper.Delete | hammers/scripts/floatingip_reaper.py:40-44 | the deletion loops delete every grouped id in order, or nothing in a dry run |
| FloatingIpReaper.FlattenFrom | hammers/scripts/floatingip_reaper.py:40-42 | the remaining ids are the next project's ids followed by the rest |
| FloatingIpReaper.DeleteIps | hammers/scripts/floatingip_reaper.py:42-44 | the inner loop deletes each id of one project in turn, unless in a dry run |
| FloatingIpReaper.RStripNewlines | hammers/scripts/floatingip_reaper.py:76 | every trailing newline goes and nothing else |
| FloatingIpReaper.Whitelist | hammers/scripts/floatingip_reaper.py:73-76 | exactly the stripped lines of the file |
| Reaper.NormalizeProjectName | hammers/scripts/reaper.py:28-29 | the result has no upper-case letter, no dash and no surrounding whitespace |
| Reaper.LowerNoUpper | hammers/scripts/reaper.py:29 | lower-casing text without upper-case letters changes nothing |
| Reaper.NormalizeIdempotent | hammers/scripts/reaper.py:28-29 | normalising a normalised name changes nothing |
| Reaper.DaysPast | hammers/scripts/reaper.py:32-33 | positive exactly when the date is in the past, and equal to the elapsed seconds divided by 86400 |
| Reaper.FutureProjects | hammers/scripts/reaper.py:37-48 | the normalised project ids of future reservations; a missing Blazar lease table yields none, any other database error propagates |
| Reaper.TooIdle | hammers/scripts/reaper.py:50-60 | a TypeError exactly when some row has no deletion date; otherwise exactly the rows idle for longer than the threshold whose id is neither reserved nor whitelisted and whose name is not whitelisted |
| Reaper.Whitelist | hammers/scripts/reaper.py:111-114 | exactly the normalised lines of the file |
| Reaper.Commands | hammers/scripts/reaper.py:68-71 | no idle projects print no commands |
| Reaper.CommandsCount | hammers/scripts/reaper.py:69-71 | one delete command per resource of each idle project |
| Reaper.FiledKeys | hammers/scripts/reaper.py:77 | filing resources adds exactly their ids as keys |
| Reaper.GroupProject | hammers/scripts/reaper.py:75-77 | filing a project's resources succeeds exactly when every resource belongs to that project |
| Reaper.FileProject | hammers/scripts/reaper.py:75-77 | the inner loop files the project's resources or stops at the failing assertion |
| Reaper.Describe | hammers/scripts/reaper.py:73-77 | the only failure of describe mode is an AssertionError |
| Reaper.DescribeOk | hammers/scripts/reaper.py:73-77 | describe mode succeeds iff every resource belongs to the project it was queried for |
| Reaper.DescribeMeaning | hammers/scripts/reaper.py:73-79 | on success exactly the projects with resources appear, each holding its resources by id |
| Reaper.DescribeProjects | hammers/scripts/reaper.py:73-77 | the describe-mode loops compute that dictionary |
| Reaper.DescribeErrExtends | hammers/scripts/reaper.py:74-76 | a failure on the first projects is the failure of the whole run |
| Reaper.ReaperRun | hammers/scripts/reaper.py:36-79 | a database error other than the missing lease table propagates; otherwise the run prints commands or the description, as asked |
| Times.DaysBeforeYearClosed | hammers/scripts/unutilized_lease_reaper.py:43 | the day count before a year is the closed form `datetime` uses |
| Times.EpochOrdinalIsJanFirst1970 | hammers/scripts/unutilized_lease_reaper.py:43 | the epoch's day ordinal is that of 1970-01-01 |
| Times.OrdinalMonotone | hammers/scripts/unutilized_lease_reaper.py:43 | later calendar dates have larger day ordinals |
| Times.EpochMonotone | hammers/scripts/unutilized_lease_reaper.py:43 | comparing epoch seconds is comparing the calendar fields |
| Times.Padded | hammers/scripts/maintenance_reservation.py:117 | a number is written in exactly the width, all digits |
| Times.PaddedValue | hammers/scripts/maintenance_reservation.py:117 | a zero-padded field reads back as its number |
| Times.Format | hammers/scripts/maintenance_reservation.py:21 | the layout `%Y-%m-%d %H:%M:%S` (or with a `T`) is 19 characters long |
| Times.Parse | hammers/scripts/unutilized_lease_reaper.py:36-43 | `strptime` with that layout, restricted to zero-padded fields, yields a valid time or a ValueError |
| Times.FormatLayout | hammers/scripts/maintenance_reservation.py:21 | each field and separator of the formatted text sits at its fixed place |
| Times.FieldPadded | hammers/scripts/unutilized_lease_reaper.py:43 | a field holding the padded digits of a number reads back as that number |
| Times.ParseLaidOut | hammers/scripts/unutilized_lease_reaper.py:36-43 | any text with the layout holding the padded fields of a valid time parses as that time |
| Times.ParseFormat | hammers/scripts/maintenance_reservation.py:21 | parsing reads back exactly the time that was formatted |
| Times.ParseSeconds | hammers/scripts/unutilized_lease_reaper.py:43 | parsing and counting seconds succeeds exactly when parsing does, giving the time's epoch seconds |
| NeutronReaper.DaysPast | hammers/scripts/neutron_reaper.py:44-47 | a time gives its elapsed days; text is parsed with `%Y-%m-%d %H:%M:%S` first, failing exactly when that parse fails |
| NeutronReaper.LastSeen | hammers/scripts/neutron_reaper.py:70-88 | the recorded dictionary is well formed |
| NeutronReaper.LastSeenKeys | hammers/scripts/neutron_reaper.py:74-85 | exactly the ids of inactive, non-whitelisted rows are recorded |
| NeutronReaper.LastSeenBound | hammers/scripts/neutron_reaper.py:81-88 | each recorded date is at least the interaction of every eligible row of the project |
| NeutronReaper.LastSeenAttained | hammers/scripts/neutron_reaper.py:81-88 | each recorded date is the interaction of some eligible row of the project |
| NeutronReaper.LastSeenIsMax | hammers/scripts/neutron_reaper.py:70-88 | the recorded projects are exactly the eligible ids, each holding the latest interaction among its eligible rows |
| NeutronReaper.ProjectLastSeen | hammers/scripts/neutron_reaper.py:70-88 | the first loop builds that dictionary |
| NeutronReaper.TooIdle | hammers/scripts/neutron_reaper.py:90-95 | exactly the recorded projects idle for more than the threshold, in first-seen order |
| NeutronReaper.GatheredMembers | hammers/scripts/neutron_reaper.py:101-105 | the gathered resources are exactly those of the too-idle projects |
| NeutronReaper.IdsOf | hammers/scripts/neutron_reaper.py:105 | one id per resource, in order |
| NeutronReaper.NotDownMembers | hammers/scripts/neutron_reaper.py:106-107 | exactly the gathered resources not in DOWN state |
| NeutronReaper.FindReapableResources | hammers/scripts/neutron_reaper.py:66-113 | the ids of every resource of every too-idle project, or a RuntimeError exactly when one of them is not DOWN |
| NeutronReaper.AppendOne | hammers/scripts/neutron_reaper.py:105-107 | each resource appends its id, and itself to the not-DOWN list when it is not DOWN |
| NeutronReaper.Gather | hammers/scripts/neutron_reaper.py:99-107 | the gathering loops collect every id and every resource not DOWN, in order |
| NeutronReaper.Whitelist | hammers/scripts/neutron_reaper.py:150-153 | whitelist lines are kept whole, newline included |
| NeutronReaper.WhitelistKeepsNewlines | hammers/scripts/neutron_reaper.py:76-77 | an id without a trailing newline never matches a whitelist line that has one |
| UndeadInstances.Ironic.constructor | hammers/scripts/undead_instances.py:98 | Ironic starts with the listed nodes and no state requests |
| UndeadInstances.Ironic.ClearNodeInstanceData | hammers/scripts/undead_instances.py:34-57 | with validation the node must name an instance that Nova answers 404 for (a RuntimeError otherwise, other HTTP errors propagate); on success exactly that node loses its instance uuid and info; on failure no node changes |
| UndeadInstances.Ironic.SetState | hammers/scripts/undead_instances.py:151 | a known node's state request is recorded; an unknown node is a 404 |
| UndeadInstances.Ironic.FixUnbound | hammers/scripts/undead_instances.py:144-151 | only the nodes of the unbound instances change, and only by being cleared; no node appears or disappears; on success every available one is cleared and the others get one "deleted" request each, in order; a failure stops at the first failing instance, after the requests of those before it, and a failing non-available node is one Ironic does not know (404) |
| UndeadInstances.Ironic.FixOne | hammers/scripts/undead_instances.py:145-151 | one pass clears an available node or requests "deleted" for another, keeping the loop's frame, clearing and request facts; a failure keeps the frame of the earlier passes |
| UndeadInstances.DeleteRequests | hammers/scripts/undead_instances.py:145-151 | every request is a "deleted" request for the node of some unbound instance that is not available, at most one per instance |
| UndeadInstances.DeleteRequestsHas | hammers/scripts/undead_instances.py:145-151 | every node of an unbound instance that is not available gets its "deleted" request |
| UndeadInstances.Targets | hammers/scripts/undead_instances.py:145-147 | the node of every unbound instance is a target |
| UndeadInstances.Cleared | hammers/scripts/undead_instances.py:54-57 | the instance uuid becomes none and the instance info empty; nothing else changes |
| UndeadInstances.NodeInstanceMap | hammers/scripts/undead_instances.py:101-106 | keyed by exactly the instances the nodes name, each mapped to a node naming it |
| UndeadInstances.UnboundInstances | hammers/scripts/undead_instances.py:108-111 | exactly the instances nodes name that Nova does not list |
| UndeadInstances.SanityCheck | hammers/scripts/undead_instances.py:130-142 | skipped with `--force-sane` alone; with `--force-insane` always raises; otherwise raises iff there are unbound instances but no instances, or more than 20 unbound |
| UndeadInstances.Precheck | hammers/scripts/undead_instances.py:84-94 | -1 exactly when a required OS variable is missing from the environment and rc file |
| NodeDoctor.MaintenanceLeaseNameExamples | hammers/scripts/node_doctor.py:15 | the pattern accepts letters, digits and dashes before `-maintenance` (and, as `$` does, a trailing newline) and rejects an empty prefix or an underscore |
| NodeDoctor.MaintenanceLeases | hammers/scripts/node_doctor.py:92-95 | exactly the lease names matching the maintenance pattern |
| NodeDoctor.MaintenanceNodeAlwaysFlagged | hammers/scripts/node_doctor.py:97-100 | node names are compared with lease names, so a maintenance node whose own name does not match the pattern is flagged whatever leases exist |
| NodeDoctor.Unallocated | hammers/scripts/node_doctor.py:104-108 | the hypervisor hostnames of the hosts of unreserved allocations; a KeyError exactly when such a host is not listed by Blazar |
| NodeDoctor.AppendEach | hammers/scripts/node_doctor.py:110-126 | the ailment is appended to each sick node's list and no other list changes |
| NodeDoctor.Doctor.constructor | hammers/scripts/node_doctor.py:160-163 | the named nodes (all when none are named), each with no ailments |
| NodeDoctor.Doctor.AppendAilment | hammers/scripts/node_doctor.py:72-147 | each checker's loop appends the ailment to exactly the sick nodes' lists; no key changes |
| NodeDoctor.Doctor.AvailableNodes | hammers/scripts/node_doctor.py:66-69 | exactly the nodes not in maintenance whose state is available |
| NodeDoctor.Doctor.NodeInErrorState | hammers/scripts/node_doctor.py:72-75 | nodes in the error state get `error_state` |
| NodeDoctor.Doctor.NodeStuckDeleting | hammers/scripts/node_doctor.py:78-88 | nodes deleting for more than two minutes with a last error get `stuck_deleting` |
| NodeDoctor.Doctor.NodeMaintenanceStateError | hammers/scripts/node_doctor.py:91-100 | maintenance nodes whose name is not a maintenance lease name get `maintenance_state_error` |
| NodeDoctor.Doctor.NodeNotInFreepool | hammers/scripts/node_doctor.py:103-112 | available, unallocated nodes outside the free pool get `not_in_freepool`; a KeyError building the unallocated list changes nothing |
| NodeDoctor.Doctor.InstanceMap | hammers/scripts/node_doctor.py:116-118 | every instance a node names is mapped, to a node naming it |
| NodeDoctor.Doctor.UndeadNodes | hammers/scripts/node_doctor.py:116-125 | a node is flagged only if it names an instance Nova does not list; every instance of the map that Nova lacks has its node flagged; every instance Nova lacks has some node naming it flagged |
| NodeDoctor.Doctor.UndeadWhenUnique | hammers/scripts/node_doctor.py:116-125 | when no two nodes name the same instance, exactly the nodes whose instance Nova lacks are flagged |
| NodeDoctor.Doctor.NodeUndeadInstance | hammers/scripts/node_doctor.py:115-126 | the flagged nodes get `undead_instance` |
| NodeDoctor.Doctor.ResourceProviderFailure | hammers/scripts/node_doctor.py:129-147 | available nodes in use with allocations get `resource_provider_allocated`; those not in use with a reserved inventory get `resource_provider_reserved` |
| NodeDoctor.AilmentsOnlyGrow | hammers/scripts/node_doctor.py:165-170 | each checker keeps every earlier ailment and adds at most one |
| DirtyPorts.Group | hammers/scripts/dirty_ports.py:31-34 | the grouped dictionary is well formed |
| DirtyPorts.PortsOf | hammers/scripts/dirty_ports.py:33 | a node's ports are drawn from the listing |
| DirtyPorts.PortsOfAbsent | hammers/scripts/dirty_ports.py:33 | a node without ports has an empty list |
| DirtyPorts.PortsOfPresent | hammers/scripts/dirty_ports.py:33 | a node owning a port has a non-empty list |
| DirtyPorts.GroupMeaning | hammers/scripts/dirty_ports.py:30-34 | the keys are exactly the nodes that have a port, each holding its ports in listing order |
| DirtyPorts.GroupsNonEmpty | hammers/scripts/dirty_ports.py:33-62 | every group is non-empty, so taking the first port of a node never fails |
| DirtyPorts.PortsOfTwo | hammers/scripts/dirty_ports.py:33-38 | two ports of one node give it at least two |
| DirtyPorts.PortsOfAtMostOne | hammers/scripts/dirty_ports.py:33-38 | with distinct nodes each node has at most one port |
| DirtyPorts.FirstMultiport | hammers/scripts/dirty_ports.py:37-39 | the first node whose list does not hold exactly one port, none exactly when all hold one |
| DirtyPorts.NodePorts | hammers/scripts/dirty_ports.py:30-41 | the grouping, or a ValueError under `assert_single` |
| DirtyPorts.NodePortsSingle | hammers/scripts/dirty_ports.py:36-39 | under `assert_single` the grouping succeeds iff no two ports share a node |
| DirtyPorts.PortsByNode | hammers/scripts/dirty_ports.py:30-41 | the loops compute that grouping or error |
| DirtyPorts.Dirty | hammers/scripts/dirty_ports.py:54-66 | at most one port per node is reported |
| DirtyPorts.DirtyMeaning | hammers/scripts/dirty_ports.py:56-66 | a port is reported iff it is the first port of an available node and its `internal_info` is non-empty |
| DirtyPorts.IdentifyDirtyPorts | hammers/scripts/dirty_ports.py:44-68 | the grouping error propagates; otherwise the dirty ports in node order |
| DirtyPorts.Uuids | hammers/scripts/dirty_ports.py:73 | the uuids of the ports, in order |
| DirtyPorts.CleanPorts | hammers/scripts/dirty_ports.py:71-75 | one UPDATE per port; the commit happens iff every count is 1, otherwise the AssertionError stops right after the first other count |
| ConflictMacs.Count | hammers/scripts/conflict_macs.py:133 | the count of a key never exceeds the number of pairs |
| ConflictMacs.LastWinsMeaning | hammers/scripts/conflict_macs.py:120-122 | a dictionary comprehension over pairs holds exactly their keys, each with the value of its last pair |
| ConflictMacs.FirstsStep | hammers/scripts/conflict_macs.py:120-122 | one more pair adds its key |
| ConflictMacs.LastWinsKeys | hammers/scripts/conflict_macs.py:120-122 | the comprehension's keys are the pairs' keys |
| ConflictMacs.LastWinsAt | hammers/scripts/conflict_macs.py:120-122 | each key's value comes from its last pair |
| ConflictMacs.CountPositive | hammers/scripts/conflict_macs.py:129-135 | a key is counted iff some pair carries it |
| ConflictMacs.FirstsCard | hammers/scripts/conflict_macs.py:126-128 | there are no more keys than pairs, and strictly fewer when a key repeats, which is what the length test relies on |
| ConflictMacs.SeriousPids | hammers/scripts/conflict_macs.py:108-117 | exactly the Neutron ports with no fixed IP in an ignored subnet, in listing order |
| ConflictMacs.NeutMacsMeaning | hammers/scripts/conflict_macs.py:122-148 | a MAC survives iff exactly one serious Neutron port carries it |
| ConflictMacs.ConflictsMeaning | hammers/scripts/conflict_macs.py:154-168 | a MAC conflicts iff exactly one serious Neutron port claims it and an Ironic port with that address sits on a listed node without an instance |
| ConflictMacs.ConflictsResolvable | hammers/scripts/conflict_macs.py:171-173 | every conflicting MAC is found in the three MAC maps |
| ConflictMacs.Info | hammers/scripts/conflict_macs.py:171-182 | the info record carries the MAC and its Neutron port, or the KeyError of a node lookup that fails |
| ConflictMacs.NeutPortMac | hammers/scripts/conflict_macs.py:173 | the Neutron port picked for a MAC carries that MAC |
| ConflictMacs.InfoTotalWhenAddressesUnique | hammers/scripts/conflict_macs.py:172 | with unique Ironic port addresses every node lookup succeeds and finds a node without an instance |
| ConflictMacs.UniqueAddressNode | hammers/scripts/conflict_macs.py:120 | with unique addresses a port's address maps to that port's node |
| ConflictMacs.FindConflicts | hammers/scripts/conflict_macs.py:170-184 | the loop succeeds iff every conflicting MAC's record can be built, and then holds exactly those records; otherwise a KeyError |
| ConflictMacs.IgnoreSubnets | hammers/scripts/conflict_macs.py:58-70 | none exactly when neither a non-empty subnet flag nor the config file is given (an empty flag is falsy); a non-empty flag wins; otherwise the config file's subnets |
| ConflictMacs.PortIds | hammers/scripts/conflict_macs.py:82-83 | the Neutron port ids in the order of the MACs |
| ConflictMacs.Act | hammers/scripts/conflict_macs.py:72-99 | a KeyError exactly when some conflict's node lookup fails; otherwise info mode shows exactly the conflicts with their records; delete mode deletes the Neutron port of every conflict's record, in MAC order, and only when sane (at most 10 conflicts or forced), raising otherwise |
| ConflictMacs.PortIdsOfConflicts | hammers/scripts/conflict_macs.py:81-82 | the ids collected from the found records are the Neutron port ids of the conflicts' records, one per conflict in MAC order |
| ConflictMacs.ConflictMacsMain | hammers/scripts/conflict_macs.py:58-99 | -1 exactly without subnets to ignore; otherwise what `Act` promises for those subnets |
| UnutilizedLeaseReaper.UpTo | hammers/scripts/unutilized_lease_reaper.py:39 | the text before the first separator, or all of it |
| UnutilizedLeaseReaper.UpToAppend | hammers/scripts/unutilized_lease_reaper.py:39 | a prefix without the separator passes through the cut unchanged |
| UnutilizedLeaseReaper.ParseTime | hammers/scripts/unutilized_lease_reaper.py:35-43 | reading a time either succeeds or raises a ValueError |
| UnutilizedLeaseReaper.FormatChars | hammers/scripts/unutilized_lease_reaper.py:41 | a formatted time holds only digits and its separators, so neither cut touches it |
| UnutilizedLeaseReaper.ParseTimeIronic | hammers/scripts/unutilized_lease_reaper.py:39-43 | a time in the `T` layout followed by a fraction or UTC offset reads back as that time |
| UnutilizedLeaseReaper.ParseTimeAlternate | hammers/scripts/unutilized_lease_reaper.py:37-43 | the alternate layout reads back exactly the time it writes |
| UnutilizedLeaseReaper.LastStartEvent | hammers/scripts/unutilized_lease_reaper.py:51-53 | the last `start_lease` event, none exactly when there is no such event |
| UnutilizedLeaseReaper.AllOkMeaning | hammers/scripts/unutilized_lease_reaper.py:68-70 | reading every node's time succeeds with every value, or fails with the error of one that failed |
| UnutilizedLeaseReaper.ProvisionTimes | hammers/scripts/unutilized_lease_reaper.py:68-70 | an unreadable provision time is a ValueError, a null one an AttributeError |
| UnutilizedLeaseReaper.ProvisionTimesMeaning | hammers/scripts/unutilized_lease_reaper.py:68-70 | the times are read node by node, failing iff some node's time is null or unreadable |
| UnutilizedLeaseReaper.ProvisionTime | hammers/scripts/unutilized_lease_reaper.py:37-40 | a null `provision_updated_at` has no `split` and raises an AttributeError; otherwise the text is read in the default layout, failing only with a ValueError |
| UnutilizedLeaseReaper.InViolation | hammers/scripts/unutilized_lease_reaper.py:50-72 | a lease without a start event raises IndexError; the only other failures are a ValueError and the AttributeError of a null provision time |
| UnutilizedLeaseReaper.NullProvisionTimeRaises | hammers/scripts/unutilized_lease_reaper.py:50-72 | a lease that passes the start, project and age tests but holds a node with a null provision time makes the filter raise |
| UnutilizedLeaseReaper.InViolationMeaning | hammers/scripts/unutilized_lease_reaper.py:46-73 | a lease is in violation iff it has a readable start event, its project is not excluded, it holds nodes, it started at least the given hours ago, and no node is active or was provisioned after the start |
| UnutilizedLeaseReaper.InViolationMonotone | hammers/scripts/unutilized_lease_reaper.py:46-73 | a lease in violation at a threshold is in violation at every later threshold time |
| UnutilizedLeaseReaper.FilterBy | hammers/scripts/unutilized_lease_reaper.py:117-118 | the filter keeps at most the leases it was given |
| UnutilizedLeaseReaper.FilterOk | hammers/scripts/unutilized_lease_reaper.py:117-118 | the filter succeeds iff the predicate does on every lease |
| UnutilizedLeaseReaper.FilterKeeps | hammers/scripts/unutilized_lease_reaper.py:117-118 | a successful filter keeps exactly the leases the predicate accepts |
| UnutilizedLeaseReaper.TerminateWithinWarn | hammers/scripts/unutilized_lease_reaper.py:115-148 | with the grace period longer than the warning period and close clock readings, every lease to terminate was also warned |
| UnutilizedLeaseReaper.HostsByNodeUuid | hammers/scripts/unutilized_lease_reaper.py:80-82 | every host's hypervisor hostname is a key |
| UnutilizedLeaseReaper.NodesByHost | hammers/scripts/unutilized_lease_reaper.py:83-85 | every node goes under its Blazar host's id; a KeyError exactly when some node has no host |
| UnutilizedLeaseReaper.KnownAllocations | hammers/scripts/unutilized_lease_reaper.py:86-88 | exactly the allocations whose host is known |
| UnutilizedLeaseReaper.AllocNodes | hammers/scripts/unutilized_lease_reaper.py:92-94 | an allocation gives a lease its node once per reservation of that lease, and nothing when it has none |
| UnutilizedLeaseReaper.NodesOfMeaning | hammers/scripts/unutilized_lease_reaper.py:89-94 | a lease's nodes are the nodes of the allocations reserving it, none iff no allocation does |
| UnutilizedLeaseReaper.AllocNodesStep | hammers/scripts/unutilized_lease_reaper.py:92-94 | one more reservation appends the node to its lease only |
| UnutilizedLeaseReaper.NodesOfStep | hammers/scripts/unutilized_lease_reaper.py:91-94 | one more allocation appends its contributions |
| UnutilizedLeaseReaper.AllocsByLease | hammers/scripts/unutilized_lease_reaper.py:89-94 | the nested loop gives each lease exactly its nodes |
| UnutilizedLeaseReaper.AddReservations | hammers/scripts/unutilized_lease_reaper.py:92-94 | the inner loop adds the allocation's node once per reservation under its lease |
| UnutilizedLeaseReaper.AddReservationAt | hammers/scripts/unutilized_lease_reaper.py:93-94 | appending to one lease's list changes no other lease |
| UnutilizedLeaseReaper.Attach | hammers/scripts/unutilized_lease_reaper.py:77-97 | at most the listed leases come out |
| UnutilizedLeaseReaper.AttachMeaning | hammers/scripts/unutilized_lease_reaper.py:77-97 | exactly the ACTIVE leases come out, each carrying the nodes of the allocations that reserve it |
| UnutilizedLeaseReaper.JoinLeases | hammers/scripts/unutilized_lease_reaper.py:76-99 | the join computes the ACTIVE leases with their nodes, or the KeyError of an unknown node |
| UnutilizedLeaseReaper.AttachSame | hammers/scripts/unutilized_lease_reaper.py:96-97 | attaching depends only on each lease's nodes |
| UnutilizedLeaseReaper.Ids | hammers/scripts/unutilized_lease_reaper.py:174 | one id per lease, in order |
| UnutilizedLeaseReaper.WarnOnly | hammers/scripts/unutilized_lease_reaper.py:165-166 | exactly the warned leases that are not also terminated |
| UnutilizedLeaseReaper.UnutilizedMain | hammers/scripts/unutilized_lease_reaper.py:148-149 | the assertion fails exactly when the grace period does not exceed the warning period |
| UnutilizedLeaseReaper.ReclaimMeaning | hammers/scripts/unutilized_lease_reaper.py:160-179 | in delete mode, with one clock reading, exactly the leases in violation for the grace period are deleted, and exactly those in violation for the warning period but not the grace period get the warning |
| UnutilizedLeaseReaper.IdsMeaning | hammers/scripts/unutilized_lease_reaper.py:174 | an id is listed iff some lease has it |
| MaintenanceReservation.ValidDate | hammers/scripts/maintenance_reservation.py:24-31 | no time for an absent or empty argument; a valid time for good text; bad text raises a NameError because `argparse` is not imported |
| MaintenanceReservation.ValidDateFormat | hammers/scripts/maintenance_reservation.py:21-27 | every time written in the layout is accepted and read back |
| MaintenanceReservation.ValidDateRejects | hammers/scripts/maintenance_reservation.py:28-30 | text not in the layout is rejected with the NameError |
| MaintenanceReservation.FitsInSeconds | hammers/scripts/maintenance_reservation.py:101 | the floating-point test equals the integer test: the gap exceeds the requested hours plus ten minutes |
| MaintenanceReservation.EarliestFreeFrom | hammers/scripts/maintenance_reservation.py:95-110 | measured from the latest end seen, the search proposes a time at least ten minutes after it, and the slot is free on any schedule sorted by start |
| MaintenanceReservation.EarliestIsFree | hammers/scripts/maintenance_reservation.py:82-110 | measured from the latest end seen, the search proposes a free slot on any schedule sorted by start, even with overlapping leases, and the current time when there are none |
| MaintenanceReservation.AsWrittenCollides | hammers/scripts/maintenance_reservation.py:100-104 | measured from the previous row's end, as written, a long lease followed by a short one inside it hides the long one, so on overlapping leases the proposed slot collides |
| MaintenanceReservation.GetNodeEarliestReserveTime | hammers/scripts/maintenance_reservation.py:82-110 | the loop measures each gap from the previous row's end, as written; on a schedule without overlaps this is the search measured from the latest end seen |
| MaintenanceReservation.AsWrittenAgrees | hammers/scripts/maintenance_reservation.py:95-104 | on a schedule without overlapping leases the previous row's end is the latest end seen, so both searches agree |
| MaintenanceReservation.AsWrittenIsFree | hammers/scripts/maintenance_reservation.py:82-110 | on a schedule without overlapping leases the search as written proposes a slot that collides with no lease, and the current time when there are none |
| MaintenanceReservation.NoSpaceAfterReplace | hammers/scripts/maintenance_reservation.py:138-141 | replacing spaces with underscores leaves no space |
| MaintenanceReservation.ReplaceAbsent | hammers/scripts/maintenance_reservation.py:138-141 | text without spaces is unchanged by the replacement |
| MaintenanceReservation.LeaseNameMeaning | hammers/scripts/maintenance_reservation.py:138-141 | the lease name holds no space, and parts without spaces appear in it unchanged |
| MaintenanceReservation.Reserve | hammers/scripts/maintenance_reservation.py:113-151 | the lease starts at the given time and runs for the requested hours, under a name without spaces |
| MaintenanceReservation.StartFor | hammers/scripts/maintenance_reservation.py:212-219 | the given start time when there is one; otherwise the search as written, whose slot is free whenever the node's leases do not overlap |
| MetadataSync.IgnoreKeys | hammers/scripts/metadata_sync.py:53-57 | exactly the keys starting with none of the prefixes, in order |
| MetadataSync.IgnoreKeysNone | hammers/scripts/metadata_sync.py:53-57 | keys that no prefix catches pass through unchanged and in order |
| MetadataSync.Flatten | hammers/scripts/metadata_sync.py:65-86 | flattening raises "unhandlable type" exactly for a value that is not a list or dictionary |
| MetadataSync.FlatOneMeaning | hammers/scripts/metadata_sync.py:77-84 | one entry yields exactly the leaves under it, each with its path extended by the entry's key |
| MetadataSync.FlatListMeaning | hammers/scripts/metadata_sync.py:70-84 | a list yields exactly the leaves under its items, each path continuing with the item's index |
| MetadataSync.FlatFieldsMeaning | hammers/scripts/metadata_sync.py:72-84 | a dictionary yields exactly the leaves under its fields, each path continuing with the field's key |
| MetadataSync.FlattenMeaning | hammers/scripts/metadata_sync.py:65-86 | flattening a container yields exactly its leaves with the paths that reach them |
| MetadataSync.ShowPath | hammers/scripts/metadata_sync.py:84 | each path step is shown with `str` |
| MetadataSync.ToDict | hammers/scripts/metadata_sync.py:118 | the dictionary of the pairs is well formed |
| MetadataSync.ToDictMeaning | hammers/scripts/metadata_sync.py:118 | every pair's dotted key is present, and every value comes from a pair with that key |
| MetadataSync.FlattenToDots | hammers/scripts/metadata_sync.py:89-118 | a container flattens to a dictionary; anything else raises |
| MetadataSync.FlattenToDotsMeaning | hammers/scripts/metadata_sync.py:89-118 | every leaf is present under its dotted path, and every entry is a leaf reached by a path with that dotted form |
| MetadataSync.FlattenExample | hammers/scripts/metadata_sync.py:95-116 | part of the docstring example: a string field and a list of two strings flatten to `person`, `games.0` and `games.1` |
| MetadataSync.CompareHost | hammers/scripts/metadata_sync.py:121-136 | comparing raises exactly when the grid host is not a container |
| MetadataSync.OneActionPerKey | hammers/scripts/metadata_sync.py:126-136 | no key gets two actions |
| MetadataSync.KeptKeysMeaning | hammers/scripts/metadata_sync.py:123-124 | a key no prefix catches is kept exactly when the dictionary has it |
| MetadataSync.CompareFlatAt | hammers/scripts/metadata_sync.py:126-136 | a grid-only key is added, a Blazar-only key removed, a common key with a different string replaced, and no other action concerns the key |
| MetadataSync.CollatedUnique | hammers/scripts/metadata_sync.py:223-225 | the only add or replace of a key leaves its string in the updates |
| MetadataSync.ApplyAgreesAt | hammers/scripts/metadata_sync.py:218-258 | after applying the actions a key neither side ignores is present iff the grid has it, holding the grid value's string |
| MetadataSync.ApplyAgrees | hammers/scripts/metadata_sync.py:218-258 | applying the actions in any order makes the Blazar host agree with the grid host on every key neither side ignores |
| MetadataSync.ApplyKeepsIgnored | hammers/scripts/metadata_sync.py:124 | keys Blazar ignores and the grid lacks keep their values |
| MetadataSync.IgnoredKeyUntouched | hammers/scripts/metadata_sync.py:124-136 | a key Blazar ignores and the grid lacks gets no action |
| MetadataSync.PartitionUids | hammers/scripts/metadata_sync.py:198-203 | the uids in both listings, missing from Blazar and missing from the grid partition all uids |
| MetadataSync.CollatedMeaning | hammers/scripts/metadata_sync.py:218-242 | the updates hold exactly the added or replaced keys, and the removals exactly the removed keys |
| MetadataSync.SoftRemoved | hammers/scripts/metadata_sync.py:244-247 | every removed key becomes an update to the empty string; other updates are kept |
| MetadataSync.Collate | hammers/scripts/metadata_sync.py:218-247 | the action loop collates the actions; with soft removal no removals remain and every removed key is updated to '' |
| MetadataSync.RemoveAll | hammers/scripts/metadata_sync.py:254-258 | the removal queries succeed iff every one removes exactly one row; otherwise a RuntimeError |
| MetadataSync.SyncHost | hammers/scripts/metadata_sync.py:252-260 | the corrected step succeeds iff every removal removes one row, and commits only where a database was connected |
| MetadataSync.SoftRemovalCommitFails | hammers/scripts/metadata_sync.py:244-260 | as written every soft-removal update run fails with a NameError at the first host, where the corrected step succeeds without committing |
| LeaseStacking.DaysBelowOne | hammers/scripts/gpu_lease_stacking.py:85-86 | `(b - a).days < 1` holds exactly when less than a full day (86400 seconds) separates them, negative gaps included |
| LeaseStacking.StackedIndices | hammers/scripts/gpu_lease_stacking.py:71-89 | the stacked indices lie below the bound |
| LeaseStacking.StackedPrefixMeaning | hammers/scripts/gpu_lease_stacking.py:71-89 | after the first `n` iterations the result is the input at increasing indices, and an index is among them iff its lease is stacked |
| LeaseStacking.StackedMeaning | hammers/scripts/gpu_lease_stacking.py:67-91 | `find_stacked_leases` keeps, in input order, exactly the leases less than a day from a neighbour |
| LeaseStacking.StackedAtNeighbours | hammers/scripts/gpu_lease_stacking.py:75-86 | the first lease has no predecessor and the last no successor: the test is against the real neighbours only |
| LeaseStacking.OneLeaseNotStacked | hammers/scripts/gpu_lease_stacking.py:75-86 | a single lease is never stacked |
| LeaseStacking.FindStackedLeases | hammers/scripts/gpu_lease_stacking.py:67-91 | the loop computes the stacked leases |
| LeaseStacking.QueuedMeaning | hammers/scripts/gpu_lease_stacking.py:23-65 | all stacked leases but the first are queued, in order |
| LeaseStacking.DedupMeaning | hammers/scripts/gpu_lease_stacking.py:53 | `set` keeps every lease once and no other |
| LeaseStacking.DedupNoDups | hammers/scripts/gpu_lease_stacking.py:53 | a list without duplicates is kept as it is |
| LeaseStacking.InsertMultiset | hammers/scripts/gpu_lease_stacking.py:52-53 | inserting adds the lease and loses none |
| LeaseStacking.ConsSorted | hammers/scripts/gpu_lease_stacking.py:52-53 | a lease starting no later than the head of a sorted list can go in front |
| LeaseStacking.InsertSorted | hammers/scripts/gpu_lease_stacking.py:52-53 | inserting keeps a sorted list sorted |
| LeaseStacking.InsertAtEnd | hammers/scripts/gpu_lease_stacking.py:52-53 | inserting a lease starting no earlier than all others appends it |
| LeaseStacking.SortByStartMeaning | hammers/scripts/gpu_lease_stacking.py:52-53 | the sort is a permutation of its input, in non-decreasing order of start |
| LeaseStacking.SortSorted | hammers/scripts/gpu_lease_stacking.py:52-53 | a sorted list is its own sort |
| LeaseStacking.NoDupsMultiset | hammers/scripts/gpu_lease_stacking.py:53 | a permutation of a list without duplicates has none |
| LeaseStacking.NoDupsCount | hammers/scripts/gpu_lease_stacking.py:53 | without duplicates each lease occurs at most once |
| LeaseStacking.SortDedupMeaning | hammers/scripts/gpu_lease_stacking.py:52-53 | each sorted list holds every lease of the input once and no other, in non-decreasing order of start |
| LeaseStacking.SortDedupIdempotent | hammers/scripts/gpu_lease_stacking.py:52-53 | sorting an already sorted list again changes nothing |
| LeaseStacking.SortedNodes | hammers/scripts/gpu_lease_stacking.py:49-53 | sorting every list keeps the nodes and their order |
| LeaseStacking.SortedNodesIdempotent | hammers/scripts/gpu_lease_stacking.py:49-61 | sorting the dictionary a second time changes nothing |
| LeaseStacking.QueuedOverStep | hammers/scripts/gpu_lease_stacking.py:63-65 | one more node appends its queued leases |
| LeaseStacking.QueuedOverMeaning | hammers/scripts/gpu_lease_stacking.py:63-65 | every queued lease is a stacked lease of some node, and not the first stacked one there |
| LeaseStacking.SortedUpTo | hammers/scripts/gpu_lease_stacking.py:51-53 | the loop state after the first nodes keeps the keys |
| LeaseStacking.SortedUpToNone | hammers/scripts/gpu_lease_stacking.py:51 | before the loop nothing is sorted |
| LeaseStacking.SortedUpToStep | hammers/scripts/gpu_lease_stacking.py:52-53 | one more node sorts its still-original list |
| LeaseStacking.SortedUpToAll | hammers/scripts/gpu_lease_stacking.py:51-53 | after every node each list is sorted |
| LeaseStacking.SortEach | hammers/scripts/gpu_lease_stacking.py:49-53 | the loop of `sort_leases_by_date` sorts every list |
| LeaseStacking.QueueEach | hammers/scripts/gpu_lease_stacking.py:63-65 | the loop of `check_leases_for_stacking` queues each node's stacked leases past the allowed one, in node order |
| LeaseStacking.LeaseIdsMeaning | hammers/scripts/gpu_lease_stacking.py:46-98 | one lease id per lease, in order |
| LeaseStacking.LeaseIdsAppend | hammers/scripts/gpu_lease_stacking.py:46-98 | the ids of joined lists are the joined ids |
| GpuLeaseStacking.GpuUser.constructor | hammers/scripts/gpu_lease_stacking.py:29-35 | a new user holds the given id, name and e-mail, no nodes and an empty delete queue |
| GpuLeaseStacking.GpuUser.AddLease | hammers/scripts/gpu_lease_stacking.py:37-42 | the node's list is created on first sight and the lease appended to it; the queue is unchanged |
| GpuLeaseStacking.GpuUser.SortLeasesByDate | hammers/scripts/gpu_lease_stacking.py:49-53 | every node's list becomes its de-duplicated sort by start date (see `LeaseStacking.SortDedupMeaning`) |
| GpuLeaseStacking.GpuUser.CheckLeasesForStacking | hammers/scripts/gpu_lease_stacking.py:59-65 | after sorting, each node's stacked leases past the one allowed are appended to the queue, which keeps what it held before |
| GpuLeaseStacking.UserOrder | hammers/scripts/gpu_lease_stacking.py:118-128 | the users in order of first sight, each once |
| GpuLeaseStacking.UserOrderMeaning | hammers/scripts/gpu_lease_stacking.py:120-128 | a user has an object iff one of the rows is theirs |
| GpuLeaseStacking.UserNodes | hammers/scripts/gpu_lease_stacking.py:120-129 | the grouping of a user's rows is a well-formed node dictionary |
| GpuLeaseStacking.UserNodesMeaning | hammers/scripts/gpu_lease_stacking.py:120-129 | a user's node is listed iff some row of the user is on it, and its list is the user's leases on it in row order |
| GpuLeaseStacking.Queues | hammers/scripts/gpu_lease_stacking.py:131-133 | there is one queue per listed user |
| GpuLeaseStacking.DeletedFromMeaning | hammers/scripts/gpu_lease_stacking.py:136-143 | a lease is deleted iff it is in the queue of a user whose queue holds more than one lease |
| GpuLeaseStacking.DeletedMeaning | hammers/scripts/gpu_lease_stacking.py:136-143 | every deleted lease is a row of a user in violation, on one of their nodes, among that node's stacked leases past the allowed one |
| GpuLeaseStacking.NothingDeleted | hammers/scripts/gpu_lease_stacking.py:136-143 | nothing is deleted iff no user has more than one lease queued |
| GpuLeaseStacking.Register | hammers/scripts/gpu_lease_stacking.py:123-127 | the first sight of a user creates a fresh object with that row's name and e-mail; known users are kept |
| GpuLeaseStacking.AddRow | hammers/scripts/gpu_lease_stacking.py:120-129 | one row: its user registered and its lease added, every user's nodes matching the rows seen so far |
| GpuLeaseStacking.BuildUsers | hammers/scripts/gpu_lease_stacking.py:118-129 | one fresh object per user, in order of first sight, holding exactly the grouping of the user's rows |
| GpuLeaseStacking.CheckOne | hammers/scripts/gpu_lease_stacking.py:132-133 | one user checks their leases; those before are checked, those after untouched |
| GpuLeaseStacking.CheckAll | hammers/scripts/gpu_lease_stacking.py:131-133 | every user's queue becomes the stacked leases of their rows past the allowed one |
| GpuLeaseStacking.DeleteInViolation | hammers/scripts/gpu_lease_stacking.py:139-143 | the queues of users in violation are deleted in user order, and the count is their total length |
| GpuLeaseStacking.DeleteInViolationAsWritten | hammers/scripts/gpu_lease_stacking.py:139-143 | as written, the first user in violation fails with a TypeError; with nobody in violation the count is 0 |
| GpuLeaseStacking.GpuStackReaperAsWritten | hammers/scripts/gpu_lease_stacking.py:116-149 | as written, describe mode returns 0 and delete mode fails with a TypeError as soon as anyone is in violation |
| GpuLeaseStacking.GpuStackReaper | hammers/scripts/gpu_lease_stacking.py:116-149 | describe mode deletes nothing and returns 0; otherwise the queued leases of every user in violation are deleted and counted |
| LeaseStackReaper.AddTo | hammers/scripts/lease_stack_reaper.py:36-44 | adding keeps the node-type dictionary well formed |
| LeaseStackReaper.AddToMeaning | hammers/scripts/lease_stack_reaper.py:36-44 | with the list read through `self.nodes` the id never equals a listed tuple, so the lease is always appended to its node type's list, created when missing; other node types are untouched |
| LeaseStackReaper.AddOnceMeaning | hammers/scripts/lease_stack_reaper.py:40-44 | what the comment describes: the lease is appended only when not listed yet, so a list without duplicates stays so; other node types are untouched |
| LeaseStackReaper.DuplicateAppendHarmless | hammers/scripts/lease_stack_reaper.py:41-50 | appending a lease already listed leaves the sorted list unchanged, so the duplicate test only spares work |
| LeaseStackReaper.ViolationsMeaning | hammers/scripts/lease_stack_reaper.py:52-61 | each lease in violation is one of the user's leases on some node type, and a stacked lease there other than the first |
| LeaseStackReaper.ViolationsStable | hammers/scripts/lease_stack_reaper.py:52-61 | the lists are left sorted, so a second call computes the same leases |
| LeaseStackReaper.User.constructor | hammers/scripts/lease_stack_reaper.py:29-34 | a new user holds the given id, name and e-mail and no node types |
| LeaseStackReaper.User.AddLeaseAsWritten | hammers/scripts/lease_stack_reaper.py:36-43 | as written, the node type's list is created, then reading `self.node` raises an AttributeError |
| LeaseStackReaper.User.AddLease | hammers/scripts/lease_stack_reaper.py:36-44 | `add_lease` with the list read through `self.nodes`: the dictionary becomes `AddTo` of the old one, the lease always appended |
| LeaseStackReaper.User.SortLeasesByDate | hammers/scripts/lease_stack_reaper.py:46-50 | every node type's list becomes its de-duplicated sort by start date |
| LeaseStackReaper.User.LeasesInViolation | hammers/scripts/lease_stack_reaper.py:52-61 | the lists are sorted in place and the result is the stacked leases past the allowed one of each node type, in node-type order |
| LeaseStackReaper.Users | hammers/scripts/lease_stack_reaper.py:116-125 | the users of the rows in order of first sight, as a well-formed dictionary |
| LeaseStackReaper.UsersMeaning | hammers/scripts/lease_stack_reaper.py:118-125 | a user is in the dictionary iff one of the rows is theirs |
| LeaseStackReaper.UsersFirstRow | hammers/scripts/lease_stack_reaper.py:121-125 | a user's name and e-mail are those of the user's first row |
| LeaseStackReaper.UserNodes | hammers/scripts/lease_stack_reaper.py:118-127 | a user's leases per node type form a well-formed dictionary |
| LeaseStackReaper.UserNodesAbsent | hammers/scripts/lease_stack_reaper.py:118-127 | a user without rows has no node types |
| LeaseStackReaper.UserTypes | hammers/scripts/lease_stack_reaper.py:118-127 | a user's node type is listed iff one of the user's rows is on it |
| LeaseStackReaper.UserList | hammers/scripts/lease_stack_reaper.py:118-127 | a node type's list holds the leases of all the user's rows on it, in row order |
| LeaseStackReaper.UserListOnce | hammers/scripts/lease_stack_reaper.py:118-127 | had `add_lease` skipped listed leases, a node type's list would hold each of those leases once, in order of first appearance |
| LeaseStackReaper.OnceSameKeys | hammers/scripts/lease_stack_reaper.py:118-127 | appending and skipping list the same node types in the same order |
| LeaseStackReaper.SkipMakesNoDifference | hammers/scripts/lease_stack_reaper.py:36-61 | over any rows, appending and skipping give the same sorted lists and the same leases in violation |
| LeaseStackReaper.ReapedDescribe | hammers/scripts/lease_stack_reaper.py:129-141 | describe mode deletes nothing, sends nothing, returns 0 and prints only users with leases in violation |
| LeaseStackReaper.ReapedDelete | hammers/scripts/lease_stack_reaper.py:129-141 | delete mode prints nothing, deletes every lease in violation in user order and returns their number |
| LeaseStackReaper.ReapedNotices | hammers/scripts/lease_stack_reaper.py:97-137 | in delete mode an e-mail goes out exactly to the users with leases in violation |
| LeaseStackReaper.Register | hammers/scripts/lease_stack_reaper.py:121-125 | the first sight of a user creates a fresh object with that row's name and e-mail; known users are kept |
| LeaseStackReaper.AddRow | hammers/scripts/lease_stack_reaper.py:118-127 | one row: its user registered and its lease added, every object in step with the rows seen so far |
| LeaseStackReaper.BuildUsers | hammers/scripts/lease_stack_reaper.py:116-127 | one fresh object per user, in order of first sight, named after the user's first row and holding the user's leases |
| LeaseStackReaper.ReapUserOnce | hammers/scripts/lease_stack_reaper.py:130-139 | one user's leases in violation computed, then deleted, counted and mailed, or printed |
| LeaseStackReaper.ReapOne | hammers/scripts/lease_stack_reaper.py:130-139 | the loop after one more user; later users untouched |
| LeaseStackReaper.GpuStackReaper | hammers/scripts/lease_stack_reaper.py:114-141 | with `add_lease` corrected, the outcome is the fold of every user's reaping in order of first sight |
| LeaseStackReaper.GpuStackReaperAsWritten | hammers/scripts/lease_stack_reaper.py:114-141 | as written, any row makes the run fail with the AttributeError, in either mode; no rows returns 0 |
| LeaseStackNotifier.OverlapNone | hammers/scripts/lease_stack_notifier.py:28-36 | the overlap is 0 exactly when the later of both starts and now is not before the earlier end |
| LeaseStackNotifier.OverlapBounds | hammers/scripts/lease_stack_notifier.py:28-41 | the overlap percentage lies between 0 and 100 |
| LeaseStackNotifier.OverlapScaled | hammers/scripts/lease_stack_notifier.py:37-41 | each lease's percentage times its own remaining time is the same overlap duration |
| LeaseStackNotifier.OverlapAsymmetric | hammers/scripts/lease_stack_notifier.py:28-55 | the overlap is not symmetric: a lease can be fully covered by another that it covers for less than the 90% of `does_host_overlap_with_lease` |
| LeaseStackNotifier.HighEndIgnoresCase | hammers/scripts/lease_stack_notifier.py:74-90 | letter case does not matter to `is_high_end` |
| LeaseStackNotifier.HighEndInside | hammers/scripts/lease_stack_notifier.py:74-90 | a node type with "gpu", "storage" or "fpga" anywhere in it is high-end |
| LeaseStackNotifier.Host.constructor | hammers/scripts/lease_stack_notifier.py:60-63 | a new host has its id and node type and counts towards coverage |
| LeaseStackNotifier.Lease.constructor | hammers/scripts/lease_stack_notifier.py:95-102 | a new lease holds the row's id, dates, status and project, no hosts and no node types |
| LeaseStackNotifier.Lease.AddHost | hammers/scripts/lease_stack_notifier.py:120-124 | the host is appended and its node type recorded; a host of a node type already held stops counting towards coverage |
| LeaseStackNotifier.RaisedMeaning | hammers/scripts/lease_stack_notifier.py:133-156 | adding a lease raises each of its node types' furthest end to the larger of the old value (default now plus the window) and the lease end; other node types are untouched |
| LeaseStackNotifier.LoweredMeaning | hammers/scripts/lease_stack_notifier.py:137-160 | adding a lease lowers each of its node types' start to the smaller of the old value (default now) and the lease start; other node types are untouched |
| LeaseStackNotifier.CoverageStep | hammers/scripts/lease_stack_notifier.py:188-193 | one host of the coverage loop keeps the dictionary well formed |
| LeaseStackNotifier.ReservedStep | hammers/scripts/lease_stack_notifier.py:226-227 | one host of the hogging count keeps the dictionary well formed |
| LeaseStackNotifier.LeaseCoverage | hammers/scripts/lease_stack_notifier.py:185-193 | the coverage loop over one lease's hosts keeps the dictionary well formed |
| LeaseStackNotifier.ProjectCoverage | hammers/scripts/lease_stack_notifier.py:181-194 | `get_coverage_by_node_type` yields a well-formed dictionary |
| LeaseStackNotifier.LeaseCoverageSums | hammers/scripts/lease_stack_notifier.py:185-193 | over one lease the loop adds to a node type the seconds its counted hosts cover |
| LeaseStackNotifier.LeaseCoverageKeys | hammers/scripts/lease_stack_notifier.py:185-193 | over one lease a node type gets an entry iff one of its hosts counts |
| LeaseStackNotifier.CoverageSums | hammers/scripts/lease_stack_notifier.py:181-194 | a node type's coverage is the sum, over the counted hosts of that type, of the seconds from now (or the start) to the lease end |
| LeaseStackNotifier.CoverageKeys | hammers/scripts/lease_stack_notifier.py:181-194 | a node type has a coverage entry iff one of the project's hosts of that type counts |
| LeaseStackNotifier.LeaseReserved | hammers/scripts/lease_stack_notifier.py:224-227 | the hogging count over one lease's hosts keeps the dictionary well formed |
| LeaseStackNotifier.ProjectReserved | hammers/scripts/lease_stack_notifier.py:221-227 | `nodes_reserved_in_month` is a well-formed dictionary |
| LeaseStackNotifier.LeaseReservedCounts | hammers/scripts/lease_stack_notifier.py:224-227 | over one lease the count adds one per host of the type when the lease ends within the window |
| LeaseStackNotifier.LeaseReservedKeys | hammers/scripts/lease_stack_notifier.py:224-227 | over one lease a node type gets a count iff one of its hosts is of that type and the lease ends within the window |
| LeaseStackNotifier.ReservedCounts | hammers/scripts/lease_stack_notifier.py:221-227 | a node type's count is the number of its hosts in leases ending between now and now plus the window |
| LeaseStackNotifier.ReservedKeys | hammers/scripts/lease_stack_notifier.py:221-227 | a node type has a count iff one of its hosts is in a lease ending within the window, whether or not the host counts towards coverage |
| LeaseStackNotifier.StackingUpTo | hammers/scripts/lease_stack_notifier.py:196-214 | a successful stacking check yields a well-formed dictionary |
| LeaseStackNotifier.StackingStep | hammers/scripts/lease_stack_notifier.py:200-213 | one node type of the stacking check keeps the dictionary well formed |
| LeaseStackNotifier.StackingFails | hammers/scripts/lease_stack_notifier.py:200-208 | the stacking check divides by zero iff some node type with coverage is not excluded and has an empty period |
| LeaseStackNotifier.StackingReports | hammers/scripts/lease_stack_notifier.py:200-214 | otherwise a node type is reported iff it has coverage, its lowercase name is not excluded and its coverage reaches the threshold share of its period |
| LeaseStackNotifier.StackingEntries | hammers/scripts/lease_stack_notifier.py:174-213 | a reported node type's entry is the share covered as a percentage and both lengths in days |
| LeaseStackNotifier.StackingErrPersists | hammers/scripts/lease_stack_notifier.py:200-208 | once the stacking check has failed it stays failed |
| LeaseStackNotifier.NoEmptyPeriod | hammers/scripts/lease_stack_notifier.py:204-208 | with a positive window, furthest ends at least now plus the window and starts at most now, no period is empty |
| LeaseStackNotifier.HoggingUpTo | hammers/scripts/lease_stack_notifier.py:228-240 | the hogging check yields a well-formed dictionary |
| LeaseStackNotifier.HoggingStep | hammers/scripts/lease_stack_notifier.py:229-239 | one node type of the hogging check keeps the dictionary well formed |
| LeaseStackNotifier.HoggingReports | hammers/scripts/lease_stack_notifier.py:216-240 | a node type is reported iff it has reserved hosts, is on the high-end list when there is one, the site has more than the minimum of it and the project's reserved hosts exceed the threshold share; the entry gives both numbers |
| LeaseStackNotifier.Project.constructor | hammers/scripts/lease_stack_notifier.py:129-137 | a new project has no leases, an empty period per node type and a window of the given days |
| LeaseStackNotifier.Project.HostInOverlappingReservation | hammers/scripts/lease_stack_notifier.py:162-172 | once the node type is known the answer is yes iff some lease is this one or overlaps the host for 90%; before that it is yes iff the first lease iterated is this one; a lease already in the set always answers yes |
| LeaseStackNotifier.Project.AddLease | hammers/scripts/lease_stack_notifier.py:144-160 | the lease joins the set; its hosts' node types have their furthest end raised and start lowered; a host is made to count again only as the first of a new node type when the set's first lease is another |
| LeaseStackNotifier.Project.CountHost | hammers/scripts/lease_stack_notifier.py:147-160 | one host: made to count when no overlapping reservation is found, its node type's period widened to the lease |
| LeaseStackNotifier.Project.GetCoverageByNodeType | hammers/scripts/lease_stack_notifier.py:181-194 | the loop computes the per-node-type coverage |
| LeaseStackNotifier.Project.GetLeaseStackingViolations | hammers/scripts/lease_stack_notifier.py:196-214 | the violations are those of the stacking check over the project's coverage and period, or its division by zero |
| LeaseStackNotifier.Project.GetHighEndHoggingViolations | hammers/scripts/lease_stack_notifier.py:216-240 | the violations are those of the hogging check over the project's reserved counts |
| LeaseStackNotifier.Project.StackingSucceeds | hammers/scripts/lease_stack_notifier.py:204-208 | on a valid project with a positive window the stacking check never divides by zero |
| LeaseStackNotifier.Project.Violations | hammers/scripts/lease_stack_notifier.py:301-309 | a held project's violations: the stacking ones, which cannot fail, merged with the hogging ones |
| LeaseStackNotifier.CheckStacking | hammers/scripts/lease_stack_notifier.py:200-214 | the loop computes the stacking check |
| LeaseStackNotifier.CheckHogging | hammers/scripts/lease_stack_notifier.py:228-240 | the loop computes the hogging check |
| LeaseStackNotifier.HostTypeOfLast | hammers/scripts/lease_stack_notifier.py:267-271 | a host id's node type is that of the last row with that id |
| LeaseStackNotifier.KeptRowOfLast | hammers/scripts/lease_stack_notifier.py:274-281 | a lease id's lease is built from the last kept row with that id; skipped rows replace nothing |
| LeaseStackNotifier.CountTypesMeaning | hammers/scripts/lease_stack_notifier.py:262-272 | a node type's count is its number of host rows, a host listed twice counting twice; a type has a count iff one of the rows is of it |
| LeaseStackNotifier.AllFiledMeaning | hammers/scripts/lease_stack_notifier.py:285-290 | the bookings so far succeed iff none names a known lease and an unknown host |
| LeaseStackNotifier.HostsAddedMeaning | hammers/scripts/lease_stack_notifier.py:285-290 | the bookings append to a lease's hosts exactly the known hosts of its own bookings |
| LeaseStackNotifier.LeasesAddedUnbooked | hammers/scripts/lease_stack_notifier.py:285-294 | bookings naming no lease of a project leave its leases as they were |
| LeaseStackNotifier.Added | hammers/scripts/lease_stack_notifier.py:146 | `leases.add` keeps the old leases, holds the new one and grows by at most one |
| LeaseStackNotifier.LeasesAddedMeaning | hammers/scripts/lease_stack_notifier.py:285-294 | after the bookings a project holds its old leases and exactly the known leases of its own the bookings name |
| LeaseStackNotifier.HostsReplayMeaning | hammers/scripts/lease_stack_notifier.py:285-290 | replaying the bookings leaves every lease with, in order, the known hosts booked for it |
| LeaseStackNotifier.LeasesReplayMeaning | hammers/scripts/lease_stack_notifier.py:285-294 | replaying the bookings leaves every project with the booked known leases of its own |
| LeaseStackNotifier.Merged | hammers/scripts/lease_stack_notifier.py:297-308 | merging two well-formed dictionaries gives one |
| LeaseStackNotifier.MergedMeaning | hammers/scripts/lease_stack_notifier.py:297-308 | a node type is merged in iff either check reports it; a hogging entry replaces the stacking entry; the stacking order comes first |
| LeaseStackNotifier.ProjectViolationsMeaning | hammers/scripts/lease_stack_notifier.py:296-309 | a node type is reported iff it breaks the stacking rule or is hogged, with the hogging numbers when hogged and the stacking summary otherwise |
| LeaseStackNotifier.LeaseComplianceManager.constructor | hammers/scripts/lease_stack_notifier.py:254-262 | a new manager holds the configuration and no hosts, leases, projects or counts |
| LeaseStackNotifier.LeaseComplianceManager.UpdateHosts | hammers/scripts/lease_stack_notifier.py:267-272 | every row files a new counting host under its id, a later row replacing an earlier one, and counts its node type |
| LeaseStackNotifier.LeaseComplianceManager.FileHost | hammers/scripts/lease_stack_notifier.py:268-272 | one row files a new host and counts its node type |
| LeaseStackNotifier.LeaseComplianceManager.UpdateLeases | hammers/scripts/lease_stack_notifier.py:274-281 | every row whose status is not terminated, error or deleting files a new lease without hosts, a later kept row replacing an earlier one |
| LeaseStackNotifier.LeaseComplianceManager.FileLease | hammers/scripts/lease_stack_notifier.py:276-281 | one kept row files a new lease; other rows change nothing |
| LeaseStackNotifier.LeaseComplianceManager.UpdateFromAllocations | hammers/scripts/lease_stack_notifier.py:283-294 | every reservation in order: unknown leases skipped; the run fails with the KeyError of the first known lease on an unknown host; otherwise every lease holds its booked hosts and every project its booked leases |
| LeaseStackNotifier.LeaseComplianceManager.BookFrom | hammers/scripts/lease_stack_notifier.py:285-294 | the bookings from one position on, stopping at the first KeyError |
| LeaseStackNotifier.LeaseComplianceManager.Book | hammers/scripts/lease_stack_notifier.py:287-294 | one booking succeeds iff it is not a known lease on an unknown host, taking the books one step further |
| LeaseStackNotifier.LeaseComplianceManager.Allocate | hammers/scripts/lease_stack_notifier.py:287-294 | one reservation: skipped for an unknown lease; a KeyError before any change for an unknown host; otherwise the host joins the lease and the lease its project |
| LeaseStackNotifier.LeaseComplianceManager.AddHostToLease | hammers/scripts/lease_stack_notifier.py:290 | the host is appended to the lease's hosts; the projects are unchanged |
| LeaseStackNotifier.LeaseComplianceManager.AddToProject | hammers/scripts/lease_stack_notifier.py:291-294 | the lease joins its project, created on first use; other projects are kept |
| LeaseStackNotifier.LeaseComplianceManager.AddLeaseTo | hammers/scripts/lease_stack_notifier.py:293 | the project's leases become the old ones with this lease added |
| LeaseStackNotifier.LeaseComplianceManager.Join | hammers/scripts/lease_stack_notifier.py:146 | `project.add_lease` adds the lease to the project's set |
| LeaseStackNotifier.LeaseComplianceManager.ProjectFor | hammers/scripts/lease_stack_notifier.py:292-294 | the project filed under the id, or a new empty one filed on first use |
| LeaseStackNotifier.LeaseComplianceManager.GetProjectViolations | hammers/scripts/lease_stack_notifier.py:296-309 | nothing for an unknown project; otherwise its stacking violations, which cannot fail, merged with its hogging violations |
| LeaseStackNotifier.LeaseComplianceManager.Build | hammers/scripts/lease_stack_notifier.py:244-265 | the constructor fails with the KeyError of a booking of a kept lease on an unknown host; otherwise hosts, kept leases and counts are filed and every lease and project holds what was booked for it |
| LeaseStackNotifier.LeaseComplianceManager.Filed | hammers/scripts/lease_stack_notifier.py:263-264 | hosts filed and counted, kept leases filed, no projects yet |
| LeaseStackNotifier.EntryTexts | hammers/scripts/lease_stack_notifier.py:329-343 | one paragraph per violation, in the dictionary's order |
| LeaseStackNotifier.LeaseLines | hammers/scripts/lease_stack_notifier.py:345-346 | one line per lease, in the project's order |
| LeaseStackNotifier.ViolationBodyAsWritten | hammers/scripts/lease_stack_notifier.py:326-347 | as written the text is the intended one without its greeting, which it does not start with |
| LeaseStackNotifier.ViolationBody | hammers/scripts/lease_stack_notifier.py:312-347 | with the greeting kept, the text opens with it and is the full notification |
| LeaseStackNotifier.Paragraphs | hammers/scripts/lease_stack_notifier.py:329-346 | the two loops append every violation paragraph, the lease header and every lease line |
| LeaseStackNotifier.AppendAll | hammers/scripts/lease_stack_notifier.py:331-346 | appending piece by piece gives the text and then the pieces' concatenation |
| LeaseStackNotifier.BodyListsAll | hammers/scripts/lease_stack_notifier.py:312-347 | the notification contains the paragraph of every violation and the line of every lease |
| LeaseStackNotifier.ConcatContains | hammers/scripts/lease_stack_notifier.py:329-346 | each piece is found in the concatenation |
| LeaseStackNotifier.ContainsBehind | hammers/scripts/lease_stack_notifier.py:326-347 | text found in a string is found after anything put in front of it |
| LeaseStackNotifier.ContainsBefore | hammers/scripts/lease_stack_notifier.py:326-347 | text found in a string is found whatever follows |

## Left out

- **I/O.** REST calls, SQL statements, SMTP e-mail, Slack webhooks,
  subprocesses and the Kubernetes API are not modelled. What they return is a
  parameter: rows, fetched maps, exit codes or failing targets. What they are
  asked to do is recorded in the results: deleted ids, commands, notices.
- **Script entry points.** Argument parsing, printing and `pprint` in
  each script's `main` are not modelled; only the decision logic of `main` is.
- **`hammers/osrest/`.** The REST shims are not part of this model. Their
  guards appear where the callers' models need them.
- **Authentication exchanges.** `osapi.Auth.authenticate` and
  `Authv2.authenticate` are HTTP exchanges, so the Keystone response is a
  parameter.
- **Date parsing.** `dateutil.parser.parse` and the general `strptime`
  are not modelled. Dates are integer seconds; only the fixed layouts the
  scripts use are parsed (`times.dfy`). Time zones are not modelled: every time
  is UTC.
- **Floating point.** Percentages are exact reals, so rounding is not
  modelled. The JSON numbers of `metadata_sync` are integers, strings,
  booleans, null, lists or objects; floats are not modelled.
- **Python set order.** The order in which a Python `set` is iterated is taken
  to be insertion order.
  - `Project.leases` is such a set, so `_host_in_overlapping_reservation`'s
    answer is stated over the lease sequence the project holds.
  - `sorted(set(leases))` breaks ties between equal start dates by keeping the
    first occurrence in front.
- **`defaultdict` reads.** A read through a `defaultdict` inserts the default.
  The model reads with a default (`GetOr`) and does not insert it. In the paths
  modelled, every such read concerns a key that is already present or is not
  read again.
- **`Project.start_date_by_host`.** It is filled by no code and read by no
  code, so it is not modelled.
- **Notification text.** A lease's JSON rendering (`Lease.__str__`) and
  the printing of floats in `project_lease_violation_body` are parameters
  (`leaseTexts`, `show`). `notify_lease_violations`, `send_email` and the
  project loop of the notifier's `main`, including `exclude_projects`, are
  not modelled.
- **Notifier configuration.** The configuration is a record with typed
  fields. The `KeyError` of a configuration file without `sender_email`
  (lease_stack_notifier.py:258) is not modelled.
- **`LeaseStackNotifier.LeaseComplianceManager.UpdateFromAllocations`.** The
  nested loop over allocations and their reservations is flattened into one
  sequence of bookings. `BookFrom` walks that sequence recursively, one booking
  at a time, instead of by a loop.
- **`LeaseStackNotifier.Project.Violations`.** It requires a positive window;
  the manager always uses the default of 21 days. A project built with a window
  of 0 days could divide by zero in the stacking check, and that case is stated
  only by `StackingFails`.
- **`gpu_lease_stacking` notifications.** `send_delete_notification`
  (e-mail) and `print_info` (console output) are not modelled. The model
  returns the deleted lease ids and the count.
- **GPU reservation rows.** `query.get_gpu_advanced_reservations` and
  `query.get_advanced_reservations` are not part of this model; both reapers
  take the rows as a parameter.
- **`neutron_reaper.check_lease_past_end_date`.** No code calls it, so it
  is not modelled.
- **`conflict_macs.show_info`.** It only prints, so it is not modelled.
- **`ccmanage/stack.py`.** The `__enter__`/`__exit__` pair (create, sleep
  `exit_delay`, delete) is not modelled. Neither is the verbose printing of
  `_pv`.
- **Overlapping leases in `maintenance_reservation`.** The gap search is
  modelled as written, measuring from the previous row's end. It is proved to
  find a free slot only on schedules without overlapping leases (`Chained`),
  which is what Blazar keeps for one host; `AsWrittenCollides` shows what it
  does otherwise.
- LeaseStackReaper.Row: the e-mail is taken as already read from `user_extra`.
  Malformed JSON or a `user_extra` without `email` raises at the user's first row
  (lease_stack_reaper.py:125), and that error is not modelled.
- GpuLeaseStacking.Row: likewise, the `json.loads(row['user_extra'])['email']`
  error at the user's first row (gpu_lease_stacking.py:127) is not modelled.
- Query.IdleProjects: for Ocata it returns the corrected merge, not the loop as
  written, which raises a TypeError on a dated row after an undated row of the
  same project (see `Query.MergeLatestAsWritten` under "Findings").
- **`node_doctor` Placement data.** The Placement usages are given as a
  parameter rather than fetched.

## Findings

None of the rows below was executed; each is a consequence of the code as
written, shown in Dafny.

| source | as written | input that shows it | evidently intended | confidence | as-written member | corrected member |
|---|---|---|---|---|---|---|
| hammers/query.py:79 | tests whether the stored row is `None` rather than its `latest_deletion`, so a dated row after an undated row of the same project reaches `max(date, None)`, a TypeError under Python 3 | two rows of one project, the first without a deletion date, the second with one | a project with an undated row is ignored from then on | high, not executed | `Query.MergeLatestAsWritten`, `Query.MergeAsWrittenCounterexample` | `Query.MergeLatest`, `Query.MergeLatestMeaning` |
| hammers/scripts/orphans_detector.py:96 | iterates with `dict.iteritems()`, which Python 3 dictionaries lack, so any non-empty report raises AttributeError | one orphan lease | one aligned line per orphan after the title and header | high, not executed | `OrphansDetector.GenerateReportAsWritten`, `OrphansDetector.GenerateReportAsWrittenFails` | `OrphansDetector.GenerateReport`, `OrphansDetector.ReportReadsBack` |
| hammers/scripts/metadata_sync.py:260 | `db` is connected only without `--soft-removal` (lines 192-193), yet every host commits through it, so a soft-removal update run raises NameError at its first host | `update --soft-removal` with one host known to both Blazar and Grid'5000 | commit only when a database was connected; soft removal leaves no removals | high, not executed | `MetadataSync.SoftRemovalCommitFails` | `MetadataSync.SyncHost` |
| hammers/scripts/lease_stack_reaper.py:43 | reads `self.node`, which no `User` has, so the first row raises AttributeError in either mode | any non-empty list of reservation rows | read the list through `self.nodes`; its id test then never matches, so every lease is appended, which after the sort is the same as skipping listed leases, as `LeaseStackReaper.SkipMakesNoDifference` shows | high, not executed | `LeaseStackReaper.User.AddLeaseAsWritten`, `LeaseStackReaper.GpuStackReaperAsWritten` | `LeaseStackReaper.User.AddLease`, `LeaseStackReaper.SkipMakesNoDifference` |
| hammers/scripts/gpu_lease_stacking.py:143 | calls `delete_stacked_leases()` without its `auth` argument, so delete mode raises TypeError at the first user in violation | not describe mode; one user with three leases on one node, each starting within a day of the previous one's end | pass `auth` on and delete every queued lease of the users in violation | high, not executed | `GpuLeaseStacking.DeleteInViolationAsWritten`, `GpuLeaseStacking.GpuStackReaperAsWritten` | `GpuLeaseStacking.GpuStackReaper`, `GpuLeaseStacking.DeletedFromMeaning` |
| hammers/scripts/lease_stack_notifier.py:326-327 | the second assignment to `body` replaces the greeting instead of adding to it | any project and violations | the text opens with the greeting line, then the heading | high, not executed | `LeaseStackNotifier.ViolationBodyAsWritten` | `LeaseStackNotifier.ViolationBody`, `LeaseStackNotifier.BodyListsAll` |

=== FILE: clean_old_aggregates.dfy ===
/**
 * Returning the hosts of expired Blazar leases to the free pool
 * (hammers/scripts/clean_old_aggregates.py): which leases are over, which Nova
 * aggregates belong to them, the report and error bookkeeping of the clean-up, and the
 * orphan-host search. The REST calls that may fail are given as sets of failing targets.
 */
module CleanOldAggregates {
  import opened Wrappers
  import opened Strs

  /** The free-pool aggregate, which Nova's `aggregate_delete` refuses to delete. */
  const FreepoolAggregateId := 1

  datatype Reservation = Reservation(id: string, resourceType: string)
  /** A Blazar lease; `endDate` in seconds since the epoch (UTC). */
  datatype Lease = Lease(id: string, endDate: int, reservations: seq<Reservation>)
  datatype Aggregate = Aggregate(id: int, name: string, hosts: seq<string>)

  /** `is_terminated`: the lease's end lies strictly before `now`. */
  predicate IsTerminated(lease: Lease, now: int)
  {
    now > lease.endDate
  }

  lemma TerminatedStaysTerminated(lease: Lease, now: int, later: int)
    requires IsTerminated(lease, now) && now <= later
    ensures IsTerminated(lease, later)
  {
  }

  /** The ids of the lease's `physical:host` reservations, in order. */
  function PhysicalReservationIds(rs: seq<Reservation>): (r: seq<string>)
    ensures forall id :: id in r <==> exists x :: x in rs && x.resourceType == "physical:host" && x.id == id
  {
    if rs == [] then []
    else (if rs[0].resourceType == "physical:host" then [rs[0].id] else []) + PhysicalReservationIds(rs[1..])
  }

  /** `aggregates_for_lease`: the aggregates (in Nova's order) named after one of the lease's host reservations. */
  function AggregatesForLease(lease: Lease, aggregates: seq<Aggregate>): (r: seq<Aggregate>)
    ensures |r| <= |aggregates|
    ensures forall a :: a in r <==> a in aggregates && a.name in PhysicalReservationIds(lease.reservations)
  {
    if aggregates == [] then []
    else
      (if aggregates[0].name in PhysicalReservationIds(lease.reservations) then [aggregates[0]] else [])
      + AggregatesForLease(lease, aggregates[1..])
  }

  /**
   * The comprehension of `aggregates_for_lease` keeps Nova's order: the filter of two
   * lists joined is the two filters joined, so with `AggregatesForLeaseOne` every kept
   * aggregate appears once per listing, where it was listed.
   */
  lemma {:induction false} AggregatesForLeaseInOrder(lease: Lease, a: seq<Aggregate>, b: seq<Aggregate>)
    ensures AggregatesForLease(lease, a + b) == AggregatesForLease(lease, a) + AggregatesForLease(lease, b)
  {
    if a == [] {
      assert a + b == b;
    } else {
      var names := PhysicalReservationIds(lease.reservations);
      var kept := if a[0].name in names then [a[0]] else [];
      assert (a + b)[0] == a[0] && (a + b)[1..] == a[1..] + b;
      assert AggregatesForLease(lease, a + b) == kept + AggregatesForLease(lease, a[1..] + b);
      assert AggregatesForLease(lease, a) == kept + AggregatesForLease(lease, a[1..]);
      AggregatesForLeaseInOrder(lease, a[1..], b);
      assert kept + (AggregatesForLease(lease, a[1..]) + AggregatesForLease(lease, b))
        == (kept + AggregatesForLease(lease, a[1..])) + AggregatesForLease(lease, b);
    }
  }

  /** A single aggregate is kept iff it is named after one of the lease's host reservations. */
  lemma AggregatesForLeaseOne(lease: Lease, x: Aggregate)
    ensures AggregatesForLease(lease, [x]) == if x.name in PhysicalReservationIds(lease.reservations) then [x] else []
  {
    assert [x][1..] == [];
  }

  /** What went wrong during the clean-up; recorded, never raised. */
  datatype Failure = MoveFailed(aggregate: int, host: string) | DeleteFailed(aggregate: int)

  /** Whether deleting aggregate `id` fails: the free pool always does. */
  predicate DeleteFails(id: int, deleteFails: set<int>)
  {
    id == FreepoolAggregateId || id in deleteFails
  }

  function MoveLine(aggId: int, host: string, ok: bool): string
  {
    if ok then "Deleted host " + host + " from aggregate " + IntToString(aggId) + " and returned to freepool."
    else "Unexpected error moving host " + host + " from aggregate " + IntToString(aggId) + " to freepool."
  }

  function DeleteLine(aggId: int, ok: bool): string
  {
    if ok then "Deleted aggregate " + IntToString(aggId) + "."
    else "Unexpected error deleting aggregate " + IntToString(aggId) + "."
  }

  /** The errors and report lines of moving `hosts` out of aggregate `id`. */
  function MoveHosts(id: int, hosts: seq<string>, moveFails: set<(int, string)>): (r: (seq<Failure>, seq<string>))
  {
    if hosts == [] then ([], [])
    else
      var (errs, lines) := MoveHosts(id, hosts[..|hosts| - 1], moveFails);
      var h := hosts[|hosts| - 1];
      if (id, h) in moveFails then (errs + [MoveFailed(id, h)], lines + [MoveLine(id, h, false)])
      else (errs, lines + [MoveLine(id, h, true)])
  }

  /** One aggregate's contribution to `clear_aggregates`: nothing at all when it has no hosts. */
  function ClearOne(a: Aggregate, moveFails: set<(int, string)>, deleteFails: set<int>): (r: (seq<Failure>, seq<string>))
  {
    if a.hosts == [] then ([], [])
    else
      var (errs, lines) := MoveHosts(a.id, a.hosts, moveFails);
      var ok := !DeleteFails(a.id, deleteFails);
      (errs + (if ok then [] else [DeleteFailed(a.id)]), lines + [DeleteLine(a.id, ok)])
  }

  /** The `(errors, report)` pair of `clear_aggregates` over a list of aggregates. */
  function Clear(aggs: seq<Aggregate>, moveFails: set<(int, string)>, deleteFails: set<int>): (r: (seq<Failure>, seq<string>))
  {
    if aggs == [] then ([], [])
    else
      var (errs, lines) := Clear(aggs[..|aggs| - 1], moveFails, deleteFails);
      var (e, l) := ClearOne(aggs[|aggs| - 1], moveFails, deleteFails);
      (errs + e, lines + l)
  }

  /** The number of report lines the clean-up writes: one per host and one per deletion attempt. */
  function ExpectedLines(aggs: seq<Aggregate>): nat
  {
    if aggs == [] then 0
    else ExpectedLines(aggs[..|aggs| - 1]) + (if aggs[|aggs| - 1].hosts == [] then 0 else |aggs[|aggs| - 1].hosts| + 1)
  }

  lemma {:induction false} MoveHostsCounts(id: int, hosts: seq<string>, moveFails: set<(int, string)>)
    ensures |MoveHosts(id, hosts, moveFails).1| == |hosts|
    ensures forall f :: f in MoveHosts(id, hosts, moveFails).0 <==> exists h :: h in hosts && (id, h) in moveFails && f == MoveFailed(id, h)
  {
    if hosts != [] {
      var init := hosts[..|hosts| - 1];
      MoveHostsCounts(id, init, moveFails);
      assert hosts == init + [hosts[|hosts| - 1]];
    }
  }

  /**
   * The report has one line per host and one per aggregate with hosts; an error is
   * recorded exactly for each failing move and each failing deletion of an aggregate with
   * hosts; aggregates without hosts contribute nothing.
   */
  lemma {:induction false} ClearBookkeeping(aggs: seq<Aggregate>, moveFails: set<(int, string)>, deleteFails: set<int>)
    ensures |Clear(aggs, moveFails, deleteFails).1| == ExpectedLines(aggs)
    ensures forall f :: f in Clear(aggs, moveFails, deleteFails).0 <==>
      exists a :: a in aggs && a.hosts != [] &&
        ((exists h :: h in a.hosts && (a.id, h) in moveFails && f == MoveFailed(a.id, h)) ||
         (DeleteFails(a.id, deleteFails) && f == DeleteFailed(a.id)))
  {
    if aggs != [] {
      var init := aggs[..|aggs| - 1];
      var a := aggs[|aggs| - 1];
      ClearBookkeeping(init, moveFails, deleteFails);
      ClearOneBookkeeping(a, moveFails, deleteFails);
      assert forall x :: x in aggs <==> x in init || x == a;
    }
  }

  /** One aggregate: a line per host and one for the deletion, and its own failures. */
  lemma ClearOneBookkeeping(a: Aggregate, moveFails: set<(int, string)>, deleteFails: set<int>)
    ensures |ClearOne(a, moveFails, deleteFails).1| == if a.hosts == [] then 0 else |a.hosts| + 1
    ensures forall f :: f in ClearOne(a, moveFails, deleteFails).0 <==> (a.hosts != [] &&
      ((exists h :: h in a.hosts && (a.id, h) in moveFails && f == MoveFailed(a.id, h)) ||
       (DeleteFails(a.id, deleteFails) && f == DeleteFailed(a.id))))
  {
    MoveHostsCounts(a.id, a.hosts, moveFails);
  }

  /** `clear_aggregates`: moves every host of every aggregate to the free pool, then deletes the aggregate. */
  method ClearAggregates(aggList: seq<Aggregate>, moveFails: set<(int, string)>, deleteFails: set<int>)
    returns (errors: seq<Failure>, report: seq<string>)
    ensures (errors, report) == Clear(aggList, moveFails, deleteFails)
  {
    errors, report := [], [];
    for i := 0 to |aggList|
      invariant (errors, report) == Clear(aggList[..i], moveFails, deleteFails)
    {
      assert aggList[..i + 1][..i] == aggList[..i];
      errors, report := ClearAggregate(aggList[i], moveFails, deleteFails, errors, report);
    }
    assert aggList[..|aggList|] == aggList;
  }

  /** One pass of the loop of `clear_aggregates`: an aggregate without hosts is skipped. */
  method ClearAggregate(x: Aggregate, moveFails: set<(int, string)>, deleteFails: set<int>, errors0: seq<Failure>, report0: seq<string>)
    returns (errors: seq<Failure>, report: seq<string>)
    ensures errors == errors0 + ClearOne(x, moveFails, deleteFails).0
    ensures report == report0 + ClearOne(x, moveFails, deleteFails).1
  {
    errors, report := errors0, report0;
    if x.hosts == [] {
      return;
    }
    errors, report := MoveAll(x.id, x.hosts, moveFails, errors, report);
    if DeleteFails(x.id, deleteFails) {
      report := report + [DeleteLine(x.id, false)];
      errors := errors + [DeleteFailed(x.id)];
    } else {
      report := report + [DeleteLine(x.id, true)];
    }
  }

  /** The inner loop: each host of the aggregate is moved to the free pool, or its failure recorded. */
  method MoveAll(id: int, hosts: seq<string>, moveFails: set<(int, string)>, errors0: seq<Failure>, report0: seq<string>)
    returns (errors: seq<Failure>, report: seq<string>)
    ensures errors == errors0 + MoveHosts(id, hosts, moveFails).0
    ensures report == report0 + MoveHosts(id, hosts, moveFails).1
  {
    errors, report := errors0, report0;
    for k := 0 to |hosts|
      invariant errors == errors0 + MoveHosts(id, hosts[..k], moveFails).0
      invariant report == report0 + MoveHosts(id, hosts[..k], moveFails).1
    {
      var host := hosts[k];
      assert hosts[..k + 1][..k] == hosts[..k];
      if (id, host) in moveFails {
        report := report + [MoveLine(id, host, false)];
        errors := errors + [MoveFailed(id, host)];
      } else {
        report := report + [MoveLine(id, host, true)];
      }
    }
    assert hosts[..|hosts|] == hosts;
  }

  datatype BlazarHost = BlazarHost(id: string, uid: Option<string>)

  /** `next(iter([h['id'] for h in blazar_hosts if h.get('uid') == node]), None)`. */
  function FirstHostId(node: string, hosts: seq<BlazarHost>): (r: Option<string>)
    ensures r.None? <==> forall h :: h in hosts ==> h.uid != Some(node)
    ensures r.Some? ==> exists i :: (0 <= i < |hosts| && hosts[i].uid == Some(node) && hosts[i].id == r.value &&
      forall j :: 0 <= j < i ==> hosts[j].uid != Some(node))
  {
    if hosts == [] then None
    else if hosts[0].uid == Some(node) then Some(hosts[0].id)
    else
      var r := FirstHostId(node, hosts[1..]);
      if r.Some? then
        var i :| 0 <= i < |hosts[1..]| && hosts[1..][i].uid == Some(node) && hosts[1..][i].id == r.value &&
          forall j :: 0 <= j < i ==> hosts[1..][j].uid != Some(node);
        assert hosts[i + 1].uid == Some(node);
        r
      else r
  }

  /** The hosts listed in any aggregate. */
  function HostsFromAggs(aggs: seq<Aggregate>): (r: seq<string>)
    ensures forall h :: h in r <==> exists a :: a in aggs && h in a.hosts
  {
    if aggs == [] then [] else aggs[0].hosts + HostsFromAggs(aggs[1..])
  }

  /** The orphans among the first nodes, or the `ValueError` of the first node without a (truthy) Blazar host id. */
  function Orphans(inAggs: seq<string>, nodes: seq<string>, hosts: seq<BlazarHost>): (r: Result<seq<string>>)
  {
    if nodes == [] then Ok([])
    else match Orphans(inAggs, nodes[..|nodes| - 1], hosts)
      case Err(e) => Err(e)
      case Ok(found) =>
        var node := nodes[|nodes| - 1];
        if node in inAggs then Ok(found)
        else
          var id := FirstHostId(node, hosts);
          if id.None? || id.value == "" then Err(ValueError("Node " + node + " not associated to any Blazar host!"))
          else Ok(found + [id.value])
  }

  /** A node that is in no aggregate and has no usable Blazar host id. */
  predicate Unmatched(inAggs: seq<string>, node: string, hosts: seq<BlazarHost>)
  {
    node !in inAggs && (FirstHostId(node, hosts).None? || FirstHostId(node, hosts).value == "")
  }

  /**
   * `orphan_find` either raises `ValueError` exactly when some node outside every aggregate
   * has no Blazar host (or a falsy id), or lists, for each such node, a Blazar host id whose
   * uid is that node.
   */
  lemma {:induction false} OrphansMeaning(inAggs: seq<string>, nodes: seq<string>, hosts: seq<BlazarHost>)
    ensures Orphans(inAggs, nodes, hosts).Err? <==> exists n :: n in nodes && Unmatched(inAggs, n, hosts)
    ensures Orphans(inAggs, nodes, hosts).Err? ==> Orphans(inAggs, nodes, hosts).error.ValueError?
    ensures Orphans(inAggs, nodes, hosts).Ok? ==> forall id :: id in Orphans(inAggs, nodes, hosts).value ==>
      id != "" && exists n, h :: n in nodes && n !in inAggs && h in hosts && h.uid == Some(n) && h.id == id
  {
    if nodes != [] {
      var init := nodes[..|nodes| - 1];
      var node := nodes[|nodes| - 1];
      OrphansMeaning(inAggs, init, hosts);
      assert nodes == init + [node];
      assert forall n :: n in nodes <==> n in init || n == node;
      var id := FirstHostId(node, hosts);
      if Orphans(inAggs, init, hosts).Ok? && !Unmatched(inAggs, node, hosts) && node !in inAggs {
        var i :| 0 <= i < |hosts| && hosts[i].uid == Some(node) && hosts[i].id == id.value &&
          forall j :: 0 <= j < i ==> hosts[j].uid != Some(node);
        assert hosts[i] in hosts;
      }
    }
  }

  /** The nodes no aggregate lists, in the order given. */
  function Unaggregated(nodes: seq<string>, inAggs: seq<string>): (r: seq<string>)
    ensures forall n :: n in r <==> n in nodes && n !in inAggs
    ensures |r| <= |nodes|
  {
    if nodes == [] then []
    else
      var init := nodes[..|nodes| - 1];
      var node := nodes[|nodes| - 1];
      assert nodes == init + [node];
      var rest := Unaggregated(init, inAggs);
      if node in inAggs then rest else rest + [node]
  }

  /**
   * `orphan_find` is complete and keeps the node order: on success it lists one id per
   * node outside every aggregate, in node order, each the first Blazar host id of its node.
   */
  lemma {:induction false} OrphansComplete(inAggs: seq<string>, nodes: seq<string>, hosts: seq<BlazarHost>)
    requires Orphans(inAggs, nodes, hosts).Ok?
    ensures |Orphans(inAggs, nodes, hosts).value| == |Unaggregated(nodes, inAggs)|
    ensures forall j :: 0 <= j < |Unaggregated(nodes, inAggs)| ==>
      FirstHostId(Unaggregated(nodes, inAggs)[j], hosts).Some? &&
      Orphans(inAggs, nodes, hosts).value[j] == FirstHostId(Unaggregated(nodes, inAggs)[j], hosts).value
  {
    if nodes != [] {
      var init := nodes[..|nodes| - 1];
      var node := nodes[|nodes| - 1];
      OrphansComplete(inAggs, init, hosts);
    }
  }

  /** The first error decides: an error on a prefix is the error of the whole list. */
  lemma {:induction false} OrphansErrExtends(inAggs: seq<string>, nodes: seq<string>, hosts: seq<BlazarHost>, k: nat)
    requires k <= |nodes| && Orphans(inAggs, nodes[..k], hosts).Err?
    ensures Orphans(inAggs, nodes, hosts) == Orphans(inAggs, nodes[..k], hosts)
    decreases |nodes| - k
  {
    if k < |nodes| {
      assert nodes[..k + 1][..k] == nodes[..k];
      OrphansErrExtends(inAggs, nodes, hosts, k + 1);
    } else {
      assert nodes[..k] == nodes;
    }
  }

  /** `orphan_find(aggregates)`: the Blazar host ids of the Ironic nodes that no aggregate lists. */
  method OrphanFind(aggregates: seq<Aggregate>, ironicNodes: seq<string>, blazarHosts: seq<BlazarHost>)
    returns (r: Result<seq<string>>)
    ensures r == Orphans(HostsFromAggs(aggregates), ironicNodes, blazarHosts)
    ensures r.Ok? ==> |r.value| == |Unaggregated(ironicNodes, HostsFromAggs(aggregates))|
    ensures r.Ok? ==> forall j :: 0 <= j < |r.value| ==>
      FirstHostId(Unaggregated(ironicNodes, HostsFromAggs(aggregates))[j], blazarHosts).Some? &&
      r.value[j] == FirstHostId(Unaggregated(ironicNodes, HostsFromAggs(aggregates))[j], blazarHosts).value
  {
    var hostsFromAggs := [];
    for i := 0 to |aggregates|
      invariant hostsFromAggs == Concat(aggregates[..i])
    {
      hostsFromAggs := hostsFromAggs + aggregates[i].hosts;
      assert aggregates[..i + 1] == aggregates[..i] + [aggregates[i]];
      ConcatAppend(aggregates[..i], aggregates[i]);
    }
    assert aggregates[..|aggregates|] == aggregates;
    ConcatIsHostsFromAggs(aggregates);
    var orphans := [];
    for i := 0 to |ironicNodes|
      invariant Orphans(hostsFromAggs, ironicNodes[..i], blazarHosts) == Ok(orphans)
    {
      var node := ironicNodes[i];
      assert ironicNodes[..i + 1][..i] == ironicNodes[..i];
      if node !in hostsFromAggs {
        var hostId := FirstHostId(node, blazarHosts);
        if hostId.None? || hostId.value == "" {
          OrphansErrExtends(hostsFromAggs, ironicNodes, blazarHosts, i + 1);
          return Err(ValueError("Node " + node + " not associated to any Blazar host!"));
        }
        orphans := orphans + [hostId.value];
      }
    }
    assert ironicNodes[..|ironicNodes|] == ironicNodes;
    OrphansComplete(hostsFromAggs, ironicNodes, blazarHosts);
    return Ok(orphans);
  }

  /** The hosts of the aggregates, concatenated in order (the loop's accumulation). */
  function Concat(aggs: seq<Aggregate>): seq<string>
  {
    if aggs == [] then [] else Concat(aggs[..|aggs| - 1]) + aggs[|aggs| - 1].hosts
  }

  lemma ConcatAppend(aggs: seq<Aggregate>, a: Aggregate)
    ensures Concat(aggs + [a]) == Concat(aggs) + a.hosts
  {
    assert (aggs + [a])[..|aggs + [a]| - 1] == aggs;
  }

  lemma {:induction false} ConcatIsHostsFromAggs(aggs: seq<Aggregate>)
    ensures Concat(aggs) == HostsFromAggs(aggs)
    decreases |aggs|
  {
    if aggs != [] {
      var rest := aggs[1..];
      if rest == [] {
        assert aggs == [aggs[0]];
        assert aggs[..0] == [];
      } else {
        ConcatIsHostsFromAggs(aggs[..|aggs| - 1]);
        ConcatIsHostsFromAggs(rest);
        ConcatIsHostsFromAggs(rest[..|rest| - 1]);
        assert aggs[..|aggs| - 1][1..] == rest[..|rest| - 1];
        assert aggs[..|aggs| - 1] == [aggs[0]] + rest[..|rest| - 1];
        assert rest[|rest| - 1] == aggs[|aggs| - 1];
      }
    }
  }

  datatype Allocation = Allocation(resourceId: string, reservationIds: seq<Option<string>>)
  /** The value of `has_active_allocation`: `False`, or the first reservation id (possibly `None`). */
  datatype Destiny = NoAllocation | ReservationId(id: Option<string>)

  function MatchingAllocs(orph: string, allocs: seq<Allocation>): (r: seq<Allocation>)
    ensures forall a :: a in r <==> a in allocs && a.resourceId == orph
    ensures allocs != [] && allocs[0].resourceId == orph ==> r != [] && r[0] == allocs[0]
  {
    if allocs == [] then []
    else (if allocs[0].resourceId == orph then [allocs[0]] else []) + MatchingAllocs(orph, allocs[1..])
  }

  /**
   * `has_active_allocation`: `False` when no allocation is for the host, otherwise the
   * first reservation id of the first allocation that is; an allocation without
   * reservations raises `IndexError`.
   */
  function HasActiveAllocation(orph: string, allocs: seq<Allocation>): (r: Result<Destiny>)
    ensures r == Ok(NoAllocation) <==> forall a :: a in allocs ==> a.resourceId != orph
    ensures r.Ok? && r.value.ReservationId? ==>
      exists i :: 0 <= i < |allocs| && allocs[i].resourceId == orph && allocs[i].reservationIds != [] &&
        allocs[i].reservationIds[0] == r.value.id && forall j :: 0 <= j < i ==> allocs[j].resourceId != orph
    ensures r.Err? ==> (r.error == IndexError &&
      exists i :: 0 <= i < |allocs| && allocs[i].resourceId == orph && allocs[i].reservationIds == [] &&
        forall j :: 0 <= j < i ==> allocs[j].resourceId != orph)
  {
    var matching := MatchingAllocs(orph, allocs);
    if matching == [] then Ok(NoAllocation)
    else
      FirstMatch(orph, allocs);
      var first := matching[0];
      if first.reservationIds == [] then Err(IndexError) else Ok(ReservationId(first.reservationIds[0]))
  }

  lemma {:induction false} FirstMatch(orph: string, allocs: seq<Allocation>)
    requires MatchingAllocs(orph, allocs) != []
    ensures exists i :: (0 <= i < |allocs| && allocs[i] == MatchingAllocs(orph, allocs)[0] &&
      allocs[i].resourceId == orph && forall j :: 0 <= j < i ==> allocs[j].resourceId != orph)
  {
    if allocs[0].resourceId != orph {
      FirstMatch(orph, allocs[1..]);
      var i :| 0 <= i < |allocs[1..]| && allocs[1..][i] == MatchingAllocs(orph, allocs[1..])[0] &&
        allocs[1..][i].resourceId == orph && forall j :: 0 <= j < i ==> allocs[1..][j].resourceId != orph;
      assert allocs[i + 1] == allocs[1..][i];
    } else {
      assert allocs[0] == MatchingAllocs(orph, allocs)[0];
    }
  }

  /** What `main` does with one orphan host. */
  datatype OrphanAction = ReportUnidentified | ReturnToFreepool | MoveToAggregate(aggregate: int)

  /**
   * The branch in `main`: an allocation id of `None` is reported, no allocation sends the
   * host to the free pool, and otherwise to the first aggregate named after the
   * reservation (`IndexError` when there is none).
   */
  function OrphanDestination(destiny: Destiny, aggregates: seq<Aggregate>): (r: Result<OrphanAction>)
    ensures destiny == NoAllocation ==> r == Ok(ReturnToFreepool)
    ensures destiny == ReservationId(None) ==> r == Ok(ReportUnidentified)
    ensures r.Ok? && r.value.MoveToAggregate? ==> (destiny.ReservationId? && destiny.id.Some? &&
      exists a :: a in aggregates && a.id == r.value.aggregate && a.name == destiny.id.value)
    ensures r.Err? <==> destiny.ReservationId? && destiny.id.Some? && forall a :: a in aggregates ==> a.name != destiny.id.value
    ensures r.Ok? && r.value.MoveToAggregate? ==>
      exists i :: FirstNamedAt(aggregates, destiny.id.value, i) && aggregates[i].id == r.value.aggregate
  {
    match destiny
    case NoAllocation => Ok(ReturnToFreepool)
    case ReservationId(None) => Ok(ReportUnidentified)
    case ReservationId(Some(res)) =>
      var named := AggregatesNamed(res, aggregates);
      if named == [] then Err(IndexError) else Ok(MoveToAggregate(named[0].id))
  }

  /** Aggregate `i` is the first named `name`. */
  predicate FirstNamedAt(aggregates: seq<Aggregate>, name: string, i: int)
  {
    0 <= i < |aggregates| && aggregates[i].name == name && forall j :: 0 <= j < i ==> aggregates[j].name != name
  }

  function AggregatesNamed(name: string, aggregates: seq<Aggregate>): (r: seq<Aggregate>)
    ensures forall a :: a in r <==> a in aggregates && a.name == name
    ensures r != [] ==> exists i :: FirstNamedAt(aggregates, name, i) && r[0] == aggregates[i]
  {
    if aggregates == [] then []
    else (if aggregates[0].name == name then [aggregates[0]] else []) + AggregatesNamed(name, aggregates[1..])
  }
}

=== FILE: conflict_macs.dfy ===
/**
 * Neutron ports that claim the MAC address of an Ironic port on a node without an
 * instance (hammers/scripts/conflict_macs.py). Neutron ports in ignored subnets are not
 * considered, MACs shared by several Neutron ports are dropped, and the conflicting
 * ports are reported or deleted behind a sanity guard.
 */
module ConflictMacs {
  import opened Wrappers
  import opened Dicts
  import Strs

  datatype NeutronPort = NeutronPort(id: string, macAddress: string, fixedIpSubnets: seq<string>)
  datatype IronicPort = IronicPort(address: string, nodeUuid: string)
  datatype IronicNode = IronicNode(uuid: string, instanceUuid: Option<string>)

  /** The three listings `find_conflicts` fetches: nodes and ports by id, in listing order. */
  datatype Listings = Listings(nodes: map<string, IronicNode>, ports: Dict<string, IronicPort>, neutPorts: Dict<string, NeutronPort>)
  {
    predicate Valid() { ports.Valid() && neutPorts.Valid() }
  }

  /** One entry of `conflict_macs_info`. */
  datatype MacInfo = MacInfo(
    mac: string,
    ironicNodeId: string,
    ironicNodeInstance: Option<string>,
    ironicPort: string,
    neutronPortId: string,
    neutronPort: NeutronPort)

  /** A dict comprehension over (key, value) pairs: the last pair with a key wins. */
  function LastWins(pairs: seq<(string, string)>): map<string, string>
  {
    if pairs == [] then map[]
    else LastWins(pairs[..|pairs| - 1])[pairs[|pairs| - 1].0 := pairs[|pairs| - 1].1]
  }

  /** The keys of a sequence of pairs. */
  function Firsts(pairs: seq<(string, string)>): set<string>
  {
    set i | 0 <= i < |pairs| :: pairs[i].0
  }

  /** How many pairs carry the key. */
  function Count(pairs: seq<(string, string)>, k: string): (r: nat)
    ensures r <= |pairs|
  {
    if pairs == [] then 0
    else Count(pairs[..|pairs| - 1], k) + (if pairs[|pairs| - 1].0 == k then 1 else 0)
  }

  /**
   * The map holds every key of the pairs, and no other; its value for a key is the
   * value of the last pair with that key.
   */
  lemma {:induction false} LastWinsMeaning(pairs: seq<(string, string)>)
    ensures LastWins(pairs).Keys == Firsts(pairs)
    ensures forall k :: k in LastWins(pairs) ==> exists i :: (0 <= i < |pairs| && pairs[i] == (k, LastWins(pairs)[k]) &&
      forall j :: i < j < |pairs| ==> pairs[j].0 != k)
  {
    LastWinsKeys(pairs);
    forall k | k in LastWins(pairs)
      ensures exists i :: (0 <= i < |pairs| && pairs[i] == (k, LastWins(pairs)[k]) &&
        forall j :: i < j < |pairs| ==> pairs[j].0 != k)
    {
      LastWinsAt(pairs, k);
    }
  }

  /** One more pair adds its key to the keys. */
  lemma FirstsStep(pairs: seq<(string, string)>)
    requires pairs != []
    ensures Firsts(pairs) == Firsts(pairs[..|pairs| - 1]) + {pairs[|pairs| - 1].0}
  {
    var init := pairs[..|pairs| - 1];
    forall k | k in Firsts(pairs) ensures k in Firsts(init) + {pairs[|pairs| - 1].0} {
      var i :| 0 <= i < |pairs| && pairs[i].0 == k;
      if i < |init| {
        assert init[i].0 == k;
      }
    }
    forall k | k in Firsts(init) ensures k in Firsts(pairs) {
      var i :| 0 <= i < |init| && init[i].0 == k;
      assert pairs[i].0 == k;
    }
  }

  lemma {:induction false} LastWinsKeys(pairs: seq<(string, string)>)
    ensures LastWins(pairs).Keys == Firsts(pairs)
  {
    if pairs != [] {
      LastWinsKeys(pairs[..|pairs| - 1]);
      FirstsStep(pairs);
    }
  }

  lemma {:induction false} LastWinsAt(pairs: seq<(string, string)>, k: string)
    requires k in LastWins(pairs)
    ensures exists i :: (0 <= i < |pairs| && pairs[i] == (k, LastWins(pairs)[k]) &&
      forall j :: i < j < |pairs| ==> pairs[j].0 != k)
  {
    var init := pairs[..|pairs| - 1];
    var last := pairs[|pairs| - 1];
    if k == last.0 {
      assert pairs[|pairs| - 1] == (k, LastWins(pairs)[k]);
    } else {
      LastWinsAt(init, k);
      var i :| 0 <= i < |init| && init[i] == (k, LastWins(init)[k]) && forall j :: i < j < |init| ==> init[j].0 != k;
      assert pairs[i] == (k, LastWins(pairs)[k]);
      forall j | i < j < |pairs| ensures pairs[j].0 != k {
        if j < |init| {
          assert init[j] == pairs[j];
        }
      }
    }
  }

  lemma {:induction false} CountPositive(pairs: seq<(string, string)>, k: string)
    ensures Count(pairs, k) > 0 <==> k in Firsts(pairs)
  {
    if pairs != [] {
      var init := pairs[..|pairs| - 1];
      CountPositive(init, k);
      assert forall i :: 0 <= i < |init| ==> init[i] == pairs[i];
      if k in Firsts(pairs) && pairs[|pairs| - 1].0 != k {
        var i :| 0 <= i < |pairs| && pairs[i].0 == k;
        assert init[i].0 == k;
      }
    }
  }

  /** There are no more keys than pairs, and strictly fewer when some key repeats. */
  lemma {:induction false} FirstsCard(pairs: seq<(string, string)>)
    ensures |Firsts(pairs)| <= |pairs|
    ensures (exists k :: Count(pairs, k) > 1) ==> |Firsts(pairs)| < |pairs|
  {
    if pairs != [] {
      var init := pairs[..|pairs| - 1];
      var last := pairs[|pairs| - 1];
      FirstsCard(init);
      FirstsStep(pairs);
      if exists k :: Count(pairs, k) > 1 {
        var k :| Count(pairs, k) > 1;
        if k == last.0 {
          CountPositive(init, k);
        }
      }
    }
  }

  /** The ids of the Neutron ports with no fixed IP in an ignored subnet, in listing order. */
  function SeriousPids(pids: seq<string>, neutPorts: map<string, NeutronPort>, ignoreSubnets: set<string>): (r: seq<string>)
    requires forall p :: p in pids ==> p in neutPorts
    ensures forall p :: p in r <==> p in pids && forall s :: s in neutPorts[p].fixedIpSubnets ==> s !in ignoreSubnets
  {
    if pids == [] then []
    else
      var pid := pids[|pids| - 1];
      var rest := SeriousPids(pids[..|pids| - 1], neutPorts, ignoreSubnets);
      assert forall p :: p in pids <==> p in pids[..|pids| - 1] || p == pid;
      if exists s :: s in neutPorts[pid].fixedIpSubnets && s in ignoreSubnets then rest else rest + [pid]
  }

  /** (mac, port id) of the serious Neutron ports. */
  function NeutPairs(l: Listings, ignoreSubnets: set<string>): (r: seq<(string, string)>)
    requires l.Valid()
  {
    var pids := SeriousPids(l.neutPorts.keys, l.neutPorts.vals, ignoreSubnets);
    seq(|pids|, i requires 0 <= i < |pids| => (l.neutPorts.vals[pids[i]].macAddress, pids[i]))
  }

  /** (address, node uuid) of the Ironic ports. */
  function NodePairs(l: Listings): seq<(string, string)>
    requires l.Valid()
  {
    seq(|l.ports.keys|, i requires 0 <= i < |l.ports.keys| => (l.ports.vals[l.ports.keys[i]].address, l.ports.vals[l.ports.keys[i]].nodeUuid))
  }

  /** (address, port id) of the Ironic ports. */
  function PortPairs(l: Listings): seq<(string, string)>
    requires l.Valid()
  {
    seq(|l.ports.keys|, i requires 0 <= i < |l.ports.keys| => (l.ports.vals[l.ports.keys[i]].address, l.ports.keys[i]))
  }

  /**
   * `neut_macs` as written: the keys of `neut_mac_map`, less every MAC counted more
   * than once when the map is smaller than the serious-port dictionary.
   */
  function NeutMacs(l: Listings, ignoreSubnets: set<string>): set<string>
    requires l.Valid()
  {
    var pairs := NeutPairs(l, ignoreSubnets);
    var m := LastWins(pairs);
    if |m| != |pairs| then m.Keys - (set k | k in m.Keys && Count(pairs, k) > 1) else m.Keys
  }

  /** A MAC survives iff exactly one serious Neutron port carries it. */
  lemma NeutMacsMeaning(l: Listings, ignoreSubnets: set<string>)
    requires l.Valid()
    ensures forall k :: k in NeutMacs(l, ignoreSubnets) <==> Count(NeutPairs(l, ignoreSubnets), k) == 1
  {
    var pairs := NeutPairs(l, ignoreSubnets);
    LastWinsMeaning(pairs);
    FirstsCard(pairs);
    forall k ensures Count(pairs, k) > 0 <==> k in Firsts(pairs) {
      CountPositive(pairs, k);
    }
    assert |LastWins(pairs)| == |LastWins(pairs).Keys|;
  }

  /** `inactive_macs`: the addresses of Ironic ports whose node has no instance. */
  function InactiveMacs(l: Listings): set<string>
    requires l.Valid()
  {
    set pid | pid in l.ports.keys && l.ports.vals[pid].nodeUuid in l.nodes &&
      l.nodes[l.ports.vals[pid].nodeUuid].instanceUuid.None? :: l.ports.vals[pid].address
  }

  /** `conflict_macs`. */
  function Conflicts(l: Listings, ignoreSubnets: set<string>): set<string>
    requires l.Valid()
  {
    NeutMacs(l, ignoreSubnets) * InactiveMacs(l)
  }

  /**
   * A MAC conflicts iff exactly one serious Neutron port claims it and some Ironic
   * port with that address sits on a listed node without an instance.
   */
  lemma ConflictsMeaning(l: Listings, ignoreSubnets: set<string>)
    requires l.Valid()
    ensures forall k :: k in Conflicts(l, ignoreSubnets) <==>
      Count(NeutPairs(l, ignoreSubnets), k) == 1 &&
      exists pid :: pid in l.ports.keys && l.ports.vals[pid].address == k && l.ports.vals[pid].nodeUuid in l.nodes &&
        l.nodes[l.ports.vals[pid].nodeUuid].instanceUuid.None?
  {
    NeutMacsMeaning(l, ignoreSubnets);
  }

  /** Every conflicting MAC can be looked up in the three MAC maps. */
  lemma ConflictsResolvable(l: Listings, ignoreSubnets: set<string>, k: string)
    requires l.Valid() && k in Conflicts(l, ignoreSubnets)
    ensures k in LastWins(NodePairs(l)) && k in LastWins(PortPairs(l))
    ensures k in LastWins(NeutPairs(l, ignoreSubnets)) && LastWins(NeutPairs(l, ignoreSubnets))[k] in l.neutPorts.vals
  {
    var neut := NeutPairs(l, ignoreSubnets);
    LastWinsMeaning(NodePairs(l));
    LastWinsMeaning(PortPairs(l));
    LastWinsMeaning(neut);
    var pid :| pid in l.ports.keys && l.ports.vals[pid].address == k && l.ports.vals[pid].nodeUuid in l.nodes &&
      l.nodes[l.ports.vals[pid].nodeUuid].instanceUuid.None?;
    var i :| 0 <= i < |l.ports.keys| && l.ports.keys[i] == pid;
    assert NodePairs(l)[i].0 == k && PortPairs(l)[i].0 == k;
    NeutMacsMeaning(l, ignoreSubnets);
    CountPositive(neut, k);
    var j :| 0 <= j < |neut| && neut[j] == (k, LastWins(neut)[k]) && forall j' :: j < j' < |neut| ==> neut[j'].0 != k;
    var pids := SeriousPids(l.neutPorts.keys, l.neutPorts.vals, ignoreSubnets);
    assert neut[j].1 == pids[j];
    assert pids[j] in pids;
  }

  /** The info record built for one conflicting MAC, or the KeyError of `nodes[...]`. */
  function Info(l: Listings, ignoreSubnets: set<string>, k: string): (r: Result<MacInfo>)
    requires l.Valid() && k in Conflicts(l, ignoreSubnets)
    ensures r.Err? <==> LastWinsNode(l, ignoreSubnets, k) !in l.nodes
    ensures r.Ok? ==> r.value.mac == k && r.value.neutronPort.macAddress == k
  {
    ConflictsResolvable(l, ignoreSubnets, k);
    var nid := LastWins(NodePairs(l))[k];
    var neut := NeutPairs(l, ignoreSubnets);
    var pid := LastWins(neut)[k];
    NeutPortMac(l, ignoreSubnets, k);
    if nid !in l.nodes then Err(KeyError(nid))
    else
      var node := l.nodes[nid];
      var neutPort := l.neutPorts.vals[pid];
      Ok(MacInfo(k, node.uuid, node.instanceUuid, LastWins(PortPairs(l))[k], neutPort.id, neutPort))
  }

  /** `node_mac_map[mac]` for a conflicting MAC. */
  function LastWinsNode(l: Listings, ignoreSubnets: set<string>, k: string): string
    requires l.Valid() && k in Conflicts(l, ignoreSubnets)
  {
    ConflictsResolvable(l, ignoreSubnets, k);
    LastWins(NodePairs(l))[k]
  }

  /** The Neutron port `neut_mac_map` picks for a MAC carries that MAC. */
  lemma NeutPortMac(l: Listings, ignoreSubnets: set<string>, k: string)
    requires l.Valid() && k in Conflicts(l, ignoreSubnets)
    ensures k in LastWins(NeutPairs(l, ignoreSubnets)) && LastWins(NeutPairs(l, ignoreSubnets))[k] in l.neutPorts.vals
    ensures l.neutPorts.vals[LastWins(NeutPairs(l, ignoreSubnets))[k]].macAddress == k
  {
    ConflictsResolvable(l, ignoreSubnets, k);
    var neut := NeutPairs(l, ignoreSubnets);
    LastWinsMeaning(neut);
    var j :| 0 <= j < |neut| && neut[j] == (k, LastWins(neut)[k]) && forall j' :: j < j' < |neut| ==> neut[j'].0 != k;
  }

  /**
   * When no two Ironic ports share an address, the node lookup of every conflicting MAC
   * succeeds: it finds the inactive node that made the MAC a conflict.
   */
  lemma InfoTotalWhenAddressesUnique(l: Listings, ignoreSubnets: set<string>, k: string)
    requires l.Valid() && k in Conflicts(l, ignoreSubnets)
    requires forall i, j :: 0 <= i < j < |l.ports.keys| ==> l.ports.vals[l.ports.keys[i]].address != l.ports.vals[l.ports.keys[j]].address
    ensures Info(l, ignoreSubnets, k).Ok?
    ensures Info(l, ignoreSubnets, k).value.ironicNodeInstance.None?
  {
    var pid :| pid in l.ports.keys && l.ports.vals[pid].address == k && l.ports.vals[pid].nodeUuid in l.nodes &&
      l.nodes[l.ports.vals[pid].nodeUuid].instanceUuid.None?;
    UniqueAddressNode(l, pid);
    assert LastWinsNode(l, ignoreSubnets, k) == l.ports.vals[pid].nodeUuid;
  }

  /** With each address on one Ironic port, `node_mac_map` maps a port's address to that port's node. */
  lemma UniqueAddressNode(l: Listings, pid: string)
    requires l.Valid() && pid in l.ports.keys
    requires forall i, j :: 0 <= i < j < |l.ports.keys| ==> l.ports.vals[l.ports.keys[i]].address != l.ports.vals[l.ports.keys[j]].address
    ensures l.ports.vals[pid].address in LastWins(NodePairs(l))
    ensures LastWins(NodePairs(l))[l.ports.vals[pid].address] == l.ports.vals[pid].nodeUuid
  {
    var k := l.ports.vals[pid].address;
    var pairs := NodePairs(l);
    LastWinsMeaning(pairs);
    var j :| 0 <= j < |l.ports.keys| && l.ports.keys[j] == pid;
    assert pairs[j].0 == k;
    assert k in Firsts(pairs);
    var i :| 0 <= i < |pairs| && pairs[i] == (k, LastWins(pairs)[k]) && forall j' :: i < j' < |pairs| ==> pairs[j'].0 != k;
    assert pairs[i].0 == l.ports.vals[l.ports.keys[i]].address;
    assert i == j;
  }

  /**
   * The loop of `find_conflicts` over `conflict_macs`, taken in the given set order:
   * the info dictionary, or the KeyError of the first MAC whose node is not listed.
   */
  method FindConflicts(l: Listings, ignoreSubnets: set<string>, order: seq<string>) returns (r: Result<map<string, MacInfo>>)
    requires l.Valid()
    requires forall k :: k in order <==> k in Conflicts(l, ignoreSubnets)
    ensures r.Ok? <==> forall k :: k in Conflicts(l, ignoreSubnets) ==> Info(l, ignoreSubnets, k).Ok?
    ensures r.Ok? ==> (r.value.Keys == Conflicts(l, ignoreSubnets) &&
      forall k :: k in r.value ==> Info(l, ignoreSubnets, k) == Ok(r.value[k]))
    ensures r.Err? ==> r.error.KeyError?
  {
    var info: map<string, MacInfo> := map[];
    for i := 0 to |order|
      invariant info.Keys == set k | k in order[..i]
      invariant forall k :: k in info ==> k in Conflicts(l, ignoreSubnets) && Info(l, ignoreSubnets, k) == Ok(info[k])
    {
      var mac := order[i];
      var entry := Info(l, ignoreSubnets, mac);
      if entry.Err? {
        return Err(entry.error);
      }
      info := info[mac := entry.value];
      assert order[..i + 1] == order[..i] + [mac];
    }
    assert order[..|order|] == order;
    return Ok(info);
  }

  /** What a run of `conflict-macs` does. */
  datatype Outcome =
    | ExitCode(code: int)
    | Shown(conflicts: map<string, MacInfo>)
    | DeletedPorts(portIds: seq<string>)
    | Raised(error: Error)

  /**
   * The ignored subnets from the arguments: a non-empty subnet flag wins over the config
   * file; an empty one is falsy and counts as absent.
   */
  function IgnoreSubnets(ignoreSubnet: Option<string>, confSubnets: Option<seq<string>>): (r: Option<set<string>>)
    ensures r.None? <==> (ignoreSubnet.None? || ignoreSubnet == Some("")) && confSubnets.None?
    ensures ignoreSubnet.Some? && ignoreSubnet.value != "" ==> r == Some({ignoreSubnet.value})
    ensures (ignoreSubnet.None? || ignoreSubnet == Some("")) && confSubnets.Some? ==>
      r.Some? && forall s :: s in r.value <==> s in confSubnets.value
  {
    if ignoreSubnet.Some? && ignoreSubnet.value != "" then Some({ignoreSubnet.value})
    else if confSubnets.Some? then Some(set s | s in confSubnets.value)
    else None
  }

  /** The Neutron port ids in the order of the MACs. */
  function PortIds(order: seq<string>, info: map<string, MacInfo>): (r: seq<string>)
    requires forall k :: k in order ==> k in info
    ensures |r| == |order| && forall i :: 0 <= i < |order| ==> r[i] == info[order[i]].neutronPortId
  {
    if order == [] then [] else [info[order[0]].neutronPortId] + PortIds(order[1..], info)
  }

  /**
   * What the work of `main` does with the ignored subnets settled: a KeyError exactly
   * when a conflicting MAC's node is not listed; otherwise `info` mode shows every
   * conflict's record, and `delete` mode, when sane (at most 10 conflicts, or forced),
   * deletes the Neutron port of every conflict in the order of `order`, and raises
   * otherwise.
   */
  predicate Acted(l: Listings, delete: bool, ignore: set<string>, forceSane: bool, order: seq<string>, out: Outcome)
    requires l.Valid() && forall k :: k in order <==> k in Conflicts(l, ignore)
  {
    !out.ExitCode? &&
    (out.Raised? && out.error.KeyError? <==> exists k :: k in Conflicts(l, ignore) && Info(l, ignore, k).Err?) &&
    (out.Shown? <==> !delete && forall k :: k in Conflicts(l, ignore) ==> Info(l, ignore, k).Ok?) &&
    (out.Shown? ==> (out.conflicts.Keys == Conflicts(l, ignore) &&
      forall k :: k in out.conflicts ==> Info(l, ignore, k) == Ok(out.conflicts[k]))) &&
    (out.DeletedPorts? ==> (delete && (forceSane || |Conflicts(l, ignore)| <= 10) &&
      DeletesConflictPorts(l, ignore, order, out.portIds))) &&
    (delete && !forceSane && |Conflicts(l, ignore)| > 10 ==> out.Raised?)
  }

  /** `ids` are the Neutron port ids of the conflicts' records, in the order of `order`. */
  predicate DeletesConflictPorts(l: Listings, ignore: set<string>, order: seq<string>, ids: seq<string>)
    requires l.Valid() && forall k :: k in order ==> k in Conflicts(l, ignore)
  {
    |ids| == |order| &&
    forall i :: 0 <= i < |order| ==> Info(l, ignore, order[i]).Ok? && ids[i] == Info(l, ignore, order[i]).value.neutronPortId
  }

  /** The ids `delete` mode collects from the found records are those of the conflicts' records. */
  lemma PortIdsOfConflicts(l: Listings, ignore: set<string>, order: seq<string>, info: map<string, MacInfo>)
    requires l.Valid() && forall k :: k in order <==> k in Conflicts(l, ignore)
    requires info.Keys == Conflicts(l, ignore) && forall k :: k in info ==> Info(l, ignore, k) == Ok(info[k])
    ensures DeletesConflictPorts(l, ignore, order, PortIds(order, info))
  {
  }

  /** The `try` block of `main`: finding the conflicts, then showing or deleting them. */
  method Act(l: Listings, delete: bool, ignore: set<string>, forceSane: bool, order: seq<string>) returns (out: Outcome)
    requires l.Valid()
    requires forall k :: k in order <==> k in Conflicts(l, ignore)
    ensures Acted(l, delete, ignore, forceSane, order, out)
  {
    var found := FindConflicts(l, ignore, order);
    if found.Err? {
      return Raised(found.error);
    }
    var conflictMacs := found.value;
    if !delete {
      return Shown(conflictMacs);
    }
    if !forceSane && |conflictMacs| > 10 {
      return Raised(RuntimeError("(in)sanity check: thinks there are " + Strs.IntToString(|conflictMacs|) + " conflicting MACs"));
    }
    PortIdsOfConflicts(l, ignore, order, conflictMacs);
    return DeletedPorts(PortIds(order, conflictMacs));
  }

  /**
   * `main` after argument parsing (`delete` is false for `info` mode): -1 without
   * subnets to ignore, otherwise the work over the conflicts for those subnets. `order`
   * is the iteration order of `conflict_macs` for the subnets the arguments select; the
   * info dictionary keeps it.
   */
  method ConflictMacsMain(
    l: Listings, delete: bool, ignoreSubnet: Option<string>, confSubnets: Option<seq<string>>,
    forceSane: bool, order: seq<string>)
    returns (out: Outcome)
    requires l.Valid()
    requires IgnoreSubnets(ignoreSubnet, confSubnets).Some? ==>
      forall k :: k in order <==> k in Conflicts(l, IgnoreSubnets(ignoreSubnet, confSubnets).value)
    ensures IgnoreSubnets(ignoreSubnet, confSubnets).None? <==> out == ExitCode(-1)
    ensures IgnoreSubnets(ignoreSubnet, confSubnets).Some? ==>
      Acted(l, delete, IgnoreSubnets(ignoreSubnet, confSubnets).value, forceSane, order, out)
  {
    var ignore := IgnoreSubnets(ignoreSubnet, confSubnets);
    if ignore.None? {
      return ExitCode(-1);
    }
    out := Act(l, delete, ignore.value, forceSane, order);
  }
}

=== FILE: dicts.dfy ===
/** Python's `dict`: a map together with the order in which its keys were first inserted. */
module Dicts {
  datatype Dict<K(==), V> = Dict(keys: seq<K>, vals: map<K, V>)
  {
    /** Keys are listed once each, and exactly the keys of the map are listed. */
    predicate Valid()
    {
      (forall i, j :: 0 <= i < j < |keys| ==> keys[i] != keys[j]) &&
      (forall k :: k in vals ==> k in keys) &&
      (forall i :: 0 <= i < |keys| ==> keys[i] in vals)
    }
  }

  function Empty<K, V>(): (r: Dict<K, V>)
    ensures r.Valid() && r.keys == [] && r.vals == map[]
  {
    Dict([], map[])
  }

  /**
   * `d[k] = v`: the value is replaced; a new key goes to the end of the order, an old
   * one keeps its place.
   */
  function Put<K, V>(d: Dict<K, V>, k: K, v: V): (r: Dict<K, V>)
    requires d.Valid()
    ensures r.Valid()
    ensures r.vals == d.vals[k := v]
    ensures k in d.vals ==> r.keys == d.keys
    ensures k !in d.vals ==> r.keys == d.keys + [k]
  {
    if k in d.vals then Dict(d.keys, d.vals[k := v]) else Dict(d.keys + [k], d.vals[k := v])
  }

  /** `d.update(e)` after the first `n` keys of `e`, taken in `e`'s order. */
  function UpdateUpTo<K, V>(d: Dict<K, V>, e: Dict<K, V>, n: nat): (r: Dict<K, V>)
    requires d.Valid() && e.Valid() && n <= |e.keys|
    ensures r.Valid()
  {
    if n == 0 then d else Put(UpdateUpTo(d, e, n - 1), e.keys[n - 1], e.vals[e.keys[n - 1]])
  }

  /** `d.update(e)`. */
  function Update<K, V>(d: Dict<K, V>, e: Dict<K, V>): (r: Dict<K, V>)
    requires d.Valid() && e.Valid()
    ensures r.Valid()
  {
    UpdateUpTo(d, e, |e.keys|)
  }

  /**
   * After `d.update(e)` a key is present iff it was in either; `e`'s value wins; the keys
   * of `d` keep their places at the front of the order.
   */
  lemma {:induction false} UpdateMeaning<K, V>(d: Dict<K, V>, e: Dict<K, V>, n: nat, k: K)
    requires d.Valid() && e.Valid() && n <= |e.keys|
    ensures k in UpdateUpTo(d, e, n).vals <==> k in d.vals || k in e.keys[..n]
    ensures k in e.keys[..n] ==> UpdateUpTo(d, e, n).vals[k] == e.vals[k]
    ensures k in d.vals && k !in e.keys[..n] ==> UpdateUpTo(d, e, n).vals[k] == d.vals[k]
    ensures d.keys <= UpdateUpTo(d, e, n).keys
  {
    if n > 0 {
      assert e.keys[..n] == e.keys[..n - 1] + [e.keys[n - 1]];
      UpdateMeaning(d, e, n - 1, k);
    }
  }

  /** Copying `e` into an empty dictionary lists its keys in its own order. */
  lemma {:induction false} UpdateEmpty<K, V>(e: Dict<K, V>, n: nat)
    requires e.Valid() && n <= |e.keys|
    ensures UpdateUpTo(Empty(), e, n).keys == e.keys[..n]
  {
    if n > 0 {
      var k := e.keys[n - 1];
      UpdateEmpty(e, n - 1);
      KeyNotBefore(e, n);
      PutNewKey(UpdateUpTo(Empty(), e, n - 1), k, e.vals[k]);
      PrefixSnoc(e.keys, n);
    }
  }

  lemma PrefixSnoc<T>(s: seq<T>, n: nat)
    requires 0 < n <= |s|
    ensures s[..n] == s[..n - 1] + [s[n - 1]]
  {
  }

  /** A key that is not listed goes to the end of the order. */
  lemma PutNewKey<K, V>(d: Dict<K, V>, k: K, v: V)
    requires d.Valid() && k !in d.keys
    ensures Put(d, k, v).keys == d.keys + [k]
  {
  }

  /** A key is listed after none of the keys before it. */
  lemma KeyNotBefore<K, V>(d: Dict<K, V>, n: nat)
    requires d.Valid() && 0 < n <= |d.keys|
    ensures d.keys[n - 1] !in d.keys[..n - 1]
  {
  }
}

=== FILE: dirty_ports.dfy ===
/**
 * Ironic ports left with `internal_info` on available nodes
 * (hammers/scripts/dirty_ports.py): the ports are grouped per node, the first port of
 * every available node that carries data is reported, and cleaning checks that each
 * UPDATE touched exactly one row before committing.
 */
module DirtyPorts {
  import opened Wrappers
  import opened Dicts

  /** A port of the Ironic port listing; `internal_info` is a JSON object. */
  datatype Port = Port(uuid: string, nodeUuid: string, internalInfo: map<string, string>)

  /** The `node_ports` dictionary after the given ports, in listing order. */
  function Group(ports: seq<Port>): (r: Dict<string, seq<Port>>)
    ensures r.Valid()
  {
    if ports == [] then Empty()
    else
      var d := Group(ports[..|ports| - 1]);
      var port := ports[|ports| - 1];
      Put(d, port.nodeUuid, (if port.nodeUuid in d.vals then d.vals[port.nodeUuid] else []) + [port])
  }

  /** The ports of one node, in listing order. */
  function PortsOf(ports: seq<Port>, node: string): (r: seq<Port>)
    ensures |r| <= |ports|
  {
    if ports == [] then []
    else PortsOf(ports[..|ports| - 1], node) + (if ports[|ports| - 1].nodeUuid == node then [ports[|ports| - 1]] else [])
  }

  lemma {:induction false} PortsOfAbsent(ports: seq<Port>, node: string)
    requires forall i :: 0 <= i < |ports| ==> ports[i].nodeUuid != node
    ensures PortsOf(ports, node) == []
  {
    if ports != [] {
      PortsOfAbsent(ports[..|ports| - 1], node);
    }
  }

  lemma {:induction false} PortsOfPresent(ports: seq<Port>, i: int)
    requires 0 <= i < |ports|
    ensures PortsOf(ports, ports[i].nodeUuid) != []
  {
    if i < |ports| - 1 {
      PortsOfPresent(ports[..|ports| - 1], i);
    }
  }

  /**
   * The keys are exactly the nodes that have a port, and each node's list holds its
   * ports in listing order.
   */
  lemma {:induction false} GroupMeaning(ports: seq<Port>)
    ensures forall n :: n in Group(ports).vals <==> exists i :: 0 <= i < |ports| && ports[i].nodeUuid == n
    ensures forall n :: n in Group(ports).vals ==> Group(ports).vals[n] == PortsOf(ports, n)
  {
    if ports != [] {
      var init := ports[..|ports| - 1];
      GroupMeaning(init);
      var port := ports[|ports| - 1];
      var g := Group(init);
      var r := Group(ports);
      assert r.vals == g.vals[port.nodeUuid := (if port.nodeUuid in g.vals then g.vals[port.nodeUuid] else []) + [port]];
      forall n ensures n in r.vals <==> exists i :: 0 <= i < |ports| && ports[i].nodeUuid == n {
        if n != port.nodeUuid && exists i :: 0 <= i < |ports| && ports[i].nodeUuid == n {
          var i :| 0 <= i < |ports| && ports[i].nodeUuid == n;
          assert init[i] == ports[i];
        }
      }
      forall n | n in r.vals ensures r.vals[n] == PortsOf(ports, n) {
        if n == port.nodeUuid && n !in g.vals {
          PortsOfAbsent(init, n);
        }
      }
    }
  }


  /** Every group is non-empty, so `iports[nid][0]` never fails. */
  lemma GroupsNonEmpty(ports: seq<Port>)
    ensures forall n :: n in Group(ports).vals ==> Group(ports).vals[n] != []
  {
    GroupMeaning(ports);
    forall n | n in Group(ports).vals
      ensures Group(ports).vals[n] != []
    {
      var i :| 0 <= i < |ports| && ports[i].nodeUuid == n;
      PortsOfPresent(ports, i);
    }
  }

  lemma {:induction false} PortsOfTwo(ports: seq<Port>, i: int, j: int)
    requires 0 <= i < j < |ports| && ports[i].nodeUuid == ports[j].nodeUuid
    ensures |PortsOf(ports, ports[i].nodeUuid)| >= 2
  {
    var init := ports[..|ports| - 1];
    if j == |ports| - 1 {
      assert init[i] == ports[i];
      PortsOfPresent(init, i);
    } else {
      assert init[i] == ports[i] && init[j] == ports[j];
      PortsOfTwo(init, i, j);
    }
  }

  lemma {:induction false} PortsOfAtMostOne(ports: seq<Port>, node: string)
    requires forall i, j :: 0 <= i < j < |ports| ==> ports[i].nodeUuid != ports[j].nodeUuid
    ensures |PortsOf(ports, node)| <= 1
  {
    if ports != [] {
      var init := ports[..|ports| - 1];
      if ports[|ports| - 1].nodeUuid == node {
        assert forall i :: 0 <= i < |init| ==> init[i].nodeUuid != node by {
          forall i | 0 <= i < |init| ensures init[i].nodeUuid != node {
            assert init[i] == ports[i];
          }
        }
        PortsOfAbsent(init, node);
      } else {
        PortsOfAtMostOne(init, node);
      }
    }
  }

  /** The first node, in dictionary order, whose list does not hold exactly one port. */
  function FirstMultiport(keys: seq<string>, vals: map<string, seq<Port>>): (r: Option<string>)
    requires forall k :: k in keys ==> k in vals
    ensures r.Some? ==> r.value in keys && |vals[r.value]| != 1
    ensures r.None? <==> forall k :: k in keys ==> |vals[k]| == 1
  {
    if keys == [] then None
    else if |vals[keys[0]]| != 1 then Some(keys[0])
    else FirstMultiport(keys[1..], vals)
  }

  /** `ports_by_node`: the grouping, or the ValueError raised under `assert_single`. */
  function NodePorts(ports: seq<Port>, assertSingle: bool): (r: Result<Dict<string, seq<Port>>>)
    ensures r.Ok? ==> r.value == Group(ports)
    ensures r.Err? ==> r.error.ValueError?
  {
    var d := Group(ports);
    if assertSingle then
      match FirstMultiport(d.keys, d.vals)
      case Some(n) => Err(ValueError("node " + n + " has more than one port."))
      case None => Ok(d)
    else Ok(d)
  }

  /** Under `assert_single`, the grouping succeeds iff no two ports share a node. */
  lemma NodePortsSingle(ports: seq<Port>)
    ensures NodePorts(ports, true).Ok? <==> forall i, j :: 0 <= i < j < |ports| ==> ports[i].nodeUuid != ports[j].nodeUuid
  {
    var d := Group(ports);
    GroupMeaning(ports);
    GroupsNonEmpty(ports);
    if forall i, j :: 0 <= i < j < |ports| ==> ports[i].nodeUuid != ports[j].nodeUuid {
      forall k | k in d.keys ensures |d.vals[k]| == 1 {
        PortsOfAtMostOne(ports, k);
      }
    } else {
      var i, j :| 0 <= i < j < |ports| && ports[i].nodeUuid == ports[j].nodeUuid;
      PortsOfTwo(ports, i, j);
      assert ports[i].nodeUuid in d.vals;
    }
  }

  /** `ports_by_node`. */
  method PortsByNode(ports: seq<Port>, assertSingle: bool) returns (r: Result<Dict<string, seq<Port>>>)
    ensures r == NodePorts(ports, assertSingle)
  {
    var nodePorts: Dict<string, seq<Port>> := Empty();
    for i := 0 to |ports|
      invariant nodePorts == Group(ports[..i])
    {
      var port := ports[i];
      assert ports[..i + 1][..i] == ports[..i];
      var existing := if port.nodeUuid in nodePorts.vals then nodePorts.vals[port.nodeUuid] else [];
      nodePorts := Put(nodePorts, port.nodeUuid, existing + [port]);
    }
    assert ports[..|ports|] == ports;
    if assertSingle {
      for k := 0 to |nodePorts.keys|
        invariant FirstMultiport(nodePorts.keys, nodePorts.vals) == FirstMultiport(nodePorts.keys[k..], nodePorts.vals)
      {
        assert nodePorts.keys[k..][1..] == nodePorts.keys[k + 1..];
        var nodeId := nodePorts.keys[k];
        if |nodePorts.vals[nodeId]| != 1 {
          return Err(ValueError("node " + nodeId + " has more than one port."));
        }
      }
    }
    return Ok(nodePorts);
  }

  /** The ports `identify_dirty_ports` reports for the first `nodeIds`, in node order. */
  function Dirty(nodeIds: seq<string>, states: map<string, string>, iports: map<string, seq<Port>>): (r: seq<Port>)
    requires forall n :: n in nodeIds ==> n in states
    requires forall n :: n in iports ==> iports[n] != []
    ensures |r| <= |nodeIds|
  {
    if nodeIds == [] then []
    else
      var nid := nodeIds[|nodeIds| - 1];
      var rest := Dirty(nodeIds[..|nodeIds| - 1], states, iports);
      if states[nid] != "available" || nid !in iports || iports[nid][0].internalInfo == map[] then rest
      else rest + [iports[nid][0]]
  }

  /**
   * A port is reported iff it is the first port of a listed node that is `available`
   * and its `internal_info` is non-empty.
   */
  lemma {:induction false} DirtyMeaning(nodeIds: seq<string>, states: map<string, string>, iports: map<string, seq<Port>>)
    requires forall n :: n in nodeIds ==> n in states
    requires forall n :: n in iports ==> iports[n] != []
    ensures forall p :: p in Dirty(nodeIds, states, iports) <==>
      exists k :: 0 <= k < |nodeIds| && states[nodeIds[k]] == "available" && nodeIds[k] in iports &&
        iports[nodeIds[k]][0] == p && p.internalInfo != map[]
  {
    if nodeIds != [] {
      var init := nodeIds[..|nodeIds| - 1];
      DirtyMeaning(init, states, iports);
      assert forall k :: 0 <= k < |init| ==> init[k] == nodeIds[k];
    }
  }

  /**
   * `identify_dirty_ports` with the port and node listings as inputs; the node
   * dictionary maps each node id to its `provision_state`.
   */
  method IdentifyDirtyPorts(ports: seq<Port>, nodes: Dict<string, string>, assertSingle: bool)
    returns (r: Result<seq<Port>>)
    requires nodes.Valid()
    ensures NodePorts(ports, assertSingle).Err? ==> r == Err(NodePorts(ports, assertSingle).error)
    ensures NodePorts(ports, assertSingle).Ok? ==> GroupsAreNonEmpty(ports) && r == Ok(Dirty(nodes.keys, nodes.vals, Group(ports).vals))
  {
    var grouped := PortsByNode(ports, assertSingle);
    if grouped.Err? {
      return Err(grouped.error);
    }
    var iports := grouped.value;
    GroupsNonEmpty(ports);
    var badPorts := [];
    for k := 0 to |nodes.keys|
      invariant badPorts == Dirty(nodes.keys[..k], nodes.vals, iports.vals)
    {
      var nid := nodes.keys[k];
      assert nodes.keys[..k + 1][..k] == nodes.keys[..k];
      if nodes.vals[nid] != "available" {
        continue;
      }
      if nid !in iports.vals {
        continue;
      }
      var port := iports.vals[nid][0];
      if port.internalInfo == map[] {
        continue;
      }
      badPorts := badPorts + [port];
    }
    assert nodes.keys[..|nodes.keys|] == nodes.keys;
    return Ok(badPorts);
  }

  /** The groups of a listing are all non-empty (the fact `Dirty` needs). */
  ghost predicate GroupsAreNonEmpty(ports: seq<Port>)
  {
    forall n :: n in Group(ports).vals ==> Group(ports).vals[n] != []
  }

  /** The uuids of the ports, in order. */
  function Uuids(ports: seq<Port>): (r: seq<string>)
    ensures |r| == |ports|
    ensures forall i :: 0 <= i < |ports| ==> r[i] == ports[i].uuid
  {
    if ports == [] then [] else [ports[0].uuid] + Uuids(ports[1..])
  }

  /**
   * `clean_ports`: one UPDATE per port, each of which must report exactly one affected
   * row (`rowCounts[i]` is the count for `ports[i]`). Returns the uuids the UPDATEs were
   * issued for, and whether the transaction was committed; on the first other count the
   * AssertionError stops the loop before the commit.
   */
  method CleanPorts(ports: seq<Port>, rowCounts: seq<int>) returns (issued: seq<string>, r: Result<()>)
    requires |rowCounts| == |ports|
    ensures r.Ok? <==> forall i :: 0 <= i < |rowCounts| ==> rowCounts[i] == 1
    ensures r.Ok? ==> issued == Uuids(ports)
    ensures r.Err? ==> r.error == AssertionError && exists k :: (0 <= k < |ports| && rowCounts[k] != 1 &&
      (forall i :: 0 <= i < k ==> rowCounts[i] == 1) && issued == Uuids(ports[..k + 1]))
  {
    issued := [];
    for i := 0 to |ports|
      invariant issued == Uuids(ports[..i])
      invariant forall j :: 0 <= j < i ==> rowCounts[j] == 1
    {
      issued := issued + [ports[i].uuid];
      if rowCounts[i] != 1 {
        return issued, Err(AssertionError);
      }
    }
    assert ports[..|ports|] == ports;
    return issued, Ok(());
  }
}

=== FILE: floatingip_reaper.dfy ===
/**
 * Reclaiming idle floating IPs (hammers/scripts/floatingip_reaper.py): the idle rows
 * are grouped per project unless the project is whitelisted, and each collected IP is
 * deleted unless this is a dry run.
 */
module FloatingIpReaper {
  import opened Dicts

  /** A row of `query.idle_not_reserved_floating_ips`. */
  datatype IdleIp = IdleIp(projectId: string, floatingIpId: string)

  /** The `to_delete` dictionary after the given rows. */
  function Collect(rows: seq<IdleIp>, whitelist: set<string>): (r: Dict<string, seq<string>>)
    ensures r.Valid()
  {
    if rows == [] then Empty()
    else
      var d := Collect(rows[..|rows| - 1], whitelist);
      var obj := rows[|rows| - 1];
      if obj.projectId in whitelist then d
      else Put(d, obj.projectId, (if obj.projectId in d.vals then d.vals[obj.projectId] else []) + [obj.floatingIpId])
  }

  /** The ids of a project's rows, in query order. */
  function IdsOf(rows: seq<IdleIp>, project: string): (r: seq<string>)
    ensures |r| <= |rows|
  {
    if rows == [] then []
    else IdsOf(rows[..|rows| - 1], project) + (if rows[|rows| - 1].projectId == project then [rows[|rows| - 1].floatingIpId] else [])
  }

  /**
   * The keys are exactly the projects of non-whitelisted rows, and each holds the ids of
   * that project's rows in query order.
   */
  lemma {:induction false} CollectGroups(rows: seq<IdleIp>, whitelist: set<string>)
    ensures forall p :: p in Collect(rows, whitelist).vals <==> p !in whitelist && exists i :: 0 <= i < |rows| && rows[i].projectId == p
    ensures forall p :: p in Collect(rows, whitelist).vals ==> Collect(rows, whitelist).vals[p] == IdsOf(rows, p)
  {
    if rows != [] {
      var init := rows[..|rows| - 1];
      CollectGroups(init, whitelist);
      var obj := rows[|rows| - 1];
      var d := Collect(init, whitelist);
      var r := Collect(rows, whitelist);
      if obj.projectId in whitelist {
        assert r == d;
      } else {
        assert r.vals == d.vals[obj.projectId := (if obj.projectId in d.vals then d.vals[obj.projectId] else []) + [obj.floatingIpId]];
      }
      forall p ensures p in r.vals <==> p !in whitelist && exists i :: 0 <= i < |rows| && rows[i].projectId == p {
        if p != obj.projectId && exists i :: 0 <= i < |rows| && rows[i].projectId == p {
          var i :| 0 <= i < |rows| && rows[i].projectId == p;
          assert init[i] == rows[i];
        }
      }
      forall p | p in r.vals ensures r.vals[p] == IdsOf(rows, p) {
        if p == obj.projectId && p !in d.vals {
          IdsOfAbsent(init, p);
        }
      }
    }
  }

  lemma {:induction false} IdsOfAbsent(rows: seq<IdleIp>, p: string)
    requires forall i :: 0 <= i < |rows| ==> rows[i].projectId != p
    ensures IdsOf(rows, p) == []
  {
    if rows != [] {
      IdsOfAbsent(rows[..|rows| - 1], p);
    }
  }

  /** The values of `keys` in order, concatenated. */
  function Flatten(keys: seq<string>, vals: map<string, seq<string>>): seq<string>
    requires forall k :: k in keys ==> k in vals
  {
    if keys == [] then [] else vals[keys[0]] + Flatten(keys[1..], vals)
  }

  lemma {:induction false} FlattenAppendAt(keys: seq<string>, vals: map<string, seq<string>>, p: string, x: string)
    requires forall k :: k in keys ==> k in vals
    requires p in vals && forall i, j :: 0 <= i < j < |keys| ==> keys[i] != keys[j]
    ensures forall k :: k in keys ==> k in vals[p := vals[p] + [x]]
    ensures multiset(Flatten(keys, vals[p := vals[p] + [x]])) ==
      multiset(Flatten(keys, vals)) + (if p in keys then multiset{x} else multiset{})
  {
    if keys != [] {
      FlattenAppendAt(keys[1..], vals, p, x);
      assert forall i, j :: 0 <= i < j < |keys[1..]| ==> keys[1..][i] != keys[1..][j] by {
        forall i, j | 0 <= i < j < |keys[1..]| ensures keys[1..][i] != keys[1..][j] {
          assert keys[1..][i] == keys[i + 1] && keys[1..][j] == keys[j + 1];
        }
      }
      if keys[0] == p {
        assert p !in keys[1..];
      }
    }
  }

  lemma {:induction false} FlattenNewKey(keys: seq<string>, vals: map<string, seq<string>>, p: string, x: string)
    requires forall k :: k in keys ==> k in vals
    requires p !in keys
    ensures forall k :: k in keys + [p] ==> k in vals[p := [x]]
    ensures multiset(Flatten(keys + [p], vals[p := [x]])) == multiset(Flatten(keys, vals)) + multiset{x}
  {
    if keys == [] {
      assert ([] + [p])[1..] == [];
    } else {
      assert (keys + [p])[1..] == keys[1..] + [p];
      FlattenNewKey(keys[1..], vals, p, x);
    }
  }

  /** The ids of the rows outside the whitelist, in query order. */
  function Collectable(rows: seq<IdleIp>, whitelist: set<string>): seq<string>
  {
    if rows == [] then []
    else
      var last := rows[|rows| - 1];
      Collectable(rows[..|rows| - 1], whitelist) + (if last.projectId in whitelist then [] else [last.floatingIpId])
  }

  /** All the collected ids, project by project. */
  function AllIds(d: Dict<string, seq<string>>): seq<string>
    requires d.Valid()
  {
    Flatten(d.keys, d.vals)
  }

  lemma CollectStep(rows: seq<IdleIp>, whitelist: set<string>)
    requires rows != []
    ensures var obj := rows[|rows| - 1];
      multiset(AllIds(Collect(rows, whitelist))) ==
      multiset(AllIds(Collect(rows[..|rows| - 1], whitelist))) + (if obj.projectId in whitelist then multiset{} else multiset{obj.floatingIpId})
  {
    var d := Collect(rows[..|rows| - 1], whitelist);
    var obj := rows[|rows| - 1];
    var p, x := obj.projectId, obj.floatingIpId;
    if p !in whitelist {
      if p in d.vals {
        var e := Dict(d.keys, d.vals[p := d.vals[p] + [x]]);
        assert Collect(rows, whitelist) == e;
        FlattenAppendAt(d.keys, d.vals, p, x);
        assert AllIds(e) == Flatten(d.keys, d.vals[p := d.vals[p] + [x]]);
      } else {
        var e := Dict(d.keys + [p], d.vals[p := [x]]);
        assert [] + [x] == [x];
        assert Collect(rows, whitelist) == e;
        FlattenNewKey(d.keys, d.vals, p, x);
        assert AllIds(e) == Flatten(d.keys + [p], d.vals[p := [x]]);
      }
    }
  }

  /** Grouping loses and duplicates nothing: the groups hold exactly the non-whitelisted ids. */
  lemma {:induction false} CollectKeepsEveryId(rows: seq<IdleIp>, whitelist: set<string>)
    ensures multiset(AllIds(Collect(rows, whitelist))) == multiset(Collectable(rows, whitelist))
  {
    if rows != [] {
      var init := rows[..|rows| - 1];
      CollectKeepsEveryId(init, whitelist);
      CollectStep(rows, whitelist);
    }
  }

  /**
   * `reaper`: returns the collection and the ids handed to `floatingip_delete`, in the
   * order the loops issue them; a dry run deletes nothing.
   */
  method Reaper(idleIps: seq<IdleIp>, whitelist: set<string>, dryrun: bool)
    returns (toDelete: Dict<string, seq<string>>, deleted: seq<string>)
    ensures toDelete == Collect(idleIps, whitelist)
    ensures dryrun ==> deleted == []
    ensures !dryrun ==> deleted == Flatten(toDelete.keys, toDelete.vals)
  {
    toDelete := Empty();
    for i := 0 to |idleIps|
      invariant toDelete == Collect(idleIps[..i], whitelist)
    {
      var obj := idleIps[i];
      assert idleIps[..i + 1][..i] == idleIps[..i];
      if obj.projectId !in whitelist {
        var ipids := if obj.projectId in toDelete.vals then toDelete.vals[obj.projectId] else [];
        toDelete := Put(toDelete, obj.projectId, ipids + [obj.floatingIpId]);
      }
    }
    assert idleIps[..|idleIps|] == idleIps;
    deleted := Delete(toDelete, dryrun);
  }

  /** The deletion loops of `reaper`, project by project in insertion order. */
  method Delete(toDelete: Dict<string, seq<string>>, dryrun: bool) returns (deleted: seq<string>)
    requires toDelete.Valid()
    ensures dryrun ==> deleted == []
    ensures !dryrun ==> deleted == Flatten(toDelete.keys, toDelete.vals)
  {
    deleted := [];
    for k := 0 to |toDelete.keys|
      invariant !dryrun ==> deleted + Flatten(toDelete.keys[k..], toDelete.vals) == Flatten(toDelete.keys, toDelete.vals)
      invariant dryrun ==> deleted == []
    {
      var ipids := toDelete.vals[toDelete.keys[k]];
      FlattenFrom(toDelete.keys, toDelete.vals, k);
      deleted := DeleteIps(ipids, deleted, dryrun);
    }
  }

  lemma FlattenFrom(keys: seq<string>, vals: map<string, seq<string>>, k: nat)
    requires forall k :: k in keys ==> k in vals
    requires k < |keys|
    ensures Flatten(keys[k..], vals) == vals[keys[k]] + Flatten(keys[k + 1..], vals)
  {
    assert keys[k..][1..] == keys[k + 1..];
  }

  /** The inner loop of `reaper`: each id of one project is deleted in turn, unless this is a dry run. */
  method DeleteIps(ipids: seq<string>, deleted0: seq<string>, dryrun: bool) returns (deleted: seq<string>)
    ensures dryrun ==> deleted == deleted0
    ensures !dryrun ==> deleted == deleted0 + ipids
  {
    deleted := deleted0;
    for j := 0 to |ipids|
      invariant dryrun ==> deleted == deleted0
      invariant !dryrun ==> deleted == deleted0 + ipids[..j]
    {
      if !dryrun {
        deleted := deleted + [ipids[j]];
        assert ipids[..j + 1] == ipids[..j] + [ipids[j]];
      }
    }
    assert ipids[..|ipids|] == ipids;
  }

  /** `line.rstrip('\n')`: every trailing newline goes. */
  function RStripNewlines(line: string): (r: string)
    ensures r <= line
    ensures r == [] || r[|r| - 1] != '\n'
    ensures forall i :: |r| <= i < |line| ==> line[i] == '\n'
  {
    if line != [] && line[|line| - 1] == '\n' then RStripNewlines(line[..|line| - 1]) else line
  }

  /** The whitelist loaded from the lines of the file. */
  function Whitelist(lines: seq<string>): (r: set<string>)
    ensures forall w :: w in r <==> exists l :: l in lines && RStripNewlines(l) == w
  {
    set l | l in lines :: RStripNewlines(l)
  }
}

=== FILE: gpu_lease_stacking.dfy ===
/**
 * The GPU lease-stacking reaper (hammers/scripts/gpu_lease_stacking.py): the advanced
 * reservations on GPU nodes are grouped per user and per node, and a user with stacked
 * leases beyond the allowed one has them deleted.
 */
module GpuLeaseStacking {
  import opened Wrappers
  import opened Dicts
  import opened LeaseStacking

  /** A row of `get_gpu_advanced_reservations`, the user's e-mail already read from `user_extra`. */
  datatype Row = Row(userId: string, userName: string, email: string, nodeId: string, lease: StackLease)

  /** `GPUUser`: a user's leases per node and the leases queued for deletion. */
  class GpuUser {
    const userId: string
    const name: string
    const email: string
    var nodes: NodeLeases
    var leasesToDelete: seq<StackLease>

    ghost predicate Valid()
      reads this
    {
      nodes.Valid()
    }

    constructor(userId: string, name: string, email: string)
      ensures Valid()
      ensures this.userId == userId && this.name == name && this.email == email
      ensures nodes == Empty() && leasesToDelete == []
    {
      this.userId := userId;
      this.name := name;
      this.email := email;
      nodes := Empty();
      leasesToDelete := [];
    }

    /** `add_lease`: the node's list is created on first sight, then the lease is appended. */
    method AddLease(nodeId: string, lease: StackLease)
      requires Valid()
      modifies this
      ensures Valid()
      ensures nodes == Put(old(nodes), nodeId, ListOf(old(nodes), nodeId) + [lease])
      ensures leasesToDelete == old(leasesToDelete)
    {
      if nodeId !in nodes.vals {
        nodes := Put(nodes, nodeId, []);
      }
      nodes := Put(nodes, nodeId, nodes.vals[nodeId] + [lease]);
    }

    /** `sort_leases_by_date`: every node's list de-duplicated and sorted by start. */
    method SortLeasesByDate()
      requires Valid()
      modifies this
      ensures Valid()
      ensures nodes == SortedNodes(old(nodes)) && leasesToDelete == old(leasesToDelete)
    {
      nodes := SortEach(nodes);
    }

    /** `in_violation`: more than one lease is queued. */
    predicate InViolation()
      reads this
    {
      |leasesToDelete| > 1
    }

    /**
     * `check_leases_for_stacking`: after sorting, the stacked leases of each node past
     * the allowed one are appended to the queue, which is never cleared.
     */
    method CheckLeasesForStacking()
      requires Valid()
      modifies this
      ensures Valid()
      ensures nodes == SortedNodes(old(nodes))
      ensures leasesToDelete == old(leasesToDelete) + QueuedOver(nodes.keys, nodes.vals)
    {
      SortLeasesByDate();
      var queue := QueueEach(nodes);
      leasesToDelete := leasesToDelete + queue;
    }
  }

  /** The users in order of their first row: the iteration order of `gpu_users`. */
  function UserOrder(rows: seq<Row>): (r: seq<string>)
    ensures forall a, b :: 0 <= a < b < |r| ==> r[a] != r[b]
  {
    if rows == [] then []
    else
      var p := UserOrder(rows[..|rows| - 1]);
      var row := rows[|rows| - 1];
      if row.userId in p then p else p + [row.userId]
  }

  /** A user is listed iff one of the rows is theirs. */
  lemma {:induction false} UserOrderMeaning(rows: seq<Row>)
    ensures forall uid :: uid in UserOrder(rows) <==> exists row :: row in rows && row.userId == uid
  {
    if rows != [] {
      var init := rows[..|rows| - 1];
      UserOrderMeaning(init);
      assert forall x :: x in rows <==> x in init || x == rows[|rows| - 1];
    }
  }

  lemma UserOrderStep(rows: seq<Row>, i: nat)
    requires i < |rows|
    ensures UserOrder(rows[..i + 1]) ==
      if rows[i].userId in UserOrder(rows[..i]) then UserOrder(rows[..i]) else UserOrder(rows[..i]) + [rows[i].userId]
  {
    assert rows[..i + 1][..i] == rows[..i];
  }

  /** A user's nodes and leases after the given rows. */
  function UserNodes(rows: seq<Row>, uid: string): (r: NodeLeases)
    ensures r.Valid()
  {
    if rows == [] then Empty()
    else
      var p := UserNodes(rows[..|rows| - 1], uid);
      var row := rows[|rows| - 1];
      if row.userId == uid then Put(p, row.nodeId, ListOf(p, row.nodeId) + [row.lease]) else p
  }

  /** The leases of a user's rows on a node, in row order. */
  function LeasesOn(rows: seq<Row>, uid: string, node: string): seq<StackLease>
  {
    if rows == [] then []
    else
      var row := rows[|rows| - 1];
      LeasesOn(rows[..|rows| - 1], uid, node) + (if row.userId == uid && row.nodeId == node then [row.lease] else [])
  }

  /**
   * The grouping keeps every lease: a user's node is listed iff some row of the user is
   * on it, and its list is that user's leases on the node in row order.
   */
  lemma {:induction false} UserNodesMeaning(rows: seq<Row>, uid: string)
    ensures forall node :: node in UserNodes(rows, uid).vals <==> exists row :: row in rows && row.userId == uid && row.nodeId == node
    ensures forall node :: ListOf(UserNodes(rows, uid), node) == LeasesOn(rows, uid, node)
  {
    if rows != [] {
      var init := rows[..|rows| - 1];
      UserNodesMeaning(init, uid);
      assert forall row :: row in rows <==> row in init || row == rows[|rows| - 1];
    }
  }

  /** The leases a user ends up with in the queue. */
  function QueueOf(rows: seq<Row>, uid: string): seq<StackLease>
  {
    var d := SortedNodes(UserNodes(rows, uid));
    QueuedOver(d.keys, d.vals)
  }

  /** The queues of the listed users, by user. */
  function Queues(rows: seq<Row>, uids: seq<string>): (r: map<string, seq<StackLease>>)
    ensures r.Keys == set u | u in uids
  {
    map u | u in uids :: QueueOf(rows, u)
  }

  /** The leases deleted for the listed users: the queues of those in violation, in order. */
  function DeletedFrom(queues: map<string, seq<StackLease>>, uids: seq<string>): seq<StackLease>
  {
    if uids == [] then []
    else
      var u := uids[|uids| - 1];
      var q := if u in queues then queues[u] else [];
      DeletedFrom(queues, uids[..|uids| - 1]) + (if |q| > 1 then q else [])
  }

  /** The leases `gpu_stack_reaper` deletes for the rows. */
  function Deleted(rows: seq<Row>): seq<StackLease>
  {
    var order := UserOrder(rows);
    DeletedFrom(Queues(rows, order), order)
  }

  /**
   * A lease is deleted iff it is in the queue of a listed user in violation: every lease
   * of such a queue is deleted, and nothing else.
   */
  lemma {:induction false} DeletedFromMeaning(queues: map<string, seq<StackLease>>, uids: seq<string>)
    ensures forall x :: x in DeletedFrom(queues, uids) <==>
      exists uid :: uid in uids && uid in queues && |queues[uid]| > 1 && x in queues[uid]
  {
    if uids != [] {
      var init := uids[..|uids| - 1];
      DeletedFromMeaning(queues, init);
      assert forall u :: u in uids <==> u in init || u == uids[|uids| - 1];
    }
  }

  /**
   * A deleted lease was one of a violating user's rows: on one of that user's nodes,
   * among that node's stacked leases past the allowed one.
   */
  lemma DeletedMeaning(rows: seq<Row>, x: StackLease)
    requires x in Deleted(rows)
    ensures exists uid, node :: (|QueueOf(rows, uid)| > 1 && node in UserNodes(rows, uid).vals &&
      x in Queued(Stacked(SortDedup(LeasesOn(rows, uid, node)))))
  {
    var order := UserOrder(rows);
    var queues := Queues(rows, order);
    DeletedFromMeaning(queues, order);
    var uid :| uid in order && uid in queues && |queues[uid]| > 1 && x in queues[uid];
    assert queues[uid] == QueueOf(rows, uid);
    var d := SortedNodes(UserNodes(rows, uid));
    QueuedOverMeaning(d.keys, d.vals);
    var node :| node in d.keys && node in d.vals && x in Queued(Stacked(d.vals[node]));
    UserNodesMeaning(rows, uid);
    assert ListOf(UserNodes(rows, uid), node) == UserNodes(rows, uid).vals[node];
  }

  /** Nothing is deleted iff no listed user has more than one lease queued. */
  lemma {:induction false} NothingDeleted(queues: map<string, seq<StackLease>>, uids: seq<string>)
    ensures DeletedFrom(queues, uids) == [] <==> forall uid :: uid in uids && uid in queues ==> |queues[uid]| <= 1
  {
    if uids != [] {
      var init := uids[..|uids| - 1];
      NothingDeleted(queues, init);
      assert forall u :: u in uids <==> u in init || u == uids[|uids| - 1];
    }
  }

  lemma UserNodesStep(rows: seq<Row>, i: nat)
    requires i < |rows|
    ensures UserNodes(rows[..i + 1], rows[i].userId) ==
      Put(UserNodes(rows[..i], rows[i].userId), rows[i].nodeId, ListOf(UserNodes(rows[..i], rows[i].userId), rows[i].nodeId) + [rows[i].lease])
  {
    assert rows[..i + 1][..i] == rows[..i];
  }

  lemma UserNodesOther(rows: seq<Row>, i: nat, uid: string)
    requires i < |rows| && rows[i].userId != uid
    ensures UserNodes(rows[..i + 1], uid) == UserNodes(rows[..i], uid)
  {
    assert rows[..i + 1][..i] == rows[..i];
  }

  /** Each user object of `gpu_users` is stored under its own id, so distinct ids hold distinct objects. */
  ghost predicate Keyed(users: map<string, GpuUser>)
  {
    forall u :: u in users ==> users[u].userId == u
  }

  /** Each user object holds that user's nodes after the rows, and an empty queue. */
  ghost predicate Grouped(users: map<string, GpuUser>, rows: seq<Row>)
    reads set u | u in users :: users[u]
  {
    forall u :: u in users ==> users[u].nodes == UserNodes(rows, u) && users[u].leasesToDelete == []
  }

  /** The first sight of a user creates its object, with the name and e-mail of that row. */
  method Register(users: map<string, GpuUser>, row: Row) returns (r: map<string, GpuUser>)
    requires Keyed(users)
    ensures Keyed(r) && r.Keys == users.Keys + {row.userId}
    ensures forall u :: u in users ==> r[u] == users[u]
    ensures row.userId !in users ==> (fresh(r[row.userId]) && r[row.userId].name == row.userName &&
      r[row.userId].email == row.email && r[row.userId].nodes == Empty() && r[row.userId].leasesToDelete == [])
  {
    r := users;
    if row.userId !in r {
      var user := new GpuUser(row.userId, row.userName, row.email);
      r := r[row.userId := user];
    }
  }

  /** One row of the first loop of `gpu_stack_reaper`: its user registered, its lease added. */
  method AddRow(users: map<string, GpuUser>, rows: seq<Row>, i: nat) returns (r: map<string, GpuUser>)
    requires i < |rows| && Keyed(users) && Grouped(users, rows[..i])
    requires forall u :: u !in users ==> UserNodes(rows[..i], u) == Empty()
    modifies set u | u in users :: users[u]
    ensures r.Keys == users.Keys + {rows[i].userId}
    ensures forall u :: u in users ==> r[u] == users[u]
    ensures forall u :: u in r && u !in users ==> fresh(r[u])
    ensures Keyed(r) && Grouped(r, rows[..i + 1])
    ensures forall u :: u !in r ==> UserNodes(rows[..i + 1], u) == Empty()
  {
    var row := rows[i];
    r := Register(users, row);
    var user := r[row.userId];
    user.AddLease(row.nodeId, row.lease);
    UserNodesStep(rows, i);
    forall u | u in r
      ensures r[u].nodes == UserNodes(rows[..i + 1], u) && r[u].leasesToDelete == []
    {
      if u != row.userId {
        UserNodesOther(rows, i, u);
        assert u in users && r[u] == users[u] && r[u] != user;
      }
    }
    forall u | u !in r ensures UserNodes(rows[..i + 1], u) == Empty() {
      UserNodesOther(rows, i, u);
    }
  }

  /**
   * The first loop of `gpu_stack_reaper`: one user object per user, in order of first
   * sight, holding every lease of the user's rows.
   */
  method BuildUsers(rows: seq<Row>) returns (users: map<string, GpuUser>, order: seq<string>)
    ensures order == UserOrder(rows) && forall u :: u in users <==> u in order
    ensures forall u :: u in users ==> fresh(users[u])
    ensures Keyed(users) && Grouped(users, rows)
  {
    users := map[];
    order := [];
    for i := 0 to |rows|
      invariant order == UserOrder(rows[..i]) && forall u :: u in users <==> u in order
      invariant forall u :: u in users ==> fresh(users[u])
      invariant Keyed(users) && Grouped(users, rows[..i])
      invariant forall u :: u !in users ==> UserNodes(rows[..i], u) == Empty()
    {
      UserOrderStep(rows, i);
      if rows[i].userId !in users {
        order := order + [rows[i].userId];
      }
      users := AddRow(users, rows, i);
    }
    assert rows[..|rows|] == rows;
  }

  /** The users of `order` from position `i` on still hold their grouped nodes and an empty queue. */
  ghost predicate Unchecked(users: map<string, GpuUser>, order: seq<string>, rows: seq<Row>, i: nat)
    reads set u | u in users :: users[u]
  {
    forall j :: i <= j < |order| && order[j] in users ==>
      users[order[j]].nodes == UserNodes(rows, order[j]) && users[order[j]].leasesToDelete == []
  }

  /** The users of `order` before position `i` hold their final queues. */
  ghost predicate Checked(users: map<string, GpuUser>, order: seq<string>, rows: seq<Row>, i: nat)
    reads set u | u in users :: users[u]
  {
    forall j :: 0 <= j < i && j < |order| && order[j] in users ==> users[order[j]].leasesToDelete == QueueOf(rows, order[j])
  }

  /** One step of the second loop: the user at position `i` checks their leases. */
  method CheckOne(users: map<string, GpuUser>, order: seq<string>, ghost rows: seq<Row>, i: nat)
    requires Keyed(users) && i < |order| && order[i] in users
    requires forall a, b :: 0 <= a < b < |order| ==> order[a] != order[b]
    requires Checked(users, order, rows, i) && Unchecked(users, order, rows, i)
    modifies users[order[i]]
    ensures Checked(users, order, rows, i + 1) && Unchecked(users, order, rows, i + 1)
  {
    var user := users[order[i]];
    user.CheckLeasesForStacking();
    assert forall j :: 0 <= j < |order| && j != i && order[j] in users ==> users[order[j]] != user;
  }

  /** The second loop: every user checks their leases, once. */
  method CheckAll(users: map<string, GpuUser>, order: seq<string>, ghost rows: seq<Row>)
    requires Keyed(users) && Grouped(users, rows)
    requires (forall a, b :: 0 <= a < b < |order| ==> order[a] != order[b]) && forall u :: u in users <==> u in order
    modifies set u | u in users :: users[u]
    ensures forall u :: u in users ==> users[u].leasesToDelete == QueueOf(rows, u)
  {
    for i := 0 to |order|
      invariant Checked(users, order, rows, i) && Unchecked(users, order, rows, i)
    {
      CheckOne(users, order, rows, i);
    }
    forall u | u in users ensures users[u].leasesToDelete == QueueOf(rows, u) {
      var j :| 0 <= j < |order| && order[j] == u;
    }
  }

  lemma DeletedFromStep(queues: map<string, seq<StackLease>>, uids: seq<string>, i: nat)
    requires i < |uids| && uids[i] in queues
    ensures DeletedFrom(queues, uids[..i + 1]) ==
      DeletedFrom(queues, uids[..i]) + (if |queues[uids[i]]| > 1 then queues[uids[i]] else [])
  {
    assert uids[..i + 1][..i] == uids[..i];
  }

  /**
   * The delete loop of `gpu_stack_reaper` over the checked users: the queues of those in
   * violation, deleted and counted in user order.
   */
  method DeleteInViolation(users: map<string, GpuUser>, order: seq<string>, ghost queues: map<string, seq<StackLease>>)
    returns (count: int, deleted: seq<string>)
    requires forall j :: 0 <= j < |order| ==> order[j] in users && order[j] in queues && users[order[j]].leasesToDelete == queues[order[j]]
    ensures deleted == LeaseIds(DeletedFrom(queues, order)) && count == |DeletedFrom(queues, order)|
  {
    count := 0;
    deleted := [];
    for i := 0 to |order|
      invariant deleted == LeaseIds(DeletedFrom(queues, order[..i]))
      invariant count == |DeletedFrom(queues, order[..i])|
    {
      DeletedFromStep(queues, order, i);
      var user := users[order[i]];
      if user.InViolation() {
        count := count + |user.leasesToDelete|;
        LeaseIdsAppend(DeletedFrom(queues, order[..i]), user.leasesToDelete);
        deleted := deleted + LeaseIds(user.leasesToDelete);
      } else {
        assert DeletedFrom(queues, order[..i]) + [] == DeletedFrom(queues, order[..i]);
      }
    }
    assert order[..|order|] == order;
  }

  /**
   * The delete loop as written: the first user in violation reaches
   * `delete_stacked_leases` without its `auth` argument.
   */
  method DeleteInViolationAsWritten(users: map<string, GpuUser>, order: seq<string>, ghost queues: map<string, seq<StackLease>>)
    returns (r: Result<int>)
    requires forall j :: 0 <= j < |order| ==> order[j] in users && order[j] in queues && users[order[j]].leasesToDelete == queues[order[j]]
    ensures r == if DeletedFrom(queues, order) == [] then Ok(0) else Err(TypeError("delete_stacked_leases"))
  {
    var count := 0;
    for i := 0 to |order|
      invariant DeletedFrom(queues, order[..i]) == []
    {
      DeletedFromStep(queues, order, i);
      var user := users[order[i]];
      if user.InViolation() {
        count := count + |user.leasesToDelete|;
        NothingDeleted(queues, order);
        assert order[i] in order;
        return Err(TypeError("delete_stacked_leases"));
      }
    }
    assert order[..|order|] == order;
    return Ok(0);
  }

  /**
   * `gpu_stack_reaper` as written: `delete_stacked_leases` is called without its `auth`
   * argument, so the delete mode raises a TypeError at the first user in violation.
   */
  method GpuStackReaperAsWritten(rows: seq<Row>, describe: bool) returns (r: Result<int>)
    ensures describe ==> r == Ok(0)
    ensures !describe ==> r == if Deleted(rows) == [] then Ok(0) else Err(TypeError("delete_stacked_leases"))
  {
    var users, order := BuildUsers(rows);
    CheckAll(users, order, rows);
    if describe {
      return Ok(0);
    }
    ghost var queues := Queues(rows, order);
    r := DeleteInViolationAsWritten(users, order, queues);
  }

  /**
   * `gpu_stack_reaper` with the credentials passed on: in describe mode nothing is
   * deleted and 0 is returned; otherwise the queued leases of every user in violation
   * are deleted, in user order, and counted. The deletions are the lease ids returned.
   */
  method GpuStackReaper(rows: seq<Row>, describe: bool) returns (count: int, deleted: seq<string>)
    ensures describe ==> count == 0 && deleted == []
    ensures !describe ==> deleted == LeaseIds(Deleted(rows)) && count == |Deleted(rows)|
  {
    LeaseIdsMeaning(Deleted(rows));
    var users, order := BuildUsers(rows);
    CheckAll(users, order, rows);
    if describe {
      return 0, [];
    }
    ghost var queues := Queues(rows, order);
    count, deleted := DeleteInViolation(users, order, queues);
  }
}

=== FILE: k8s_calico.dfy ===
/**
 * Clearing the Calico IPv4 annotation of offline Kubernetes nodes
 * (hammers/scripts/k8s_calico_ip_cleanup.py). The cluster is the list of node records
 * the API server holds; a failing `replace_node` is a parameter.
 */
module K8sCalico {
  import opened Wrappers

  const CalicoKey := "projectcalico.org/IPv4Address"
  const UnreachableTaint := "node.kubernetes.io/unreachable"

  datatype Condition = Condition(condType: string, status: string)
  datatype Taint = Taint(effect: string, key: string)

  /** A node record; conditions, taints and annotations may be absent (`None` in the API's objects). */
  datatype KNode = KNode(name: string, conditions: Option<seq<Condition>>, taints: Option<seq<Taint>>,
                         annotations: Option<map<string, string>>)

  /** No `Ready` condition reports `"True"`. */
  predicate NotReady(conds: seq<Condition>)
  {
    forall c :: c in conds && c.condType == "Ready" ==> c.status != "True"
  }

  predicate HasTaint(taints: seq<Taint>, effect: string)
  {
    exists t :: t in taints && t.effect == effect && t.key == UnreachableTaint
  }

  /**
   * The filter of `get_offline_nodes` for one node: conditions present and none Ready,
   * then both unreachable taints. Reaching the taints of a node that has none raises.
   */
  function Offline(n: KNode): (r: Result<bool>)
    ensures r.Err? <==> n.conditions.Some? && NotReady(n.conditions.value) && n.taints.None?
    ensures r == Ok(true) <==>
      n.conditions.Some? && NotReady(n.conditions.value) && n.taints.Some? &&
      HasTaint(n.taints.value, "NoExecute") && HasTaint(n.taints.value, "NoSchedule")
  {
    if n.conditions.None? || !NotReady(n.conditions.value) then Ok(false)
    else if n.taints.None? then Err(TypeError("'NoneType' object is not iterable"))
    else Ok(HasTaint(n.taints.value, "NoExecute") && HasTaint(n.taints.value, "NoSchedule"))
  }

  /** The comprehension over the listed nodes; the first raising node aborts it. */
  function OfflineNames(nodes: seq<KNode>): (r: Result<seq<string>>)
    ensures r.Err? <==> exists n :: n in nodes && Offline(n).Err?
    ensures r.Ok? ==> forall name :: name in r.value <==> exists n :: n in nodes && n.name == name && Offline(n) == Ok(true)
  {
    if nodes == [] then Ok([])
    else match Offline(nodes[0])
      case Err(e) => Err(e)
      case Ok(off) =>
        match OfflineNames(nodes[1..])
        case Err(e) => Err(e)
        case Ok(rest) => Ok(if off then [nodes[0].name] + rest else rest)
  }

  /**
   * `get_offline_nodes`: the names of the offline nodes in listing order; any exception,
   * a failed listing (`None`) included, is reported and yields no nodes.
   */
  function GetOfflineNodes(listing: Option<seq<KNode>>): (r: seq<string>)
    ensures listing.None? ==> r == []
    ensures listing.Some? && (exists n :: n in listing.value && Offline(n).Err?) ==> r == []
    ensures listing.Some? && OfflineNames(listing.value).Ok? ==> r == OfflineNames(listing.value).value
  {
    match listing
    case None => []
    case Some(nodes) => match OfflineNames(nodes) case Err(_) => [] case Ok(names) => names
  }

  /** A node whose annotation `clear_calico_ipv4_annotation` would remove. */
  predicate Clearable(n: KNode)
  {
    n.annotations.Some? && CalicoKey in n.annotations.value
  }

  function Cleared(n: KNode): (r: KNode)
    requires Clearable(n)
    ensures r.annotations.Some? && CalicoKey !in r.annotations.value
    ensures r.annotations.value == n.annotations.value - {CalicoKey}
    ensures r.name == n.name && r.conditions == n.conditions && r.taints == n.taints
  {
    n.(annotations := Some(n.annotations.value - {CalicoKey}))
  }

  /** How a clearing attempt ended; errors are printed, never raised. */
  datatype ClearOutcome = ClearedAnnotation | NothingToClear | ClearError

  /** The API server's nodes. */
  class Cluster {
    var nodes: seq<KNode>

    predicate Valid()
      reads this
    {
      forall i, j :: 0 <= i < j < |nodes| ==> nodes[i].name != nodes[j].name
    }

    constructor (nodes: seq<KNode>)
      requires forall i, j :: 0 <= i < j < |nodes| ==> nodes[i].name != nodes[j].name
      ensures this.nodes == nodes && Valid()
    {
      this.nodes := nodes;
    }

    /**
     * `clear_calico_ipv4_annotation(name)`: reads the node, deletes the annotation and
     * replaces the node. A node that cannot be read, has no annotations at all or whose
     * replacement fails is an error; every other node of the cluster stays as it was.
     */
    method ClearCalicoIpv4Annotation(name: string, replaceFails: bool) returns (outcome: ClearOutcome)
      requires Valid()
      modifies this
      ensures Valid() && |nodes| == |old(nodes)|
      ensures forall i :: 0 <= i < |nodes| ==>
        nodes[i] == if old(nodes)[i].name == name && Clearable(old(nodes)[i]) && !replaceFails
          then Cleared(old(nodes)[i]) else old(nodes)[i]
      ensures outcome == ClearedAnnotation <==> exists i :: 0 <= i < |old(nodes)| && old(nodes)[i].name == name && Clearable(old(nodes)[i]) && !replaceFails
      ensures (forall i :: 0 <= i < |old(nodes)| ==> old(nodes)[i].name != name) ==> outcome == ClearError
    {
      var j := 0;
      while j < |nodes| && nodes[j].name != name
        invariant 0 <= j <= |nodes|
        invariant forall i :: 0 <= i < j ==> nodes[i].name != name
      {
        j := j + 1;
      }
      if j == |nodes| {
        return ClearError;
      }
      var node := nodes[j];
      if node.annotations.None? {
        return ClearError;
      }
      if CalicoKey !in node.annotations.value {
        return NothingToClear;
      }
      if replaceFails {
        return ClearError;
      }
      nodes := nodes[j := Cleared(node)];
      return ClearedAnnotation;
    }

    /**
     * `main`: every node reported offline has its annotation cleared, unless this is a
     * dry run, which changes nothing. `replaceFails` names the nodes whose replacement
     * the server rejects.
     */
    method CleanupOffline(dryRun: bool, replaceFails: set<string>)
      requires Valid()
      modifies this
      ensures Valid() && |nodes| == |old(nodes)|
      ensures dryRun ==> nodes == old(nodes)
      ensures !dryRun ==> forall i :: 0 <= i < |nodes| ==>
        nodes[i] == if old(nodes)[i].name in GetOfflineNodes(Some(old(nodes))) && Clearable(old(nodes)[i]) && old(nodes)[i].name !in replaceFails
          then Cleared(old(nodes)[i]) else old(nodes)[i]
    {
      var offline := GetOfflineNodes(Some(nodes));
      if dryRun {
        return;
      }
      var k := 0;
      while k < |offline|
        invariant 0 <= k <= |offline|
        invariant Valid() && |nodes| == |old(nodes)|
        invariant forall i :: 0 <= i < |nodes| ==>
          nodes[i] == if old(nodes)[i].name in offline[..k] && Clearable(old(nodes)[i]) && old(nodes)[i].name !in replaceFails
            then Cleared(old(nodes)[i]) else old(nodes)[i]
      {
        var _ := ClearCalicoIpv4Annotation(offline[k], offline[k] in replaceFails);
        k := k + 1;
      }
      assert offline[..k] == offline;
    }
  }
}

=== FILE: lease_stack_notifier.dfy ===
/**
 * `lease_stack_notifier`: hosts shared between leases, leases gathered into projects, and
 * the two policies checked per project: lease stacking (how much of the period ahead a
 * node type is covered by the project's leases) and hogging of high-end node types.
 * Times are whole seconds; `now` stands for `DATETIME_NOW`, captured once when the script
 * starts, and percentages are exact reals.
 */
module LeaseStackNotifier {
  import opened Wrappers
  import opened Strs
  import opened Dicts

  const SecondsInDay := 86400

  function Max(a: int, b: int): int { if a >= b then a else b }
  function Min(a: int, b: int): int { if a <= b then a else b }

  /** A `defaultdict` read: the stored value, or the default for a missing key. */
  function GetOr<K, V>(m: map<K, V>, k: K, default: V): V
  {
    if k in m then m[k] else default
  }

  /** What is left of a lease from `now` on. */
  function Remaining(start: int, end: int, now: int): int
  {
    end - Max(start, now)
  }

  /**
   * `calculate_overlap_percentage`: the part of lease 1's remaining time that lease 2
   * also covers, in percent; 0 when the two do not overlap after `now`.
   */
  function OverlapPercentage(start1: int, end1: int, start2: int, end2: int, now: int): real
  {
    var start := Max(Max(start1, start2), now);
    var end := Min(end1, end2);
    if start >= end then 0.0
    else (end - start) as real / Remaining(start1, end1, now) as real * 100.0
  }

  /** The overlap is 0 exactly when the later start (or `now`) is not before the earlier end. */
  lemma OverlapNone(start1: int, end1: int, start2: int, end2: int, now: int)
    ensures OverlapPercentage(start1, end1, start2, end2, now) == 0.0 <==>
      Max(Max(start1, start2), now) >= Min(end1, end2)
  {
    var start := Max(Max(start1, start2), now);
    var end := Min(end1, end2);
    if start < end {
      var a := (end - start) as real;
      var b := Remaining(start1, end1, now) as real;
      assert a / b > 0.0;
    }
  }

  /** The overlap is a percentage: never negative, never above 100. */
  lemma OverlapBounds(start1: int, end1: int, start2: int, end2: int, now: int)
    ensures 0.0 <= OverlapPercentage(start1, end1, start2, end2, now) <= 100.0
  {
    var start := Max(Max(start1, start2), now);
    var end := Min(end1, end2);
    if start < end {
      var a := (end - start) as real;
      var b := Remaining(start1, end1, now) as real;
      assert 0.0 < a <= b;
      assert a / b <= 1.0;
    }
  }

  /**
   * The overlap is measured against each lease's own remaining time, so the two
   * percentages differ, but each times its lease's remaining time is the same.
   */
  lemma OverlapScaled(start1: int, end1: int, start2: int, end2: int, now: int)
    ensures OverlapPercentage(start1, end1, start2, end2, now) * Remaining(start1, end1, now) as real ==
      OverlapPercentage(start2, end2, start1, end1, now) * Remaining(start2, end2, now) as real
  {
    var start := Max(Max(start1, start2), now);
    var end := Min(end1, end2);
    assert Max(Max(start2, start1), now) == start && Min(end2, end1) == end;
    if start < end {
      var a := (end - start) as real;
      var b1 := Remaining(start1, end1, now) as real;
      var b2 := Remaining(start2, end2, now) as real;
      assert a / b1 * 100.0 * b1 == a * 100.0;
      assert a / b2 * 100.0 * b2 == a * 100.0;
    }
  }

  /**
   * The overlap is not symmetric: a lease begun 100 days ago and ending in 6 days is fully
   * covered by one running from now for 7 days, which it covers for less than 90%.
   */
  lemma OverlapAsymmetric()
    ensures OverlapPercentage(-100 * SecondsInDay, 6 * SecondsInDay, 0, 7 * SecondsInDay, 0) == 100.0
    ensures OverlapPercentage(0, 7 * SecondsInDay, -100 * SecondsInDay, 6 * SecondsInDay, 0) < 90.0
  {
    assert (6 * SecondsInDay) as real / (7 * SecondsInDay) as real == 6.0 / 7.0;
  }

  /** `Host.is_high_end`, on the node type: GPU, storage and FPGA nodes, in any letter case. */
  predicate HighEnd(nodeType: string)
  {
    var t := Lower(nodeType);
    Contains(t, "gpu") || Contains(t, "storage") || Contains(t, "fpga")
  }

  /** Letter case does not matter to `is_high_end`. */
  lemma HighEndIgnoresCase(nodeType: string)
    ensures HighEnd(Lower(nodeType)) == HighEnd(nodeType)
  {
    LowerIdempotent(nodeType);
  }

  /** A type naming one of the three kinds anywhere in it is high-end. */
  lemma {:induction false} HighEndInside(prefix: string, kind: string, suffix: string)
    requires kind in {"gpu", "storage", "fpga"}
    ensures HighEnd(Lower(prefix) + kind + Lower(suffix))
  {
    var t := Lower(prefix) + kind + Lower(suffix);
    LowerIdempotent(prefix);
    LowerIdempotent(suffix);
    LowerAppend(Lower(prefix), kind + Lower(suffix));
    LowerAppend(kind, Lower(suffix));
    assert Lower(kind) == kind;
    assert Lower(t) == t;
    ContainsAfter(Lower(prefix), kind, Lower(suffix));
  }

  lemma {:induction false} LowerAppend(a: string, b: string)
    ensures Lower(a + b) == Lower(a) + Lower(b)
  {
  }

  lemma {:induction false} ContainsAfter(prefix: string, kind: string, suffix: string)
    ensures Contains(prefix + kind + suffix, kind)
    decreases |prefix|
  {
    if prefix == [] {
      assert kind <= prefix + kind + suffix;
    } else {
      assert (prefix + kind + suffix)[1..] == prefix[1..] + kind + suffix;
      ContainsAfter(prefix[1..], kind, suffix);
    }
  }

  /** A host, shared by every lease it is allocated to. */
  class Host {
    const hostId: string
    const nodeType: string
    /** Whether the host's time counts towards its node type's coverage. */
    var calculateCoverage: bool

    constructor (hostId: string, nodeType: string)
      ensures this.hostId == hostId && this.nodeType == nodeType && calculateCoverage
    {
      this.hostId := hostId;
      this.nodeType := nodeType;
      calculateCoverage := true;
    }

    predicate IsHighEnd()
    {
      HighEnd(nodeType)
    }
  }

  /** The node types of some hosts. */
  function TypesOf(hosts: seq<Host>): set<string>
  {
    set h | h in hosts :: h.nodeType
  }

  /** A lease, with the hosts allocated to it so far. */
  class Lease {
    const leaseId: string
    const start: int
    const end: int
    const status: string
    const projectId: string
    var hosts: seq<Host>
    var nodeTypes: set<string>

    /** `node_types` is the set of the hosts' node types. */
    predicate Valid()
      reads this
    {
      nodeTypes == TypesOf(hosts)
    }

    constructor (leaseId: string, start: int, end: int, status: string, projectId: string)
      ensures this.leaseId == leaseId && this.start == start && this.end == end
      ensures this.status == status && this.projectId == projectId
      ensures Valid() && hosts == []
    {
      this.leaseId := leaseId;
      this.start := start;
      this.end := end;
      this.status := status;
      this.projectId := projectId;
      hosts := [];
      nodeTypes := {};
    }

    /**
     * `add_host`: the host is appended and its node type recorded; a second host of a
     * type the lease already holds stops counting towards coverage.
     */
    method AddHost(host: Host)
      requires Valid()
      modifies this, host
      ensures Valid()
      ensures hosts == old(hosts) + [host] && nodeTypes == old(nodeTypes) + {host.nodeType}
      ensures host.calculateCoverage == (old(host.calculateCoverage) && host.nodeType !in old(nodeTypes))
    {
      hosts := hosts + [host];
      if host.nodeType in nodeTypes {
        host.calculateCoverage := false;
      }
      nodeTypes := nodeTypes + {host.nodeType};
    }
  }

  /**
   * `does_host_overlap_with_lease`: the other lease holds the host's node type and covers
   * at least 90% of what is left of the host's lease.
   */
  predicate DoesHostOverlapWithLease(host: Host, hostLease: Lease, other: Lease, now: int)
    reads other
  {
    host.nodeType in other.nodeTypes &&
    OverlapPercentage(hostLease.start, hostLease.end, other.start, other.end, now) >= 90.0
  }

  /** The hosts of `hosts` that are the first of their node type there, on a type not in `known`. */
  function NewTypeHosts(hosts: seq<Host>, n: nat, known: set<string>): set<Host>
    requires n <= |hosts|
  {
    set i | 0 <= i < n && hosts[i].nodeType !in known && hosts[i].nodeType !in TypesOf(hosts[..i]) :: hosts[i]
  }

  /**
   * The furthest ends after the first `n` hosts of a lease ending at `date`: each host's
   * node type raised to at least `date`, from `default` when it had none.
   */
  function Raised(m: map<string, int>, hosts: seq<Host>, n: nat, date: int, default: int): map<string, int>
    requires n <= |hosts|
  {
    if n == 0 then m
    else
      var r := Raised(m, hosts, n - 1, date, default);
      var t := hosts[n - 1].nodeType;
      r[t := Max(GetOr(r, t, default), date)]
  }

  /**
   * The starts after the first `n` hosts of a lease starting at `date`: each host's node
   * type lowered to at most `date`, from `default` when it had none.
   */
  function Lowered(m: map<string, int>, hosts: seq<Host>, n: nat, date: int, default: int): map<string, int>
    requires n <= |hosts|
  {
    if n == 0 then m
    else
      var r := Lowered(m, hosts, n - 1, date, default);
      var t := hosts[n - 1].nodeType;
      r[t := Min(GetOr(r, t, default), date)]
  }

  /**
   * Adding a lease to a project raises the furthest end of each of its hosts' node types
   * to max(old or default, lease end) and leaves the other node types alone.
   */
  lemma {:induction false} RaisedMeaning(m: map<string, int>, hosts: seq<Host>, n: nat, date: int, default: int)
    requires n <= |hosts|
    ensures forall t :: t in Raised(m, hosts, n, date, default) <==> t in m || t in TypesOf(hosts[..n])
    ensures forall t :: t in TypesOf(hosts[..n]) ==> Raised(m, hosts, n, date, default)[t] == Max(GetOr(m, t, default), date)
    ensures forall t :: t in m && t !in TypesOf(hosts[..n]) ==> Raised(m, hosts, n, date, default)[t] == m[t]
  {
    if n > 0 {
      RaisedMeaning(m, hosts, n - 1, date, default);
      TypesOfStep(hosts, n - 1);
    }
  }

  /**
   * Adding a lease to a project lowers the start of each of its hosts' node types to
   * min(old or default, lease start) and leaves the other node types alone.
   */
  lemma {:induction false} LoweredMeaning(m: map<string, int>, hosts: seq<Host>, n: nat, date: int, default: int)
    requires n <= |hosts|
    ensures forall t :: t in Lowered(m, hosts, n, date, default) <==> t in m || t in TypesOf(hosts[..n])
    ensures forall t :: t in TypesOf(hosts[..n]) ==> Lowered(m, hosts, n, date, default)[t] == Min(GetOr(m, t, default), date)
    ensures forall t :: t in m && t !in TypesOf(hosts[..n]) ==> Lowered(m, hosts, n, date, default)[t] == m[t]
  {
    if n > 0 {
      LoweredMeaning(m, hosts, n - 1, date, default);
      TypesOfStep(hosts, n - 1);
    }
  }

  lemma TypesOfStep(hosts: seq<Host>, k: nat)
    requires k < |hosts|
    ensures TypesOf(hosts[..k + 1]) == TypesOf(hosts[..k]) + {hosts[k].nodeType}
  {
    assert hosts[..k + 1] == hosts[..k] + [hosts[k]];
  }

  lemma NewTypeHostsStep(hosts: seq<Host>, k: nat, known: set<string>)
    requires k < |hosts|
    ensures NewTypeHosts(hosts, k + 1, known) == NewTypeHosts(hosts, k, known) +
      (if hosts[k].nodeType !in known && hosts[k].nodeType !in TypesOf(hosts[..k]) then {hosts[k]} else {})
  {
  }

  /** The node types seen after some hosts are the known ones and those of the hosts. */
  lemma {:induction false} RaisedKeys(m: map<string, int>, hosts: seq<Host>, k: nat, date: int, default: int)
    requires k < |hosts|
    ensures hosts[k].nodeType in Raised(m, hosts, k, date, default) <==>
      hosts[k].nodeType in m || hosts[k].nodeType in TypesOf(hosts[..k])
  {
    RaisedMeaning(m, hosts, k, date, default);
  }

  /** One lease/host pair as the coverage and hogging loops see it. */
  datatype Slot = Slot(nodeType: string, start: int, end: int, counted: bool)

  /** The pair of a lease with its `j`th host. */
  function HostSlot(lease: Lease, j: nat): Slot
    requires j < |lease.hosts|
    reads lease, lease.hosts[j]
  {
    Slot(lease.hosts[j].nodeType, lease.start, lease.end, lease.hosts[j].calculateCoverage)
  }

  /** The seconds a pair covers from `now` on. */
  function SecondsCovered(s: Slot, now: int): int
  {
    s.end - Max(now, s.start)
  }

  /** One pair of the coverage loop: a counted pair adds its seconds to its node type. */
  function CoverageStep(d: Dict<string, int>, s: Slot, now: int): (r: Dict<string, int>)
    requires d.Valid()
    ensures r.Valid()
  {
    if !s.counted then d else Put(d, s.nodeType, GetOr(d.vals, s.nodeType, 0) + SecondsCovered(s, now))
  }

  /** A pair's lease ends between `now` and the end of the window ahead, both included. */
  predicate EndsWithin(s: Slot, now: int, window: int)
  {
    now <= s.end <= now + window
  }

  /** One pair of the hogging count: a pair ending within the window adds one to its node type. */
  function ReservedStep(d: Dict<string, int>, s: Slot, now: int, window: int): (r: Dict<string, int>)
    requires d.Valid()
    ensures r.Valid()
  {
    if EndsWithin(s, now, window) then Put(d, s.nodeType, GetOr(d.vals, s.nodeType, 0) + 1) else d
  }

  /** Whether the `k`th host of a lease counts towards the coverage of node type `t`. */
  predicate CountsFor(lease: Lease, k: nat, t: string)
    requires k < |lease.hosts|
    reads lease, lease.hosts[k]
  {
    lease.hosts[k].calculateCoverage && lease.hosts[k].nodeType == t
  }

  /** Whether the `k`th host of a lease is of node type `t` and the lease ends within the window. */
  predicate ReservedFor(lease: Lease, k: nat, t: string, now: int, window: int)
    requires k < |lease.hosts|
    reads lease, lease.hosts[k]
  {
    lease.hosts[k].nodeType == t && now <= lease.end <= now + window
  }

  /** The coverage loop after the first `j` hosts of a lease, from `d`. */
  function LeaseCoverage(d: Dict<string, int>, lease: Lease, j: nat, now: int): (r: Dict<string, int>)
    requires d.Valid() && j <= |lease.hosts|
    reads lease, set h | h in lease.hosts
    ensures r.Valid()
  {
    if j == 0 then d else CoverageStep(LeaseCoverage(d, lease, j - 1, now), HostSlot(lease, j - 1), now)
  }

  /** `get_coverage_by_node_type` after the first `i` leases: seconds covered per node type. */
  function ProjectCoverage(leases: seq<Lease>, i: nat, now: int): (r: Dict<string, int>)
    requires i <= |leases|
    reads set l | l in leases, set l, h | l in leases && h in l.hosts :: h
    ensures r.Valid()
  {
    if i == 0 then Empty() else LeaseCoverage(ProjectCoverage(leases, i - 1, now), leases[i - 1], |leases[i - 1].hosts|, now)
  }

  /** The seconds the first `j` hosts of a lease cover on node type `t`, counted hosts only. */
  function LeaseCoveredOn(lease: Lease, j: nat, t: string, now: int): int
    requires j <= |lease.hosts|
    reads lease, set h | h in lease.hosts
  {
    if j == 0 then 0
    else LeaseCoveredOn(lease, j - 1, t, now) + (if CountsFor(lease, j - 1, t) then lease.end - Max(now, lease.start) else 0)
  }

  /** The seconds the first `i` leases cover on node type `t`, summed over their counted hosts. */
  function CoveredOn(leases: seq<Lease>, i: nat, t: string, now: int): int
    requires i <= |leases|
    reads set l | l in leases, set l, h | l in leases && h in l.hosts :: h
  {
    if i == 0 then 0 else CoveredOn(leases, i - 1, t, now) + LeaseCoveredOn(leases[i - 1], |leases[i - 1].hosts|, t, now)
  }

  /** Over the hosts of one lease, the coverage loop adds to a node type the seconds its counted hosts cover. */
  lemma {:induction false} LeaseCoverageSums(d: Dict<string, int>, lease: Lease, j: nat, now: int, t: string)
    requires d.Valid() && j <= |lease.hosts|
    ensures GetOr(LeaseCoverage(d, lease, j, now).vals, t, 0) == GetOr(d.vals, t, 0) + LeaseCoveredOn(lease, j, t, now)
  {
    if j > 0 {
      LeaseCoverageSums(d, lease, j - 1, now, t);
    }
  }

  /** Over the hosts of one lease, the coverage loop creates a node type's entry iff one of its hosts counts. */
  lemma {:induction false} LeaseCoverageKeys(d: Dict<string, int>, lease: Lease, j: nat, now: int, t: string)
    requires d.Valid() && j <= |lease.hosts|
    ensures t in LeaseCoverage(d, lease, j, now).vals <==> t in d.vals || exists k :: 0 <= k < j && CountsFor(lease, k, t)
  {
    if j > 0 {
      LeaseCoverageKeys(d, lease, j - 1, now, t);
      if CountsFor(lease, j - 1, t) {
        assert t in LeaseCoverage(d, lease, j, now).vals;
      }
    }
  }

  /** A node type's coverage entry, read with default 0, is the sum of the seconds its counted hosts cover from `now` on. */
  lemma {:induction false} CoverageSums(leases: seq<Lease>, i: nat, now: int, t: string)
    requires i <= |leases|
    ensures GetOr(ProjectCoverage(leases, i, now).vals, t, 0) == CoveredOn(leases, i, t, now)
  {
    if i > 0 {
      CoverageSums(leases, i - 1, now, t);
      LeaseCoverageSums(ProjectCoverage(leases, i - 1, now), leases[i - 1], |leases[i - 1].hosts|, now, t);
    }
  }

  /** A node type has a coverage entry iff one of the project's hosts of that type counts. */
  lemma {:induction false} CoverageKeys(leases: seq<Lease>, i: nat, now: int, t: string)
    requires i <= |leases|
    ensures t in ProjectCoverage(leases, i, now).vals <==>
      exists l, k :: 0 <= l < i && 0 <= k < |leases[l].hosts| && CountsFor(leases[l], k, t)
  {
    if i > 0 {
      var lease := leases[i - 1];
      var before := ProjectCoverage(leases, i - 1, now);
      CoverageKeys(leases, i - 1, now, t);
      LeaseCoverageKeys(before, lease, |lease.hosts|, now, t);
      if t !in before.vals && exists k :: 0 <= k < |lease.hosts| && CountsFor(lease, k, t) {
        var k :| 0 <= k < |lease.hosts| && CountsFor(lease, k, t);
        assert 0 <= i - 1 < i && 0 <= k < |leases[i - 1].hosts| && CountsFor(leases[i - 1], k, t);
      }
    }
  }

  /** The hogging count after the first `j` hosts of a lease, from `d`. */
  function LeaseReserved(d: Dict<string, int>, lease: Lease, j: nat, now: int, window: int): (r: Dict<string, int>)
    requires d.Valid() && j <= |lease.hosts|
    reads lease, set h | h in lease.hosts
    ensures r.Valid()
  {
    if j == 0 then d else ReservedStep(LeaseReserved(d, lease, j - 1, now, window), HostSlot(lease, j - 1), now, window)
  }

  /** `nodes_reserved_in_month` after the first `i` leases: per node type, the hosts of leases ending within the window. */
  function ProjectReserved(leases: seq<Lease>, i: nat, now: int, window: int): (r: Dict<string, int>)
    requires i <= |leases|
    reads set l | l in leases, set l, h | l in leases && h in l.hosts :: h
    ensures r.Valid()
  {
    if i == 0 then Empty() else LeaseReserved(ProjectReserved(leases, i - 1, now, window), leases[i - 1], |leases[i - 1].hosts|, now, window)
  }

  /** The number of the first `j` hosts of a lease that are of node type `t`, when the lease ends within the window. */
  function LeaseReservedOn(lease: Lease, j: nat, t: string, now: int, window: int): int
    requires j <= |lease.hosts|
    reads lease, set h | h in lease.hosts
  {
    if j == 0 then 0 else LeaseReservedOn(lease, j - 1, t, now, window) + (if ReservedFor(lease, j - 1, t, now, window) then 1 else 0)
  }

  /** The number of hosts of node type `t` over the first `i` leases whose lease ends within the window. */
  function ReservedOn(leases: seq<Lease>, i: nat, t: string, now: int, window: int): int
    requires i <= |leases|
    reads set l | l in leases, set l, h | l in leases && h in l.hosts :: h
  {
    if i == 0 then 0 else ReservedOn(leases, i - 1, t, now, window) + LeaseReservedOn(leases[i - 1], |leases[i - 1].hosts|, t, now, window)
  }

  /** Over the hosts of one lease, the hogging count adds one per host of the type when the lease ends within the window. */
  lemma {:induction false} LeaseReservedCounts(d: Dict<string, int>, lease: Lease, j: nat, now: int, window: int, t: string)
    requires d.Valid() && j <= |lease.hosts|
    ensures GetOr(LeaseReserved(d, lease, j, now, window).vals, t, 0) == GetOr(d.vals, t, 0) + LeaseReservedOn(lease, j, t, now, window)
  {
    if j > 0 {
      LeaseReservedCounts(d, lease, j - 1, now, window, t);
    }
  }

  /** Over the hosts of one lease, a node type gets a count iff one of them is of that type and the lease ends within the window. */
  lemma {:induction false} LeaseReservedKeys(d: Dict<string, int>, lease: Lease, j: nat, now: int, window: int, t: string)
    requires d.Valid() && j <= |lease.hosts|
    ensures t in LeaseReserved(d, lease, j, now, window).vals <==>
      t in d.vals || exists k :: 0 <= k < j && ReservedFor(lease, k, t, now, window)
  {
    if j > 0 {
      LeaseReservedKeys(d, lease, j - 1, now, window, t);
      if ReservedFor(lease, j - 1, t, now, window) {
        assert t in LeaseReserved(d, lease, j, now, window).vals;
      }
    }
  }

  /** A node type's count, read with default 0, is the number of its hosts in leases ending within the window. */
  lemma {:induction false} ReservedCounts(leases: seq<Lease>, i: nat, now: int, window: int, t: string)
    requires i <= |leases|
    ensures GetOr(ProjectReserved(leases, i, now, window).vals, t, 0) == ReservedOn(leases, i, t, now, window)
  {
    if i > 0 {
      ReservedCounts(leases, i - 1, now, window, t);
      LeaseReservedCounts(ProjectReserved(leases, i - 1, now, window), leases[i - 1], |leases[i - 1].hosts|, now, window, t);
    }
  }

  /**
   * A node type has a count iff one of the project's hosts of that type is in a lease ending
   * within the window, whether or not the host counts towards coverage.
   */
  lemma {:induction false} ReservedKeys(leases: seq<Lease>, i: nat, now: int, window: int, t: string)
    requires i <= |leases|
    ensures t in ProjectReserved(leases, i, now, window).vals <==>
      exists l, k :: 0 <= l < i && 0 <= k < |leases[l].hosts| && ReservedFor(leases[l], k, t, now, window)
  {
    if i > 0 {
      ReservedKeys(leases, i - 1, now, window, t);
      LeaseReservedKeys(ProjectReserved(leases, i - 1, now, window), leases[i - 1], |leases[i - 1].hosts|, now, window, t);
    }
  }

  /** A violation entry of a node type: a stacking summary or a hogging count. */
  datatype Violation =
    | Stacking(coveragePercentage: real, daysCovered: real, totalDays: real)
    | Hogging(totalNodes: int, nodesReserved: int)

  /** `_summarize_stacking_violation`. */
  function Summary(covered: int, total: int): Violation
    requires total != 0
  {
    Stacking(covered as real / total as real * 100.0, covered as real / SecondsInDay as real, total as real / SecondsInDay as real)
  }

  /** The dates a project measures a node type's coverage between, as the project holds them. */
  datatype Dates = Dates(now: int, window: int, furthestEnd: map<string, int>, startByType: map<string, int>)

  /** The length of a node type's coverage period, read through both defaults. */
  function Period(dates: Dates, nodeType: string): int
  {
    GetOr(dates.furthestEnd, nodeType, dates.now + dates.window) - GetOr(dates.startByType, nodeType, dates.now)
  }

  /** `get_lease_stacking_violations` over the first `n` node types with coverage. */
  function StackingUpTo(cov: Dict<string, int>, n: nat, dates: Dates, excluded: seq<string>, threshold: real): (r: Result<Dict<string, Violation>>)
    requires cov.Valid() && n <= |cov.keys|
    ensures r.Ok? ==> r.value.Valid()
  {
    if n == 0 then Ok(Empty())
    else
      var d :- StackingUpTo(cov, n - 1, dates, excluded, threshold);
      StackingStep(d, cov, cov.keys[n - 1], dates, excluded, threshold)
  }

  /**
   * One node type of the stacking check: skipped when excluded, a division by zero when its
   * period is empty, reported when its coverage reaches the threshold share of the period.
   */
  function StackingStep(d: Dict<string, Violation>, cov: Dict<string, int>, t: string, dates: Dates, excluded: seq<string>,
                        threshold: real): (r: Result<Dict<string, Violation>>)
    requires d.Valid() && t in cov.vals
    ensures r.Ok? ==> r.value.Valid()
  {
    if Lower(t) in excluded then Ok(d)
    else
      var total := Period(dates, t);
      if total == 0 then Err(ZeroDivisionError)
      else if cov.vals[t] as real / total as real >= threshold then Ok(Put(d, t, Summary(cov.vals[t], total)))
      else Ok(d)
  }

  /** Whether a node type with coverage breaks the stacking rule. */
  predicate StackingViolated(cov: Dict<string, int>, t: string, dates: Dates, excluded: seq<string>, threshold: real)
    requires t in cov.vals
  {
    Lower(t) !in excluded && Period(dates, t) != 0 && cov.vals[t] as real / Period(dates, t) as real >= threshold
  }

  /**
   * The stacking check fails with a division by zero iff some node type with coverage is
   * not excluded and has an empty period.
   */
  lemma {:induction false} StackingFails(cov: Dict<string, int>, n: nat, dates: Dates, excluded: seq<string>, threshold: real)
    requires cov.Valid() && n <= |cov.keys|
    ensures StackingUpTo(cov, n, dates, excluded, threshold).Err? <==>
      exists k :: 0 <= k < n && Lower(cov.keys[k]) !in excluded && Period(dates, cov.keys[k]) == 0
  {
    if n > 0 {
      StackingFails(cov, n - 1, dates, excluded, threshold);
    }
  }

  /**
   * Otherwise a node type is reported iff it has coverage, is not excluded (by its
   * lowercase name) and is covered for at least `threshold` of its period.
   */
  lemma {:induction false} StackingReports(cov: Dict<string, int>, n: nat, dates: Dates, excluded: seq<string>, threshold: real, t: string)
    requires cov.Valid() && n <= |cov.keys| && StackingUpTo(cov, n, dates, excluded, threshold).Ok?
    ensures t in StackingUpTo(cov, n, dates, excluded, threshold).value.vals <==>
      t in cov.keys[..n] && StackingViolated(cov, t, dates, excluded, threshold)
  {
    if n > 0 {
      var k := cov.keys[n - 1];
      var prev := StackingUpTo(cov, n - 1, dates, excluded, threshold);
      assert prev.Ok?;
      var step := StackingStep(prev.value, cov, k, dates, excluded, threshold);
      assert StackingUpTo(cov, n, dates, excluded, threshold) == step;
      assert cov.keys[..n] == cov.keys[..n - 1] + [k];
      StackingReports(cov, n - 1, dates, excluded, threshold, t);
      if t == k {
        KeyNotBefore(cov, n);
        assert t !in prev.value.vals;
      } else {
        assert t in step.value.vals <==> t in prev.value.vals;
      }
    }
  }

  /** A reported node type's entry gives the share of its period covered, as a percentage, and both lengths in days. */
  lemma {:induction false} StackingEntries(cov: Dict<string, int>, n: nat, dates: Dates, excluded: seq<string>, threshold: real, t: string)
    requires cov.Valid() && n <= |cov.keys| && StackingUpTo(cov, n, dates, excluded, threshold).Ok?
    requires t in StackingUpTo(cov, n, dates, excluded, threshold).value.vals
    ensures t in cov.vals && Period(dates, t) != 0
    ensures var v := StackingUpTo(cov, n, dates, excluded, threshold).value.vals[t];
      v == Summary(cov.vals[t], Period(dates, t)) &&
      v.coveragePercentage == cov.vals[t] as real / Period(dates, t) as real * 100.0
  {
    if n > 0 {
      var prev := StackingUpTo(cov, n - 1, dates, excluded, threshold).value;
      if t in prev.vals {
        StackingEntries(cov, n - 1, dates, excluded, threshold, t);
      }
    }
  }

  /** Once the stacking check has failed, it stays failed. */
  lemma {:induction false} StackingErrPersists(cov: Dict<string, int>, i: nat, n: nat, dates: Dates, excluded: seq<string>, threshold: real)
    requires cov.Valid() && i <= n <= |cov.keys| && StackingUpTo(cov, i, dates, excluded, threshold) == Err(ZeroDivisionError)
    ensures StackingUpTo(cov, n, dates, excluded, threshold) == Err(ZeroDivisionError)
    decreases n
  {
    if n > i {
      StackingErrPersists(cov, i, n - 1, dates, excluded, threshold);
    }
  }

  /** With a positive window no node type's period is empty, so the stacking check never divides by zero. */
  lemma NoEmptyPeriod(cov: Dict<string, int>, dates: Dates, excluded: seq<string>, threshold: real)
    requires cov.Valid() && dates.window > 0
    requires forall t :: t in dates.furthestEnd ==> dates.furthestEnd[t] >= dates.now + dates.window
    requires forall t :: t in dates.startByType ==> dates.startByType[t] <= dates.now
    ensures StackingUpTo(cov, |cov.keys|, dates, excluded, threshold).Ok?
  {
    StackingFails(cov, |cov.keys|, dates, excluded, threshold);
    forall k | 0 <= k < |cov.keys|
      ensures Period(dates, cov.keys[k]) >= dates.window
    {
    }
  }

  /**
   * Whether a node type with reserved pairs is hogged: it is on the high-end list (when
   * there is one), the site has more than `minNodes` of it, and more than `threshold`
   * times that many of its pairs are reserved.
   */
  predicate Hogged(counts: Dict<string, int>, t: string, nodeTypeCounts: map<string, int>, highEnd: seq<string>,
                   threshold: real, minNodes: int)
    requires t in counts.vals
  {
    (highEnd == [] || t in highEnd) && GetOr(nodeTypeCounts, t, 0) > minNodes &&
    counts.vals[t] as real > threshold * GetOr(nodeTypeCounts, t, 0) as real
  }

  /** `get_high_end_hogging_violations` over the first `n` node types with reserved pairs. */
  function HoggingUpTo(counts: Dict<string, int>, n: nat, nodeTypeCounts: map<string, int>, highEnd: seq<string>,
                       threshold: real, minNodes: int): (r: Dict<string, Violation>)
    requires counts.Valid() && n <= |counts.keys|
    ensures r.Valid()
  {
    if n == 0 then Empty()
    else
      HoggingStep(HoggingUpTo(counts, n - 1, nodeTypeCounts, highEnd, threshold, minNodes), counts, counts.keys[n - 1],
                  nodeTypeCounts, highEnd, threshold, minNodes)
  }

  /** One node type of the hogging check: reported, with both numbers, when it is hogged. */
  function HoggingStep(d: Dict<string, Violation>, counts: Dict<string, int>, t: string, nodeTypeCounts: map<string, int>,
                       highEnd: seq<string>, threshold: real, minNodes: int): (r: Dict<string, Violation>)
    requires d.Valid() && t in counts.vals
    ensures r.Valid()
  {
    if Hogged(counts, t, nodeTypeCounts, highEnd, threshold, minNodes) then
      Put(d, t, Hogging(GetOr(nodeTypeCounts, t, 0), counts.vals[t]))
    else d
  }

  /**
   * A node type is reported as hogged iff it has reserved pairs, is on the high-end list
   * (when there is one), the site has more than `minNodes` of it, and the project's
   * reserved pairs exceed `threshold` times that number; the entry gives both numbers.
   */
  lemma {:induction false} HoggingReports(counts: Dict<string, int>, n: nat, nodeTypeCounts: map<string, int>,
                                          highEnd: seq<string>, threshold: real, minNodes: int, t: string)
    requires counts.Valid() && n <= |counts.keys|
    ensures var d := HoggingUpTo(counts, n, nodeTypeCounts, highEnd, threshold, minNodes);
      t in d.vals <==> t in counts.keys[..n] && Hogged(counts, t, nodeTypeCounts, highEnd, threshold, minNodes)
    ensures var d := HoggingUpTo(counts, n, nodeTypeCounts, highEnd, threshold, minNodes);
      t in d.vals ==> d.vals[t] == Hogging(GetOr(nodeTypeCounts, t, 0), counts.vals[t])
  {
    if n > 0 {
      var k := counts.keys[n - 1];
      var prev := HoggingUpTo(counts, n - 1, nodeTypeCounts, highEnd, threshold, minNodes);
      var step := HoggingStep(prev, counts, k, nodeTypeCounts, highEnd, threshold, minNodes);
      assert HoggingUpTo(counts, n, nodeTypeCounts, highEnd, threshold, minNodes) == step;
      assert counts.keys[..n] == counts.keys[..n - 1] + [k];
      HoggingReports(counts, n - 1, nodeTypeCounts, highEnd, threshold, minNodes, t);
      if t == k {
        KeyNotBefore(counts, n);
        assert t !in prev.vals;
      } else {
        assert t in step.vals <==> t in prev.vals;
      }
    }
  }

  /** A project: its leases and, per node type, the period its coverage is measured over. */
  class Project {
    const projectId: string
    const now: int
    /** `minimum_lease_window`, in seconds. */
    const window: int
    /** The set `leases`, in the order it is iterated. */
    var leases: seq<Lease>
    /** `furthest_end_date_by_node_type`, read with default `now + window`. */
    var furthestEnd: map<string, int>
    /** `start_date_by_node_type`, read with default `now`. */
    var startByType: map<string, int>

    /**
     * Each lease is in the set once, and the period of every node type reaches from no
     * later than `now` to no earlier than `now + window`.
     */
    predicate Valid()
      reads this
    {
      (forall i, j :: 0 <= i < j < |leases| ==> leases[i] != leases[j]) &&
      (forall t :: t in furthestEnd ==> furthestEnd[t] >= now + window) &&
      (forall t :: t in startByType ==> startByType[t] <= now)
    }

    constructor (projectId: string, now: int, windowDays: int)
      ensures this.projectId == projectId && this.now == now && window == windowDays * SecondsInDay
      ensures leases == [] && furthestEnd == map[] && startByType == map[]
      ensures Valid()
    {
      this.projectId := projectId;
      this.now := now;
      window := windowDays * SecondsInDay;
      leases := [];
      furthestEnd := map[];
      startByType := map[];
    }

    /**
     * `_host_in_overlapping_reservation`. The lease being added is already in the set, so
     * once the host's node type has been seen the answer is always yes; before that the
     * answer depends only on whether the first lease iterated is this one.
     */
    method HostInOverlappingReservation(host: Host, lease: Lease) returns (b: bool)
      ensures host.nodeType in furthestEnd ==>
        (b <==> exists k :: 0 <= k < |leases| && (leases[k].leaseId == lease.leaseId ||
                                                 DoesHostOverlapWithLease(host, lease, leases[k], now)))
      ensures host.nodeType !in furthestEnd ==> (b <==> |leases| > 0 && leases[0].leaseId == lease.leaseId)
      ensures host.nodeType in furthestEnd && lease in leases ==> b
    {
      for k := 0 to |leases|
        invariant k > 0 ==> host.nodeType in furthestEnd && leases[0].leaseId != lease.leaseId
        invariant forall j :: 0 <= j < k ==>
          leases[j].leaseId != lease.leaseId && !DoesHostOverlapWithLease(host, lease, leases[j], now)
      {
        if leases[k].leaseId == lease.leaseId {
          return true;
        }
        if host.nodeType !in furthestEnd {
          return false;
        }
        if DoesHostOverlapWithLease(host, lease, leases[k], now) {
          return true;
        }
      }
      return false;
    }

    /**
     * `add_lease`: the lease joins the set; each node type of its hosts has its furthest
     * end raised to the lease's end and its start lowered to the lease's start. A host is
     * made to count again only when it is the first of a node type the project had not
     * seen and the set's first lease is not this one; no host stops counting.
     */
    method AddLease(lease: Lease)
      requires Valid()
      modifies this, lease.hosts
      ensures Valid()
      ensures leases == if lease in old(leases) then old(leases) else old(leases) + [lease]
      ensures furthestEnd == Raised(old(furthestEnd), lease.hosts, |lease.hosts|, lease.end, now + window)
      ensures startByType == Lowered(old(startByType), lease.hosts, |lease.hosts|, lease.start, now)
      ensures forall h :: h in lease.hosts ==>
        h.calculateCoverage == (old(h.calculateCoverage) || (leases[0].leaseId != lease.leaseId &&
          h in NewTypeHosts(lease.hosts, |lease.hosts|, old(furthestEnd).Keys)))
    {
      if lease !in leases {
        leases := leases + [lease];
      }
      var hosts := lease.hosts;
      ghost var known := furthestEnd.Keys;
      ghost var m0, s0 := furthestEnd, startByType;
      for k := 0 to |hosts|
        invariant Valid() && lease in leases
        invariant leases == if lease in old(leases) then old(leases) else old(leases) + [lease]
        invariant furthestEnd == Raised(m0, hosts, k, lease.end, now + window)
        invariant startByType == Lowered(s0, hosts, k, lease.start, now)
        invariant forall h :: h in hosts ==>
          h.calculateCoverage == (old(h.calculateCoverage) || (leases[0].leaseId != lease.leaseId &&
            h in NewTypeHosts(hosts, k, known)))
      {
        RaisedKeys(m0, hosts, k, lease.end, now + window);
        NewTypeHostsStep(hosts, k, known);
        CountHost(hosts[k], lease);
      }
      assert hosts[..|hosts|] == hosts;
    }

    /**
     * One host of `add_lease`: made to count when no overlapping reservation is found, and
     * its node type's period widened to the lease.
     */
    method CountHost(host: Host, lease: Lease)
      requires Valid() && lease in leases
      modifies this, host
      ensures Valid() && leases == old(leases)
      ensures furthestEnd == old(furthestEnd)[host.nodeType := Max(GetOr(old(furthestEnd), host.nodeType, now + window), lease.end)]
      ensures startByType == old(startByType)[host.nodeType := Min(GetOr(old(startByType), host.nodeType, now), lease.start)]
      ensures host.calculateCoverage == (old(host.calculateCoverage) ||
        (host.nodeType !in old(furthestEnd) && leases[0].leaseId != lease.leaseId))
    {
      var overlapping := HostInOverlappingReservation(host, lease);
      if !overlapping {
        host.calculateCoverage := true;
      }
      var nodeType := host.nodeType;
      furthestEnd := furthestEnd[nodeType := Max(GetOr(furthestEnd, nodeType, now + window), lease.end)];
      startByType := startByType[nodeType := Min(GetOr(startByType, nodeType, now), lease.start)];
    }

    /** `get_coverage_by_node_type`: seconds covered per node type, over the counted hosts. */
    method GetCoverageByNodeType() returns (r: Dict<string, int>)
      ensures r == ProjectCoverage(leases, |leases|, now)
    {
      r := Empty();
      for i := 0 to |leases|
        invariant r == ProjectCoverage(leases, i, now)
      {
        var lease := leases[i];
        ghost var r0 := r;
        for j := 0 to |lease.hosts|
          invariant r == LeaseCoverage(r0, lease, j, now)
        {
          r := CoverageStep(r, HostSlot(lease, j), now);
        }
      }
    }

    /** The project's dates, as the stacking check reads them. */
    function ProjectDates(): Dates
      reads this
    {
      Dates(now, window, furthestEnd, startByType)
    }

    /**
     * `get_lease_stacking_violations`: the node types whose coverage reaches the threshold,
     * in coverage order, or the division by zero an empty period raises.
     */
    method GetLeaseStackingViolations(excluded: seq<string>, threshold: real) returns (r: Result<Dict<string, Violation>>)
      ensures var cov := ProjectCoverage(leases, |leases|, now);
        r == StackingUpTo(cov, |cov.keys|, ProjectDates(), excluded, threshold)
    {
      var cov := GetCoverageByNodeType();
      r := CheckStacking(cov, ProjectDates(), excluded, threshold);
    }

    /**
     * `get_high_end_hogging_violations`: the node types whose hosts in leases ending within
     * the window exceed the threshold share of the site's nodes of that type.
     */
    method GetHighEndHoggingViolations(nodeTypeCounts: map<string, int>, highEnd: seq<string>, threshold: real, minNodes: int)
      returns (r: Dict<string, Violation>)
      ensures var counts := ProjectReserved(leases, |leases|, now, window);
        r == HoggingUpTo(counts, |counts.keys|, nodeTypeCounts, highEnd, threshold, minNodes)
    {
      var counts := Empty();
      for i := 0 to |leases|
        invariant counts == ProjectReserved(leases, i, now, window)
      {
        var lease := leases[i];
        ghost var c0 := counts;
        for j := 0 to |lease.hosts|
          invariant counts == LeaseReserved(c0, lease, j, now, window)
        {
          counts := ReservedStep(counts, HostSlot(lease, j), now, window);
        }
      }
      r := CheckHogging(counts, nodeTypeCounts, highEnd, threshold, minNodes);
    }

    /** A valid project's stacking check never divides by zero. */
    lemma StackingSucceeds(excluded: seq<string>, threshold: real)
      requires Valid() && window > 0
      ensures var cov := ProjectCoverage(leases, |leases|, now);
        StackingUpTo(cov, |cov.keys|, ProjectDates(), excluded, threshold).Ok?
    {
      NoEmptyPeriod(ProjectCoverage(leases, |leases|, now), ProjectDates(), excluded, threshold);
    }

    /**
     * The part of `get_project_violations` done once the project is found: its stacking
     * violations, which cannot fail on a valid project, merged with its hogging violations.
     */
    method Violations(config: Config, nodeTypeCounts: map<string, int>) returns (r: Dict<string, Violation>)
      requires Valid() && window > 0
      ensures r.Valid()
      ensures var cov := ProjectCoverage(leases, |leases|, now);
        var counts := ProjectReserved(leases, |leases|, now, window);
        var stacking := StackingUpTo(cov, |cov.keys|, ProjectDates(), config.excludeNodeTypes, config.leaseCoverageThreshold);
        stacking.Ok? &&
        r == Merged(stacking.value, HoggingUpTo(counts, |counts.keys|, nodeTypeCounts, config.highEndNodeTypes,
                                                config.highEndNodeCoverageThreshold, config.minNodesForCoverage))
    {
      StackingSucceeds(config.excludeNodeTypes, config.leaseCoverageThreshold);
      var stacking := GetLeaseStackingViolations(config.excludeNodeTypes, config.leaseCoverageThreshold);
      var hogging := GetHighEndHoggingViolations(nodeTypeCounts, config.highEndNodeTypes,
                                                 config.highEndNodeCoverageThreshold, config.minNodesForCoverage);
      r := Update(Update(Empty(), stacking.value), hogging);
    }
  }

  /** The loop of `get_lease_stacking_violations` over the node types with coverage. */
  method CheckStacking(cov: Dict<string, int>, dates: Dates, excluded: seq<string>, threshold: real)
    returns (r: Result<Dict<string, Violation>>)
    requires cov.Valid()
    ensures r == StackingUpTo(cov, |cov.keys|, dates, excluded, threshold)
  {
    var violations := Empty();
    for i := 0 to |cov.keys|
      invariant StackingUpTo(cov, i, dates, excluded, threshold) == Ok(violations)
    {
      var next := StackingStep(violations, cov, cov.keys[i], dates, excluded, threshold);
      if next.Err? {
        StackingErrPersists(cov, i + 1, |cov.keys|, dates, excluded, threshold);
        return next;
      }
      violations := next.value;
    }
    return Ok(violations);
  }

  /** The loop of `get_high_end_hogging_violations` over the node types with reserved hosts. */
  method CheckHogging(counts: Dict<string, int>, nodeTypeCounts: map<string, int>, highEnd: seq<string>,
                      threshold: real, minNodes: int) returns (r: Dict<string, Violation>)
    requires counts.Valid()
    ensures r == HoggingUpTo(counts, |counts.keys|, nodeTypeCounts, highEnd, threshold, minNodes)
  {
    r := Empty();
    for i := 0 to |counts.keys|
      invariant r == HoggingUpTo(counts, i, nodeTypeCounts, highEnd, threshold, minNodes)
    {
      r := HoggingStep(r, counts, counts.keys[i], nodeTypeCounts, highEnd, threshold, minNodes);
    }
  }

  /** A host as the reservation service lists it. */
  datatype HostRow = HostRow(id: string, nodeType: string)

  /** A lease as the reservation service lists it, its dates in seconds. */
  datatype LeaseRow = LeaseRow(id: string, start: int, end: int, status: string, projectId: string)

  /** A host allocation: the host and, for each of its reservations, the lease holding it. */
  datatype Allocation = Allocation(resourceId: string, leaseIds: seq<string>)

  /** The policy settings the manager reads from its configuration. */
  datatype Config = Config(excludeNodeTypes: seq<string>, leaseCoverageThreshold: real, highEndNodeTypes: seq<string>,
                           highEndNodeCoverageThreshold: real, minNodesForCoverage: int)

  /** The window, in days, of every project the manager creates. */
  const WindowDays := 21

  /** A lease row is kept unless its status, in lower case, is terminated, error or deleting. */
  predicate Kept(row: LeaseRow)
  {
    Lower(row.status) !in ["terminated", "error", "deleting"]
  }

  /** The ids of the first `n` host rows. */
  function HostIds(rows: seq<HostRow>, n: nat): set<string>
    requires n <= |rows|
  {
    set i | 0 <= i < n :: rows[i].id
  }

  lemma HostIdsStep(rows: seq<HostRow>, n: nat)
    requires n < |rows|
    ensures HostIds(rows, n + 1) == HostIds(rows, n) + {rows[n].id}
  {
    assert rows[n].id in HostIds(rows, n + 1);
  }

  /** The node type the last of the first `n` host rows with this id gives it. */
  function HostTypeOf(rows: seq<HostRow>, n: nat, id: string): string
    requires n <= |rows| && id in HostIds(rows, n)
  {
    if rows[n - 1].id == id then rows[n - 1].nodeType
    else
      assert id in HostIds(rows, n - 1) by {
        var i :| 0 <= i < n && rows[i].id == id;
        assert i < n - 1;
      }
      HostTypeOf(rows, n - 1, id)
  }

  /** A host id's type is the type of the last row with that id: a later row replaces an earlier one. */
  lemma {:induction false} HostTypeOfLast(rows: seq<HostRow>, n: nat, i: nat)
    requires i < n <= |rows| && forall j :: i < j < n ==> rows[j].id != rows[i].id
    ensures rows[i].id in HostIds(rows, n) && HostTypeOf(rows, n, rows[i].id) == rows[i].nodeType
  {
    assert rows[i].id in HostIds(rows, n);
    if i < n - 1 {
      HostTypeOfLast(rows, n - 1, i);
    }
  }

  /** The ids of the kept rows among the first `n` lease rows. */
  function KeptIds(rows: seq<LeaseRow>, n: nat): set<string>
    requires n <= |rows|
  {
    set i | 0 <= i < n && Kept(rows[i]) :: rows[i].id
  }

  lemma KeptIdsStep(rows: seq<LeaseRow>, n: nat)
    requires n < |rows|
    ensures KeptIds(rows, n + 1) == KeptIds(rows, n) + (if Kept(rows[n]) then {rows[n].id} else {})
  {
    if Kept(rows[n]) {
      assert rows[n].id in KeptIds(rows, n + 1);
    }
  }

  /** The last kept row with this id among the first `n` lease rows. */
  function KeptRowOf(rows: seq<LeaseRow>, n: nat, id: string): LeaseRow
    requires n <= |rows| && id in KeptIds(rows, n)
  {
    if rows[n - 1].id == id && Kept(rows[n - 1]) then rows[n - 1]
    else
      assert id in KeptIds(rows, n - 1) by {
        var i :| 0 <= i < n && Kept(rows[i]) && rows[i].id == id;
        assert i < n - 1;
      }
      KeptRowOf(rows, n - 1, id)
  }

  /**
   * A lease id's row is the last kept row with that id: a later kept row replaces an
   * earlier one, and a skipped row replaces nothing.
   */
  lemma {:induction false} KeptRowOfLast(rows: seq<LeaseRow>, n: nat, i: nat)
    requires i < n <= |rows| && Kept(rows[i]) && forall j :: i < j < n && Kept(rows[j]) ==> rows[j].id != rows[i].id
    ensures rows[i].id in KeptIds(rows, n) && KeptRowOf(rows, n, rows[i].id) == rows[i]
  {
    assert rows[i].id in KeptIds(rows, n);
    if i < n - 1 {
      KeptRowOfLast(rows, n - 1, i);
    }
  }

  /** A lease's own fields, as the row it was made from. */
  function RowOf(l: Lease): LeaseRow
  {
    LeaseRow(l.leaseId, l.start, l.end, l.status, l.projectId)
  }

  /** The number of host rows, among the first `n`, of node type `t`. */
  function RowsOfType(rows: seq<HostRow>, n: nat, t: string): nat
    requires n <= |rows|
  {
    if n == 0 then 0 else RowsOfType(rows, n - 1, t) + (if rows[n - 1].nodeType == t then 1 else 0)
  }

  /** `node_type_counts` after the first `n` host rows: each row adds one to its node type. */
  function CountTypes(counts: map<string, int>, rows: seq<HostRow>, n: nat): map<string, int>
    requires n <= |rows|
  {
    if n == 0 then counts else CountOne(CountTypes(counts, rows, n - 1), rows[n - 1].nodeType)
  }

  /** `counts[t] += 1` on a `defaultdict(int)`. */
  function CountOne(counts: map<string, int>, t: string): map<string, int>
  {
    counts[t := GetOr(counts, t, 0) + 1]
  }

  /**
   * A node type's count is its rows counted on top of the old count, a host listed twice
   * counting twice; a type has a count iff it had one or one of the rows is of that type.
   */
  lemma {:induction false} CountTypesMeaning(counts: map<string, int>, rows: seq<HostRow>, n: nat, t: string)
    requires n <= |rows|
    ensures GetOr(CountTypes(counts, rows, n), t, 0) == GetOr(counts, t, 0) + RowsOfType(rows, n, t)
    ensures t in CountTypes(counts, rows, n) <==> t in counts || exists i :: 0 <= i < n && rows[i].nodeType == t
  {
    if n > 0 {
      CountTypesMeaning(counts, rows, n - 1, t);
    }
  }

  /** One reservation of an allocation: the host allocated and the lease reserving it. */
  datatype Booking = Booking(hostId: string, leaseId: string)

  /** The bookings of the first `k` reservations of an allocation. */
  function BookingsOf(a: Allocation, k: nat): seq<Booking>
    requires k <= |a.leaseIds|
  {
    if k == 0 then [] else BookingsOf(a, k - 1) + [Booking(a.resourceId, a.leaseIds[k - 1])]
  }

  /** The bookings of the first `n` allocations, in the order `_update_from_allocations` visits them. */
  function Bookings(allocations: seq<Allocation>, n: nat): seq<Booking>
    requires n <= |allocations|
  {
    if n == 0 then [] else Bookings(allocations, n - 1) + BookingsOf(allocations[n - 1], |allocations[n - 1].leaseIds|)
  }

  /** A booking fails when its lease is known and its host is not. */
  predicate Unfiled(b: Booking, leases: map<string, Lease>, hosts: map<string, Host>)
  {
    b.leaseId in leases && b.hostId !in hosts
  }

  /** None of the first `n` bookings fails. */
  predicate AllFiled(bs: seq<Booking>, n: nat, leases: map<string, Lease>, hosts: map<string, Host>)
    requires n <= |bs|
  {
    n == 0 || (AllFiled(bs, n - 1, leases, hosts) && !Unfiled(bs[n - 1], leases, hosts))
  }

  lemma {:induction false} AllFiledMeaning(bs: seq<Booking>, n: nat, leases: map<string, Lease>, hosts: map<string, Host>)
    requires n <= |bs|
    ensures AllFiled(bs, n, leases, hosts) <==> forall i :: 0 <= i < n ==> !Unfiled(bs[i], leases, hosts)
  {
    if n > 0 {
      AllFiledMeaning(bs, n - 1, leases, hosts);
    }
  }

  /** Lease `id`'s hosts `hs` after some bookings: each booking of `id` with a known host appends that host. */
  function HostsAdded(hs: seq<Host>, bs: seq<Booking>, hosts: map<string, Host>, id: string): seq<Host>
  {
    if bs == [] then hs
    else
      var b := bs[|bs| - 1];
      HostsAdded(hs, bs[..|bs| - 1], hosts, id) + (if b.leaseId == id && b.hostId in hosts then [hosts[b.hostId]] else [])
  }

  /** The bookings append to the hosts a lease held, and add exactly the known hosts of its own bookings. */
  lemma {:induction false} HostsAddedMeaning(hs: seq<Host>, bs: seq<Booking>, hosts: map<string, Host>, id: string, x: Host)
    ensures hs <= HostsAdded(hs, bs, hosts, id)
    ensures x in HostsAdded(hs, bs, hosts, id) <==>
            x in hs || exists i :: 0 <= i < |bs| && bs[i].leaseId == id && bs[i].hostId in hosts && hosts[bs[i].hostId] == x
  {
    if bs != [] {
      var init := bs[..|bs| - 1];
      var b := bs[|bs| - 1];
      HostsAddedMeaning(hs, init, hosts, id, x);
      if exists i :: 0 <= i < |bs| && bs[i].leaseId == id && bs[i].hostId in hosts && hosts[bs[i].hostId] == x {
        var i :| 0 <= i < |bs| && bs[i].leaseId == id && bs[i].hostId in hosts && hosts[bs[i].hostId] == x;
        if i < |init| {
          assert init[i] == bs[i];
        }
      }
      if exists i :: 0 <= i < |init| && init[i].leaseId == id && init[i].hostId in hosts && hosts[init[i].hostId] == x {
        var i :| 0 <= i < |init| && init[i].leaseId == id && init[i].hostId in hosts && hosts[init[i].hostId] == x;
        assert bs[i] == init[i];
      }
    }
  }

  /** The projects of the known leases some bookings name. */
  function ProjectsBooked(bs: seq<Booking>, leases: map<string, Lease>): set<string>
  {
    set i | 0 <= i < |bs| && bs[i].leaseId in leases :: leases[bs[i].leaseId].projectId
  }

  /** The known leases of project `pid` some bookings name. */
  function LeasesBooked(bs: seq<Booking>, leases: map<string, Lease>, pid: string): set<Lease>
  {
    set i | 0 <= i < |bs| && bs[i].leaseId in leases && leases[bs[i].leaseId].projectId == pid :: leases[bs[i].leaseId]
  }

  /** Bookings that name no lease of project `pid` leave its leases as they were. */
  lemma {:induction false} LeasesAddedUnbooked(ls: seq<Lease>, bs: seq<Booking>, leases: map<string, Lease>, pid: string)
    requires pid !in ProjectsBooked(bs, leases)
    ensures LeasesAdded(ls, bs, leases, pid) == ls
  {
    if bs != [] {
      var init := bs[..|bs| - 1];
      assert ProjectsBooked(init, leases) <= ProjectsBooked(bs, leases) by {
        forall q | q in ProjectsBooked(init, leases) ensures q in ProjectsBooked(bs, leases) {
          var i :| 0 <= i < |init| && init[i].leaseId in leases && leases[init[i].leaseId].projectId == q;
          assert bs[i] == init[i];
        }
      }
      LeasesAddedUnbooked(ls, init, leases, pid);
      var b := bs[|bs| - 1];
      if b.leaseId in leases {
        assert leases[b.leaseId].projectId in ProjectsBooked(bs, leases);
      }
    }
  }

  /** `leases.add(l)` on a set kept in insertion order. */
  function Added(ls: seq<Lease>, l: Lease): (r: seq<Lease>)
    ensures l in r && ls <= r && |r| <= |ls| + 1
  {
    if l in ls then ls else ls + [l]
  }

  /** One booking on a project's leases: a known lease of project `pid` is added. */
  function BookingAdds(ls: seq<Lease>, b: Booking, leases: map<string, Lease>, pid: string): seq<Lease>
  {
    if b.leaseId in leases && leases[b.leaseId].projectId == pid then Added(ls, leases[b.leaseId]) else ls
  }

  /** A project's leases after some bookings. */
  function LeasesAdded(ls: seq<Lease>, bs: seq<Booking>, leases: map<string, Lease>, pid: string): seq<Lease>
  {
    if bs == [] then ls else BookingAdds(LeasesAdded(ls, bs[..|bs| - 1], leases, pid), bs[|bs| - 1], leases, pid)
  }

  /** After some bookings a project holds its old leases and exactly the known leases of its own the bookings name. */
  lemma {:induction false} LeasesAddedMeaning(ls: seq<Lease>, bs: seq<Booking>, leases: map<string, Lease>, pid: string, x: Lease)
    ensures x in LeasesAdded(ls, bs, leases, pid) <==> x in ls || x in LeasesBooked(bs, leases, pid)
    ensures ls <= LeasesAdded(ls, bs, leases, pid)
  {
    if bs != [] {
      var init := bs[..|bs| - 1];
      LeasesAddedMeaning(ls, init, leases, pid, x);
      var b := bs[|bs| - 1];
      assert bs == init + [b];
      if b.leaseId in leases && leases[b.leaseId].projectId == pid && leases[b.leaseId] == x {
        assert x in LeasesBooked(bs, leases, pid) by {
          assert bs[|bs| - 1] == b;
        }
      }
      if x in LeasesBooked(bs, leases, pid) && x !in LeasesBooked(init, leases, pid) {
        var i :| 0 <= i < |bs| && bs[i].leaseId in leases && leases[bs[i].leaseId].projectId == pid && leases[bs[i].leaseId] == x;
        if i < |init| {
          assert init[i] == bs[i];
        }
      }
      if x in LeasesBooked(init, leases, pid) {
        var i :| 0 <= i < |init| && init[i].leaseId in leases && leases[init[i].leaseId].projectId == pid && leases[init[i].leaseId] == x;
        assert bs[i] == init[i];
      }
    }
  }

  lemma BookedStep(bs: seq<Booking>, b: Booking, hosts: map<string, Host>, leases: map<string, Lease>)
    ensures forall hs, id ::
              HostsAdded(hs, bs + [b], hosts, id) ==
              HostsAdded(hs, bs, hosts, id) + (if b.leaseId == id && b.hostId in hosts then [hosts[b.hostId]] else [])
    ensures ProjectsBooked(bs + [b], leases) ==
      ProjectsBooked(bs, leases) + (if b.leaseId in leases then {leases[b.leaseId].projectId} else {})
    ensures forall ls, pid :: LeasesAdded(ls, bs + [b], leases, pid) == BookingAdds(LeasesAdded(ls, bs, leases, pid), b, leases, pid)
  {
    assert (bs + [b])[..|bs|] == bs;
    var n := |bs|;
    assert (bs + [b])[n] == b;
    if b.leaseId in leases {
      assert leases[b.leaseId].projectId in ProjectsBooked(bs + [b], leases);
    }
  }

  /** One booking on the lease hosts: a known lease with a known host gains that host. */
  function HostsBooking(hs: map<string, seq<Host>>, b: Booking, hosts: map<string, Host>): map<string, seq<Host>>
  {
    if b.leaseId in hs && b.hostId in hosts then hs[b.leaseId := hs[b.leaseId] + [hosts[b.hostId]]] else hs
  }

  /** One booking on the project leases: a known lease joins its project's leases, the project made on first use. */
  function LeasesBooking(ls: map<string, seq<Lease>>, b: Booking, leases: map<string, Lease>): map<string, seq<Lease>>
  {
    if b.leaseId in leases then
      var pid := leases[b.leaseId].projectId;
      ls[pid := Added(GetOr(ls, pid, []), leases[b.leaseId])]
    else ls
  }

  /** Lease hosts `hs` are where bookings `bs` take lease hosts `hosts0`: every lease has gained, in order, the known hosts booked for it. */
  predicate HostsBookedFrom(bs: seq<Booking>, hosts0: map<string, seq<Host>>, hs: map<string, seq<Host>>, hosts: map<string, Host>)
  {
    hs.Keys == hosts0.Keys && forall id :: id in hs ==> hs[id] == HostsAdded(hosts0[id], bs, hosts, id)
  }

  /**
   * Project leases `ls` are where bookings `bs` take project leases `leases0`: the projects are the
   * old ones and those of the booked known leases, and every project has gained the booked leases of its own.
   */
  predicate LeasesBookedFrom(bs: seq<Booking>, leases0: map<string, seq<Lease>>, ls: map<string, seq<Lease>>, leases: map<string, Lease>)
  {
    ls.Keys == leases0.Keys + ProjectsBooked(bs, leases) &&
    forall pid :: pid in ls ==> ls[pid] == LeasesAdded(GetOr(leases0, pid, []), bs, leases, pid)
  }

  /** One more booking takes the lease hosts one step further. */
  lemma HostsBookedStep(bs: seq<Booking>, b: Booking, hosts0: map<string, seq<Host>>, hs: map<string, seq<Host>>, hosts: map<string, Host>)
    requires HostsBookedFrom(bs, hosts0, hs, hosts)
    ensures HostsBookedFrom(bs + [b], hosts0, HostsBooking(hs, b, hosts), hosts)
  {
    BookedStep(bs, b, hosts, map[]);
  }

  /** One more booking takes the project leases one step further. */
  lemma LeasesBookedStep(bs: seq<Booking>, b: Booking, leases0: map<string, seq<Lease>>, ls: map<string, seq<Lease>>,
                         leases: map<string, Lease>)
    requires LeasesBookedFrom(bs, leases0, ls, leases)
    ensures LeasesBookedFrom(bs + [b], leases0, LeasesBooking(ls, b, leases), leases)
  {
    BookedStep(bs, b, map[], leases);
    var ls' := LeasesBooking(ls, b, leases);
    forall pid | pid in ls'
      ensures ls'[pid] == LeasesAdded(GetOr(leases0, pid, []), bs + [b], leases, pid)
    {
      LeasesBookedStepAt(bs, b, leases0, ls, leases, pid);
    }
  }

  lemma LeasesBookedStepAt(bs: seq<Booking>, b: Booking, leases0: map<string, seq<Lease>>, ls: map<string, seq<Lease>>,
                           leases: map<string, Lease>, pid: string)
    requires LeasesBookedFrom(bs, leases0, ls, leases)
    requires pid in LeasesBooking(ls, b, leases)
    requires forall ls, pid :: LeasesAdded(ls, bs + [b], leases, pid) == BookingAdds(LeasesAdded(ls, bs, leases, pid), b, leases, pid)
    ensures LeasesBooking(ls, b, leases)[pid] == LeasesAdded(GetOr(leases0, pid, []), bs + [b], leases, pid)
  {
    if pid !in ls {
      LeasesAddedUnbooked(GetOr(leases0, pid, []), bs, leases, pid);
    }
  }

  /** The lease hosts after the first `n` bookings of `bs`, one at a time. */
  function HostsReplay(hs: map<string, seq<Host>>, bs: seq<Booking>, n: nat, hosts: map<string, Host>): map<string, seq<Host>>
    requires n <= |bs|
  {
    if n == 0 then hs else HostsBooking(HostsReplay(hs, bs, n - 1, hosts), bs[n - 1], hosts)
  }

  /** The project leases after the first `n` bookings of `bs`, one at a time. */
  function LeasesReplay(ls: map<string, seq<Lease>>, bs: seq<Booking>, n: nat, leases: map<string, Lease>): map<string, seq<Lease>>
    requires n <= |bs|
  {
    if n == 0 then ls else LeasesBooking(LeasesReplay(ls, bs, n - 1, leases), bs[n - 1], leases)
  }

  /** Replaying bookings one at a time leaves every lease with, in order, the known hosts booked for it. */
  lemma {:induction false} HostsReplayMeaning(hs: map<string, seq<Host>>, bs: seq<Booking>, n: nat, hosts: map<string, Host>)
    requires n <= |bs|
    ensures HostsBookedFrom(bs[..n], hs, HostsReplay(hs, bs, n, hosts), hosts)
  {
    if n > 0 {
      HostsReplayMeaning(hs, bs, n - 1, hosts);
      HostsBookedStep(bs[..n - 1], bs[n - 1], hs, HostsReplay(hs, bs, n - 1, hosts), hosts);
      assert bs[..n - 1] + [bs[n - 1]] == bs[..n];
    }
  }

  /** Replaying bookings one at a time leaves every project with the booked known leases of its own. */
  lemma {:induction false} LeasesReplayMeaning(ls: map<string, seq<Lease>>, bs: seq<Booking>, n: nat, leases: map<string, Lease>)
    requires n <= |bs|
    ensures LeasesBookedFrom(bs[..n], ls, LeasesReplay(ls, bs, n, leases), leases)
  {
    if n == 0 {
      assert ProjectsBooked(bs[..0], leases) == {};
    } else {
      LeasesReplayMeaning(ls, bs, n - 1, leases);
      LeasesBookedStep(bs[..n - 1], bs[n - 1], ls, LeasesReplay(ls, bs, n - 1, leases), leases);
      assert bs[..n - 1] + [bs[n - 1]] == bs[..n];
    }
  }

  /** Each lease's hosts, by lease id. */
  ghost function HostsOf(leases: map<string, Lease>): (m: map<string, seq<Host>>)
    reads leases.Values
    ensures m.Keys == leases.Keys
  {
    map id | id in leases :: leases[id].hosts
  }

  /** Each project's leases, by project id. */
  ghost function LeasesOf(projects: map<string, Project>): (m: map<string, seq<Lease>>)
    reads projects.Values
    ensures m.Keys == projects.Keys
  {
    map pid | pid in projects :: projects[pid].leases
  }

  /**
   * What `get_project_violations` returns for a project it holds: the stacking violations,
   * then the hogging violations, each copied in with `dict.update`.
   */
  function Merged(stacking: Dict<string, Violation>, hogging: Dict<string, Violation>): (r: Dict<string, Violation>)
    requires stacking.Valid() && hogging.Valid()
    ensures r.Valid()
  {
    Update(Update(Empty(), stacking), hogging)
  }

  /**
   * A node type is merged in iff either check reports it; a hogging entry replaces the
   * stacking entry of the same node type; the stacking violations keep their order, first.
   */
  lemma MergedMeaning(stacking: Dict<string, Violation>, hogging: Dict<string, Violation>, t: string)
    requires stacking.Valid() && hogging.Valid()
    ensures t in Merged(stacking, hogging).vals <==> t in stacking.vals || t in hogging.vals
    ensures t in hogging.vals ==> Merged(stacking, hogging).vals[t] == hogging.vals[t]
    ensures t in stacking.vals && t !in hogging.vals ==> Merged(stacking, hogging).vals[t] == stacking.vals[t]
    ensures stacking.keys <= Merged(stacking, hogging).keys
  {
    var s := Update(Empty(), stacking);
    assert stacking.keys[..|stacking.keys|] == stacking.keys;
    assert hogging.keys[..|hogging.keys|] == hogging.keys;
    UpdateMeaning(Empty(), stacking, |stacking.keys|, t);
    UpdateMeaning(s, hogging, |hogging.keys|, t);
    UpdateEmpty(stacking, |stacking.keys|);
  }

  /**
   * The violations of a project: a node type is reported iff it breaks the stacking rule
   * or is hogged, and a hogged node type is reported with its hogging numbers.
   */
  lemma ProjectViolationsMeaning(cov: Dict<string, int>, counts: Dict<string, int>, dates: Dates, config: Config,
                                 nodeTypeCounts: map<string, int>, t: string)
    requires cov.Valid() && counts.Valid()
    requires StackingUpTo(cov, |cov.keys|, dates, config.excludeNodeTypes, config.leaseCoverageThreshold).Ok?
    ensures var r := Merged(StackingUpTo(cov, |cov.keys|, dates, config.excludeNodeTypes, config.leaseCoverageThreshold).value,
                            HoggingUpTo(counts, |counts.keys|, nodeTypeCounts, config.highEndNodeTypes,
                                        config.highEndNodeCoverageThreshold, config.minNodesForCoverage));
      var stacked := t in cov.vals && StackingViolated(cov, t, dates, config.excludeNodeTypes, config.leaseCoverageThreshold);
      var hogged := t in counts.vals && Hogged(counts, t, nodeTypeCounts, config.highEndNodeTypes,
                                               config.highEndNodeCoverageThreshold, config.minNodesForCoverage);
      (t in r.vals <==> stacked || hogged) &&
      (hogged ==> r.vals[t] == Hogging(GetOr(nodeTypeCounts, t, 0), counts.vals[t])) &&
      (stacked && !hogged ==> r.vals[t] == Summary(cov.vals[t], Period(dates, t)))
  {
    var stacking := StackingUpTo(cov, |cov.keys|, dates, config.excludeNodeTypes, config.leaseCoverageThreshold).value;
    var hogging := HoggingUpTo(counts, |counts.keys|, nodeTypeCounts, config.highEndNodeTypes,
                               config.highEndNodeCoverageThreshold, config.minNodesForCoverage);
    assert cov.keys[..|cov.keys|] == cov.keys;
    assert counts.keys[..|counts.keys|] == counts.keys;
    StackingReports(cov, |cov.keys|, dates, config.excludeNodeTypes, config.leaseCoverageThreshold, t);
    HoggingReports(counts, |counts.keys|, nodeTypeCounts, config.highEndNodeTypes,
                   config.highEndNodeCoverageThreshold, config.minNodesForCoverage, t);
    MergedMeaning(stacking, hogging, t);
    if t in stacking.vals {
      StackingEntries(cov, |cov.keys|, dates, config.excludeNodeTypes, config.leaseCoverageThreshold, t);
    }
  }

  /** `LeaseComplianceManager`: the site's hosts, leases and projects, built from the service's lists. */
  class LeaseComplianceManager {
    const config: Config
    const now: int
    var hostsById: map<string, Host>
    var leasesById: map<string, Lease>
    var projectsById: map<string, Project>
    /** `node_type_counts`, read with default 0. */
    var nodeTypeCounts: map<string, int>

    /**
     * Every host, lease and project is filed under its own id; every lease and project is
     * valid; every project measures from the manager's `now` over the 21-day window.
     */
    predicate Valid()
      reads this`hostsById, this`leasesById, this`projectsById, leasesById.Values, projectsById.Values
    {
      HostsFiled() && LeasesFiled() && ProjectsFiled()
    }

    predicate HostsFiled()
      reads this`hostsById
    {
      forall id :: id in hostsById ==> hostsById[id].hostId == id
    }

    predicate LeasesFiled()
      reads this`leasesById, leasesById.Values
    {
      forall id :: id in leasesById ==> leasesById[id].leaseId == id && leasesById[id].Valid()
    }

    predicate ProjectsFiled()
      reads this`projectsById, projectsById.Values
    {
      forall id :: id in projectsById ==>
        projectsById[id].projectId == id && projectsById[id].Valid() &&
        projectsById[id].now == now && projectsById[id].window == WindowDays * SecondsInDay
    }

    /** Every host a lease holds is one of the manager's hosts. */
    predicate HostsKnown()
      reads this`hostsById, this`leasesById, leasesById.Values
    {
      forall id, h :: id in leasesById && h in leasesById[id].hosts ==> h in hostsById.Values
    }

    constructor (config: Config, now: int)
      ensures this.config == config && this.now == now
      ensures hostsById == map[] && leasesById == map[] && projectsById == map[] && nodeTypeCounts == map[]
      ensures Valid() && HostsKnown()
    {
      this.config := config;
      this.now := now;
      hostsById := map[];
      leasesById := map[];
      projectsById := map[];
      nodeTypeCounts := map[];
    }

    /**
     * `_update_hosts`: each row files a new host under its id, a later row with the same id
     * replacing an earlier one, and adds one to its node type's count.
     */
    method UpdateHosts(rows: seq<HostRow>)
      requires Valid()
      modifies this
      ensures Valid() && leasesById == old(leasesById) && projectsById == old(projectsById)
      ensures nodeTypeCounts == CountTypes(old(nodeTypeCounts), rows, |rows|)
      ensures hostsById.Keys == old(hostsById).Keys + HostIds(rows, |rows|)
      ensures forall id :: id in HostIds(rows, |rows|) ==>
        fresh(hostsById[id]) && hostsById[id].nodeType == HostTypeOf(rows, |rows|, id) && hostsById[id].calculateCoverage
      ensures forall id :: id in old(hostsById) && id !in HostIds(rows, |rows|) ==> hostsById[id] == old(hostsById[id])
    {
      for n := 0 to |rows|
        invariant HostsFiled() && leasesById == old(leasesById) && projectsById == old(projectsById)
        invariant nodeTypeCounts == CountTypes(old(nodeTypeCounts), rows, n)
        invariant hostsById.Keys == old(hostsById).Keys + HostIds(rows, n)
        invariant forall id :: id in HostIds(rows, n) ==>
          fresh(hostsById[id]) && hostsById[id].nodeType == HostTypeOf(rows, n, id) && hostsById[id].calculateCoverage
        invariant forall id :: id in old(hostsById) && id !in HostIds(rows, n) ==> hostsById[id] == old(hostsById[id])
      {
        HostIdsStep(rows, n);
        FileHost(rows[n]);
      }
    }

    /** One row of `_update_hosts`: a new host filed under its id, and its node type counted. */
    method FileHost(row: HostRow)
      requires HostsFiled()
      modifies this
      ensures HostsFiled() && leasesById == old(leasesById) && projectsById == old(projectsById)
      ensures nodeTypeCounts == CountOne(old(nodeTypeCounts), row.nodeType)
      ensures row.id in hostsById && hostsById == old(hostsById)[row.id := hostsById[row.id]]
      ensures fresh(hostsById[row.id]) && hostsById[row.id].nodeType == row.nodeType && hostsById[row.id].calculateCoverage
    {
      var host := new Host(row.id, row.nodeType);
      hostsById := hostsById[row.id := host];
      nodeTypeCounts := CountOne(nodeTypeCounts, row.nodeType);
    }

    /**
     * `_update_leases`: each kept row files a new lease, with no hosts yet, under its id, a
     * later kept row with the same id replacing an earlier one; other rows are skipped.
     */
    method UpdateLeases(rows: seq<LeaseRow>)
      requires Valid()
      modifies this
      ensures Valid() && hostsById == old(hostsById) && projectsById == old(projectsById)
      ensures nodeTypeCounts == old(nodeTypeCounts)
      ensures leasesById.Keys == old(leasesById).Keys + KeptIds(rows, |rows|)
      ensures forall id :: id in KeptIds(rows, |rows|) ==>
        fresh(leasesById[id]) && leasesById[id].hosts == [] && RowOf(leasesById[id]) == KeptRowOf(rows, |rows|, id)
      ensures forall id :: id in old(leasesById) && id !in KeptIds(rows, |rows|) ==> leasesById[id] == old(leasesById[id])
      ensures old(HostsKnown()) ==> HostsKnown()
    {
      for n := 0 to |rows|
        invariant LeasesFiled() && hostsById == old(hostsById) && projectsById == old(projectsById)
        invariant nodeTypeCounts == old(nodeTypeCounts)
        invariant leasesById.Keys == old(leasesById).Keys + KeptIds(rows, n)
        invariant forall id :: id in KeptIds(rows, n) ==>
          fresh(leasesById[id]) && leasesById[id].hosts == [] && RowOf(leasesById[id]) == KeptRowOf(rows, n, id)
        invariant forall id :: id in old(leasesById) && id !in KeptIds(rows, n) ==> leasesById[id] == old(leasesById[id])
      {
        KeptIdsStep(rows, n);
        FileLease(rows[n]);
      }
    }

    /** One row of `_update_leases`: a kept row files a new lease, with no hosts, under its id. */
    method FileLease(row: LeaseRow)
      requires LeasesFiled()
      modifies this
      ensures LeasesFiled() && hostsById == old(hostsById) && projectsById == old(projectsById)
      ensures nodeTypeCounts == old(nodeTypeCounts)
      ensures !Kept(row) ==> leasesById == old(leasesById)
      ensures Kept(row) ==>
        row.id in leasesById && leasesById == old(leasesById)[row.id := leasesById[row.id]] &&
        fresh(leasesById[row.id]) && leasesById[row.id].hosts == [] && RowOf(leasesById[row.id]) == row
    {
      if !Kept(row) {
        return;
      }
      var lease := new Lease(row.id, row.start, row.end, row.status, row.projectId);
      leasesById := leasesById[row.id := lease];
    }

    /**
     * `_update_from_allocations`: every reservation of every allocation, in order. A reservation
     * of an unknown lease is skipped; for a known lease the host must be known, or the run stops
     * with its `KeyError`; the host is added to the lease and the lease to its project, which is
     * created on first use. So it fails exactly when some booking names a known lease and an
     * unknown host, with the first such host; otherwise each lease gains the hosts booked for it,
     * in booking order, and each project the leases of its own that were booked.
     */
    method UpdateFromAllocations(allocations: seq<Allocation>) returns (r: Result<()>)
      requires Valid() && HostsKnown()
      modifies this, hostsById.Values, leasesById.Values, projectsById.Values
      ensures Valid() && HostsKnown()
      ensures hostsById == old(hostsById) && leasesById == old(leasesById) && nodeTypeCounts == old(nodeTypeCounts)
      ensures var bs := Bookings(allocations, |allocations|);
        r.Ok? ==> AllFiled(bs, |bs|, leasesById, hostsById)
      ensures var bs := Bookings(allocations, |allocations|);
        r.Err? ==> exists i :: 0 <= i < |bs| && AllFiled(bs, i, leasesById, hostsById) &&
                              Unfiled(bs[i], leasesById, hostsById) && r.error == KeyError(bs[i].hostId)
      ensures forall pid :: pid in old(projectsById) ==> pid in projectsById && projectsById[pid] == old(projectsById[pid])
      ensures forall pid :: pid in projectsById && pid !in old(projectsById) ==> fresh(projectsById[pid])
      ensures var bs := Bookings(allocations, |allocations|);
        r.Ok? ==> HostsOf(leasesById) == HostsReplay(old(HostsOf(leasesById)), bs, |bs|, hostsById)
      ensures var bs := Bookings(allocations, |allocations|);
        r.Ok? ==> LeasesOf(projectsById) == LeasesReplay(old(LeasesOf(projectsById)), bs, |bs|, leasesById)
    {
      // The nested loops over allocations and their reservations visit exactly these bookings, in this order.
      var bookings := Bookings(allocations, |allocations|);
      r := BookFrom(bookings, 0, HostsOf(leasesById), LeasesOf(projectsById));
    }

    /**
     * The loop of `_update_from_allocations` from the `i+1`st booking on: the booking is made,
     * and unless it fails the rest follow.
     */
    method BookFrom(bookings: seq<Booking>, i: nat, ghost hosts0: map<string, seq<Host>>, ghost leases0: map<string, seq<Lease>>)
      returns (r: Result<()>)
      requires i <= |bookings| && Valid() && HostsKnown() && AllFiled(bookings, i, leasesById, hostsById)
      requires HostsOf(leasesById) == HostsReplay(hosts0, bookings, i, hostsById)
      requires LeasesOf(projectsById) == LeasesReplay(leases0, bookings, i, leasesById)
      modifies this, hostsById.Values, leasesById.Values, projectsById.Values
      ensures Valid() && HostsKnown()
      ensures hostsById == old(hostsById) && leasesById == old(leasesById) && nodeTypeCounts == old(nodeTypeCounts)
      ensures r.Ok? ==> AllFiled(bookings, |bookings|, leasesById, hostsById)
      ensures r.Err? ==> exists j :: i <= j < |bookings| && AllFiled(bookings, j, leasesById, hostsById) &&
                                    Unfiled(bookings[j], leasesById, hostsById) && r.error == KeyError(bookings[j].hostId)
      ensures forall pid :: pid in old(projectsById) ==> pid in projectsById && projectsById[pid] == old(projectsById[pid])
      ensures forall pid :: pid in projectsById && pid !in old(projectsById) ==> fresh(projectsById[pid])
      ensures r.Ok? ==> HostsOf(leasesById) == HostsReplay(hosts0, bookings, |bookings|, hostsById)
      ensures r.Ok? ==> LeasesOf(projectsById) == LeasesReplay(leases0, bookings, |bookings|, leasesById)
      decreases |bookings| - i
    {
      if i == |bookings| {
        return Ok(());
      }
      r := Book(bookings, i, hosts0, leases0);
      if r.Ok? {
        r := BookFrom(bookings, i + 1, hosts0, leases0);
      }
    }

    /** The `i+1`st booking, taking the lease hosts and project leases one step further. */
    method Book(bookings: seq<Booking>, i: nat, ghost hosts0: map<string, seq<Host>>, ghost leases0: map<string, seq<Lease>>)
      returns (r: Result<()>)
      requires i < |bookings| && Valid() && HostsKnown() && AllFiled(bookings, i, leasesById, hostsById)
      requires HostsOf(leasesById) == HostsReplay(hosts0, bookings, i, hostsById)
      requires LeasesOf(projectsById) == LeasesReplay(leases0, bookings, i, leasesById)
      modifies this, hostsById.Values, leasesById.Values, projectsById.Values
      ensures Valid() && HostsKnown()
      ensures hostsById == old(hostsById) && leasesById == old(leasesById) && nodeTypeCounts == old(nodeTypeCounts)
      ensures r.Ok? <==> AllFiled(bookings, i + 1, leasesById, hostsById)
      ensures r.Err? ==> Unfiled(bookings[i], leasesById, hostsById) && r.error == KeyError(bookings[i].hostId)
      ensures forall pid :: pid in old(projectsById) ==> pid in projectsById && projectsById[pid] == old(projectsById[pid])
      ensures forall pid :: pid in projectsById && pid !in old(projectsById) ==> fresh(projectsById[pid])
      ensures r.Ok? ==> HostsOf(leasesById) == HostsReplay(hosts0, bookings, i + 1, hostsById)
      ensures r.Ok? ==> LeasesOf(projectsById) == LeasesReplay(leases0, bookings, i + 1, leasesById)
    {
      r := Allocate(bookings[i]);
    }

    /**
     * One reservation of `_update_from_allocations`: a reservation of an unknown lease is
     * skipped; for a known lease the host must be known (a `KeyError` otherwise, raised
     * before any change); the host is added to the lease and the lease to its project,
     * which is created on first use.
     */
    method Allocate(b: Booking) returns (r: Result<()>)
      requires Valid() && HostsKnown()
      modifies this, hostsById.Values, leasesById.Values, projectsById.Values
      ensures Valid() && HostsKnown()
      ensures hostsById == old(hostsById) && leasesById == old(leasesById) && nodeTypeCounts == old(nodeTypeCounts)
      ensures r == if Unfiled(b, leasesById, hostsById) then Err(KeyError(b.hostId)) else Ok(())
      ensures r.Ok? ==> HostsOf(leasesById) == HostsBooking(old(HostsOf(leasesById)), b, hostsById)
      ensures r.Ok? ==> LeasesOf(projectsById) == LeasesBooking(old(LeasesOf(projectsById)), b, leasesById)
      ensures r.Err? ==> HostsOf(leasesById) == old(HostsOf(leasesById)) && LeasesOf(projectsById) == old(LeasesOf(projectsById))
      ensures forall pid :: pid in old(projectsById) ==> pid in projectsById && projectsById[pid] == old(projectsById[pid])
      ensures forall pid :: pid in projectsById && pid !in old(projectsById) ==> fresh(projectsById[pid])
    {
      if b.leaseId !in leasesById {
        return Ok(());
      }
      if b.hostId !in hostsById {
        return Err(KeyError(b.hostId));
      }
      var lease := leasesById[b.leaseId];
      AddHostToLease(b.leaseId, hostsById[b.hostId]);
      AddToProject(lease);
      return Ok(());
    }

    /** `lease.add_host(host)` on the lease filed under `id`. */
    method AddHostToLease(id: string, host: Host)
      requires Valid() && HostsKnown() && id in leasesById && host in hostsById.Values
      modifies leasesById[id], host
      ensures Valid() && HostsKnown()
      ensures HostsOf(leasesById) == old(HostsOf(leasesById))[id := old(leasesById[id].hosts) + [host]]
      ensures LeasesOf(projectsById) == old(LeasesOf(projectsById))
    {
      leasesById[id].AddHost(host);
    }

    /** The project part of one reservation: the lease joins its project, created on first use. */
    method AddToProject(lease: Lease)
      requires ProjectsFiled()
      modifies this, projectsById.Values, lease.hosts
      ensures ProjectsFiled()
      ensures hostsById == old(hostsById) && leasesById == old(leasesById) && nodeTypeCounts == old(nodeTypeCounts)
      ensures unchanged(leasesById.Values)
      ensures LeasesOf(projectsById) ==
        old(LeasesOf(projectsById))[lease.projectId := Added(GetOr(old(LeasesOf(projectsById)), lease.projectId, []), lease)]
      ensures forall pid :: pid in old(projectsById) ==> pid in projectsById && projectsById[pid] == old(projectsById[pid])
      ensures lease.projectId !in old(projectsById) ==> fresh(projectsById[lease.projectId])
    {
      ghost var before := LeasesOf(projectsById);
      var project := ProjectFor(lease.projectId);
      AddLeaseTo(lease.projectId, lease, before);
    }

    /** `project.add_lease(lease)` on the project filed under `pid`. */
    method AddLeaseTo(pid: string, lease: Lease, ghost base: map<string, seq<Lease>>)
      requires ProjectsFiled() && pid in projectsById
      requires LeasesOf(projectsById) == base[pid := GetOr(base, pid, [])]
      modifies projectsById[pid], lease.hosts
      ensures ProjectsFiled()
      ensures LeasesOf(projectsById) == base[pid := Added(GetOr(base, pid, []), lease)]
    {
      ghost var before := LeasesOf(projectsById);
      var project := projectsById[pid];
      assert forall q :: q in projectsById && q != pid ==> projectsById[q] != project;
      Join(project, lease);
      assert LeasesOf(projectsById) == before[pid := project.leases];
    }

    /** `project.add_lease(lease)`, as far as the manager's books are concerned. */
    static method Join(project: Project, lease: Lease)
      requires project.Valid()
      modifies project, lease.hosts
      ensures project.Valid() && project.leases == Added(old(project.leases), lease)
    {
      project.AddLease(lease);
    }

    /** `projects_by_id[project_id]`, a new project filed under the id on first use. */
    method ProjectFor(pid: string) returns (project: Project)
      requires ProjectsFiled()
      modifies this
      ensures ProjectsFiled() && project.Valid()
      ensures hostsById == old(hostsById) && leasesById == old(leasesById) && nodeTypeCounts == old(nodeTypeCounts)
      ensures projectsById == old(projectsById)[pid := project]
      ensures pid in old(projectsById) ==> project == old(projectsById[pid])
      ensures pid !in old(projectsById) ==> fresh(project) && project.leases == []
      ensures LeasesOf(projectsById) == old(LeasesOf(projectsById))[pid := GetOr(old(LeasesOf(projectsById)), pid, [])]
    {
      if pid in projectsById {
        project := projectsById[pid];
      } else {
        project := new Project(pid, now, WindowDays);
        projectsById := projectsById[pid := project];
      }
    }

    /**
     * `get_project_violations`: nothing for a project the manager does not hold; otherwise
     * the project's stacking violations merged with its hogging violations. A project's
     * period is never empty, so the stacking check cannot divide by zero here.
     */
    method GetProjectViolations(pid: string) returns (r: Dict<string, Violation>)
      requires Valid()
      ensures r.Valid()
      ensures pid !in projectsById ==> r == Empty()
      ensures pid in projectsById ==>
        var p := projectsById[pid];
        var cov := ProjectCoverage(p.leases, |p.leases|, p.now);
        var counts := ProjectReserved(p.leases, |p.leases|, p.now, p.window);
        var stacking := StackingUpTo(cov, |cov.keys|, p.ProjectDates(), config.excludeNodeTypes, config.leaseCoverageThreshold);
        stacking.Ok? &&
        r == Merged(stacking.value, HoggingUpTo(counts, |counts.keys|, nodeTypeCounts, config.highEndNodeTypes,
                                                config.highEndNodeCoverageThreshold, config.minNodesForCoverage))
    {
      if pid !in projectsById {
        return Empty();
      }
      r := projectsById[pid].Violations(config, nodeTypeCounts);
    }

    /**
     * `LeaseComplianceManager(config, leases, hosts, allocations)`: the hosts filed and
     * counted, the kept leases filed, then the allocations booked. The constructor fails with
     * the `KeyError` of the first booking of a kept lease on an unknown host; otherwise every
     * lease holds the hosts booked for it and every project the leases booked in it.
     */
    static method Build(config: Config, now: int, hosts: seq<HostRow>, leases: seq<LeaseRow>, allocations: seq<Allocation>)
      returns (r: Result<LeaseComplianceManager>)
      ensures var bs := Bookings(allocations, |allocations|);
        r.Err? ==>
          exists i :: 0 <= i < |bs| &&
                      bs[i].leaseId in KeptIds(leases, |leases|) && bs[i].hostId !in HostIds(hosts, |hosts|) &&
                      r.error == KeyError(bs[i].hostId)
      ensures r.Ok? ==> var m := r.value;
        fresh(m) && m.config == config && m.now == now && m.Valid() && m.HostsKnown() &&
        m.nodeTypeCounts == CountTypes(map[], hosts, |hosts|) &&
        m.hostsById.Keys == HostIds(hosts, |hosts|) && m.leasesById.Keys == KeptIds(leases, |leases|)
      ensures r.Ok? ==> var m := r.value;
        forall id :: id in m.leasesById ==> RowOf(m.leasesById[id]) == KeptRowOf(leases, |leases|, id)
      ensures r.Ok? ==> var m := r.value; var bs := Bookings(allocations, |allocations|);
        AllFiled(bs, |bs|, m.leasesById, m.hostsById) &&
        HostsOf(m.leasesById) == HostsReplay(map id | id in KeptIds(leases, |leases|) :: [], bs, |bs|, m.hostsById) &&
        LeasesOf(m.projectsById) == LeasesReplay(map[], bs, |bs|, m.leasesById)
    {
      var m := Filed(config, now, hosts, leases);
      var booked := m.UpdateFromAllocations(allocations);
      if booked.Err? {
        return Err(booked.error);
      }
      return Ok(m);
    }

    /** The first two steps of the constructor: hosts filed and counted, kept leases filed, no projects yet. */
    static method Filed(config: Config, now: int, hosts: seq<HostRow>, leases: seq<LeaseRow>) returns (m: LeaseComplianceManager)
      ensures fresh(m) && m.config == config && m.now == now && m.Valid() && m.HostsKnown()
      ensures m.nodeTypeCounts == CountTypes(map[], hosts, |hosts|)
      ensures m.hostsById.Keys == HostIds(hosts, |hosts|) && m.leasesById.Keys == KeptIds(leases, |leases|)
      ensures forall id :: id in m.leasesById ==> RowOf(m.leasesById[id]) == KeptRowOf(leases, |leases|, id)
      ensures HostsOf(m.leasesById) == map id | id in KeptIds(leases, |leases|) :: []
      ensures m.projectsById == map[] && fresh(m.hostsById.Values) && fresh(m.leasesById.Values)
    {
      m := new LeaseComplianceManager(config, now);
      m.UpdateHosts(hosts);
      m.UpdateLeases(leases);
    }
  }

  /** The greeting `project_lease_violation_body` means to open with. */
  const Greeting := "To ChameleonCloud project manager \n\n"

  /** The line that introduces the list of leases. */
  const LeasesHeader := "Leases in project \n\n"

  /** The heading naming the site. */
  function Heading(siteName: string): string
  {
    "Lease stacking violation in " + siteName + " \n\n"
  }

  /**
   * The paragraph of one violation: its kind decides the wording and the numbers, days
   * rendered by `show` (Python's `str` of a float), node counts as integers.
   */
  function EntryText(projectName: string, projectId: string, nodeType: string, v: Violation, show: real -> string): string
  {
    match v
    case Stacking(_, days, total) =>
      "Project " + projectName + " " + projectId + " has exceeded the lease stacking " +
      "limit for node type: " + nodeType + "\n" +
      "\tDays covered by node type: " + show(days) + " / " + show(total) + " \n\n"
    case Hogging(total, reserved) =>
      "Project " + projectName + " " + projectId + " has exceeded reserving more than " +
      "half limit for node type: " + nodeType + "\n" +
      "\tCount of nodes reserved: " + IntToString(reserved) + " / " + IntToString(total) + "\n\n"
  }

  /** The paragraph of every violation, in the dictionary's order. */
  function EntryTexts(projectName: string, projectId: string, violations: Dict<string, Violation>, show: real -> string): (r: seq<string>)
    requires violations.Valid()
    ensures |r| == |violations.keys|
    ensures forall i :: 0 <= i < |r| ==>
      r[i] == EntryText(projectName, projectId, violations.keys[i], violations.vals[violations.keys[i]], show)
  {
    seq(|violations.keys|, i requires 0 <= i < |violations.keys| =>
      EntryText(projectName, projectId, violations.keys[i], violations.vals[violations.keys[i]], show))
  }

  /** The line of a lease, its text as `str(lease)` gives it. */
  function LeaseLine(leaseText: string): string
  {
    leaseText + " \n\n"
  }

  /** The line of every lease, in the project's order. */
  function LeaseLines(leaseTexts: seq<string>): (r: seq<string>)
    ensures |r| == |leaseTexts|
    ensures forall i :: 0 <= i < |r| ==> r[i] == LeaseLine(leaseTexts[i])
  {
    seq(|leaseTexts|, i requires 0 <= i < |leaseTexts| => LeaseLine(leaseTexts[i]))
  }

  /** The first `n` pieces of text, one after the other: what `body +=` builds. */
  function Concat(parts: seq<string>, n: nat): string
    requires n <= |parts|
  {
    if n == 0 then "" else Concat(parts, n - 1) + parts[n - 1]
  }

  /**
   * The notification about a project's violations, as meant: the greeting, the site heading,
   * a paragraph per violation, then every lease of the project.
   */
  function BodyText(siteName: string, projectName: string, projectId: string, violations: Dict<string, Violation>,
                    show: real -> string, leaseTexts: seq<string>): string
    requires violations.Valid()
  {
    Greeting + Rest(siteName, projectName, projectId, violations, show, leaseTexts)
  }

  /** The notification after its greeting. */
  function Rest(siteName: string, projectName: string, projectId: string, violations: Dict<string, Violation>,
                show: real -> string, leaseTexts: seq<string>): string
    requires violations.Valid()
  {
    Heading(siteName) + Concat(EntryTexts(projectName, projectId, violations, show), |violations.keys|) +
    LeasesHeader + Concat(LeaseLines(leaseTexts), |leaseTexts|)
  }

  /**
   * `project_lease_violation_body` as written: the second assignment to `body` replaces the
   * greeting instead of adding to it, so the text is the intended one without its greeting.
   */
  method ViolationBodyAsWritten(project: Project, violations: Dict<string, Violation>, projectName: string, siteName: string,
                                show: real -> string, leaseTexts: seq<string>) returns (body: string)
    requires violations.Valid()
    ensures BodyText(siteName, projectName, project.projectId, violations, show, leaseTexts) == Greeting + body
    ensures !(Greeting <= body)
  {
    body := Greeting;
    body := Heading(siteName);
    body := Paragraphs(project.projectId, violations, projectName, show, leaseTexts, body);
    assert body[0] == 'L' != Greeting[0];
  }

  /**
   * `project_lease_violation_body` with the greeting kept: the text opens with the greeting
   * and the heading, carries the paragraph of every violation and lists every lease.
   */
  method ViolationBody(project: Project, violations: Dict<string, Violation>, projectName: string, siteName: string,
                       show: real -> string, leaseTexts: seq<string>) returns (body: string)
    requires violations.Valid()
    ensures body == BodyText(siteName, projectName, project.projectId, violations, show, leaseTexts)
    ensures Greeting <= body
  {
    body := Greeting;
    var rest := Paragraphs(project.projectId, violations, projectName, show, leaseTexts, Heading(siteName));
    body := body + rest;
  }

  /**
   * The two loops of `project_lease_violation_body`, appending to the text so far: the
   * paragraph of each violation, the lease header, then the line of each lease.
   */
  method Paragraphs(projectId: string, violations: Dict<string, Violation>, projectName: string,
                    show: real -> string, leaseTexts: seq<string>, start: string) returns (body: string)
    requires violations.Valid()
    ensures body == start + Concat(EntryTexts(projectName, projectId, violations, show), |violations.keys|) +
                    LeasesHeader + Concat(LeaseLines(leaseTexts), |leaseTexts|)
  {
    body := AppendAll(start, EntryTexts(projectName, projectId, violations, show));
    body := AppendAll(body + LeasesHeader, LeaseLines(leaseTexts));
  }

  /** One `body +=` per piece, in order. */
  method AppendAll(start: string, parts: seq<string>) returns (body: string)
    ensures body == start + Concat(parts, |parts|)
  {
    body := start;
    for i := 0 to |parts|
      invariant body == start + Concat(parts, i)
    {
      Assoc(start, Concat(parts, i), parts[i]);
      body := body + parts[i];
    }
  }

  lemma Assoc(a: string, b: string, c: string)
    ensures a + b + c == a + (b + c)
  {
  }

  /** The notification carries the paragraph of every violation it is given and the line of every lease. */
  lemma BodyListsAll(siteName: string, projectName: string, projectId: string, violations: Dict<string, Violation>,
                     show: real -> string, leaseTexts: seq<string>)
    requires violations.Valid()
    ensures forall t :: t in violations.vals ==>
      Contains(BodyText(siteName, projectName, projectId, violations, show, leaseTexts),
               EntryText(projectName, projectId, t, violations.vals[t], show))
    ensures forall i :: 0 <= i < |leaseTexts| ==>
      Contains(BodyText(siteName, projectName, projectId, violations, show, leaseTexts), LeaseLine(leaseTexts[i]))
  {
    var entries := EntryTexts(projectName, projectId, violations, show);
    var lines := LeaseLines(leaseTexts);
    var head := Heading(siteName);
    var e := Concat(entries, |entries|);
    var l := Concat(lines, |lines|);
    forall t | t in violations.vals
      ensures Contains(BodyText(siteName, projectName, projectId, violations, show, leaseTexts),
                       EntryText(projectName, projectId, t, violations.vals[t], show))
    {
      var k :| 0 <= k < |violations.keys| && violations.keys[k] == t;
      ConcatContains(entries, |entries|, k);
      ContainsBehind(head, e, entries[k]);
      ContainsBefore(head + e, LeasesHeader, entries[k]);
      ContainsBefore(head + e + LeasesHeader, l, entries[k]);
      ContainsBehind(Greeting, head + e + LeasesHeader + l, entries[k]);
    }
    forall i | 0 <= i < |leaseTexts|
      ensures Contains(BodyText(siteName, projectName, projectId, violations, show, leaseTexts), LeaseLine(leaseTexts[i]))
    {
      ConcatContains(lines, |lines|, i);
      ContainsBehind(head + e + LeasesHeader, l, lines[i]);
      ContainsBehind(Greeting, head + e + LeasesHeader + l, lines[i]);
    }
  }

  /** Each of the pieces is found in their concatenation. */
  lemma {:induction false} ConcatContains(parts: seq<string>, n: nat, k: nat)
    requires k < n <= |parts|
    ensures Contains(Concat(parts, n), parts[k])
  {
    if k == n - 1 {
      ContainsAfter(Concat(parts, n - 1), parts[k], "");
      assert Concat(parts, n - 1) + parts[k] + "" == Concat(parts, n);
    } else {
      ConcatContains(parts, n - 1, k);
      ContainsBefore(Concat(parts, n - 1), parts[n - 1], parts[k]);
    }
  }

  /** Text found in a string is found after anything put in front of it. */
  lemma {:induction false} ContainsBehind(pre: string, s: string, sub: string)
    requires Contains(s, sub)
    ensures Contains(pre + s, sub)
    decreases |pre|
  {
    if pre != [] {
      ContainsBehind(pre[1..], s, sub);
      assert (pre + s)[1..] == pre[1..] + s;
    } else {
      assert pre + s == s;
    }
  }

  /** Text found in a string is found whatever follows it. */
  lemma {:induction false} ContainsBefore(s: string, post: string, sub: string)
    requires Contains(s, sub)
    ensures Contains(s + post, sub)
    decreases |s|
  {
    if !(sub <= s) {
      ContainsBefore(s[1..], post, sub);
      assert (s + post)[1..] == s[1..] + post;
    }
  }
}

=== FILE: lease_stack_reaper.dfy ===
/**
 * The lease-stacking reaper (hammers/scripts/lease_stack_reaper.py): advanced
 * reservations are grouped per user and per node type; a user whose leases on a node
 * type are stacked beyond the allowed one has the extra ones deleted and is told by
 * e-mail, or, in describe mode, only listed.
 */
module LeaseStackReaper {
  import opened Wrappers
  import opened Dicts
  import opened LeaseStacking

  /** A reservation row, the user's e-mail already read from `user_extra`. */
  datatype Row = Row(userId: string, userName: string, email: string, nodeType: string, lease: StackLease)

  /**
   * `add_lease` with the list read through `self.nodes`: the membership test compares a
   * lease id with lease tuples, which never match, so the lease is always appended.
   */
  function AddTo(d: NodeLeases, nodeType: string, lease: StackLease): (r: NodeLeases)
    requires d.Valid()
    ensures r.Valid()
  {
    Put(d, nodeType, ListOf(d, nodeType) + [lease])
  }

  /**
   * Adding lists the node type, appends the lease to its list and leaves every other
   * node type alone.
   */
  lemma AddToMeaning(d: NodeLeases, nodeType: string, lease: StackLease)
    requires d.Valid()
    ensures nodeType in AddTo(d, nodeType, lease).vals
    ensures AddTo(d, nodeType, lease).vals[nodeType] == ListOf(d, nodeType) + [lease]
    ensures forall k :: k != nodeType ==> ListOf(AddTo(d, nodeType, lease), k) == ListOf(d, k)
    ensures nodeType in d.vals ==> AddTo(d, nodeType, lease).keys == d.keys
    ensures nodeType !in d.vals ==> AddTo(d, nodeType, lease).keys == d.keys + [nodeType]
  {
  }

  /**
   * What the comment of `add_lease` describes: a lease already listed for the node type
   * (a lease over several nodes of the type) is skipped.
   */
  function AddOnce(d: NodeLeases, nodeType: string, lease: StackLease): (r: NodeLeases)
    requires d.Valid()
    ensures r.Valid()
  {
    var l := ListOf(d, nodeType);
    Put(d, nodeType, if lease in l then l else l + [lease])
  }

  /**
   * Adding once lists the node type and the lease under it, appends the lease only when
   * it was not listed there yet, and leaves every other node type alone.
   */
  lemma AddOnceMeaning(d: NodeLeases, nodeType: string, lease: StackLease)
    requires d.Valid()
    ensures nodeType in AddOnce(d, nodeType, lease).vals && lease in ListOf(AddOnce(d, nodeType, lease), nodeType)
    ensures lease in ListOf(d, nodeType) ==> AddOnce(d, nodeType, lease).vals[nodeType] == ListOf(d, nodeType)
    ensures lease !in ListOf(d, nodeType) ==> AddOnce(d, nodeType, lease).vals[nodeType] == ListOf(d, nodeType) + [lease]
    ensures NoDups(ListOf(d, nodeType)) ==> NoDups(ListOf(AddOnce(d, nodeType, lease), nodeType))
    ensures forall k :: k != nodeType ==> ListOf(AddOnce(d, nodeType, lease), k) == ListOf(d, k)
  {
    var l := ListOf(d, nodeType);
    if lease !in l && NoDups(l) {
      var l' := l + [lease];
      forall i, j | 0 <= i < j < |l'| ensures l'[i] != l'[j] {
        if j == |l| {
          assert l'[i] == l[i];
        }
      }
    }
  }

  /**
   * Appending a lease that is already listed does not change the sorted list: the
   * `set` of `sort_leases_by_date` drops the copy.
   */
  lemma DuplicateAppendHarmless(s: seq<StackLease>, x: StackLease)
    requires x in s
    ensures SortDedup(s + [x]) == SortDedup(s)
  {
    DedupMeaning(s);
    assert (s + [x])[..|s + [x]| - 1] == s;
  }

  /** The leases in violation of a user with the given node types: `leases_in_violation`. */
  function Violations(d: NodeLeases): seq<StackLease>
    requires d.Valid()
  {
    var s := SortedNodes(d);
    QueuedOver(s.keys, s.vals)
  }

  /**
   * Each lease in violation is one of the user's leases on some node type, and a stacked
   * lease there other than the first.
   */
  lemma ViolationsMeaning(d: NodeLeases)
    requires d.Valid()
    ensures forall x :: x in Violations(d) ==>
      exists nt :: nt in d.vals && x in d.vals[nt] && x in Queued(Stacked(SortDedup(d.vals[nt])))
  {
    var s := SortedNodes(d);
    QueuedOverMeaning(s.keys, s.vals);
    forall x | x in Violations(d)
      ensures exists nt :: nt in d.vals && x in d.vals[nt] && x in Queued(Stacked(SortDedup(d.vals[nt])))
    {
      var nt :| nt in s.keys && nt in s.vals && x in Queued(Stacked(s.vals[nt]));
      var sorted := SortDedup(d.vals[nt]);
      var st := Stacked(sorted);
      QueuedMeaning(st);
      var j :| 0 <= j < |Queued(st)| && Queued(st)[j] == x;
      StackedMeaning(sorted);
      assert x == sorted[StackedIndices(sorted, |sorted|)[j + 1]];
      SortDedupMeaning(d.vals[nt]);
    }
  }

  /**
   * `leases_in_violation` leaves the lists sorted, so a second call computes the same
   * list again.
   */
  lemma ViolationsStable(d: NodeLeases)
    requires d.Valid()
    ensures Violations(SortedNodes(d)) == Violations(d)
  {
    SortedNodesIdempotent(d);
  }

  /** `User`: a user's leases per node type. */
  class User {
    const userId: string
    const name: string
    const email: string
    var nodes: NodeLeases

    ghost predicate Valid()
      reads this
    {
      nodes.Valid()
    }

    constructor(userId: string, name: string, email: string)
      ensures Valid()
      ensures this.userId == userId && this.name == name && this.email == email
      ensures nodes == Empty()
    {
      this.userId := userId;
      this.name := name;
      this.email := email;
      nodes := Empty();
    }

    /**
     * `add_lease` as written: the node type's list is created on first sight, then the
     * membership test reads `self.node`, which no `User` has.
     */
    method AddLeaseAsWritten(nodeType: string, lease: StackLease) returns (err: Error)
      requires Valid()
      modifies this
      ensures Valid()
      ensures nodes == if nodeType in old(nodes).vals then old(nodes) else Put(old(nodes), nodeType, [])
      ensures err == AttributeError("node")
    {
      if nodeType !in nodes.vals {
        nodes := Put(nodes, nodeType, []);
      }
      return AttributeError("node");
    }

    /**
     * `add_lease` with the list read through `self.nodes`: the lease id is never among
     * the listed tuples, so the lease tuple is appended.
     */
    method AddLease(nodeType: string, lease: StackLease)
      requires Valid()
      modifies this
      ensures Valid() && nodes == AddTo(old(nodes), nodeType, lease)
    {
      if nodeType !in nodes.vals {
        nodes := Put(nodes, nodeType, []);
      }
      nodes := Put(nodes, nodeType, nodes.vals[nodeType] + [lease]);
    }

    /** `sort_leases_by_date`: every node type's list de-duplicated and sorted by start. */
    method SortLeasesByDate()
      requires Valid()
      modifies this
      ensures Valid() && nodes == SortedNodes(old(nodes))
    {
      nodes := SortEach(nodes);
    }

    /**
     * `leases_in_violation`: the lists are sorted in place, then a fresh list gathers the
     * stacked leases past the allowed one of each node type, in node-type order.
     */
    method LeasesInViolation() returns (leases: seq<StackLease>)
      requires Valid()
      modifies this
      ensures Valid() && nodes == SortedNodes(old(nodes))
      ensures leases == Violations(old(nodes))
    {
      SortLeasesByDate();
      leases := QueueEach(nodes);
    }
  }

  /** The name and e-mail a user object is created with. */
  datatype Contact = Contact(name: string, email: string)

  /**
   * The users of the first `n` rows in order of first sight, each with the name and
   * e-mail of the user's first row: the keys of the `users` dictionary and the
   * constructor arguments of its objects.
   */
  function Users(rows: seq<Row>, n: nat): (r: Dict<string, Contact>)
    requires n <= |rows|
    ensures r.Valid()
  {
    if n == 0 then Empty()
    else
      var p := Users(rows, n - 1);
      var row := rows[n - 1];
      if row.userId in p.vals then p else Put(p, row.userId, Contact(row.userName, row.email))
  }

  /** A user is in the dictionary iff one of the rows is theirs. */
  lemma {:induction false} UsersMeaning(rows: seq<Row>, n: nat)
    requires n <= |rows|
    ensures forall u :: u in Users(rows, n).vals <==> exists j :: 0 <= j < n && rows[j].userId == u
  {
    if n > 0 {
      UsersMeaning(rows, n - 1);
    }
  }

  /** A user's name and e-mail are those of the user's first row. */
  lemma {:induction false} UsersFirstRow(rows: seq<Row>, n: nat, i: nat)
    requires i < n <= |rows| && forall j :: 0 <= j < i ==> rows[j].userId != rows[i].userId
    ensures rows[i].userId in Users(rows, n).vals
    ensures Users(rows, n).vals[rows[i].userId] == Contact(rows[i].userName, rows[i].email)
  {
    if i == n - 1 {
      UsersMeaning(rows, n - 1);
    } else {
      UsersFirstRow(rows, n - 1, i);
    }
  }

  /** A user's leases per node type after the first `n` rows. */
  function UserNodes(rows: seq<Row>, n: nat, uid: string): (r: NodeLeases)
    requires n <= |rows|
    ensures r.Valid()
  {
    if n == 0 then Empty()
    else
      var p := UserNodes(rows, n - 1, uid);
      if rows[n - 1].userId == uid then AddTo(p, rows[n - 1].nodeType, rows[n - 1].lease) else p
  }

  /** A user without rows has no node types. */
  lemma {:induction false} UserNodesAbsent(rows: seq<Row>, n: nat, uid: string)
    requires n <= |rows| && uid !in Users(rows, n).vals
    ensures UserNodes(rows, n, uid) == Empty()
  {
    if n > 0 {
      UserNodesAbsent(rows, n - 1, uid);
    }
  }

  /** A user's node type is listed iff one of the user's rows is on it. */
  lemma {:induction false} UserTypes(rows: seq<Row>, n: nat, uid: string)
    requires n <= |rows|
    ensures forall nt :: nt in UserNodes(rows, n, uid).vals <==>
      exists j :: 0 <= j < n && rows[j].userId == uid && rows[j].nodeType == nt
  {
    if n > 0 {
      UserTypes(rows, n - 1, uid);
      AddToMeaning(UserNodes(rows, n - 1, uid), rows[n - 1].nodeType, rows[n - 1].lease);
    }
  }

  /** The leases of a user's rows on a node type among the first `n`, in row order. */
  function LeasesOn(rows: seq<Row>, n: nat, uid: string, nodeType: string): seq<StackLease>
    requires n <= |rows|
  {
    if n == 0 then []
    else
      var row := rows[n - 1];
      LeasesOn(rows, n - 1, uid, nodeType) + (if row.userId == uid && row.nodeType == nodeType then [row.lease] else [])
  }

  /** A node type's list holds the leases of the user's rows on it, in row order. */
  lemma {:induction false} UserList(rows: seq<Row>, n: nat, uid: string, nodeType: string)
    requires n <= |rows|
    ensures ListOf(UserNodes(rows, n, uid), nodeType) == LeasesOn(rows, n, uid, nodeType)
  {
    if n > 0 {
      var row := rows[n - 1];
      UserList(rows, n - 1, uid, nodeType);
      AddToMeaning(UserNodes(rows, n - 1, uid), row.nodeType, row.lease);
    }
  }

  /** A user's leases per node type after the first `n` rows, had `add_lease` skipped listed leases. */
  function UserNodesOnce(rows: seq<Row>, n: nat, uid: string): (r: NodeLeases)
    requires n <= |rows|
    ensures r.Valid()
  {
    if n == 0 then Empty()
    else
      var p := UserNodesOnce(rows, n - 1, uid);
      if rows[n - 1].userId == uid then AddOnce(p, rows[n - 1].nodeType, rows[n - 1].lease) else p
  }

  /**
   * Skipping listed leases, a node type's list holds the leases of the user's rows on it,
   * each once, in order of first appearance.
   */
  lemma {:induction false} UserListOnce(rows: seq<Row>, n: nat, uid: string, nodeType: string)
    requires n <= |rows|
    ensures ListOf(UserNodesOnce(rows, n, uid), nodeType) == Dedup(LeasesOn(rows, n, uid, nodeType))
    ensures NoDups(ListOf(UserNodesOnce(rows, n, uid), nodeType))
  {
    if n > 0 {
      var row := rows[n - 1];
      UserListOnce(rows, n - 1, uid, nodeType);
      var s := LeasesOn(rows, n - 1, uid, nodeType);
      AddOnceMeaning(UserNodesOnce(rows, n - 1, uid), row.nodeType, row.lease);
      if row.userId == uid && row.nodeType == nodeType {
        assert (s + [row.lease])[..|s|] == s;
      } else {
        assert s + [] == s;
      }
    }
    DedupMeaning(LeasesOn(rows, n, uid, nodeType));
  }

  /** Appending and skipping list the same node types in the same order. */
  lemma {:induction false} OnceSameKeys(rows: seq<Row>, n: nat, uid: string)
    requires n <= |rows|
    ensures UserNodes(rows, n, uid).keys == UserNodesOnce(rows, n, uid).keys
    ensures UserNodes(rows, n, uid).vals.Keys == UserNodesOnce(rows, n, uid).vals.Keys
  {
    if n > 0 {
      OnceSameKeys(rows, n - 1, uid);
    }
  }

  /**
   * Whether `add_lease` skips a listed lease or appends it makes no difference once
   * `sort_leases_by_date` has run: the sorted dictionaries, and so the leases in
   * violation, are the same over any rows.
   */
  lemma SkipMakesNoDifference(rows: seq<Row>, n: nat, uid: string)
    requires n <= |rows|
    ensures SortedNodes(UserNodes(rows, n, uid)) == SortedNodes(UserNodesOnce(rows, n, uid))
    ensures Violations(UserNodes(rows, n, uid)) == Violations(UserNodesOnce(rows, n, uid))
  {
    var d := UserNodes(rows, n, uid);
    var e := UserNodesOnce(rows, n, uid);
    OnceSameKeys(rows, n, uid);
    forall k | k in d.vals ensures SortDedup(d.vals[k]) == SortDedup(e.vals[k]) {
      UserList(rows, n, uid, k);
      UserListOnce(rows, n, uid, k);
      var s := LeasesOn(rows, n, uid, k);
      DedupMeaning(s);
      DedupNoDups(Dedup(s));
    }
  }

  /** A deletion e-mail: the user's address and name and the ids of the leases deleted. */
  datatype Notice = Notice(to: string, userName: string, leaseIds: seq<string>)

  /** `print_info`: a user's name, e-mail and leases in violation. */
  datatype Info = Info(userName: string, userEmail: string, leases: seq<StackLease>)

  /**
   * What the reaper does: the count it returns, the lease ids it deletes, the e-mails it
   * sends and the entries it prints.
   */
  datatype Outcome = Outcome(count: int, deleted: seq<string>, notices: seq<Notice>, infos: seq<Info>)

  /** One user of the second loop of `gpu_stack_reaper`, with the leases in violation `v`. */
  function ReapUser(o: Outcome, c: Contact, v: seq<StackLease>, describe: bool): Outcome
  {
    if v == [] then o
    else if !describe then Outcome(o.count + |v|, o.deleted + LeaseIds(v), o.notices + [Notice(c.email, c.name, LeaseIds(v))], o.infos)
    else o.(infos := o.infos + [Info(c.name, c.email, v)])
  }

  /** The leases in violation of a user after all the rows. */
  function ViolationsOf(rows: seq<Row>, u: string): seq<StackLease>
  {
    Violations(UserNodes(rows, |rows|, u))
  }

  /** The second loop of `gpu_stack_reaper` over the listed users of the rows. */
  function Reaped(rows: seq<Row>, uids: seq<string>, describe: bool): Outcome
  {
    if uids == [] then Outcome(0, [], [], [])
    else
      var o := Reaped(rows, uids[..|uids| - 1], describe);
      var u := uids[|uids| - 1];
      var users := Users(rows, |rows|);
      if u in users.vals then ReapUser(o, users.vals[u], ViolationsOf(rows, u), describe) else o
  }

  lemma ReapedStep(rows: seq<Row>, uids: seq<string>, i: nat, describe: bool)
    requires i < |uids| && uids[i] in Users(rows, |rows|).vals
    ensures Reaped(rows, uids[..i + 1], describe) ==
      ReapUser(Reaped(rows, uids[..i], describe), Users(rows, |rows|).vals[uids[i]], ViolationsOf(rows, uids[i]), describe)
  {
    assert uids[..i + 1][..i] == uids[..i];
  }

  /** Every lease in violation of the listed users, user after user. */
  function AllViolations(rows: seq<Row>, uids: seq<string>): seq<StackLease>
  {
    if uids == [] then []
    else
      var u := uids[|uids| - 1];
      AllViolations(rows, uids[..|uids| - 1]) + (if u in Users(rows, |rows|).vals then ViolationsOf(rows, u) else [])
  }

  /** Describe mode deletes nothing, sends nothing and returns 0; it prints only users with leases in violation. */
  lemma {:induction false} ReapedDescribe(rows: seq<Row>, uids: seq<string>)
    ensures var o := Reaped(rows, uids, true);
      o.count == 0 && o.deleted == [] && o.notices == [] && forall k :: 0 <= k < |o.infos| ==> o.infos[k].leases != []
  {
    if uids != [] {
      ReapedDescribe(rows, uids[..|uids| - 1]);
    }
  }

  /**
   * Delete mode prints nothing; it deletes every lease in violation, in user order, and
   * returns their number.
   */
  lemma {:induction false} ReapedDelete(rows: seq<Row>, uids: seq<string>)
    ensures var o := Reaped(rows, uids, false);
      o.count == |AllViolations(rows, uids)| && o.deleted == LeaseIds(AllViolations(rows, uids)) && o.infos == []
  {
    if uids != [] {
      var init := uids[..|uids| - 1];
      ReapedDelete(rows, init);
      var u := uids[|uids| - 1];
      if u in Users(rows, |rows|).vals {
        LeaseIdsAppend(AllViolations(rows, init), ViolationsOf(rows, u));
      } else {
        assert AllViolations(rows, init) + [] == AllViolations(rows, init);
      }
    }
  }

  /** The e-mail a user in violation receives. */
  function NoticeFor(rows: seq<Row>, u: string): Notice
    requires u in Users(rows, |rows|).vals
  {
    var c := Users(rows, |rows|).vals[u];
    Notice(c.email, c.name, LeaseIds(ViolationsOf(rows, u)))
  }

  /**
   * In delete mode an e-mail goes out exactly to the listed users with leases in
   * violation; a user whose list is empty is not written to.
   */
  lemma {:induction false} ReapedNotices(rows: seq<Row>, uids: seq<string>)
    ensures forall n :: n in Reaped(rows, uids, false).notices <==>
      exists u :: u in uids && u in Users(rows, |rows|).vals && ViolationsOf(rows, u) != [] && n == NoticeFor(rows, u)
  {
    if uids != [] {
      var init := uids[..|uids| - 1];
      ReapedNotices(rows, init);
      assert forall u :: u in uids <==> u in init || u == uids[|uids| - 1];
    }
  }

  /** Each user object is stored under its own id, so distinct ids hold distinct objects. */
  predicate Keyed(users: map<string, User>)
  {
    forall u :: u in users ==> users[u].userId == u
  }

  /** The user objects are those of the dictionary, with its names and e-mails. */
  ghost predicate Named(users: map<string, User>, d: Dict<string, Contact>)
  {
    users.Keys == d.vals.Keys &&
    forall u {:trigger users[u]} :: u in users ==> users[u].name == d.vals[u].name && users[u].email == d.vals[u].email
  }

  /** Each user object holds that user's node types after the first `n` rows. */
  ghost predicate Holds(users: map<string, User>, rows: seq<Row>, n: nat)
    requires n <= |rows|
    reads set u | u in users :: users[u]
  {
    forall u {:trigger users[u].nodes} :: u in users ==> users[u].nodes == UserNodes(rows, n, u)
  }

  /** Storing the object of a newly seen user keeps the names and e-mails in step with the rows. */
  lemma NamedPut(users: map<string, User>, rows: seq<Row>, i: nat, user: User)
    requires i < |rows| && Named(users, Users(rows, i)) && rows[i].userId !in users
    requires user.name == rows[i].userName && user.email == rows[i].email
    ensures Named(users[rows[i].userId := user], Users(rows, i + 1))
  {
  }

  /** Storing an object that holds a user's node types keeps every object in step with the rows. */
  lemma HoldsPut(users: map<string, User>, rows: seq<Row>, i: nat, uid: string, user: User)
    requires i <= |rows| && Holds(users, rows, i) && user.nodes == UserNodes(rows, i, uid)
    ensures Holds(users[uid := user], rows, i)
  {
  }

  /** The first sight of a user creates its object, with the name and e-mail of that row. */
  method Register(users: map<string, User>, rows: seq<Row>, i: nat) returns (r: map<string, User>)
    requires i < |rows| && Keyed(users) && Named(users, Users(rows, i)) && Holds(users, rows, i)
    ensures r.Keys == users.Keys + {rows[i].userId} && forall u :: u in users ==> r[u] == users[u]
    ensures forall u :: u in r && u !in users ==> fresh(r[u])
    ensures Keyed(r) && Named(r, Users(rows, i + 1)) && Holds(r, rows, i)
  {
    var row := rows[i];
    r := users;
    if row.userId !in r {
      UserNodesAbsent(rows, i, row.userId);
      var user := new User(row.userId, row.userName, row.email);
      NamedPut(users, rows, i, user);
      HoldsPut(users, rows, i, row.userId, user);
      r := r[row.userId := user];
    }
  }

  /** One row of the first loop of `gpu_stack_reaper`: its user registered, its lease added. */
  method AddRow(users: map<string, User>, rows: seq<Row>, i: nat) returns (r: map<string, User>)
    requires i < |rows| && Keyed(users) && Named(users, Users(rows, i)) && Holds(users, rows, i)
    modifies set u | u in users :: users[u]
    ensures r.Keys == users.Keys + {rows[i].userId} && forall u :: u in users ==> r[u] == users[u]
    ensures forall u :: u in r && u !in users ==> fresh(r[u])
    ensures Keyed(r) && Named(r, Users(rows, i + 1)) && Holds(r, rows, i + 1)
  {
    var row := rows[i];
    r := Register(users, rows, i);
    var user := r[row.userId];
    user.AddLease(row.nodeType, row.lease);
  }

  /** The first loop of `gpu_stack_reaper`: one user object per user, in order of first sight. */
  method BuildUsers(rows: seq<Row>) returns (users: map<string, User>, order: seq<string>)
    ensures order == Users(rows, |rows|).keys
    ensures forall u :: u in users ==> fresh(users[u])
    ensures Keyed(users) && Named(users, Users(rows, |rows|)) && Holds(users, rows, |rows|)
  {
    users := map[];
    order := [];
    for i := 0 to |rows|
      invariant order == Users(rows, i).keys
      invariant forall u :: u in users ==> fresh(users[u])
      invariant Keyed(users) && Named(users, Users(rows, i)) && Holds(users, rows, i)
    {
      if rows[i].userId !in users {
        order := order + [rows[i].userId];
      }
      users := AddRow(users, rows, i);
    }
  }

  /** The users of `order` from position `i` on still hold their node types after the rows. */
  ghost predicate Unchecked(users: map<string, User>, order: seq<string>, rows: seq<Row>, i: nat)
    reads set u | u in users :: users[u]
  {
    forall j :: i <= j < |order| ==> order[j] in users && users[order[j]].nodes == UserNodes(rows, |rows|, order[j])
  }

  /** The body of the second loop for one user: the leases in violation computed, then deleted and mailed, or printed. */
  method ReapUserOnce(user: User, describe: bool, o0: Outcome) returns (o: Outcome)
    requires user.Valid()
    modifies user
    ensures o == ReapUser(o0, Contact(user.name, user.email), Violations(old(user.nodes)), describe)
  {
    var leases := user.LeasesInViolation();
    o := o0;
    if leases != [] {
      if !describe {
        o := Outcome(o.count + |leases|, o.deleted + LeaseIds(leases), o.notices + [Notice(user.email, user.name, LeaseIds(leases))], o.infos);
      } else {
        o := o.(infos := o.infos + [Info(user.name, user.email, leases)]);
      }
    }
  }

  /** One step of the second loop: the user at position `i`, the later users untouched. */
  method ReapOne(users: map<string, User>, order: seq<string>, ghost rows: seq<Row>, i: nat, describe: bool, o0: Outcome)
    returns (o: Outcome)
    requires Keyed(users) && Named(users, Users(rows, |rows|)) && order == Users(rows, |rows|).keys && i < |order|
    requires o0 == Reaped(rows, order[..i], describe) && Unchecked(users, order, rows, i)
    modifies users[order[i]]
    ensures o == Reaped(rows, order[..i + 1], describe) && Unchecked(users, order, rows, i + 1)
  {
    var user := users[order[i]];
    ReapedStep(rows, order, i, describe);
    o := ReapUserOnce(user, describe, o0);
  }

  /**
   * `gpu_stack_reaper` with `add_lease` corrected: the users are grouped, then each one's
   * leases in violation are deleted and mailed, or in describe mode printed.
   */
  method GpuStackReaper(rows: seq<Row>, describe: bool) returns (o: Outcome)
    ensures o == Reaped(rows, Users(rows, |rows|).keys, describe)
  {
    var users, order := BuildUsers(rows);
    o := Outcome(0, [], [], []);
    for i := 0 to |order|
      invariant forall u :: u in users ==> fresh(users[u])
      invariant Keyed(users) && Named(users, Users(rows, |rows|))
      invariant o == Reaped(rows, order[..i], describe) && Unchecked(users, order, rows, i)
    {
      o := ReapOne(users, order, rows, i, describe, o);
    }
    assert order[..|order|] == order;
  }

  /**
   * `gpu_stack_reaper` as written: the first row's `add_lease` raises the AttributeError,
   * in either mode; with no rows nothing happens and 0 is returned.
   */
  method GpuStackReaperAsWritten(rows: seq<Row>, describe: bool) returns (r: Result<int>)
    ensures r == if rows == [] then Ok(0) else Err(AttributeError("node"))
  {
    var users: map<string, User> := map[];
    for i := 0 to |rows|
      invariant i == 0 && users == map[]
    {
      if rows[i].userId !in users {
        var user := new User(rows[i].userId, rows[i].userName, rows[i].email);
        users := users[rows[i].userId := user];
      }
      var err := users[rows[i].userId].AddLeaseAsWritten(rows[i].nodeType, rows[i].lease);
      return Err(err);
    }
    return Ok(0);
  }
}

=== FILE: lease_stacking.dfy ===
/**
 * The lease-stacking rule shared by hammers/scripts/gpu_lease_stacking.py and
 * hammers/scripts/lease_stack_reaper.py: a user's leases on one node (or node type) are
 * de-duplicated and sorted by start, and a lease is "stacked" when less than a day
 * separates it from its predecessor or its successor. Times are whole seconds since
 * the epoch, UTC.
 */
module LeaseStacking {
  import opened Dicts

  /** The `(lease_id, start_date, end_date)` tuple. */
  datatype StackLease = StackLease(leaseId: string, start: int, end: int)

  /** `LEASES_ALLOWED`: stacked leases per node that are left alone. */
  const LeasesAllowed := 1

  /** `datetime.min`, 0001-01-01 00:00:00, in epoch seconds. */
  const MinTime := -62135596800
  /** `datetime.max`, 9999-12-31 23:59:59.999999, in whole epoch seconds. */
  const MaxTime := 253402300799

  /**
   * `timedelta.days`: whole days, rounded down (the fraction of a second `datetime.max`
   * carries never changes the comparison with one day).
   */
  function Days(delta: int): int
  {
    delta / 86400
  }

  /** `(b - a).days < 1` is `b - a < 86400`: less than a full day, negative gaps included. */
  lemma DaysBelowOne(delta: int)
    ensures Days(delta) < 1 <==> delta < 86400
  {
  }

  /** The gap test of `find_stacked_leases` for lease `i`, with the sentinels at the ends. */
  predicate StackedAt(leases: seq<StackLease>, i: int)
    requires 0 <= i < |leases|
  {
    var lastEnd := if i > 0 then leases[i - 1].end else MinTime;
    var nextStart := if i < |leases| - 1 then leases[i + 1].start else MaxTime;
    Days(leases[i].start - lastEnd) < 1 || Days(nextStart - leases[i].end) < 1
  }

  /** The indices below `n` whose lease is stacked, in increasing order. */
  function StackedIndices(leases: seq<StackLease>, n: nat): (r: seq<nat>)
    requires n <= |leases|
    ensures forall j :: 0 <= j < |r| ==> r[j] < n
  {
    if n == 0 then []
    else StackedIndices(leases, n - 1) + (if StackedAt(leases, n - 1) then [n - 1] else [])
  }

  /** The stacked leases among the first `n`, in input order. */
  function StackedPrefix(leases: seq<StackLease>, n: nat): seq<StackLease>
    requires n <= |leases|
  {
    if n == 0 then []
    else StackedPrefix(leases, n - 1) + (if StackedAt(leases, n - 1) then [leases[n - 1]] else [])
  }

  function Stacked(leases: seq<StackLease>): seq<StackLease>
  {
    StackedPrefix(leases, |leases|)
  }

  lemma {:induction false} StackedPrefixMeaning(leases: seq<StackLease>, n: nat)
    requires n <= |leases|
    ensures var idx := StackedIndices(leases, n);
      |StackedPrefix(leases, n)| == |idx| &&
      (forall j :: 0 <= j < |idx| ==> StackedPrefix(leases, n)[j] == leases[idx[j]]) &&
      (forall j, k :: 0 <= j < k < |idx| ==> idx[j] < idx[k]) &&
      (forall i :: 0 <= i < n ==> (i in idx <==> StackedAt(leases, i)))
  {
    if n > 0 {
      StackedPrefixMeaning(leases, n - 1);
    }
  }

  /**
   * `find_stacked_leases` keeps, in input order, exactly the leases whose gap to a
   * neighbour is under a day: the result is the input at increasing indices, and an
   * index is among them iff its lease is stacked.
   */
  lemma StackedMeaning(leases: seq<StackLease>)
    ensures var idx := StackedIndices(leases, |leases|);
      |Stacked(leases)| == |idx| &&
      (forall j :: 0 <= j < |idx| ==> Stacked(leases)[j] == leases[idx[j]]) &&
      (forall j, k :: 0 <= j < k < |idx| ==> idx[j] < idx[k]) &&
      (forall i :: 0 <= i < |leases| ==> (i in idx <==> StackedAt(leases, i)))
  {
    StackedPrefixMeaning(leases, |leases|);
  }

  /** A lease at least a day clear of `datetime.min` and `datetime.max`. */
  predicate InRange(l: StackLease)
  {
    MinTime + 86400 <= l.start && l.end <= MaxTime - 86400
  }

  /**
   * Away from the sentinels the first lease has no predecessor and the last no
   * successor: the test is against the real neighbours only, in seconds.
   */
  lemma StackedAtNeighbours(leases: seq<StackLease>, i: int)
    requires 0 <= i < |leases| && InRange(leases[i])
    ensures StackedAt(leases, i) <==>
      (i > 0 && leases[i].start - leases[i - 1].end < 86400) ||
      (i < |leases| - 1 && leases[i + 1].start - leases[i].end < 86400)
  {
  }

  /** A single lease is never stacked. */
  lemma OneLeaseNotStacked(l: StackLease)
    requires InRange(l)
    ensures Stacked([l]) == []
  {
    StackedAtNeighbours([l], 0);
    assert !StackedAt([l], 0);
    assert StackedPrefix([l], 0) == [];
    assert Stacked([l]) == StackedPrefix([l], 0) + [];
  }

  /** `find_stacked_leases`. */
  method FindStackedLeases(leases: seq<StackLease>) returns (stacked: seq<StackLease>)
    ensures stacked == Stacked(leases)
  {
    stacked := [];
    for i := 0 to |leases|
      invariant stacked == StackedPrefix(leases, i)
    {
      var startDate := leases[i].start;
      var endDate := leases[i].end;
      var lastEndDate := if i > 0 then leases[i - 1].end else MinTime;
      var nextStartDate := if i < |leases| - 1 then leases[i + 1].start else MaxTime;
      var stackedPrevious := Days(startDate - lastEndDate) < 1;
      var stackedNext := Days(nextStartDate - endDate) < 1;
      if stackedPrevious || stackedNext {
        stacked := stacked + [leases[i]];
      }
    }
  }

  /** `stacked[LEASES_ALLOWED:]`: the stacked leases past the allowed ones. */
  function Queued(stacked: seq<StackLease>): seq<StackLease>
  {
    if |stacked| <= LeasesAllowed then [] else stacked[LeasesAllowed..]
  }

  /** All stacked leases but the first are queued, in order. */
  lemma QueuedMeaning(stacked: seq<StackLease>)
    ensures |Queued(stacked)| == if stacked == [] then 0 else |stacked| - 1
    ensures forall j :: 0 <= j < |Queued(stacked)| ==> Queued(stacked)[j] == stacked[j + 1]
  {
  }

  predicate NoDups<T(==)>(s: seq<T>)
  {
    forall i, j :: 0 <= i < j < |s| ==> s[i] != s[j]
  }

  /** The distinct leases in order of first appearance: the order `set` is taken to list them in. */
  function Dedup(s: seq<StackLease>): seq<StackLease>
  {
    if s == [] then []
    else
      var p := Dedup(s[..|s| - 1]);
      if s[|s| - 1] in p then p else p + [s[|s| - 1]]
  }

  /** `set` keeps every lease once and no other. */
  lemma {:induction false} DedupMeaning(s: seq<StackLease>)
    ensures NoDups(Dedup(s))
    ensures forall x :: x in Dedup(s) <==> x in s
  {
    if s != [] {
      var init := s[..|s| - 1];
      DedupMeaning(init);
      assert forall x :: x in s <==> x in init || x == s[|s| - 1];
    }
  }

  lemma {:induction false} DedupNoDups(s: seq<StackLease>)
    requires NoDups(s)
    ensures Dedup(s) == s
  {
    if s != [] {
      var init := s[..|s| - 1];
      assert NoDups(init);
      DedupNoDups(init);
      assert s[|s| - 1] !in init;
      assert init + [s[|s| - 1]] == s;
    }
  }

  predicate SortedByStart(s: seq<StackLease>)
  {
    forall i, j :: 0 <= i < j < |s| ==> s[i].start <= s[j].start
  }

  /** Insert into a sorted sequence after every lease starting no later. */
  function Insert(x: StackLease, s: seq<StackLease>): seq<StackLease>
  {
    if s == [] then [x]
    else if x.start < s[0].start then [x] + s
    else [s[0]] + Insert(x, s[1..])
  }

  /** Inserting adds the lease and loses none. */
  lemma {:induction false} InsertMultiset(x: StackLease, s: seq<StackLease>)
    ensures multiset(Insert(x, s)) == multiset(s) + multiset{x}
  {
    if s != [] && x.start >= s[0].start {
      InsertMultiset(x, s[1..]);
      assert s == [s[0]] + s[1..];
    }
  }

  /** A lease starting no later than the head of a sorted sequence can go in front of it. */
  lemma ConsSorted(y: StackLease, r: seq<StackLease>)
    requires SortedByStart(r) && (r == [] || y.start <= r[0].start)
    ensures SortedByStart([y] + r)
  {
    var full := [y] + r;
    forall i, j | 0 <= i < j < |full| ensures full[i].start <= full[j].start {
      if i == 0 {
        assert full[j] == r[j - 1];
      } else {
        assert full[i] == r[i - 1] && full[j] == r[j - 1];
      }
    }
  }

  /** Inserting keeps a sorted sequence sorted. */
  lemma {:induction false} InsertSorted(x: StackLease, s: seq<StackLease>)
    requires SortedByStart(s)
    ensures SortedByStart(Insert(x, s))
  {
    if s == [] {
    } else if x.start < s[0].start {
      ConsSorted(x, s);
    } else {
      var t := s[1..];
      assert SortedByStart(t);
      InsertSorted(x, t);
      var r := Insert(x, t);
      assert r[0] == x || r[0] == t[0];
      ConsSorted(s[0], r);
    }
  }

  /** Appending a lease that starts no earlier than all others is inserting it. */
  lemma {:induction false} InsertAtEnd(x: StackLease, s: seq<StackLease>)
    requires forall y :: y in s ==> y.start <= x.start
    ensures Insert(x, s) == s + [x]
  {
    if s != [] {
      var t := s[1..];
      assert s[0] in s;
      assert forall y :: y in t ==> y in s;
      InsertAtEnd(x, t);
      assert Insert(x, s) == [s[0]] + (t + [x]);
      assert s == [s[0]] + t;
    }
  }

  /** `sorted(..., key=start)`: a stable insertion sort by start date. */
  function SortByStart(s: seq<StackLease>): seq<StackLease>
  {
    if s == [] then []
    else Insert(s[|s| - 1], SortByStart(s[..|s| - 1]))
  }

  /** The sort is a permutation of its input, in non-decreasing order of start. */
  lemma {:induction false} SortByStartMeaning(s: seq<StackLease>)
    ensures multiset(SortByStart(s)) == multiset(s)
    ensures SortedByStart(SortByStart(s))
  {
    if s != [] {
      var init := s[..|s| - 1];
      SortByStartMeaning(init);
      InsertMultiset(s[|s| - 1], SortByStart(init));
      InsertSorted(s[|s| - 1], SortByStart(init));
      assert s == init + [s[|s| - 1]];
    }
  }

  /** A sorted sequence is its own sort. */
  lemma {:induction false} SortSorted(s: seq<StackLease>)
    requires SortedByStart(s)
    ensures SortByStart(s) == s
  {
    if s != [] {
      var init := s[..|s| - 1];
      assert SortedByStart(init);
      SortSorted(init);
      InsertAtEnd(s[|s| - 1], init);
      assert init + [s[|s| - 1]] == s;
    }
  }

  lemma NoDupsMultiset(s: seq<StackLease>, t: seq<StackLease>)
    requires NoDups(s) && multiset(s) == multiset(t)
    ensures NoDups(t)
  {
    forall i, j | 0 <= i < j < |t| ensures t[i] != t[j] {
      if t[i] == t[j] {
        var x := t[i];
        assert t == t[..i] + [t[i]] + t[i + 1..j] + [t[j]] + t[j + 1..];
        assert multiset(t)[x] >= 2;
        NoDupsCount(s, x);
      }
    }
  }

  lemma {:induction false} NoDupsCount(s: seq<StackLease>, x: StackLease)
    requires NoDups(s)
    ensures multiset(s)[x] <= 1
  {
    if s != [] {
      var init := s[..|s| - 1];
      assert NoDups(init);
      NoDupsCount(init, x);
      assert s == init + [s[|s| - 1]];
      assert s[|s| - 1] !in init;
    }
  }

  /** `list(sorted(set(leases), key=lambda x: x[1]))`. */
  function SortDedup(s: seq<StackLease>): seq<StackLease>
  {
    SortByStart(Dedup(s))
  }

  /**
   * After sorting, each list holds every lease of the input once and no other, in
   * non-decreasing order of start.
   */
  lemma SortDedupMeaning(s: seq<StackLease>)
    ensures NoDups(SortDedup(s)) && SortedByStart(SortDedup(s))
    ensures forall x :: x in SortDedup(s) <==> x in s
  {
    var d := Dedup(s);
    DedupMeaning(s);
    SortByStartMeaning(d);
    NoDupsMultiset(d, SortByStart(d));
    assert forall x :: x in SortByStart(d) <==> x in multiset(SortByStart(d));
    assert forall x :: x in d <==> x in multiset(d);
  }

  /** Sorting an already sorted list again changes nothing. */
  lemma SortDedupIdempotent(s: seq<StackLease>)
    ensures SortDedup(SortDedup(s)) == SortDedup(s)
  {
    SortDedupMeaning(s);
    DedupNoDups(SortDedup(s));
    SortSorted(SortDedup(s));
  }

  /** A user's leases per node (or node type), in first-seen order of the nodes. */
  type NodeLeases = Dict<string, seq<StackLease>>

  /** The list of a node, empty before the node is first seen. */
  function ListOf(d: NodeLeases, node: string): seq<StackLease>
  {
    if node in d.vals then d.vals[node] else []
  }

  /** `sort_leases_by_date` on the whole dictionary: each list sorted, the nodes kept. */
  function SortedNodes(d: NodeLeases): (r: NodeLeases)
    requires d.Valid()
    ensures r.Valid() && r.keys == d.keys && r.vals.Keys == d.vals.Keys
  {
    Dict(d.keys, map k | k in d.vals :: SortDedup(d.vals[k]))
  }

  /** Sorting the dictionary a second time changes nothing. */
  lemma SortedNodesIdempotent(d: NodeLeases)
    requires d.Valid()
    ensures SortedNodes(SortedNodes(d)) == SortedNodes(d)
  {
    forall k | k in d.vals {
      SortDedupIdempotent(d.vals[k]);
    }
  }

  /** The stacked leases past the allowed one of each listed node, node after node. */
  function QueuedOver(keys: seq<string>, vals: map<string, seq<StackLease>>): seq<StackLease>
  {
    if keys == [] then []
    else
      var k := keys[|keys| - 1];
      QueuedOver(keys[..|keys| - 1], vals) + (if k in vals then Queued(Stacked(vals[k])) else [])
  }

  lemma QueuedOverStep(keys: seq<string>, i: nat, vals: map<string, seq<StackLease>>)
    requires i < |keys| && keys[i] in vals
    ensures QueuedOver(keys[..i + 1], vals) == QueuedOver(keys[..i], vals) + Queued(Stacked(vals[keys[i]]))
  {
    assert keys[..i + 1][..i] == keys[..i];
  }

  /**
   * Every queued lease is a stacked lease of some node, and not the first stacked lease
   * there.
   */
  lemma {:induction false} QueuedOverMeaning(keys: seq<string>, vals: map<string, seq<StackLease>>)
    ensures forall x :: x in QueuedOver(keys, vals) ==>
      exists k :: k in keys && k in vals && x in Queued(Stacked(vals[k]))
  {
    if keys != [] {
      QueuedOverMeaning(keys[..|keys| - 1], vals);
      var k := keys[|keys| - 1];
      assert k in keys;
      assert forall k' :: k' in keys[..|keys| - 1] ==> k' in keys;
    }
  }

  /**
   * The dictionary after the lists of its first `i` nodes are sorted, the others as they
   * were: the state of the loop of `sort_leases_by_date`.
   */
  ghost function SortedUpTo(d: NodeLeases, i: nat): (r: NodeLeases)
    requires d.Valid() && i <= |d.keys|
    ensures r.Valid() && r.keys == d.keys && r.vals.Keys == d.vals.Keys
  {
    Dict(d.keys, map k | k in d.vals :: if k in d.keys[..i] then SortDedup(d.vals[k]) else d.vals[k])
  }

  /** Before the loop nothing is sorted. */
  lemma SortedUpToNone(d: NodeLeases)
    requires d.Valid()
    ensures SortedUpTo(d, 0) == d
  {
    assert SortedUpTo(d, 0).vals == d.vals;
  }

  /** One more node: its list, still the original, is sorted. */
  lemma SortedUpToStep(d: NodeLeases, i: nat)
    requires d.Valid() && i < |d.keys|
    ensures d.keys[i] in SortedUpTo(d, i).vals
    ensures SortedUpTo(d, i + 1) == Put(SortedUpTo(d, i), d.keys[i], SortDedup(SortedUpTo(d, i).vals[d.keys[i]]))
  {
    var k := d.keys[i];
    assert k !in d.keys[..i] by {
      forall j | 0 <= j < i ensures d.keys[..i][j] != k {
        assert d.keys[..i][j] == d.keys[j];
      }
    }
    assert d.keys[..i + 1] == d.keys[..i] + [k];
    var p := SortedUpTo(d, i);
    assert p.vals[k] == d.vals[k];
    assert SortedUpTo(d, i + 1).vals == p.vals[k := SortDedup(p.vals[k])];
  }

  /** After every node, each list has been sorted. */
  lemma SortedUpToAll(d: NodeLeases)
    requires d.Valid()
    ensures SortedUpTo(d, |d.keys|) == SortedNodes(d)
  {
    assert d.keys[..|d.keys|] == d.keys;
    assert SortedUpTo(d, |d.keys|).vals == SortedNodes(d).vals;
  }

  /** The loop of `sort_leases_by_date` over a user's nodes (or node types), one list at a time. */
  method SortEach(d0: NodeLeases) returns (d: NodeLeases)
    requires d0.Valid()
    ensures d == SortedNodes(d0)
  {
    d := d0;
    SortedUpToNone(d0);
    for i := 0 to |d0.keys|
      invariant d == SortedUpTo(d0, i)
    {
      SortedUpToStep(d0, i);
      var nodeId := d.keys[i];
      d := Put(d, nodeId, SortDedup(d.vals[nodeId]));
    }
    SortedUpToAll(d0);
  }

  /**
   * The loop of `check_leases_for_stacking` (and of `leases_in_violation`) over a user's
   * sorted nodes: each node's stacked leases past the allowed one, in node order.
   */
  method QueueEach(d: NodeLeases) returns (queue: seq<StackLease>)
    requires d.Valid()
    ensures queue == QueuedOver(d.keys, d.vals)
  {
    queue := [];
    for i := 0 to |d.keys|
      invariant queue == QueuedOver(d.keys[..i], d.vals)
    {
      QueuedOverStep(d.keys, i, d.vals);
      var stacked := FindStackedLeases(d.vals[d.keys[i]]);
      queue := queue + Queued(stacked);
    }
    assert d.keys[..|d.keys|] == d.keys;
  }

  /** The ids of the leases, in order: what is deleted for them. */
  function LeaseIds(leases: seq<StackLease>): seq<string>
  {
    if leases == [] then [] else LeaseIds(leases[..|leases| - 1]) + [leases[|leases| - 1].leaseId]
  }

  lemma {:induction false} LeaseIdsMeaning(leases: seq<StackLease>)
    ensures |LeaseIds(leases)| == |leases|
    ensures forall i :: 0 <= i < |leases| ==> LeaseIds(leases)[i] == leases[i].leaseId
  {
    if leases != [] {
      LeaseIdsMeaning(leases[..|leases| - 1]);
    }
  }

  lemma {:induction false} LeaseIdsAppend(a: seq<StackLease>, b: seq<StackLease>)
    ensures LeaseIds(a + b) == LeaseIds(a) + LeaseIds(b)
  {
    if b != [] {
      assert (a + b)[..|a + b| - 1] == a + b[..|b| - 1];
      LeaseIdsAppend(a, b[..|b| - 1]);
    } else {
      assert a + b == a;
    }
  }
}

=== FILE: maintenance_reservation.dfy ===
/**
 * Maintenance reservations for Ironic nodes (hammers/scripts/maintenance_reservation.py):
 * the `--start-time` argument, the earliest gap in a node's lease schedule that fits the
 * requested hours, and the lease the reservation creates. Times are whole seconds
 * since the epoch, UTC.
 */
module MaintenanceReservation {
  import opened Wrappers
  import Strs
  import Times

  /** A lease row of the schedule query, ordered by start. */
  datatype LeaseRow = LeaseRow(startDate: int, endDate: int)

  /**
   * `valid_date`: no time for an absent or empty argument; otherwise the
   * `%Y-%m-%d %H:%M:%S` reading. A bad string reaches `argparse.ArgumentTypeError`, but
   * `argparse` is not imported, so a NameError is raised instead.
   */
  function ValidDate(s: Option<string>): (r: Result<Option<Times.DateTime>>)
    ensures s.None? || s == Some("") ==> r == Ok(None)
    ensures r.Err? ==> r.error == NameError("argparse")
    ensures r.Ok? && r.value.Some? ==> Times.Valid(r.value.value)
  {
    if s.None? || s.value == "" then Ok(None)
    else
      match Times.Parse(s.value, ' ')
      case Ok(t) => Ok(Some(t))
      case Err(_) => Err(NameError("argparse"))
  }

  /** Every time written in the layout is accepted and read back. */
  lemma ValidDateFormat(t: Times.DateTime)
    requires Times.Valid(t)
    ensures ValidDate(Some(Times.Format(t, ' '))) == Ok(Some(t))
  {
    Times.ParseFormat(t, ' ');
  }

  /** A text that is not in the layout is rejected with the NameError. */
  lemma ValidDateRejects()
    ensures ValidDate(Some("tomorrow")) == Err(NameError("argparse"))
  {
    assert |"tomorrow"| != 19;
  }

  function Max(a: int, b: int): int { if a < b then b else a }

  /** The gap test: hours left between the previous end and this start, less ten minutes. */
  predicate Fits(start: int, lastEnd: int, requestedHours: int)
  {
    ((start - lastEnd) - 600) as real / 3600.0 > requestedHours as real
  }

  /** The floating-point test is the integer one: the gap exceeds the requested hours plus ten minutes. */
  lemma FitsInSeconds(start: int, lastEnd: int, requestedHours: int)
    ensures Fits(start, lastEnd, requestedHours) <==> start - lastEnd - 600 > requestedHours * 3600
  {
  }

  /**
   * `get_node_earliest_reserve_time` as written, from a position in the rows: `lastEnd`
   * is the previous row's end, not the latest end seen so far.
   */
  function EarliestAsWritten(rows: seq<LeaseRow>, lastEnd: Option<int>, now: int, requestedHours: int): int
  {
    if rows == [] then (if lastEnd.Some? then lastEnd.value + 600 else now)
    else
      var start := Max(rows[0].startDate, now);
      if lastEnd.Some? && Fits(start, lastEnd.value, requestedHours) then lastEnd.value + 600
      else EarliestAsWritten(rows[1..], Some(rows[0].endDate), now, requestedHours)
  }

  /**
   * The time the reservation is for, with the latest end seen so far as the point the
   * gap is measured from: the function the corrected loop computes.
   */
  function Earliest(rows: seq<LeaseRow>, lastEnd: Option<int>, now: int, requestedHours: int): int
  {
    if rows == [] then (if lastEnd.Some? then lastEnd.value + 600 else now)
    else
      var start := Max(rows[0].startDate, now);
      if lastEnd.Some? && Fits(start, lastEnd.value, requestedHours) then lastEnd.value + 600
      else
        var seen := if lastEnd.Some? then Max(lastEnd.value, rows[0].endDate) else rows[0].endDate;
        Earliest(rows[1..], Some(seen), now, requestedHours)
  }

  /** The rows come ordered by start date. */
  predicate SortedByStart(rows: seq<LeaseRow>)
  {
    forall i, j :: 0 <= i < j < |rows| ==> rows[i].startDate <= rows[j].startDate
  }

  /**
   * The reservation `[t, t + hours]` collides with no lease: every lease either ended
   * at least ten minutes before `t`, or starts (no earlier than now) after the
   * reservation ends.
   */
  predicate SlotFree(rows: seq<LeaseRow>, now: int, t: int, requestedHours: int)
  {
    forall i :: 0 <= i < |rows| ==> rows[i].endDate + 600 <= t || t + requestedHours * 3600 < Max(rows[i].startDate, now)
  }

  lemma {:induction false} EarliestFreeFrom(rows: seq<LeaseRow>, lastEnd: Option<int>, now: int, requestedHours: int)
    requires SortedByStart(rows)
    ensures lastEnd.Some? ==> lastEnd.value + 600 <= Earliest(rows, lastEnd, now, requestedHours)
    ensures SlotFree(rows, now, Earliest(rows, lastEnd, now, requestedHours), requestedHours)
  {
    if rows != [] {
      var t := Earliest(rows, lastEnd, now, requestedHours);
      var start := Max(rows[0].startDate, now);
      if lastEnd.Some? && Fits(start, lastEnd.value, requestedHours) {
        FitsInSeconds(start, lastEnd.value, requestedHours);
        forall i | 0 <= i < |rows| ensures t + requestedHours * 3600 < Max(rows[i].startDate, now) {
          if i > 0 {
            assert rows[0].startDate <= rows[i].startDate;
          }
        }
      } else {
        var seen := if lastEnd.Some? then Max(lastEnd.value, rows[0].endDate) else rows[0].endDate;
        var rest := rows[1..];
        assert SortedByStart(rest) by {
          forall i, j | 0 <= i < j < |rest| ensures rest[i].startDate <= rest[j].startDate {
            assert rest[i] == rows[i + 1] && rest[j] == rows[j + 1];
          }
        }
        EarliestFreeFrom(rest, Some(seen), now, requestedHours);
        forall i | 1 <= i < |rows|
          ensures rows[i].endDate + 600 <= t || t + requestedHours * 3600 < Max(rows[i].startDate, now)
        {
          assert rows[i] == rest[i - 1];
        }
      }
    }
  }

  /** The corrected search always finds a slot that collides with no lease. */
  lemma EarliestIsFree(rows: seq<LeaseRow>, now: int, requestedHours: int)
    requires SortedByStart(rows)
    ensures SlotFree(rows, now, Earliest(rows, None, now, requestedHours), requestedHours)
    ensures rows == [] ==> Earliest(rows, None, now, requestedHours) == now
  {
    EarliestFreeFrom(rows, None, now, requestedHours);
  }

  /**
   * As written, a long lease followed by a short one hides the long one: with a lease
   * over the first 100 hours, a one-hour lease after it and the next lease ten hours
   * in, a five-hour slot is proposed right after the short lease, inside the long one.
   */
  lemma AsWrittenCollides()
    ensures var rows := [LeaseRow(0, 360000), LeaseRow(3600, 7200), LeaseRow(36000, 400000)];
      EarliestAsWritten(rows, None, 0, 5) == 7800 && !SlotFree(rows, 0, 7800, 5) &&
      SortedByStart(rows) && SlotFree(rows, 0, Earliest(rows, None, 0, 5), 5)
  {
    var rows := [LeaseRow(0, 360000), LeaseRow(3600, 7200), LeaseRow(36000, 400000)];
    assert rows[1..] == [LeaseRow(3600, 7200), LeaseRow(36000, 400000)];
    assert rows[1..][1..] == [LeaseRow(36000, 400000)];
    FitsInSeconds(0, 0, 5);
    FitsInSeconds(3600, 360000, 5);
    FitsInSeconds(36000, 7200, 5);
    assert EarliestAsWritten(rows[1..][1..], Some(7200), 0, 5) == 7800;
    assert !(rows[0].endDate + 600 <= 7800 || 7800 + 5 * 3600 < Max(rows[0].startDate, 0));
    EarliestIsFree(rows, 0, 5);
  }

  /**
   * A schedule as Blazar keeps it for one host: every lease ends no earlier than it
   * starts and no later than any later row starts, so no two leases overlap.
   */
  predicate Chained(rows: seq<LeaseRow>)
  {
    (forall i :: 0 <= i < |rows| ==> rows[i].startDate <= rows[i].endDate) &&
    (forall i, j :: 0 <= i < j < |rows| ==> rows[i].endDate <= rows[j].startDate)
  }

  /**
   * On a schedule without overlaps the previous row's end is the latest end seen, so the
   * search as written and the corrected search agree.
   */
  lemma {:induction false} AsWrittenAgrees(rows: seq<LeaseRow>, lastEnd: Option<int>, now: int, requestedHours: int)
    requires Chained(rows)
    requires lastEnd.Some? && rows != [] ==> lastEnd.value <= rows[0].endDate
    ensures EarliestAsWritten(rows, lastEnd, now, requestedHours) == Earliest(rows, lastEnd, now, requestedHours)
  {
    if rows != [] {
      var rest := rows[1..];
      assert Chained(rest) by {
        forall i | 0 <= i < |rest| ensures rest[i].startDate <= rest[i].endDate {
          assert rest[i] == rows[i + 1];
        }
        forall i, j | 0 <= i < j < |rest| ensures rest[i].endDate <= rest[j].startDate {
          assert rest[i] == rows[i + 1] && rest[j] == rows[j + 1];
        }
      }
      if rest != [] {
        assert rows[0].endDate <= rows[1].startDate <= rows[1].endDate;
      }
      AsWrittenAgrees(rest, Some(rows[0].endDate), now, requestedHours);
    }
  }

  /** A schedule without overlaps is ordered by start. */
  lemma ChainedSorted(rows: seq<LeaseRow>)
    requires Chained(rows)
    ensures SortedByStart(rows)
  {
    forall i, j | 0 <= i < j < |rows| ensures rows[i].startDate <= rows[j].startDate {
      assert rows[i].startDate <= rows[i].endDate <= rows[j].startDate;
    }
  }

  /**
   * The search as written proposes a free slot on every schedule without overlaps, and
   * the current time when there are no leases.
   */
  lemma AsWrittenIsFree(rows: seq<LeaseRow>, now: int, requestedHours: int)
    requires Chained(rows)
    ensures SlotFree(rows, now, EarliestAsWritten(rows, None, now, requestedHours), requestedHours)
    ensures rows == [] ==> EarliestAsWritten(rows, None, now, requestedHours) == now
  {
    AsWrittenAgrees(rows, None, now, requestedHours);
    ChainedSorted(rows);
    EarliestIsFree(rows, now, requestedHours);
  }

  /**
   * `get_node_earliest_reserve_time` over the schedule rows, as written: the gap is
   * measured from the previous row's end.
   */
  method GetNodeEarliestReserveTime(rows: seq<LeaseRow>, now: int, requestedHours: int) returns (t: int)
    ensures t == EarliestAsWritten(rows, None, now, requestedHours)
    ensures Chained(rows) ==> t == Earliest(rows, None, now, requestedHours)
  {
    if Chained(rows) {
      AsWrittenAgrees(rows, None, now, requestedHours);
    }
    var lastEndTime: Option<int> := None;
    for i := 0 to |rows|
      invariant EarliestAsWritten(rows, None, now, requestedHours) == EarliestAsWritten(rows[i..], lastEndTime, now, requestedHours)
    {
      assert rows[i..][1..] == rows[i + 1..];
      var leaseStartTime := rows[i].startDate;
      var leaseEndTime := rows[i].endDate;
      if leaseStartTime < now {
        leaseStartTime := now;
      }
      if lastEndTime.Some? {
        if Fits(leaseStartTime, lastEndTime.value, requestedHours) {
          return lastEndTime.value + 600;
        }
      }
      lastEndTime := Some(leaseEndTime);
    }
    if lastEndTime.Some? {
      return lastEndTime.value + 600;
    }
    return now;
  }

  /** `MAINT_LEASE_NAME` filled in, spaces in each part replaced by '_'. */
  function LeaseName(nodeName: string, operator: string, reason: string): (r: string)
  {
    "maint-of-" + Strs.ReplaceChar(nodeName, ' ', '_') + "-by-" + Strs.ReplaceChar(operator, ' ', '_') +
      "-for-" + Strs.ReplaceChar(reason, ' ', '_')
  }

  lemma NoSpaceAfterReplace(s: string)
    ensures ' ' !in Strs.ReplaceChar(s, ' ', '_')
  {
    var r := Strs.ReplaceChar(s, ' ', '_');
    forall i | 0 <= i < |r| ensures r[i] != ' ' {
    }
  }

  lemma ReplaceAbsent(s: string)
    requires ' ' !in s
    ensures Strs.ReplaceChar(s, ' ', '_') == s
  {
  }

  /**
   * The lease name never holds a space, and parts without spaces appear in it
   * unchanged.
   */
  lemma LeaseNameMeaning(nodeName: string, operator: string, reason: string)
    ensures ' ' !in LeaseName(nodeName, operator, reason)
    ensures ' ' !in nodeName && ' ' !in operator && ' ' !in reason ==>
      LeaseName(nodeName, operator, reason) == "maint-of-" + nodeName + "-by-" + operator + "-for-" + reason
  {
    NoSpaceAfterReplace(nodeName);
    NoSpaceAfterReplace(operator);
    NoSpaceAfterReplace(reason);
    if ' ' !in nodeName && ' ' !in operator && ' ' !in reason {
      ReplaceAbsent(nodeName);
      ReplaceAbsent(operator);
      ReplaceAbsent(reason);
    }
  }

  /** A reservation `reserve` makes: the lease name and its start and end. */
  datatype Reservation = Reservation(name: string, start: int, end: int)

  /** `reserve`: the lease runs from the start for the requested hours. */
  function Reserve(nodeName: string, start: int, requestedHours: int, reason: string, operator: string): (r: Reservation)
    ensures r.end - r.start == requestedHours * 3600
    ensures r.start == start && ' ' !in r.name
  {
    LeaseNameMeaning(nodeName, operator, reason);
    Reservation(LeaseName(nodeName, operator, reason), start, start + requestedHours * 3600)
  }

  /**
   * The start of a node's reservation in `main`: the given start time when there is
   * one, otherwise the earliest free time in the node's schedule.
   */
  method StartFor(startTime: Option<int>, rows: seq<LeaseRow>, now: int, requestedHours: int) returns (t: int)
    ensures startTime.Some? ==> t == startTime.value
    ensures startTime.None? ==> t == EarliestAsWritten(rows, None, now, requestedHours)
    ensures startTime.None? && Chained(rows) ==> SlotFree(rows, now, t, requestedHours)
  {
    if startTime.Some? {
      return startTime.value;
    }
    t := GetNodeEarliestReserveTime(rows, now, requestedHours);
    if Chained(rows) {
      AsWrittenIsFree(rows, now, requestedHours);
    }
  }
}

=== FILE: metadata_sync.dfy ===
/**
 * Synchronising Grid'5000 node metadata into Blazar extra capabilities
 * (hammers/scripts/metadata_sync.py): a grid host's nested JSON is flattened into
 * dotted keys, compared with the Blazar host's capabilities, and the differences are
 * turned into add, replace and remove actions that are collated into one update and a
 * list of removals.
 */
module MetadataSync {
  import opened Wrappers
  import opened Dicts
  import Strs

  /** A JSON value as `requests` decodes it (floating-point numbers are not modelled). */
  datatype Json =
    | JStr(s: string)
    | JInt(n: int)
    | JBool(b: bool)
    | JNull
    | JList(items: seq<Json>)
    | JObject(fields: seq<Field>)
  datatype Field = Field(key: string, value: Json)

  /** A step of a path into a JSON value: a dictionary key or a list index. */
  datatype Step = Key(name: string) | Index(i: nat)

  /** `nonstringiterable`: lists and dictionaries; strings are leaves. */
  predicate IsContainer(j: Json) { j.JList? || j.JObject? }

  const GridIgnorePrefix := ["links"]
  const BlazarIgnorePrefix := [
    "id", "created_at", "updated_at", "status", "trust_id", "su_factor",
    "vcpus", "cpu_info", "hypervisor_hostname", "hypervisor_type", "hypervisor_version",
    "service_name", "memory_mb", "local_gb"]

  predicate HasIgnoredPrefix(k: string, prefixes: seq<string>)
  {
    exists p :: p in prefixes && p <= k
  }

  /** `ignore_keys`: the keys, in order, that start with none of the prefixes. */
  function IgnoreKeys(keys: seq<string>, prefixes: seq<string>): (r: seq<string>)
    ensures forall k :: k in r <==> k in keys && !HasIgnoredPrefix(k, prefixes)
    ensures |r| <= |keys|
  {
    if keys == [] then []
    else
      assert forall k :: k in keys <==> k == keys[0] || k in keys[1..];
      (if HasIgnoredPrefix(keys[0], prefixes) then [] else [keys[0]]) + IgnoreKeys(keys[1..], prefixes)
  }

  /** Keys that no prefix catches pass through unchanged and in order. */
  lemma {:induction false} IgnoreKeysNone(keys: seq<string>, prefixes: seq<string>)
    requires forall k :: k in keys ==> !HasIgnoredPrefix(k, prefixes)
    ensures IgnoreKeys(keys, prefixes) == keys
  {
    if keys != [] {
      IgnoreKeysNone(keys[1..], prefixes);
      assert keys == [keys[0]] + keys[1..];
    }
  }

  /**
   * The leaf `v` sits at `path` inside `j`: each step picks a list element by index or
   * a dictionary field by key, and the value reached is not a container.
   */
  predicate HasLeaf(j: Json, path: seq<Step>, v: Json)
    decreases path
  {
    if path == [] then j == v && !IsContainer(j)
    else
      match path[0]
      case Index(i) => j.JList? && i < |j.items| && HasLeaf(j.items[i], path[1..], v)
      case Key(k) => j.JObject? && exists f :: f in j.fields && f.key == k && HasLeaf(f.value, path[1..], v)
  }

  /** One item of `_flatten_to_dots`: a leaf is yielded at its path, a container is entered. */
  function FlatOne(step: Step, value: Json, prefix: seq<Step>): seq<(seq<Step>, Json)>
    decreases value, 0
  {
    var path := prefix + [step];
    match value
    case JList(items) => FlatList(items, 0, path)
    case JObject(fields) => FlatFields(fields, path)
    case _ => [(path, value)]
  }

  /** The items of a list from index `from` on. */
  function FlatList(items: seq<Json>, from: nat, prefix: seq<Step>): seq<(seq<Step>, Json)>
    decreases items, |items| - from
  {
    if from >= |items| then []
    else FlatOne(Index(from), items[from], prefix) + FlatList(items, from + 1, prefix)
  }

  /** The fields of a dictionary, in order. */
  function FlatFields(fields: seq<Field>, prefix: seq<Step>): seq<(seq<Step>, Json)>
    decreases fields
  {
    if fields == [] then []
    else
      assert fields[0] in fields;
      FlatOne(Key(fields[0].key), fields[0].value, prefix) + FlatFields(fields[1..], prefix)
  }

  /** `_flatten_to_dots(obj)`: the (path, leaf) pairs, or RuntimeError for a non-container. */
  function Flatten(j: Json): (r: Result<seq<(seq<Step>, Json)>>)
    ensures r.Err? <==> !IsContainer(j)
    ensures r.Err? ==> r.error == RuntimeError("unhandlable type")
  {
    match j
    case JList(items) => Ok(FlatList(items, 0, []))
    case JObject(fields) => Ok(FlatFields(fields, []))
    case _ => Err(RuntimeError("unhandlable type"))
  }

  lemma {:induction false} FlatOneMeaning(step: Step, value: Json, prefix: seq<Step>)
    decreases value, 0
    ensures forall p, v :: (p, v) in FlatOne(step, value, prefix) <==>
      |p| > |prefix| && p[..|prefix| + 1] == prefix + [step] && HasLeaf(value, p[|prefix| + 1..], v)
  {
    var path := prefix + [step];
    match value
    case JList(items) =>
      FlatListMeaning(items, 0, path);
      forall p, v ensures (p, v) in FlatOne(step, value, prefix) <==>
        |p| > |prefix| && p[..|prefix| + 1] == path && HasLeaf(value, p[|prefix| + 1..], v)
      {
        if |p| > |prefix| && p[..|prefix| + 1] == path {
          assert p[..|path|] == path;
          if |p| > |path| {
            assert p[|prefix| + 1..][0] == p[|path|];
            assert p[|prefix| + 1..][1..] == p[|path| + 1..];
          }
        }
        if (p, v) in FlatOne(step, value, prefix) {
          assert p[..|path|] == path;
          assert p[..|prefix| + 1] == path;
          assert p[|prefix| + 1..][0] == p[|path|];
          assert p[|prefix| + 1..][1..] == p[|path| + 1..];
        }
      }
    case JObject(fields) =>
      FlatFieldsMeaning(fields, path);
      forall p, v ensures (p, v) in FlatOne(step, value, prefix) <==>
        |p| > |prefix| && p[..|prefix| + 1] == path && HasLeaf(value, p[|prefix| + 1..], v)
      {
        if |p| > |prefix| && p[..|prefix| + 1] == path {
          assert p[..|path|] == path;
          if |p| > |path| {
            assert p[|prefix| + 1..][0] == p[|path|];
            assert p[|prefix| + 1..][1..] == p[|path| + 1..];
          }
        }
        if (p, v) in FlatOne(step, value, prefix) {
          assert p[..|path|] == path;
          assert p[..|prefix| + 1] == path;
          assert p[|prefix| + 1..][0] == p[|path|];
          assert p[|prefix| + 1..][1..] == p[|path| + 1..];
        }
      }
    case _ =>
      forall p, v ensures (p, v) in FlatOne(step, value, prefix) <==>
        |p| > |prefix| && p[..|prefix| + 1] == path && HasLeaf(value, p[|prefix| + 1..], v)
      {
        assert FlatOne(step, value, prefix) == [(path, value)];
        if p == path {
          assert p[..|prefix| + 1] == path;
          assert p[|prefix| + 1..] == [];
        }
        if |p| > |prefix| && p[..|prefix| + 1] == path && HasLeaf(value, p[|prefix| + 1..], v) {
          var q := p[|prefix| + 1..];
          assert q == [] by {
            assert q != [] ==> !HasLeaf(value, q, v);
          }
          assert p == p[..|prefix| + 1] + q;
        }
      }
  }

  lemma {:induction false} FlatListMeaning(items: seq<Json>, from: nat, prefix: seq<Step>)
    decreases items, |items| - from
    ensures forall p: seq<Step>, v :: (p, v) in FlatList(items, from, prefix) <==>
      |p| > |prefix| && p[..|prefix|] == prefix && p[|prefix|].Index? && from <= p[|prefix|].i < |items| &&
      HasLeaf(items[p[|prefix|].i], p[|prefix| + 1..], v)
  {
    if from < |items| {
      FlatOneMeaning(Index(from), items[from], prefix);
      FlatListMeaning(items, from + 1, prefix);
      forall p: seq<Step> | |p| > |prefix| && p[..|prefix| + 1] == prefix + [Index(from)]
        ensures p[..|prefix|] == prefix && p[|prefix|] == Index(from)
      {
        assert p[..|prefix|] == p[..|prefix| + 1][..|prefix|];
        assert p[|prefix|] == p[..|prefix| + 1][|prefix|];
      }
      forall p: seq<Step> | |p| > |prefix| && p[..|prefix|] == prefix && p[|prefix|] == Index(from)
        ensures p[..|prefix| + 1] == prefix + [Index(from)]
      {
      }
    }
  }

  lemma {:induction false} FlatFieldsMeaning(fields: seq<Field>, prefix: seq<Step>)
    decreases fields
    ensures forall p: seq<Step>, v :: (p, v) in FlatFields(fields, prefix) <==>
      |p| > |prefix| && p[..|prefix|] == prefix && p[|prefix|].Key? &&
      exists f :: f in fields && f.key == p[|prefix|].name && HasLeaf(f.value, p[|prefix| + 1..], v)
  {
    if fields != [] {
      var f0 := fields[0];
      assert f0 in fields;
      FlatOneMeaning(Key(f0.key), f0.value, prefix);
      FlatFieldsMeaning(fields[1..], prefix);
      assert forall f :: f in fields <==> f == f0 || f in fields[1..];
      forall p: seq<Step> | |p| > |prefix| && p[..|prefix| + 1] == prefix + [Key(f0.key)]
        ensures p[..|prefix|] == prefix && p[|prefix|] == Key(f0.key)
      {
        assert p[..|prefix|] == p[..|prefix| + 1][..|prefix|];
        assert p[|prefix|] == p[..|prefix| + 1][|prefix|];
      }
      forall p: seq<Step> | |p| > |prefix| && p[..|prefix|] == prefix && p[|prefix|] == Key(f0.key)
        ensures p[..|prefix| + 1] == prefix + [Key(f0.key)]
      {
      }
    }
  }

  /**
   * Flattening a container yields exactly its leaves, each with the path that reaches
   * it; an empty container has no leaves and yields nothing.
   */
  lemma FlattenMeaning(j: Json)
    requires IsContainer(j)
    ensures forall p, v :: (p, v) in Flatten(j).value <==> p != [] && HasLeaf(j, p, v)
  {
    if j.JList? {
      FlatListMeaning(j.items, 0, []);
      forall p: seq<Step> | p != [] ensures p[..0] == [] && p[0 + 1..] == p[1..] { }
    } else {
      FlatFieldsMeaning(j.fields, []);
      forall p: seq<Step> | p != [] ensures p[..0] == [] && p[0 + 1..] == p[1..] { }
    }
  }

  /** `str(x)` of a path step: list indices in decimal. */
  function ShowStep(s: Step): string
  {
    match s
    case Key(k) => k
    case Index(i) => Strs.IntToString(i)
  }

  function ShowPath(path: seq<Step>): (r: seq<string>)
    ensures |r| == |path| && forall i :: 0 <= i < |path| ==> r[i] == ShowStep(path[i])
  {
    if path == [] then [] else [ShowStep(path[0])] + ShowPath(path[1..])
  }

  /** `'.'.join(str(x) for x in path)`. */
  function DotKey(path: seq<Step>): string
  {
    Strs.Join(ShowPath(path), ".")
  }

  /** `dict(...)` of the pairs: later pairs with the same key overwrite earlier ones. */
  function ToDict(pairs: seq<(seq<Step>, Json)>): (r: Dict<string, Json>)
    ensures r.Valid()
  {
    if pairs == [] then Empty()
    else Put(ToDict(pairs[..|pairs| - 1]), DotKey(pairs[|pairs| - 1].0), pairs[|pairs| - 1].1)
  }

  /** Every pair's dotted key is in the dictionary, whose values all come from pairs with that key. */
  lemma {:induction false} ToDictMeaning(pairs: seq<(seq<Step>, Json)>)
    ensures forall x :: x in pairs ==> DotKey(x.0) in ToDict(pairs).vals
    ensures forall k :: k in ToDict(pairs).vals ==> exists x :: x in pairs && DotKey(x.0) == k && x.1 == ToDict(pairs).vals[k]
  {
    if pairs != [] {
      var init := pairs[..|pairs| - 1];
      var last := pairs[|pairs| - 1];
      ToDictMeaning(init);
      assert forall x :: x in pairs <==> x in init || x == last;
    }
  }

  /** `flatten_to_dots`. */
  function FlattenToDots(j: Json): (r: Result<Dict<string, Json>>)
    ensures r.Err? <==> !IsContainer(j)
    ensures r.Ok? ==> r.value.Valid()
  {
    match Flatten(j)
    case Err(e) => Err(e)
    case Ok(pairs) => Ok(ToDict(pairs))
  }

  /**
   * Every leaf of a container is in the flattened dictionary under its dotted path, and
   * every entry is a leaf reached by a path with that dotted form.
   */
  lemma FlattenToDotsMeaning(j: Json)
    requires IsContainer(j)
    ensures forall p, v :: p != [] && HasLeaf(j, p, v) ==> DotKey(p) in FlattenToDots(j).value.vals
    ensures forall k :: k in FlattenToDots(j).value.vals ==>
      exists p :: p != [] && DotKey(p) == k && HasLeaf(j, p, FlattenToDots(j).value.vals[k])
  {
    FlattenMeaning(j);
    var pairs := Flatten(j).value;
    ToDictMeaning(pairs);
    forall p, v | p != [] && HasLeaf(j, p, v) ensures DotKey(p) in FlattenToDots(j).value.vals {
      assert (p, v) in pairs;
    }
    forall k | k in FlattenToDots(j).value.vals
      ensures exists p :: p != [] && DotKey(p) == k && HasLeaf(j, p, FlattenToDots(j).value.vals[k])
    {
      var x :| x in pairs && DotKey(x.0) == k && x.1 == ToDict(pairs).vals[k];
      assert (x.0, x.1) in pairs;
    }
  }

  /** Part of the docstring example: a string field and a list of two strings. */
  lemma FlattenExample()
    ensures var games := JObject([Field("person", JStr("Nick")), Field("games", JList([JStr("Portal"), JStr("Furi")]))]);
      Flatten(games) == Ok([([Key("person")], JStr("Nick")), ([Key("games"), Index(0)], JStr("Portal")), ([Key("games"), Index(1)], JStr("Furi"))]) &&
      DotKey([Key("games"), Index(1)]) == "games.1"
  {
    var items := [JStr("Portal"), JStr("Furi")];
    var fields := [Field("person", JStr("Nick")), Field("games", JList(items))];
    assert fields[1..] == [Field("games", JList(items))];
    assert fields[1..][1..] == [];
    assert FlatList(items, 2, [Key("games")]) == [];
    assert [Key("games")] + [Index(1)] == [Key("games"), Index(1)];
    assert [Key("games")] + [Index(0)] == [Key("games"), Index(0)];
    assert FlatOne(Index(1), JStr("Furi"), [Key("games")]) == [([Key("games"), Index(1)], JStr("Furi"))];
    assert FlatOne(Index(0), JStr("Portal"), [Key("games")]) == [([Key("games"), Index(0)], JStr("Portal"))];
    assert FlatList(items, 1, [Key("games")]) == [([Key("games"), Index(1)], JStr("Furi"))];
    assert FlatList(items, 0, [Key("games")]) == [([Key("games"), Index(0)], JStr("Portal")), ([Key("games"), Index(1)], JStr("Furi"))];
    assert FlatFields(fields[1..][1..], []) == [];
    assert [] + [Key("games")] == [Key("games")];
    assert [] + [Key("person")] == [Key("person")];
    assert FlatOne(Key("games"), JList(items), []) == FlatList(items, 0, [Key("games")]);
    assert FlatFields(fields[1..], []) == [([Key("games"), Index(0)], JStr("Portal")), ([Key("games"), Index(1)], JStr("Furi"))];
    assert FlatOne(Key("person"), JStr("Nick"), []) == [([Key("person")], JStr("Nick"))];
    assert FlatFields(fields, []) == [([Key("person")], JStr("Nick")), ([Key("games"), Index(0)], JStr("Portal")), ([Key("games"), Index(1)], JStr("Furi"))];
    assert ShowPath([Key("games"), Index(1)]) == ["games", "1"] by {
      assert Strs.IntToString(1) == "1";
    }
    assert Strs.Join(["games", "1"], ".") == "games.1";
  }

  /** `str(value)` of a leaf. */
  function Str(v: Json): string
  {
    match v
    case JStr(s) => s
    case JInt(n) => Strs.IntToString(n)
    case JBool(b) => if b then "True" else "False"
    case JNull => "None"
    case _ => ""
  }

  /** An action `compare_host` yields. */
  datatype Action = Remove(key: string) | Add(key: string, value: Json) | Replace(key: string, value: Json)

  /** The non-ignored keys of a dictionary. */
  function KeptKeys<V>(d: Dict<string, V>, prefixes: seq<string>): set<string>
  {
    set k | k in IgnoreKeys(d.keys, prefixes)
  }

  /** `compare_host` on the flattened grid host and the Blazar host's capabilities. */
  function CompareFlat(grid: Dict<string, Json>, blazar: Dict<string, string>): set<Action>
    requires grid.Valid() && blazar.Valid()
  {
    var gridKeys := KeptKeys(grid, GridIgnorePrefix);
    var blazarKeys := KeptKeys(blazar, BlazarIgnorePrefix);
    (set k | k in blazarKeys - gridKeys :: Remove(k)) +
    (set k | k in gridKeys - blazarKeys :: Add(k, grid.vals[k])) +
    (set k | k in blazarKeys * gridKeys && Str(grid.vals[k]) != blazar.vals[k] :: Replace(k, grid.vals[k]))
  }

  /** `compare_host`: flattening the grid host comes first and may raise. */
  function CompareHost(gridHost: Json, blazar: Dict<string, string>): (r: Result<set<Action>>)
    requires blazar.Valid()
    ensures r.Err? <==> !IsContainer(gridHost)
  {
    match FlattenToDots(gridHost)
    case Err(e) => Err(e)
    case Ok(grid) => Ok(CompareFlat(grid, blazar))
  }

  /** No key gets two actions. */
  lemma OneActionPerKey(grid: Dict<string, Json>, blazar: Dict<string, string>)
    requires grid.Valid() && blazar.Valid()
    ensures forall a, b :: a in CompareFlat(grid, blazar) && b in CompareFlat(grid, blazar) && a.key == b.key ==> a == b
  {
  }

  /** A key kept on both sides is in the kept-key set exactly when the dictionary has it. */
  lemma KeptKeysMeaning<V>(d: Dict<string, V>, prefixes: seq<string>, k: string)
    requires d.Valid() && !HasIgnoredPrefix(k, prefixes)
    ensures k in KeptKeys(d, prefixes) <==> k in d.vals
  {
  }

  /** The actions about one key neither side ignores, as `compare_host` decides them. */
  lemma {:induction false} CompareFlatAt(grid: Dict<string, Json>, blazar: Dict<string, string>, k: string)
    requires grid.Valid() && blazar.Valid()
    requires !HasIgnoredPrefix(k, BlazarIgnorePrefix) && !HasIgnoredPrefix(k, GridIgnorePrefix)
    ensures k in grid.vals && k !in blazar.vals ==> Add(k, grid.vals[k]) in CompareFlat(grid, blazar)
    ensures k in grid.vals && k in blazar.vals && Str(grid.vals[k]) != blazar.vals[k] ==>
      Replace(k, grid.vals[k]) in CompareFlat(grid, blazar)
    ensures k !in grid.vals && k in blazar.vals ==> Remove(k) in CompareFlat(grid, blazar)
    ensures forall a :: a in CompareFlat(grid, blazar) && a.key == k ==>
      (if a.Remove? then k !in grid.vals && k in blazar.vals
       else (k in grid.vals && a.value == grid.vals[k] &&
         (a.Add? <==> k !in blazar.vals) && (a.Replace? ==> Str(grid.vals[k]) != blazar.vals[k])))
  {
    KeptKeysMeaning(grid, GridIgnorePrefix, k);
    KeptKeysMeaning(blazar, BlazarIgnorePrefix, k);
  }

  /** Once collated, the only add or replace of a key leaves its string in the updates. */
  lemma {:induction false} CollatedUnique(actions: seq<Action>, a: Action)
    requires a in actions && !a.Remove?
    requires forall b :: b in actions && b.key == a.key ==> b == a
    ensures a.key in Collated(actions).0 && Collated(actions).0[a.key] == Str(a.value)
  {
    var init := actions[..|actions| - 1];
    var last := actions[|actions| - 1];
    assert forall b :: b in actions <==> b in init || b == last;
    if last != a {
      CollatedUnique(init, a);
    }
  }

  /**
   * The capabilities after `main` handles the actions in the given order: the removed
   * keys deleted, then the updates written.
   */
  function Apply(caps: map<string, string>, actions: seq<Action>): map<string, string>
  {
    var c := Collated(actions);
    map k | k in (caps.Keys - set r | r in c.1) + c.0.Keys :: if k in c.0 then c.0[k] else caps[k]
  }

  lemma ApplyAgreesAt(grid: Dict<string, Json>, blazar: Dict<string, string>, order: seq<Action>, k: string)
    requires grid.Valid() && blazar.Valid()
    requires forall a :: a in order <==> a in CompareFlat(grid, blazar)
    requires !HasIgnoredPrefix(k, BlazarIgnorePrefix) && !HasIgnoredPrefix(k, GridIgnorePrefix)
    ensures var after := Apply(blazar.vals, order);
      (k in after <==> k in grid.vals) && (k in after ==> after[k] == Str(grid.vals[k]))
  {
    CompareFlatAt(grid, blazar, k);
    CollatedMeaning(order);
    var c := Collated(order);
    if k in grid.vals && k !in blazar.vals {
      CollatedUnique(order, Add(k, grid.vals[k]));
    } else if k in grid.vals && Str(grid.vals[k]) != blazar.vals[k] {
      CollatedUnique(order, Replace(k, grid.vals[k]));
    } else if k in grid.vals {
      assert k !in c.0 && k !in c.1;
    } else if k in blazar.vals {
      assert k in c.1 && k !in c.0;
    }
  }

  /**
   * Applying the actions, in whatever order the sets yield them, makes the Blazar host
   * agree with the grid host on every key neither side ignores: the grid's keys are
   * present with `str` of the grid value, the others are gone.
   */
  lemma ApplyAgrees(grid: Dict<string, Json>, blazar: Dict<string, string>, order: seq<Action>)
    requires grid.Valid() && blazar.Valid()
    requires forall a :: a in order <==> a in CompareFlat(grid, blazar)
    ensures var after := Apply(blazar.vals, order);
      forall k :: !HasIgnoredPrefix(k, BlazarIgnorePrefix) && !HasIgnoredPrefix(k, GridIgnorePrefix) ==>
        (k in after <==> k in grid.vals) && (k in after ==> after[k] == Str(grid.vals[k]))
  {
    forall k | !HasIgnoredPrefix(k, BlazarIgnorePrefix) && !HasIgnoredPrefix(k, GridIgnorePrefix) {
      ApplyAgreesAt(grid, blazar, order, k);
    }
  }

  /** Keys Blazar ignores and the grid host lacks keep their values. */
  lemma ApplyKeepsIgnored(grid: Dict<string, Json>, blazar: Dict<string, string>, order: seq<Action>, k: string)
    requires grid.Valid() && blazar.Valid()
    requires forall a :: a in order <==> a in CompareFlat(grid, blazar)
    requires HasIgnoredPrefix(k, BlazarIgnorePrefix) && k !in grid.vals
    ensures var after := Apply(blazar.vals, order);
      (k in after <==> k in blazar.vals) && (k in after ==> after[k] == blazar.vals[k])
  {
    CollatedMeaning(order);
    IgnoredKeyUntouched(grid, blazar, k);
  }

  /** A key Blazar ignores and the grid does not have gets no action. */
  lemma IgnoredKeyUntouched(grid: Dict<string, Json>, blazar: Dict<string, string>, k: string)
    requires grid.Valid() && blazar.Valid()
    requires HasIgnoredPrefix(k, BlazarIgnorePrefix) && k !in grid.vals
    ensures forall a :: a in CompareFlat(grid, blazar) ==> a.key != k
  {
    assert k !in KeptKeys(blazar, BlazarIgnorePrefix);
    assert k !in KeptKeys(grid, GridIgnorePrefix);
  }

  /** The uids of `main`: in both listings, missing from Blazar, missing from the grid. */
  function PartitionUids(gridUids: set<string>, blazarUids: set<string>): (r: (set<string>, set<string>, set<string>))
    ensures r.0 + r.1 + r.2 == gridUids + blazarUids
    ensures r.0 * r.1 == {} && r.0 * r.2 == {} && r.1 * r.2 == {}
    ensures r.0 <= gridUids && r.0 <= blazarUids && r.1 !! blazarUids && r.2 !! gridUids
  {
    (gridUids * blazarUids, gridUids - blazarUids, blazarUids - gridUids)
  }

  /** The update dictionary and removal list after the given actions. */
  function Collated(actions: seq<Action>): (r: (map<string, string>, seq<string>))
  {
    if actions == [] then (map[], [])
    else
      var prev := Collated(actions[..|actions| - 1]);
      var a := actions[|actions| - 1];
      if a.Remove? then (prev.0, prev.1 + [a.key]) else (prev.0[a.key := Str(a.value)], prev.1)
  }

  /**
   * The collation keeps the last add or replace of each key as its string, and lists
   * the removed keys in order.
   */
  lemma {:induction false} CollatedMeaning(actions: seq<Action>)
    ensures forall k :: k in Collated(actions).0 <==> exists a :: a in actions && !a.Remove? && a.key == k
    ensures forall k :: k in Collated(actions).1 <==> Remove(k) in actions
  {
    if actions != [] {
      CollatedMeaning(actions[..|actions| - 1]);
      assert forall a :: a in actions <==> a in actions[..|actions| - 1] || a == actions[|actions| - 1];
    }
  }

  /** `removals.pop()` until empty, each popped key written as ''. */
  function SoftRemoved(updates: map<string, string>, removals: seq<string>): (r: map<string, string>)
    decreases |removals|
    ensures r.Keys == updates.Keys + set k | k in removals
    ensures forall k :: k in removals ==> r[k] == ""
    ensures forall k :: k in updates && k !in removals ==> r[k] == updates[k]
  {
    if removals == [] then updates
    else
      assert forall k :: k in removals <==> k in removals[..|removals| - 1] || k == removals[|removals| - 1];
      SoftRemoved(updates[removals[|removals| - 1] := ""], removals[..|removals| - 1])
  }

  /**
   * The loop of `main` over one host's actions, and the soft-removal loop after it.
   * With soft removal every removed key becomes an update to '' and no removals remain.
   */
  method Collate(actions: seq<Action>, softRemoval: bool) returns (updates: map<string, string>, removals: seq<string>)
    ensures !softRemoval ==> (updates, removals) == Collated(actions)
    ensures softRemoval ==> removals == [] && updates == SoftRemoved(Collated(actions).0, Collated(actions).1)
  {
    updates := map[];
    removals := [];
    for i := 0 to |actions|
      invariant (updates, removals) == Collated(actions[..i])
    {
      assert actions[..i + 1][..i] == actions[..i];
      var action := actions[i];
      if action.Add? || action.Replace? {
        updates := updates[action.key := Str(action.value)];
      } else {
        removals := removals + [action.key];
      }
    }
    assert actions[..|actions|] == actions;
    if softRemoval {
      while removals != []
        invariant SoftRemoved(updates, removals) == SoftRemoved(Collated(actions).0, Collated(actions).1)
        decreases |removals|
      {
        var key := removals[|removals| - 1];
        removals := removals[..|removals| - 1];
        updates := updates[key := ""];
      }
    }
  }

  /** What syncing one host does outside a dry run. */
  datatype HostSync = HostSync(hostUpdate: Option<map<string, string>>, removedKeys: seq<string>, committed: bool)

  /**
   * The end of the per-host loop in `main` as written: the update is sent, each removal
   * must delete exactly one row (`rowCounts[i]` is the count for `removals[i]`), and the
   * database is committed — but under soft removal no database was connected, so the
   * commit raises NameError.
   */
  function SyncHostAsWritten(updates: map<string, string>, removals: seq<string>, rowCounts: seq<int>, softRemoval: bool): (r: Result<HostSync>)
    requires |rowCounts| == |removals|
  {
    var sent := if updates != map[] then Some(updates) else None;
    match RemoveAll(removals, rowCounts)
    case Err(e) => Err(e)
    case Ok(_) =>
      if softRemoval then Err(NameError("db"))
      else Ok(HostSync(sent, removals, true))
  }

  /** The removal queries in order; the first count other than 1 raises RuntimeError. */
  function RemoveAll(removals: seq<string>, rowCounts: seq<int>): (r: Result<()>)
    requires |rowCounts| == |removals|
    ensures r.Ok? <==> forall i :: 0 <= i < |rowCounts| ==> rowCounts[i] == 1
    ensures r.Err? ==> r.error.RuntimeError?
  {
    if removals == [] then Ok(())
    else if rowCounts[0] != 1 then
      Err(RuntimeError("delete query removed " + Strs.IntToString(rowCounts[0]) + " rows, expected 1"))
    else
      assert forall i :: 1 <= i < |rowCounts| ==> rowCounts[i] == rowCounts[1..][i - 1];
      RemoveAll(removals[1..], rowCounts[1..])
  }

  /**
   * The per-host step with the commit only where a database was connected: soft removal
   * leaves no removals, so it needs no database.
   */
  function SyncHost(updates: map<string, string>, removals: seq<string>, rowCounts: seq<int>, softRemoval: bool): (r: Result<HostSync>)
    requires |rowCounts| == |removals|
    ensures r.Ok? <==> forall i :: 0 <= i < |rowCounts| ==> rowCounts[i] == 1
    ensures r.Ok? ==> r.value.committed == !softRemoval && r.value.removedKeys == removals
    ensures r.Ok? ==> (r.value.hostUpdate.Some? <==> updates != map[])
  {
    var sent := if updates != map[] then Some(updates) else None;
    match RemoveAll(removals, rowCounts)
    case Err(e) => Err(e)
    case Ok(_) => Ok(HostSync(sent, removals, !softRemoval))
  }

  /**
   * As written, every soft-removal update run fails at the first host after sending its
   * update; without the commit the same host syncs.
   */
  lemma SoftRemovalCommitFails(actions: seq<Action>)
    ensures var soft := SoftRemoved(Collated(actions).0, Collated(actions).1);
      SyncHostAsWritten(soft, [], [], true) == Err(NameError("db")) &&
      SyncHost(soft, [], [], true).Ok? && !SyncHost(soft, [], [], true).value.committed
  {
  }
}

=== FILE: mysqlargs.dfy ===
/**
 * MySQL connection settings (hammers/mysqlargs.py): the `[client]` section of the
 * option files overrides the defaults, and the parsed command line, or the database
 * URL of a service configuration file, yields the connection arguments.
 */
module MySqlArgsMod {
  import opened Wrappers

  const ClientKeys: seq<string> := ["user", "password", "host", "port"]
  const DefaultPort := 3306

  /** The parts of a database URL as `urlparse` splits them. */
  datatype UrlParts = UrlParts(username: Option<string>, password: Option<string>, hostname: Option<string>, port: Option<int>)

  /** The parsed command line; `serviceConf` holds the URL of a given service configuration file. */
  datatype Args = Args(serviceConf: Option<UrlParts>, dbUser: Option<string>, password: Option<string>, host: Option<string>, port: int)

  /** The keyword arguments handed to the database driver. */
  datatype ConnectKwargs = ConnectKwargs(user: Option<string>, passwd: Option<string>, host: Option<string>, port: int)

  /** The defaults after the client-section values for `keys` override them, one key after another. */
  function Override(defaults: map<string, string>, client: map<string, string>, keys: seq<string>): map<string, string>
  {
    if keys == [] then defaults
    else
      var m := Override(defaults, client, keys[..|keys| - 1]);
      var k := keys[|keys| - 1];
      if k in client then m[k := client[k]] else m
  }

  /** A key ends up present when it was a default or an overriding client key, holding the client's value in the latter case. */
  lemma {:induction false} OverrideAt(defaults: map<string, string>, client: map<string, string>, keys: seq<string>, k: string)
    ensures k in Override(defaults, client, keys) <==> k in defaults || (k in keys && k in client)
    ensures k in Override(defaults, client, keys) ==>
      Override(defaults, client, keys)[k] == if k in keys && k in client then client[k] else defaults[k]
  {
    if keys != [] {
      var init := keys[..|keys| - 1];
      OverrideAt(defaults, client, init, k);
      assert k in keys <==> k in init || k == keys[|keys| - 1];
    }
  }

  /** The defaults after the `[client]` section (when present) overrides the four client keys. */
  function WithClientSection(defaults: map<string, string>, client: Option<map<string, string>>): map<string, string>
  {
    if client.None? then defaults else Override(defaults, client.value, ClientKeys)
  }

  /** A password that arrived wrapped in one pair of matching quotes loses that pair. */
  function StripQuotes(pwd: Option<string>): (r: Option<string>)
    ensures r.None? <==> pwd.None?
    ensures pwd.Some? && |pwd.value| > 1 && pwd.value[0] == pwd.value[|pwd.value| - 1] && pwd.value[0] in "'\"" ==>
      r == Some(pwd.value[1..|pwd.value| - 1])
    ensures !(pwd.Some? && |pwd.value| > 1 && pwd.value[0] == pwd.value[|pwd.value| - 1] && pwd.value[0] in "'\"") ==>
      r == pwd
  {
    match pwd
    case None => None
    case Some(p) =>
      if p != [] && |p| > 1 && p[0] == p[|p| - 1] && p[0] in "'\"" then Some(p[1..|p| - 1]) else pwd
  }

  /** Quoting a password and stripping it gives the password back; only one layer is removed. */
  lemma StripQuotesRoundTrip(q: char, p: string)
    requires q == '\'' || q == '"'
    ensures StripQuotes(Some([q] + p + [q])) == Some(p)
  {
    var w := [q] + p + [q];
    assert w[1..|w| - 1] == p;
  }

  /** A lone quote character is not a quoted password. */
  lemma StripQuotesLoneQuote()
    ensures StripQuotes(Some("'")) == Some("'")
  {
  }

  /**
   * The connection arguments of `extract`: from the service configuration URL when one
   * is given (port 3306 when the URL has none or port 0), otherwise from the command line.
   */
  function ConnectionFor(args: Args): (r: ConnectKwargs)
    ensures args.serviceConf.Some? ==>
      r.user == args.serviceConf.value.username && r.passwd == args.serviceConf.value.password &&
      r.host == args.serviceConf.value.hostname
    ensures args.serviceConf.Some? ==>
      r.port == (match args.serviceConf.value.port case None => DefaultPort case Some(n) => if n == 0 then DefaultPort else n)
    ensures args.serviceConf.None? ==>
      r == ConnectKwargs(args.dbUser, StripQuotes(args.password), args.host, args.port)
  {
    match args.serviceConf
    case Some(parts) =>
      var port := match parts.port case None => DefaultPort case Some(n) => if n == 0 then DefaultPort else n;
      ConnectKwargs(parts.username, parts.password, parts.hostname, port)
    case None =>
      ConnectKwargs(args.dbUser, StripQuotes(args.password), args.host, args.port)
  }

  /** The connection settings of one script run. */
  class MySqlArgs {
    var defaults: map<string, string>
    var connectKwargs: Option<ConnectKwargs>

    /**
     * Overrides the defaults key by key from the `[client]` section; a missing section
     * (None) or a missing key leaves the default.
     */
    constructor (defaults: map<string, string>, client: Option<map<string, string>>)
      ensures this.defaults == WithClientSection(defaults, client)
      ensures connectKwargs.None?
    {
      var d := defaults;
      var i := 0;
      while i < |ClientKeys|
        invariant 0 <= i <= |ClientKeys|
        invariant d == if client.None? then defaults else Override(defaults, client.value, ClientKeys[..i])
      {
        assert ClientKeys[..i + 1][..i] == ClientKeys[..i];
        var key := ClientKeys[i];
        if client.Some? && key in client.value {
          d := d[key := client.value[key]];
        }
        i := i + 1;
      }
      assert ClientKeys[..i] == ClientKeys;
      this.defaults := d;
      connectKwargs := None;
    }

    /** `extract`: records the connection arguments for `args`. */
    method Extract(args: Args)
      modifies this`connectKwargs
      ensures connectKwargs == Some(ConnectionFor(args))
    {
      connectKwargs := Some(ConnectionFor(args));
    }
  }
}

=== FILE: mysqlshim.dfy ===
/**
 * The query executor (hammers/mysqlshim.py): executes a statement on a cursor, reads
 * the result in batches and turns every row into a dictionary keyed by column name,
 * stopping after a row limit.
 */
module MySqlShimMod {
  import opened Wrappers

  /** A value of a result cell. */
  datatype Cell = CInt(i: int) | CStr(s: string) | CTime(t: int) | CNull

  type Row = seq<Cell>

  /** The first item of a DB-API column description is its name. */
  datatype ColumnDesc = ColumnDesc(name: string, typeCode: int)

  /** What the server returns for a statement: column descriptions, rows and affected-row count. */
  datatype ResultSet = ResultSet(description: seq<ColumnDesc>, rows: seq<Row>, affected: int)

  /** The `limit` keyword of `query`: absent (the shim's default), `None`, or a number. */
  datatype LimitArg = DefaultLimit | NoLimit | AtMost(n: nat)

  /** What `query` hands back: an affected-row count (`no_rows`), the row dictionaries (`immediate`) or the unconsumed iterator. */
  datatype QueryResult = Affected(count: int) | Rows(rows: seq<map<string, Cell>>) | Lazy(stream: RowStream)

  function Min(a: int, b: int): int { if a <= b then a else b }

  /**
   * `dict(zip(fields, row))`: pairs up to the shorter of the two; a repeated field name
   * keeps the value of its last occurrence.
   */
  function ZipDict(fields: seq<string>, row: Row): map<string, Cell>
    decreases |fields|
  {
    var n := Min(|fields|, |row|);
    if n == 0 then map[] else ZipDict(fields[..n - 1], row[..n - 1])[fields[n - 1] := row[n - 1]]
  }

  /** The keys are the field names that have a value; with distinct names every field maps to its own cell. */
  lemma {:induction false} ZipDictAt(fields: seq<string>, row: Row, i: nat)
    requires i < Min(|fields|, |row|)
    requires forall a, b :: 0 <= a < b < |fields| ==> fields[a] != fields[b]
    ensures fields[i] in ZipDict(fields, row) && ZipDict(fields, row)[fields[i]] == row[i]
    decreases |fields|
  {
    var n := Min(|fields|, |row|);
    if i < n - 1 {
      ZipDictAt(fields[..n - 1], row[..n - 1], i);
    }
  }

  lemma {:induction false} ZipDictKeys(fields: seq<string>, row: Row)
    ensures ZipDict(fields, row).Keys == set x | x in fields[..Min(|fields|, |row|)]
    decreases |fields|
  {
    var n := Min(|fields|, |row|);
    if n > 0 {
      ZipDictKeys(fields[..n - 1], row[..n - 1]);
      assert fields[..n] == fields[..n - 1][..n - 1] + [fields[n - 1]];
    }
  }

  /** Every row as a dictionary, in order. */
  function RowDicts(fields: seq<string>, rows: seq<Row>): (r: seq<map<string, Cell>>)
    ensures |r| == |rows|
  {
    seq(|rows|, i requires 0 <= i < |rows| => ZipDict(fields, rows[i]))
  }

  /** `itertools.islice(it, limit)`: the first `limit` items, or all of them when there is no limit. */
  function Take<T>(s: seq<T>, limit: Option<nat>): (r: seq<T>)
    ensures r <= s
    ensures limit.None? ==> r == s
    ensures limit.Some? ==> |r| == Min(|s|, limit.value)
  {
    if limit.Some? && limit.value < |s| then s[..limit.value] else s
  }

  /** A database cursor: the description of the last statement and the rows not yet fetched. */
  class Cursor {
    var description: seq<ColumnDesc>
    var pending: seq<Row>

    constructor ()
      ensures description == [] && pending == []
    {
      description := [];
      pending := [];
    }

    /** Runs a statement whose outcome is `rs`; answers the affected-row count. */
    method Execute(rs: ResultSet) returns (affected: int)
      modifies this
      ensures description == rs.description && pending == rs.rows && affected == rs.affected
    {
      description := rs.description;
      pending := rs.rows;
      affected := rs.affected;
    }

    /** `fetchmany(n)`: the next `n` rows, fewer at the end, none when all were fetched. */
    method FetchMany(n: nat) returns (batch: seq<Row>)
      requires n > 0
      modifies this`pending
      ensures batch == old(pending)[..Min(n, |old(pending)|)]
      ensures pending == old(pending)[|batch|..]
      ensures batch == [] <==> old(pending) == []
    {
      batch := pending[..Min(n, |pending|)];
      pending := pending[|batch|..];
    }
  }

  /** The shim over one connection: a cursor, the schema version, a batch size of 100 and a default limit of 1000 rows. */
  class MySqlShim {
    const cursor: Cursor
    const batchSize: nat
    const limit: nat
    var version: string

    constructor ()
      ensures fresh(cursor) && batchSize == 100 && limit == 1000 && version == "liberty"
      ensures cursor.description == [] && cursor.pending == []
    {
      cursor := new Cursor();
      batchSize := 100;
      limit := 1000;
      version := "liberty";
    }

    /** `columns`: the names of the columns of the last statement, in order. */
    function Columns(): (r: seq<string>)
      reads this, cursor
      ensures |r| == |cursor.description|
      ensures forall i :: 0 <= i < |r| ==> r[i] == cursor.description[i].name
    {
      seq(|cursor.description|, i requires 0 <= i < |cursor.description| reads cursor => cursor.description[i].name)
    }

    /** The row limit that applies to a `limit` keyword. */
    function EffectiveLimit(arg: LimitArg): Option<nat>
      reads this
    {
      match arg
      case DefaultLimit => Some(limit)
      case NoLimit => None
      case AtMost(n) => Some(n)
    }

    /**
     * `query`: with `no_rows` the affected-row count of the statement. Otherwise `islice`
     * over the generator `_query`: `immediate` drains it into a list at once, and without
     * it the unstarted iterator is handed back, so nothing is executed before its first `next`.
     */
    method Query(rs: ResultSet, limitArg: LimitArg, noRows: bool, immediate: bool) returns (r: QueryResult)
      requires batchSize > 0
      modifies cursor
      ensures noRows ==> r == Affected(rs.affected)
      ensures !noRows && immediate ==>
        r == Rows(Take(RowDicts(NamesOf(rs.description), rs.rows), EffectiveLimit(limitArg)))
      ensures !noRows && !immediate ==>
        r.Lazy? && fresh(r.stream) && r.stream.Unstarted(cursor, batchSize, rs, EffectiveLimit(limitArg)) &&
        unchanged(cursor)
    {
      if noRows {
        var n := QueryNoRows(rs);
        return Affected(n);
      }
      var stream := new RowStream(cursor, batchSize, rs, EffectiveLimit(limitArg));
      if !immediate {
        return Lazy(stream);
      }
      var out := stream.Drain();
      assert rs.rows[..0] == [];
      return Rows(out);
    }

    /** `_query_no_rows`: executes the statement and returns its affected-row count. */
    method QueryNoRows(rs: ResultSet) returns (n: int)
      modifies cursor
      ensures n == rs.affected
      ensures cursor.description == rs.description && cursor.pending == rs.rows
    {
      n := cursor.Execute(rs);
    }

  }

  /** Resuming `_query` after a `yield`: the rest of the current batch, or else the next `fetchmany`. */
  function Refill(batch: seq<Row>, pending: seq<Row>, size: nat): (r: (seq<Row>, seq<Row>))
    ensures r.0 + r.1 == batch + pending
    ensures batch != [] ==> r.0 == batch
    ensures batch == [] ==> r.0 == pending[..Min(size, |pending|)]
  {
    if batch != [] then (batch, pending)
    else
      var n := Min(size, |pending|);
      assert pending[..n] + pending[n..] == pending;
      (pending[..n], pending[n..])
  }

  /**
   * `itertools.islice(self._query(...), limit)` before it is consumed: the generator's own
   * state (started, returned, its `fields` and what is left of its batch `rows`) and the
   * number of items `islice` has handed out. It fetches through the shim's cursor, so a
   * statement run on that cursor in the meantime changes what it yields next.
   */
  class RowStream {
    const cursor: Cursor
    const batchSize: nat
    const statement: ResultSet
    const limit: Option<nat>
    var started: bool
    var finished: bool
    var fields: seq<string>
    var batch: seq<Row>
    var count: nat

    constructor (cursor: Cursor, batchSize: nat, statement: ResultSet, limit: Option<nat>)
      ensures Unstarted(cursor, batchSize, statement, limit)
    {
      this.cursor := cursor;
      this.batchSize := batchSize;
      this.statement := statement;
      this.limit := limit;
      started := false;
      finished := false;
      fields := [];
      batch := [];
      count := 0;
    }

    /** A fresh iterator over `rs` on cursor `c`: nothing executed, nothing handed out. */
    predicate Unstarted(c: Cursor, size: nat, rs: ResultSet, lim: Option<nat>)
      reads this
    {
      cursor == c && batchSize == size && statement == rs && limit == lim &&
      !started && !finished && batch == [] && count == 0
    }

    /** `islice` has handed out `limit` items, or the generator has returned. */
    predicate Exhausted()
      reads this
    {
      finished || (limit.Some? && count >= limit.value)
    }

    /**
     * No other statement has used the cursor since this one was executed: the items
     * handed out, the batch and the rows still pending are the statement's rows.
     */
    predicate Intact()
      reads this, cursor
    {
      (limit.Some? ==> count <= limit.value) &&
      (!started ==> count == 0 && !finished && batch == []) &&
      (started ==>
        fields == NamesOf(statement.description) && count <= |statement.rows| &&
        batch + cursor.pending == statement.rows[count..] &&
        (finished ==> count == |statement.rows|))
    }

    /**
     * The generator resumes: on its first run it executes the statement, reads the column
     * names and fetches a batch; later it fetches a new batch when the last one is used up.
     */
    method Resume()
      requires batchSize > 0
      modifies this, cursor
      ensures var before := if old(started) then (old(batch), old(cursor.pending)) else ([], statement.rows);
        started && (batch, cursor.pending) == Refill(before.0, before.1, batchSize)
      ensures cursor.description == (if old(started) then old(cursor.description) else statement.description)
      ensures fields == (if old(started) then old(fields) else NamesOf(statement.description))
      ensures finished == old(finished) && count == old(count)
      ensures old(Intact()) ==>
        fields == NamesOf(statement.description) && count <= |statement.rows| &&
        batch + cursor.pending == statement.rows[count..]
    {
      if !started {
        var _ := cursor.Execute(statement);
        fields := NamesOf(cursor.description);
        batch := cursor.FetchMany(batchSize);
        started := true;
      } else if batch == [] {
        batch := cursor.FetchMany(batchSize);
      }
    }

    /**
     * `next`: nothing once exhausted. Otherwise the generator resumes and either returns,
     * when the fetch came back empty, or yields the next row as a dictionary, which `islice`
     * counts.
     */
    method Next() returns (item: Option<map<string, Cell>>)
      requires batchSize > 0
      modifies this, cursor
      ensures old(Exhausted()) ==> item.None? && unchanged(this) && unchanged(cursor)
      ensures !old(Exhausted()) ==>
        var before := if old(started) then (old(batch), old(cursor.pending)) else ([], statement.rows);
        var next := Refill(before.0, before.1, batchSize);
        started && cursor.pending == next.1 &&
        cursor.description == (if old(started) then old(cursor.description) else statement.description) &&
        fields == (if old(started) then old(fields) else NamesOf(statement.description)) &&
        (next.0 == [] ==> item.None? && finished && batch == [] && count == old(count)) &&
        (next.0 != [] ==> item == Some(ZipDict(fields, next.0[0])) && !finished &&
                          batch == next.0[1..] && count == old(count) + 1)
      ensures item.Some? ==> started && !finished && count == old(count) + 1
      ensures item.None? ==> count == old(count) && (finished || unchanged(this))
      ensures old(Intact()) ==> Intact()
      ensures old(Intact()) && item.Some? ==>
        0 < count <= |statement.rows| && item.value == ZipDict(NamesOf(statement.description), statement.rows[count - 1])
      ensures item.None? ==> Exhausted()
    {
      if finished || (limit.Some? && count >= limit.value) {
        return None;
      }
      Resume();
      if batch == [] {
        finished := true;
        return None;
      }
      item := Some(ZipDict(fields, batch[0]));
      ghost var rest := batch + cursor.pending;
      assert rest[0] == batch[0] && rest[1..] == batch[1..] + cursor.pending;
      batch := batch[1..];
      count := count + 1;
    }

    /**
     * `list(...)` over the iterator, which is what `immediate` does: with no other
     * statement on the cursor meanwhile, the items handed out before and the items drained
     * now are exactly the statement's first rows up to the limit, as dictionaries. With a
     * limit of zero nothing is executed.
     */
    method Drain() returns (out: seq<map<string, Cell>>)
      requires batchSize > 0 && Intact()
      modifies this, cursor
      ensures RowDicts(NamesOf(statement.description), statement.rows[..old(count)]) + out ==
              Take(RowDicts(NamesOf(statement.description), statement.rows), limit)
      ensures limit == Some(0) ==> unchanged(cursor)
    {
      ghost var names := NamesOf(statement.description);
      ghost var rows := statement.rows;
      ghost var c0 := count;
      ghost var pre := RowDicts(names, rows[..c0]);
      out := [];
      while true
        invariant Intact() && c0 + |out| == count
        invariant pre + out == RowDicts(names, rows[..count])
        invariant limit == Some(0) ==> unchanged(cursor)
        decreases (if finished then 0 else 1) + (if started then 0 else 1) + |statement.rows| - count
      {
        var item := Next();
        if item.None? {
          break;
        }
        RowDictsSnoc(names, rows, count - 1);
        out := out + [item.value];
      }
      TakeRowDicts(names, rows, pre + out, limit);
    }
  }

  /** One more row gives one more dictionary. */
  lemma RowDictsSnoc(fields: seq<string>, rows: seq<Row>, c: nat)
    requires c < |rows|
    ensures RowDicts(fields, rows[..c + 1]) == RowDicts(fields, rows[..c]) + [ZipDict(fields, rows[c])]
  {
    assert rows[..c + 1] == rows[..c] + [rows[c]];
  }

  /**
   * The generator stops when the rows run out or the limit is reached; either way what
   * it emitted is the limited prefix of all the row dictionaries.
   */
  lemma TakeRowDicts(fields: seq<string>, all: seq<Row>, out: seq<map<string, Cell>>, lim: Option<nat>)
    requires |out| <= |all| && out == RowDicts(fields, all[..|out|])
    requires (|out| == |all| && (lim.Some? ==> |out| <= lim.value)) || (lim.Some? && |out| == lim.value)
    ensures out == Take(RowDicts(fields, all), lim)
  {
    assert RowDicts(fields, all[..|out|]) == RowDicts(fields, all)[..|out|];
  }

  /** The column names of a description. */
  function NamesOf(description: seq<ColumnDesc>): (r: seq<string>)
    ensures |r| == |description|
    ensures forall i :: 0 <= i < |r| ==> r[i] == description[i].name
  {
    seq(|description|, i requires 0 <= i < |description| => description[i].name)
  }
}

=== FILE: neutron_reaper.dfy ===
/**
 * Reclaiming the floating IPs or ports of idle projects at the KVM site
 * (hammers/scripts/neutron_reaper.py): when each project was last seen, which projects
 * are too idle, and the all-DOWN guard over what would be deleted.
 */
module NeutronReaper {
  import opened Wrappers
  import opened Dicts
  import Times

  /** A value `days_past` accepts: a datetime (seconds since the epoch) or its text. */
  datatype Stamp = At(seconds: int) | Text(text: string)

  /** `days_past`: text is parsed with `%Y-%m-%d %H:%M:%S` first. */
  function DaysPast(now: int, dt: Stamp): (r: Result<real>)
    ensures dt.At? ==> r == Ok((now - dt.seconds) as real / 86400.0)
    ensures dt.Text? ==> (r.Ok? <==> Times.Parse(dt.text, ' ').Ok?)
    ensures dt.Text? && r.Ok? ==> r.value * 86400.0 == (now - Times.EpochSeconds(Times.Parse(dt.text, ' ').value)) as real
  {
    match dt
    case At(s) => Ok((now - s) as real / 86400.0)
    case Text(t) =>
      match Times.ParseSeconds(t, ' ')
      case Err(e) => Err(e)
      case Ok(s) => Ok((now - s) as real / 86400.0)
  }

  /** A row of `query.latest_instance_interaction`. */
  datatype InteractionRow = InteractionRow(id: string, name: string, active: bool, latestInteraction: int)

  /** A row that the first loop records: not active, neither id nor name whitelisted. */
  predicate Eligible(row: InteractionRow, whitelist: set<string>)
  {
    !row.active && row.id !in whitelist && row.name !in whitelist
  }

  /** `project_last_seen` after the given rows. */
  function LastSeen(rows: seq<InteractionRow>, whitelist: set<string>): (r: Dict<string, int>)
    ensures r.Valid()
  {
    if rows == [] then Empty()
    else
      var d := LastSeen(rows[..|rows| - 1], whitelist);
      var row := rows[|rows| - 1];
      if !Eligible(row, whitelist) then d
      else if row.id in d.vals then Put(d, row.id, if row.latestInteraction >= d.vals[row.id] then row.latestInteraction else d.vals[row.id])
      else Put(d, row.id, row.latestInteraction)
  }

  /**
   * The recorded projects are exactly the ids of eligible rows, and each holds the latest
   * interaction among its eligible rows.
   */
  lemma {:induction false} LastSeenKeys(rows: seq<InteractionRow>, whitelist: set<string>)
    ensures forall id :: id in LastSeen(rows, whitelist).vals <==>
      exists i :: 0 <= i < |rows| && rows[i].id == id && Eligible(rows[i], whitelist)
  {
    if rows != [] {
      var init := rows[..|rows| - 1];
      LastSeenKeys(init, whitelist);
      var n := |rows| - 1;
      forall id | exists i :: 0 <= i < |rows| && rows[i].id == id && Eligible(rows[i], whitelist)
        ensures id in LastSeen(rows, whitelist).vals
      {
        var i :| 0 <= i < |rows| && rows[i].id == id && Eligible(rows[i], whitelist);
        if i < n {
          assert init[i] == rows[i];
        }
      }
      forall id | id in LastSeen(init, whitelist).vals
        ensures exists i :: 0 <= i < |rows| && rows[i].id == id && Eligible(rows[i], whitelist)
      {
        var i :| 0 <= i < |init| && init[i].id == id && Eligible(init[i], whitelist);
        assert rows[i] == init[i];
      }
    }
  }

  lemma {:induction false} LastSeenBound(rows: seq<InteractionRow>, whitelist: set<string>)
    ensures forall i :: 0 <= i < |rows| && Eligible(rows[i], whitelist) ==>
      rows[i].id in LastSeen(rows, whitelist).vals && rows[i].latestInteraction <= LastSeen(rows, whitelist).vals[rows[i].id]
  {
    if rows != [] {
      var init := rows[..|rows| - 1];
      LastSeenBound(init, whitelist);
      forall i | 0 <= i < |rows| - 1 && Eligible(rows[i], whitelist)
        ensures rows[i].id in LastSeen(rows, whitelist).vals && rows[i].latestInteraction <= LastSeen(rows, whitelist).vals[rows[i].id]
      {
        assert init[i] == rows[i];
      }
    }
  }

  lemma {:induction false} LastSeenAttained(rows: seq<InteractionRow>, whitelist: set<string>)
    ensures forall id :: id in LastSeen(rows, whitelist).vals ==>
      exists i :: 0 <= i < |rows| && rows[i].id == id && Eligible(rows[i], whitelist) &&
        rows[i].latestInteraction == LastSeen(rows, whitelist).vals[id]
  {
    if rows != [] {
      var init := rows[..|rows| - 1];
      LastSeenAttained(init, whitelist);
      var d := LastSeen(init, whitelist);
      var r := LastSeen(rows, whitelist);
      var n := |rows| - 1;
      forall id | id in r.vals
        ensures exists i :: 0 <= i < |rows| && rows[i].id == id && Eligible(rows[i], whitelist) && rows[i].latestInteraction == r.vals[id]
      {
        if Eligible(rows[n], whitelist) && id == rows[n].id && r.vals[id] == rows[n].latestInteraction {
        } else {
          var i :| 0 <= i < |init| && init[i].id == id && Eligible(init[i], whitelist) && init[i].latestInteraction == d.vals[id];
          assert rows[i] == init[i];
        }
      }
    }
  }

  lemma LastSeenIsMax(rows: seq<InteractionRow>, whitelist: set<string>)
    ensures forall id :: id in LastSeen(rows, whitelist).vals <==>
      exists i :: 0 <= i < |rows| && rows[i].id == id && Eligible(rows[i], whitelist)
    ensures forall i :: 0 <= i < |rows| && Eligible(rows[i], whitelist) ==>
      rows[i].latestInteraction <= LastSeen(rows, whitelist).vals[rows[i].id]
    ensures forall id :: id in LastSeen(rows, whitelist).vals ==>
      exists i :: 0 <= i < |rows| && rows[i].id == id && Eligible(rows[i], whitelist) &&
        rows[i].latestInteraction == LastSeen(rows, whitelist).vals[id]
  {
    LastSeenKeys(rows, whitelist);
    LastSeenBound(rows, whitelist);
    LastSeenAttained(rows, whitelist);
  }


  /** The first loop of `find_reapable_resources`. */
  method ProjectLastSeen(rows: seq<InteractionRow>, whitelist: set<string>) returns (projectLastSeen: Dict<string, int>)
    ensures projectLastSeen == LastSeen(rows, whitelist)
  {
    projectLastSeen := Empty();
    for i := 0 to |rows|
      invariant projectLastSeen == LastSeen(rows[..i], whitelist)
    {
      var row := rows[i];
      assert rows[..i + 1][..i] == rows[..i];
      if row.active || row.id in whitelist || row.name in whitelist {
        continue;
      }
      if row.id !in projectLastSeen.vals {
        projectLastSeen := Put(projectLastSeen, row.id, row.latestInteraction);
      } else {
        var already := projectLastSeen.vals[row.id];
        projectLastSeen := Put(projectLastSeen, row.id, if row.latestInteraction >= already then row.latestInteraction else already);
      }
    }
    assert rows[..|rows|] == rows;
  }

  /** `too_idle_project_ids`: the recorded projects, in first-seen order, idle for more than `idleDays`. */
  function TooIdle(keys: seq<string>, lastSeen: map<string, int>, now: int, idleDays: real): (r: seq<string>)
    requires forall k :: k in keys ==> k in lastSeen
    ensures forall p :: p in r <==> p in keys && (now - lastSeen[p]) as real / 86400.0 > idleDays
  {
    if keys == [] then []
    else
      (if (now - lastSeen[keys[0]]) as real / 86400.0 > idleDays then [keys[0]] else []) +
      TooIdle(keys[1..], lastSeen, now, idleDays)
  }

  /** A row of the per-project resource query. */
  datatype NeutronResource = NeutronResource(id: string, status: string)

  function ResourcesOf(resources: map<string, seq<NeutronResource>>, p: string): seq<NeutronResource>
  {
    if p in resources then resources[p] else []
  }

  /** The resources of the given projects, project by project. */
  function Gathered(ids: seq<string>, resources: map<string, seq<NeutronResource>>): seq<NeutronResource>
  {
    if ids == [] then [] else Gathered(ids[..|ids| - 1], resources) + ResourcesOf(resources, ids[|ids| - 1])
  }

  lemma {:induction false} GatheredMembers(ids: seq<string>, resources: map<string, seq<NeutronResource>>)
    ensures forall x :: x in Gathered(ids, resources) <==> exists p :: p in ids && x in ResourcesOf(resources, p)
  {
    if ids != [] {
      GatheredMembers(ids[..|ids| - 1], resources);
      assert ids == ids[..|ids| - 1] + [ids[|ids| - 1]];
    }
  }

  function IdsOf(rs: seq<NeutronResource>): (r: seq<string>)
    ensures |r| == |rs| && forall i :: 0 <= i < |rs| ==> r[i] == rs[i].id
  {
    seq(|rs|, i requires 0 <= i < |rs| => rs[i].id)
  }

  function NotDown(rs: seq<NeutronResource>): seq<NeutronResource>
  {
    if rs == [] then [] else NotDown(rs[..|rs| - 1]) + (if rs[|rs| - 1].status != "DOWN" then [rs[|rs| - 1]] else [])
  }

  lemma {:induction false} NotDownMembers(rs: seq<NeutronResource>)
    ensures forall x :: x in NotDown(rs) <==> x in rs && x.status != "DOWN"
  {
    if rs != [] {
      NotDownMembers(rs[..|rs| - 1]);
      assert rs == rs[..|rs| - 1] + [rs[|rs| - 1]];
    }
  }

  /**
   * `find_reapable_resources`: the ids of every resource of every too-idle project, or
   * `RuntimeError` when any of them is not DOWN. `future_projects` is always empty here.
   */
  method FindReapableResources(rows: seq<InteractionRow>, whitelist: set<string>, idleDays: real, now: int,
                               resources: map<string, seq<NeutronResource>>) returns (r: Result<seq<string>>)
    ensures var seen := LastSeen(rows, whitelist);
      var all := Gathered(TooIdle(seen.keys, seen.vals, now, idleDays), resources);
      (r.Ok? <==> forall x :: x in all ==> x.status == "DOWN") &&
      (r.Ok? ==> r.value == IdsOf(all)) &&
      (r.Err? ==> r.error.RuntimeError?)
  {
    var projectLastSeen := ProjectLastSeen(rows, whitelist);
    var tooIdle := TooIdle(projectLastSeen.keys, projectLastSeen.vals, now, idleDays);
    var toDelete, notDown := Gather(tooIdle, resources);
    ghost var seen := LastSeen(rows, whitelist);
    NotDownMembers(Gathered(TooIdle(seen.keys, seen.vals, now, idleDays), resources));
    if notDown != [] {
      assert notDown[0] in notDown;
      return Err(RuntimeError("error: not all resources selected are in \"DOWN\" state."));
    }
    return Ok(toDelete);
  }

  lemma AppendOne(rs: seq<NeutronResource>, x: NeutronResource)
    ensures IdsOf(rs + [x]) == IdsOf(rs) + [x.id]
    ensures NotDown(rs + [x]) == NotDown(rs) + (if x.status != "DOWN" then [x] else [])
  {
    assert (rs + [x])[..|rs|] == rs;
  }

  /** The gathering loops of `find_reapable_resources`. */
  method Gather(ids: seq<string>, resources: map<string, seq<NeutronResource>>)
    returns (toDelete: seq<string>, notDown: seq<NeutronResource>)
    ensures toDelete == IdsOf(Gathered(ids, resources))
    ensures notDown == NotDown(Gathered(ids, resources))
  {
    toDelete, notDown := [], [];
    for i := 0 to |ids|
      invariant toDelete == IdsOf(Gathered(ids[..i], resources))
      invariant notDown == NotDown(Gathered(ids[..i], resources))
    {
      var rs := ResourcesOf(resources, ids[i]);
      assert ids[..i + 1][..i] == ids[..i];
      ghost var g := Gathered(ids[..i], resources);
      assert Gathered(ids[..i + 1], resources) == g + rs;
      assert g + rs[..0] == g;
      for j := 0 to |rs|
        invariant toDelete == IdsOf(g + rs[..j])
        invariant notDown == NotDown(g + rs[..j])
      {
        assert g + rs[..j + 1] == (g + rs[..j]) + [rs[j]];
        AppendOne(g + rs[..j], rs[j]);
        toDelete := toDelete + [rs[j].id];
        if rs[j].status != "DOWN" {
          notDown := notDown + [rs[j]];
        }
      }
      assert rs[..|rs|] == rs;
    }
    assert ids[..|ids|] == ids;
  }

  /** Whitelist file lines are kept whole, newline included. */
  function Whitelist(lines: seq<string>): (r: set<string>)
    ensures forall w :: w in r <==> w in lines
  {
    set l | l in lines
  }

  /** An id without a trailing newline is never matched by a whitelist line that has one. */
  lemma WhitelistKeepsNewlines(lines: seq<string>, id: string)
    requires forall l :: l in lines ==> l != [] && l[|l| - 1] == '\n'
    requires id == [] || id[|id| - 1] != '\n'
    ensures id !in Whitelist(lines)
  {
  }
}

=== FILE: node_doctor.dfy ===
/**
 * Node diagnosis (hammers/scripts/node_doctor.py): each checker decides a set of sick
 * nodes and appends its ailment to their lists. The REST answers (Blazar leases, hosts
 * and allocations, the free-pool aggregate, Nova instances, Placement usages) are
 * parameters; times are seconds.
 */
module NodeDoctor {
  import opened Wrappers

  datatype IronicNode = IronicNode(uuid: string, name: string, maintenance: bool, provisionState: string,
                                   provisionUpdatedAt: int, lastError: Option<string>, instanceUuid: Option<string>)

  /** `available_nodes`: not in maintenance and provision state "available". */
  predicate Available(n: IronicNode)
  {
    !n.maintenance && n.provisionState == "available"
  }

  predicate InErrorState(n: IronicNode)
  {
    n.provisionState == "error"
  }

  /** Deleting for more than two minutes with an error recorded. */
  predicate StuckDeleting(n: IronicNode, now: int)
  {
    n.provisionState == "deleting" && n.provisionUpdatedAt < now - 120 && n.lastError.Some?
  }

  predicate LeaseNameChar(c: char)
  {
    'a' <= c <= 'z' || 'A' <= c <= 'Z' || '0' <= c <= '9' || c == '-'
  }

  const MaintenanceSuffix := "-maintenance"

  /**
   * `re.match("^[a-zA-Z0-9\-]+-maintenance$", s)`: a non-empty run of letters, digits and
   * dashes, then "-maintenance", then the end of the text or a final newline (`$`).
   */
  predicate MaintenanceLeaseName(s: string)
  {
    var body := if s != [] && s[|s| - 1] == '\n' then s[..|s| - 1] else s;
    |body| > |MaintenanceSuffix| &&
    body[|body| - |MaintenanceSuffix|..] == MaintenanceSuffix &&
    LeaseNameChars(body[..|body| - |MaintenanceSuffix|])
  }

  predicate LeaseNameChars(s: string)
  {
    s == [] || (LeaseNameChar(s[0]) && LeaseNameChars(s[1..]))
  }

  lemma MaintenanceLeaseNameExamples()
    ensures MaintenanceLeaseName("n1-maintenance")
    ensures MaintenanceLeaseName("n1-maintenance\n")
    ensures !MaintenanceLeaseName("-maintenance")
    ensures !MaintenanceLeaseName("n_1-maintenance")
  {
    assert "n1-maintenance"[..2] == "n1" && "n1-maintenance"[2..] == MaintenanceSuffix;
    assert "n1-maintenance\n"[..14] == "n1-maintenance";
    assert "n_1-maintenance"[..3] == "n_1";
    assert !LeaseNameChar("n_1"[1]);
  }

  /** The maintenance-lease names among the Blazar lease names. */
  function MaintenanceLeases(leaseNames: seq<string>): (r: set<string>)
    ensures forall l :: l in r ==> MaintenanceLeaseName(l)
    ensures forall l :: l in leaseNames && MaintenanceLeaseName(l) ==> l in r
  {
    set l | l in leaseNames && MaintenanceLeaseName(l)
  }

  /** In maintenance without a maintenance lease carrying the node's name. */
  predicate MaintenanceStateError(n: IronicNode, leaseNames: seq<string>)
  {
    n.maintenance && n.name !in MaintenanceLeases(leaseNames)
  }

  /**
   * The check compares node names with lease names, so a maintenance node whose own name
   * does not end in "-maintenance" is flagged whatever leases exist.
   */
  lemma MaintenanceNodeAlwaysFlagged(n: IronicNode, leaseNames: seq<string>)
    requires n.maintenance && !MaintenanceLeaseName(n.name)
    ensures MaintenanceStateError(n, leaseNames)
  {
  }

  /** A Blazar host allocation: the host and whether it has reservations. */
  datatype HostAllocation = HostAllocation(resourceId: string, reserved: bool)

  /**
   * `unallocated_nodes`: the hypervisor hostnames of the hosts of unreserved allocations;
   * an unreserved allocation of a host Blazar does not list raises `KeyError`.
   */
  function Unallocated(allocs: seq<HostAllocation>, hostnames: map<string, string>): (r: Result<seq<string>>)
    ensures r.Err? <==> exists a :: a in allocs && !a.reserved && a.resourceId !in hostnames
    ensures r.Ok? ==> forall h :: h in r.value <==> exists a :: a in allocs && !a.reserved && a.resourceId in hostnames && hostnames[a.resourceId] == h
  {
    if allocs == [] then Ok([])
    else
      var a := allocs[0];
      assert forall x :: x in allocs <==> x == a || x in allocs[1..];
      match Unallocated(allocs[1..], hostnames)
      case Err(e) => if !a.reserved && a.resourceId !in hostnames then Err(KeyError(a.resourceId)) else Err(e)
      case Ok(rest) =>
        if a.reserved then Ok(rest)
        else if a.resourceId !in hostnames then Err(KeyError(a.resourceId))
        else Ok([hostnames[a.resourceId]] + rest)
  }

  /** The ailments a node can be given. */
  const ErrorStateAilment := "error_state"
  const StuckDeletingAilment := "stuck_deleting"
  const MaintenanceAilment := "maintenance_state_error"
  const NotInFreepoolAilment := "not_in_freepool"
  const UndeadAilment := "undead_instance"
  const AllocatedAilment := "resource_provider_allocated"
  const ReservedAilment := "resource_provider_reserved"

  /**
   * The loop of `append_ailment` on the dictionary's values: `ailment` is appended to the
   * list of each node of `ids` that is in `sick`, in order; no other list changes.
   */
  method AppendEach(m0: map<string, seq<string>>, ids: seq<string>, sick: set<string>, ailment: string)
    returns (m: map<string, seq<string>>)
    requires forall i, j :: 0 <= i < j < |ids| ==> ids[i] != ids[j]
    requires forall k :: k in m0 <==> k in ids
    ensures m.Keys == m0.Keys
    ensures forall k :: k in m ==> m[k] == m0[k] + (if k in sick then [ailment] else [])
  {
    m := m0;
    ghost var seen: set<string> := {};
    for i := 0 to |ids|
      invariant m.Keys == m0.Keys
      invariant forall j :: 0 <= j < i ==> ids[j] in seen
      invariant forall j :: i <= j < |ids| ==> ids[j] !in seen
      invariant forall k :: k in m ==> m[k] == m0[k] + (if k in sick && k in seen then [ailment] else [])
    {
      var nid := ids[i];
      if nid in sick {
        m := m[nid := m[nid] + [ailment]];
      }
      seen := seen + {nid};
    }
  }

  /** The `nodes` dictionary of `main`: Ironic's nodes by uuid, in Ironic's order, each with its ailments. */
  class Doctor {
    const ids: seq<string>
    const info: map<string, IronicNode>
    var ailments: map<string, seq<string>>

    /** Ironic's dictionary: each uuid once, keyed by the node's own uuid. */
    ghost predicate WellFormed()
    {
      (forall i, j :: 0 <= i < j < |ids| ==> ids[i] != ids[j]) &&
      (forall k :: k in info <==> k in ids) &&
      (forall k :: k in info ==> info[k].uuid == k)
    }

    ghost predicate Valid()
      reads this
    {
      WellFormed() && ailments.Keys == info.Keys
    }

    /** The dictionary comprehension of `main`: the named nodes (all when none are named), no ailments yet. */
    constructor (ironicIds: seq<string>, ironic: map<string, IronicNode>, names: seq<string>)
      requires forall i, j :: 0 <= i < j < |ironicIds| ==> ironicIds[i] != ironicIds[j]
      requires forall k :: k in ironic <==> k in ironicIds
      requires forall k :: k in ironic ==> ironic[k].uuid == k
      ensures Valid()
      ensures forall k :: k in info <==> k in ironic && (names == [] || ironic[k].name in names)
      ensures forall k :: k in info ==> info[k] == ironic[k] && ailments[k] == []
    {
      var kept: seq<string> := [];
      for i := 0 to |ironicIds|
        invariant forall a, b :: 0 <= a < b < |kept| ==> kept[a] != kept[b]
        invariant forall k :: k in kept <==> k in ironicIds[..i] && (names == [] || ironic[k].name in names)
      {
        var k := ironicIds[i];
        assert k !in ironicIds[..i];
        if names == [] || ironic[k].name in names {
          kept := kept + [k];
        }
      }
      assert ironicIds[..|ironicIds|] == ironicIds;
      ids := kept;
      info := map k | k in kept :: ironic[k];
      ailments := map k | k in kept :: [];
    }

    /**
     * The loop every checker ends in: `ailment` is appended to the list of each node in
     * `sick`, in dictionary order; no other list, and no key, changes.
     */
    method AppendAilment(sick: set<string>, ailment: string)
      requires Valid()
      modifies this
      ensures Valid()
      ensures ailments.Keys == old(ailments).Keys
      ensures forall k :: k in ailments ==> ailments[k] == old(ailments)[k] + (if k in sick then [ailment] else [])
    {
      ailments := AppendEach(ailments, ids, sick, ailment);
    }

    /** `available_nodes`. */
    function AvailableNodes(): (r: set<string>)
      ensures forall k :: k in r <==> k in info && Available(info[k])
    {
      set k | k in info && Available(info[k])
    }

    /** `node_in_error_state`. */
    method NodeInErrorState()
      requires Valid()
      modifies this
      ensures Valid() && ailments.Keys == old(ailments).Keys
      ensures forall k :: k in ailments ==> ailments[k] == old(ailments)[k] + (if InErrorState(info[k]) then [ErrorStateAilment] else [])
    {
      AppendAilment((set k | k in info && InErrorState(info[k])), ErrorStateAilment);
    }

    /** `node_stuck_deleting`, with the clock reading `now`. */
    method NodeStuckDeleting(now: int)
      requires Valid()
      modifies this
      ensures Valid() && ailments.Keys == old(ailments).Keys
      ensures forall k :: k in ailments ==> ailments[k] == old(ailments)[k] + (if StuckDeleting(info[k], now) then [StuckDeletingAilment] else [])
    {
      AppendAilment((set k | k in info && StuckDeleting(info[k], now)), StuckDeletingAilment);
    }

    /** `node_maintenance_state_error`, given the names of Blazar's leases. */
    method NodeMaintenanceStateError(leaseNames: seq<string>)
      requires Valid()
      modifies this
      ensures Valid() && ailments.Keys == old(ailments).Keys
      ensures forall k :: k in ailments ==> ailments[k] == old(ailments)[k] + (if MaintenanceStateError(info[k], leaseNames) then [MaintenanceAilment] else [])
    {
      AppendAilment((set k | k in info && MaintenanceStateError(info[k], leaseNames)), MaintenanceAilment);
    }

    /**
     * `node_not_in_freepool`: available nodes that are among the unallocated hosts and not
     * in the free-pool aggregate; a `KeyError` in building the unallocated list changes
     * nothing.
     */
    method NodeNotInFreepool(freepoolHosts: seq<string>, hostnames: map<string, string>, allocs: seq<HostAllocation>)
      returns (r: Result<()>)
      requires Valid()
      modifies this
      ensures Valid() && ailments.Keys == old(ailments).Keys
      ensures r.Err? <==> Unallocated(allocs, hostnames).Err?
      ensures r.Err? ==> ailments == old(ailments)
      ensures r.Ok? ==> forall k :: k in ailments ==>
        ailments[k] == old(ailments)[k] +
          (if Available(info[k]) && k in Unallocated(allocs, hostnames).value && k !in freepoolHosts then [NotInFreepoolAilment] else [])
    {
      var unallocated := Unallocated(allocs, hostnames);
      if unallocated.Err? {
        return Err(unallocated.error);
      }
      AppendAilment((set k | k in AvailableNodes() && k in unallocated.value && k !in freepoolHosts), NotInFreepoolAilment);
      return Ok(());
    }

    /** `node_instance_map` over the nodes in dictionary order: the last node naming an instance wins. */
    function InstanceMap(upTo: nat): (r: map<string, string>)
      requires WellFormed() && upTo <= |ids|
      ensures forall i :: i in r ==> r[i] in info && info[r[i]].instanceUuid == Some(i)
      ensures forall k :: k in ids[..upTo] && info[k].instanceUuid.Some? ==> info[k].instanceUuid.value in r
    {
      if upTo == 0 then map[]
      else
        var m := InstanceMap(upTo - 1);
        var k := ids[upTo - 1];
        assert forall x :: x in ids[..upTo] <==> x in ids[..upTo - 1] || x == k;
        if info[k].instanceUuid.Some? then m[info[k].instanceUuid.value := k] else m
    }

    /** The nodes `node_undead_instance` flags: those the map keeps for an instance Nova does not list. */
    function UndeadNodes(instanceIds: set<string>): (r: set<string>)
      requires WellFormed()
      ensures forall k :: k in r ==> k in info && info[k].instanceUuid.Some? && info[k].instanceUuid.value !in instanceIds
      ensures forall i :: i in InstanceMap(|ids|) && i !in instanceIds ==> InstanceMap(|ids|)[i] in r
      ensures forall k :: k in info && info[k].instanceUuid.Some? && info[k].instanceUuid.value !in instanceIds ==>
        exists k' :: k' in r && info[k'].instanceUuid == info[k].instanceUuid
    {
      assert forall k :: k in info ==> k in ids[..|ids|] by {
        assert ids[..|ids|] == ids;
      }
      var m := InstanceMap(|ids|);
      set i | i in m && i !in instanceIds :: m[i]
    }

    /**
     * When no two nodes name the same instance, every node whose instance Nova does not
     * list is flagged.
     */
    lemma UndeadWhenUnique(instanceIds: set<string>)
      requires WellFormed()
      requires forall a, b :: a in info && b in info && info[a].instanceUuid.Some? && info[a].instanceUuid == info[b].instanceUuid ==> a == b
      ensures forall k :: k in info && info[k].instanceUuid.Some? && info[k].instanceUuid.value !in instanceIds ==>
        k in UndeadNodes(instanceIds)
    {
      forall k | k in info && info[k].instanceUuid.Some? && info[k].instanceUuid.value !in instanceIds
        ensures k in UndeadNodes(instanceIds)
      {
        var k' :| k' in UndeadNodes(instanceIds) && info[k'].instanceUuid == info[k].instanceUuid;
      }
    }

    /** `node_undead_instance`, given the ids of Nova's instances. */
    method NodeUndeadInstance(instanceIds: set<string>)
      requires Valid()
      modifies this
      ensures Valid() && ailments.Keys == old(ailments).Keys
      ensures forall k :: k in ailments ==> ailments[k] == old(ailments)[k] + (if k in UndeadNodes(instanceIds) then [UndeadAilment] else [])
    {
      AppendAilment(UndeadNodes(instanceIds), UndeadAilment);
    }

    /**
     * `resource_provider_failure`, given per node whether Placement reports usage, a
     * reserved inventory and allocations (absent means no): available nodes in use with
     * allocations, or not in use with a reservation, get the matching ailment.
     */
    method ResourceProviderFailure(inUse: set<string>, reserved: set<string>, hasAllocations: set<string>)
      requires Valid()
      modifies this
      ensures Valid() && ailments.Keys == old(ailments).Keys
      ensures forall k :: k in ailments ==> (ailments[k] == old(ailments)[k] +
        (if Available(info[k]) && k in inUse && k in hasAllocations then [AllocatedAilment]
         else if Available(info[k]) && k !in inUse && k in reserved then [ReservedAilment] else []))
    {
      AppendAilment((set k | k in AvailableNodes() && k in inUse && k in hasAllocations), AllocatedAilment);
      AppendAilment((set k | k in AvailableNodes() && k !in inUse && k in reserved), ReservedAilment);
    }
  }

  /** Each checker keeps every earlier ailment: the lists only grow. */
  lemma AilmentsOnlyGrow(before: map<string, seq<string>>, after: map<string, seq<string>>, sick: set<string>, ailment: string)
    requires after.Keys == before.Keys
    requires forall k :: k in after ==> after[k] == before[k] + (if k in sick then [ailment] else [])
    ensures forall k :: k in after ==> before[k] <= after[k] && |after[k]| <= |before[k]| + 1
  {
  }
}

=== FILE: orphans_detector.dfy ===
/**
 * Orphan leases and instances (hammers/scripts/orphans_detector.py): the per-row
 * message, the dictionary built from the query rows, the KVM-site variant and the
 * report text.
 */
module OrphansDetector {
  import opened Wrappers
  import opened Strs
  import opened Dicts

  /** A row of `query.orphans`; the two `*_enabled` columns may be NULL. */
  datatype OrphanRow = OrphanRow(id: string, userEnabled: Option<int>, projectEnabled: Option<int>,
                                 userName: string, projectName: string)

  /** `obj[...] == 1`: NULL and every other value count as disabled. */
  predicate Enabled(column: Option<int>)
  {
    column == Some(1)
  }

  function StillMember(user: string, project: string): string
  {
    "User " + user + " does not belongs to Project " + project + " anymore"
  }

  function UserDeactivated(user: string): string { "User " + user + " is deactivated" }

  function ProjectDeactivated(project: string): string { "Project " + project + " is deactivated" }

  /** The deactivation notes, user first, joined with " and ". */
  function Deactivations(userOn: bool, projectOn: bool, user: string, project: string): (r: string)
    requires !(userOn && projectOn)
    ensures !userOn && projectOn ==> r == UserDeactivated(user)
    ensures userOn && !projectOn ==> r == ProjectDeactivated(project)
    ensures !userOn && !projectOn ==> r == UserDeactivated(user) + " and " + ProjectDeactivated(project)
  {
    Join((if userOn then [] else [UserDeactivated(user)]) + (if projectOn then [] else [ProjectDeactivated(project)]), " and ")
  }

  /** The message `get_orphan_info_from_query` stores for one row. */
  function Message(row: OrphanRow): string
  {
    var userOn := Enabled(row.userEnabled);
    var projectOn := Enabled(row.projectEnabled);
    if userOn && projectOn then StillMember(row.userName, row.projectName)
    else Deactivations(userOn, projectOn, row.userName, row.projectName)
  }

  /** The dictionary after the given rows. */
  function OrphanInfo(rows: seq<OrphanRow>): (r: Dict<string, string>)
    ensures r.Valid()
  {
    if rows == [] then Empty()
    else Put(OrphanInfo(rows[..|rows| - 1]), rows[|rows| - 1].id, Message(rows[|rows| - 1]))
  }

  /** Exactly the row ids are keys. */
  lemma {:induction false} OrphanInfoKeys(rows: seq<OrphanRow>)
    ensures forall id :: id in OrphanInfo(rows).vals <==> exists i :: 0 <= i < |rows| && rows[i].id == id
  {
    if rows != [] {
      var init := rows[..|rows| - 1];
      OrphanInfoKeys(init);
      assert forall i :: 0 <= i < |init| ==> rows[i] == init[i];
    }
  }

  /** Each id maps to the message of the LAST row that carries it. */
  lemma {:induction false} OrphanInfoLastWins(rows: seq<OrphanRow>, i: int)
    requires 0 <= i < |rows| && forall j :: i < j < |rows| ==> rows[j].id != rows[i].id
    ensures rows[i].id in OrphanInfo(rows).vals && OrphanInfo(rows).vals[rows[i].id] == Message(rows[i])
  {
    var init := rows[..|rows| - 1];
    if i < |rows| - 1 {
      assert rows[i] == init[i];
      assert forall j :: i < j < |init| ==> init[j] == rows[j];
      OrphanInfoLastWins(init, i);
    }
  }

  /** `get_orphan_info_from_query`. */
  method GetOrphanInfoFromQuery(queryResult: seq<OrphanRow>) returns (orphans: Dict<string, string>)
    ensures orphans == OrphanInfo(queryResult)
  {
    orphans := Empty();
    for i := 0 to |queryResult|
      invariant orphans == OrphanInfo(queryResult[..i])
    {
      var obj := queryResult[i];
      assert queryResult[..i + 1][..i] == queryResult[..i];
      var userEnabled := obj.userEnabled == Some(1);
      var projectEnabled := obj.projectEnabled == Some(1);
      if userEnabled && projectEnabled {
        orphans := Put(orphans, obj.id, StillMember(obj.userName, obj.projectName));
      } else {
        var message := [];
        if !userEnabled {
          message := message + [UserDeactivated(obj.userName)];
        }
        if !projectEnabled {
          message := message + [ProjectDeactivated(obj.projectName)];
        }
        orphans := Put(orphans, obj.id, Join(message, " and "));
      }
    }
    assert queryResult[..|queryResult|] == queryResult;
  }

  /** A row of `query.active_instances` at the KVM site. */
  datatype InstanceRow = InstanceRow(uuid: string, userId: string, projectId: string)

  /**
   * What Keystone knows: `users` maps the ids it finds to their `enabled` flag (an id it
   * does not find is a 404, i.e. disabled), `projects` maps the ids it finds to their
   * members.
   */
  datatype Keystone = Keystone(users: map<string, bool>, projects: map<string, seq<string>>)

  function KvmNote(ks: Keystone, row: InstanceRow): (r: Option<string>)
    ensures r.None? <==> (row.userId in ks.users && ks.users[row.userId] && row.projectId in ks.projects &&
      row.userId in ks.projects[row.projectId])
  {
    var userOn := row.userId in ks.users && ks.users[row.userId];
    var projectOn := row.projectId in ks.projects;
    if userOn && projectOn then
      if row.userId !in ks.projects[row.projectId] then
        Some("User " + row.userId + " does not belong to Project " + row.projectId + " anymore")
      else None
    else Some(Deactivations(userOn, projectOn, row.userId, row.projectId))
  }

  /** The dictionary of `get_orphan_instances_kvm` after the given rows. */
  function KvmOrphans(ks: Keystone, rows: seq<InstanceRow>): (r: Dict<string, string>)
    ensures r.Valid()
  {
    if rows == [] then Empty()
    else
      var d := KvmOrphans(ks, rows[..|rows| - 1]);
      var last := rows[|rows| - 1];
      match KvmNote(ks, last)
      case None => d
      case Some(m) => Put(d, last.uuid, m)
  }

  /**
   * An instance is reported iff some row for it has a disabled or missing user or
   * project, or a user that is no longer a member of the project.
   */
  lemma KvmOrphansMeaning(ks: Keystone, rows: seq<InstanceRow>)
    ensures forall id :: id in KvmOrphans(ks, rows).vals <==>
      exists i :: 0 <= i < |rows| && rows[i].uuid == id && KvmNote(ks, rows[i]).Some?
  {
    assert rows[..|rows|] == rows;
    forall id
      ensures id in KvmOrphans(ks, rows).vals <==> Reported(ks, rows, |rows|, id)
    {
      KvmOrphansAt(ks, rows, |rows|, id);
    }
  }

  /** Some of the first `n` rows is for the instance `id` and has a note. */
  predicate Reported(ks: Keystone, rows: seq<InstanceRow>, n: nat, id: string)
    requires n <= |rows|
  {
    exists i :: 0 <= i < n && rows[i].uuid == id && KvmNote(ks, rows[i]).Some?
  }

  lemma {:induction false} KvmOrphansAt(ks: Keystone, rows: seq<InstanceRow>, n: nat, id: string)
    requires n <= |rows|
    ensures id in KvmOrphans(ks, rows[..n]).vals <==> Reported(ks, rows, n, id)
  {
    if n > 0 {
      KvmOrphansAt(ks, rows, n - 1, id);
      KvmOrphansStep(ks, rows, n);
      ReportedStep(ks, rows, n, id);
    }
  }

  lemma KvmOrphansStep(ks: Keystone, rows: seq<InstanceRow>, n: nat)
    requires 0 < n <= |rows|
    ensures var d := KvmOrphans(ks, rows[..n - 1]).vals;
      KvmOrphans(ks, rows[..n]).vals ==
        if KvmNote(ks, rows[n - 1]).Some? then d[rows[n - 1].uuid := KvmNote(ks, rows[n - 1]).value] else d
  {
    assert rows[..n][..n - 1] == rows[..n - 1];
  }

  lemma ReportedStep(ks: Keystone, rows: seq<InstanceRow>, n: nat, id: string)
    requires 0 < n <= |rows|
    ensures Reported(ks, rows, n, id) <==>
      Reported(ks, rows, n - 1, id) || (rows[n - 1].uuid == id && KvmNote(ks, rows[n - 1]).Some?)
  {
    if Reported(ks, rows, n - 1, id) {
      var i :| 0 <= i < n - 1 && rows[i].uuid == id && KvmNote(ks, rows[i]).Some?;
      assert Reported(ks, rows, n, id);
    }
  }

  /** `get_orphan_instances_kvm`, with the Keystone lookups answered by `ks`. */
  method GetOrphanInstancesKvm(ks: Keystone, activeInstances: seq<InstanceRow>) returns (orphans: Dict<string, string>)
    ensures orphans == KvmOrphans(ks, activeInstances)
  {
    orphans := Empty();
    for i := 0 to |activeInstances|
      invariant orphans == KvmOrphans(ks, activeInstances[..i])
    {
      var obj := activeInstances[i];
      assert activeInstances[..i + 1][..i] == activeInstances[..i];
      var userEnabled := obj.userId in ks.users && ks.users[obj.userId];
      var projectEnabled := obj.projectId in ks.projects;
      if userEnabled && projectEnabled {
        if obj.userId !in ks.projects[obj.projectId] {
          orphans := Put(orphans, obj.uuid, "User " + obj.userId + " does not belong to Project " + obj.projectId + " anymore");
        }
      } else {
        orphans := Put(orphans, obj.uuid, Deactivations(userEnabled, projectEnabled, obj.userId, obj.projectId));
      }
    }
    assert activeInstances[..|activeInstances|] == activeInstances;
  }

  /** `s.ljust(width)`, i.e. the `{:<width}` format. */
  function LJust(s: string, width: nat): (r: string)
    ensures |r| == if |s| < width then width else |s|
    ensures r[..|s|] == s
    ensures forall i :: |s| <= i < |r| ==> r[i] == ' '
  {
    if |s| >= width then s else s + seq(width - |s|, _ => ' ')
  }

  /** `"{:<45} {:<50}".format(k, v)`. */
  function ReportLine(k: string, v: string): string
  {
    LJust(k, 45) + " " + LJust(v, 50)
  }

  /** A key of at most 45 characters leaves its message starting at column 46. */
  lemma ReportLineColumns(k: string, v: string)
    requires |k| <= 45
    ensures |ReportLine(k, v)| >= 96
    ensures ReportLine(k, v)[..|k|] == k
    ensures ReportLine(k, v)[46..46 + |v|] == v
  {
    assert ReportLine(k, v)[46..] == LJust(v, 50);
  }

  function ReportLines(d: Dict<string, string>): (r: seq<string>)
    requires d.Valid()
    ensures |r| == |d.keys|
    ensures forall i :: 0 <= i < |r| ==> r[i] == ReportLine(d.keys[i], d.vals[d.keys[i]])
  {
    seq(|d.keys|, i requires 0 <= i < |d.keys| => ReportLine(d.keys[i], d.vals[d.keys[i]]))
  }

  /**
   * `generate_report` as written: an empty dictionary gives `None`; any other reaches
   * `orphan_dict.iteritems()`, which Python 3 dictionaries do not have.
   */
  function GenerateReportAsWritten(d: Dict<string, string>, title: string): (r: Result<Option<string>>)
    requires d.Valid()
    ensures d.keys == [] ==> r == Ok(None)
  {
    if d.keys == [] then Ok(None) else Err(AttributeError("iteritems"))
  }

  /** One orphan is enough: the code as written raises where the intended report has three lines. */
  lemma GenerateReportAsWrittenFails()
    ensures var d := Put(Empty<string, string>(), "lease-1", UserDeactivated("alice"));
      GenerateReportAsWritten(d, "ORPHAN LEASES") == Err(AttributeError("iteritems")) &&
      GenerateReport(d, "ORPHAN LEASES").Some?
  {
  }

  /**
   * `generate_report` as intended: `None` for no orphans, otherwise the title, the header
   * and one aligned line per orphan in insertion order, joined by newlines.
   */
  function GenerateReport(d: Dict<string, string>, title: string): (r: Option<string>)
    requires d.Valid()
    ensures r.None? <==> d.keys == []
    ensures r.Some? ==> title + "\n" + ReportLine("ID", "Message") <= r.value
    ensures r.Some? ==> r.value == Join([title, ReportLine("ID", "Message")] + ReportLines(d), "\n")
  {
    if d.keys == [] then None
    else
      var lines := [title, ReportLine("ID", "Message")] + ReportLines(d);
      JoinHead(title, ReportLine("ID", "Message"), ReportLines(d), "\n");
      Some(Join(lines, "\n"))
  }

  /** Padding adds only spaces, so a line holds a newline only when its key or message does. */
  lemma ReportLineNoNewline(k: string, v: string)
    requires '\n' !in k && '\n' !in v
    ensures '\n' !in ReportLine(k, v)
  {
    var a, b := LJust(k, 45), LJust(v, 50);
    forall j | 0 <= j < |a| ensures a[j] != '\n' {
      if j < |k| { assert a[j] == a[..|k|][j]; }
    }
    forall j | 0 <= j < |b| ensures b[j] != '\n' {
      if j < |v| { assert b[j] == b[..|v|][j]; }
    }
    var line := a + " " + b;
    forall j | 0 <= j < |line| ensures line[j] != '\n' {
      if j > |a| { assert line[j] == b[j - |a| - 1]; }
    }
  }

  /**
   * Read back line by line (`split("\n")`), the report of a title, keys and messages
   * without newlines is the title, the header, then one aligned line per orphan, in
   * insertion order.
   */
  lemma ReportReadsBack(d: Dict<string, string>, title: string)
    requires d.Valid() && d.keys != []
    requires '\n' !in title
    requires forall i :: 0 <= i < |d.keys| ==> '\n' !in d.keys[i] && '\n' !in d.vals[d.keys[i]]
    ensures GenerateReport(d, title).Some?
    ensures Split(GenerateReport(d, title).value, '\n') == [title, ReportLine("ID", "Message")] + ReportLines(d)
  {
    var lines := [title, ReportLine("ID", "Message")] + ReportLines(d);
    forall i | 0 <= i < |lines| ensures '\n' !in lines[i] {
      if i == 1 {
        ReportLineNoNewline("ID", "Message");
      } else if i > 1 {
        ReportLineNoNewline(d.keys[i - 2], d.vals[d.keys[i - 2]]);
      }
    }
    SplitJoin(lines, '\n');
  }

  lemma JoinHead(a: string, b: string, rest: seq<string>, sep: string)
    ensures a + sep + b <= Join([a, b] + rest, sep)
  {
    if rest != [] {
      assert ([a, b] + rest)[1..] == [b] + rest;
      assert ([b] + rest)[1..] == rest;
    }
  }
}

=== FILE: osapi.dfy ===
/**
 * Credentials to Keystone authentication (hammers/osapi.py): parsing an RC file,
 * merging it with the environment, validating the required variables, normalising
 * the identity URL, refreshing the token and choosing a service endpoint.
 * HTTP exchanges are parameters: the response Keystone would send is passed in.
 */
module OsApi {
  import opened Wrappers

  const OsEnvPrefix := "OS_"
  const PasswordPlaceholder := "$OS_PASSWORD_INPUT"

  /** One line of an RC file after the `KEY=value` pattern is searched in it. */
  datatype RcLine = Assignment(key: string, value: string) | NoMatch

  /** The assignments of `lines`, a later one for the same key replacing an earlier one. */
  function Assignments(lines: seq<RcLine>): map<string, string>
  {
    if lines == [] then map[]
    else
      var m := Assignments(lines[..|lines| - 1]);
      match lines[|lines| - 1]
      case NoMatch => m
      case Assignment(k, v) => m[k := v]
  }

  /** Is `k` assigned by some line of `lines`? */
  predicate Assigns(lines: seq<RcLine>, k: string)
  {
    exists i :: 0 <= i < |lines| && lines[i].Assignment? && lines[i].key == k
  }

  /** A key is in the parsed map exactly when some line assigns it, and then holds its last value. */
  lemma {:induction false} AssignmentsLastWins(lines: seq<RcLine>, k: string)
    ensures k in Assignments(lines) <==> Assigns(lines, k)
    ensures k in Assignments(lines) ==>
      (exists i :: 0 <= i < |lines| && lines[i] == Assignment(k, Assignments(lines)[k])
        && forall j :: i < j < |lines| ==> !(lines[j].Assignment? && lines[j].key == k))
  {
    if lines != [] {
      var init := lines[..|lines| - 1];
      AssignmentsLastWins(init, k);
      assert forall i :: 0 <= i < |init| ==> init[i] == lines[i];
      if Assigns(lines, k) && !(lines[|lines| - 1].Assignment? && lines[|lines| - 1].key == k) {
        var i :| 0 <= i < |lines| && lines[i].Assignment? && lines[i].key == k;
        assert init[i] == lines[i];
      }
    }
  }

  /** The parsed map with a placeholder password removed. */
  function DropPlaceholder(m: map<string, string>): map<string, string>
  {
    if "OS_PASSWORD" in m && m["OS_PASSWORD"] == PasswordPlaceholder then m - {"OS_PASSWORD"} else m
  }

  /**
   * `load_osrc`: fill the map line by line, drop a placeholder password, then store the
   * password typed at the prompt when one was asked for (`prompted`).
   */
  method LoadOsrc(lines: seq<RcLine>, prompted: Option<string>) returns (rc: map<string, string>)
    ensures prompted.Some? ==> rc == DropPlaceholder(Assignments(lines))["OS_PASSWORD" := prompted.value]
    ensures prompted.None? ==> rc == DropPlaceholder(Assignments(lines))
    ensures prompted.None? && "OS_PASSWORD" in rc ==> rc["OS_PASSWORD"] != PasswordPlaceholder
    ensures forall k :: k in rc ==> k == "OS_PASSWORD" || Assigns(lines, k)
  {
    rc := map[];
    var i := 0;
    while i < |lines|
      invariant 0 <= i <= |lines|
      invariant rc == Assignments(lines[..i])
    {
      assert lines[..i + 1][..i] == lines[..i];
      match lines[i] {
        case NoMatch =>
        case Assignment(k, v) => rc := rc[k := v];
      }
      i := i + 1;
    }
    assert lines[..i] == lines;
    forall k | k in Assignments(lines) ensures Assigns(lines, k) {
      AssignmentsLastWins(lines, k);
    }
    if "OS_PASSWORD" in rc && rc["OS_PASSWORD"] == PasswordPlaceholder {
      rc := rc - {"OS_PASSWORD"};
    }
    if prompted.Some? {
      rc := rc["OS_PASSWORD" := prompted.value];
    }
  }

  /**
   * `from_env_or_args`: the `OS_` variables of the environment (when `useEnv`), updated
   * by the RC file when one is named.
   */
  function FromEnvOrArgs(env: map<string, string>, useEnv: bool, osrc: Option<map<string, string>>): (r: map<string, string>)
    ensures forall k :: k in r <==> (useEnv && k in env && OsEnvPrefix <= k) || (osrc.Some? && k in osrc.value)
    ensures forall k :: k in r && osrc.Some? && k in osrc.value ==> r[k] == osrc.value[k]
    ensures forall k :: k in r && !(osrc.Some? && k in osrc.value) ==> r[k] == env[k]
  {
    var fromEnv := if useEnv then map k | k in env && OsEnvPrefix <= k :: env[k] else map[];
    if osrc.Some? then fromEnv + osrc.value else fromEnv
  }

  /** Nothing is missing exactly when every required name is present. */
  lemma NoneMissing(required: set<string>, present: set<string>)
    ensures required - present == {} <==> required <= present
  {
    if required - present == {} {
      forall v | v in required ensures v in present {
        assert v !in required - present;
      }
    }
  }

  const RequiredOsVars: set<string> := {"OS_USERNAME", "OS_PASSWORD", "OS_PROJECT_NAME", "OS_AUTH_URL"}
  const DomainPlaceholder := "OS_PROJECT_DOMAIN_NAME/ID"

  /** The names `Auth` reports missing: required variables absent, plus the project domain when neither form is given. */
  function MissingVars(rc: map<string, string>): (r: set<string>)
    ensures r == {} <==> RequiredOsVars <= rc.Keys && ("OS_PROJECT_DOMAIN_NAME" in rc || "OS_PROJECT_DOMAIN_ID" in rc)
    ensures forall v :: v in r ==> v in RequiredOsVars || v == DomainPlaceholder
  {
    var missing := RequiredOsVars - rc.Keys;
    NoneMissing(RequiredOsVars, rc.Keys);
    assert DomainPlaceholder in missing + {DomainPlaceholder};
    if "OS_PROJECT_DOMAIN_NAME" !in rc && "OS_PROJECT_DOMAIN_ID" !in rc then missing + {DomainPlaceholder} else missing
  }

  /** Python's `s[-2:]`: the last two characters, or the whole string when shorter. */
  function LastTwo(s: string): string
  {
    if |s| >= 2 then s[|s| - 2..] else s
  }

  /** The identity URL always addresses version 3: `/v3` is appended unless it already ends in `v3`. */
  function FixAuthUrl(u: string): (r: string)
    ensures LastTwo(r) == "v3"
    ensures LastTwo(u) == "v3" ==> r == u
    ensures LastTwo(u) != "v3" ==> r == u + "/v3"
  {
    if LastTwo(u) != "v3" then u + "/v3" else u
  }

  lemma FixAuthUrlIdempotent(u: string)
    ensures FixAuthUrl(FixAuthUrl(u)) == FixAuthUrl(u)
  {
  }

  /** How the project's domain is named in the token request. */
  datatype Domain = DomainById(id: string) | DomainByName(name: string)

  /** The project domain sent to Keystone: the identifier when the RC gives one, otherwise the name. */
  function DomainInfo(rc: map<string, string>): (d: Domain)
    requires "OS_PROJECT_DOMAIN_ID" in rc || "OS_PROJECT_DOMAIN_NAME" in rc
    ensures "OS_PROJECT_DOMAIN_ID" in rc ==> d == DomainById(rc["OS_PROJECT_DOMAIN_ID"])
    ensures "OS_PROJECT_DOMAIN_ID" !in rc ==> d == DomainByName(rc["OS_PROJECT_DOMAIN_NAME"])
  {
    if "OS_PROJECT_DOMAIN_ID" in rc then DomainById(rc["OS_PROJECT_DOMAIN_ID"])
    else DomainByName(rc["OS_PROJECT_DOMAIN_NAME"])
  }

  /** An endpoint of a catalog entry. */
  datatype Endpoint = Endpoint(interface: string, region: Option<string>, url: string)
  /** A catalog entry. */
  datatype Service = Service(serviceType: string, endpoints: seq<Endpoint>)

  /** Keystone's answer to a token request: status, token, catalog and expiry (seconds). */
  datatype TokenResponse = TokenResponse(status: int, token: string, catalog: seq<Service>, expiresAt: int)

  /** The services of `catalog` of type `t` that list at least one endpoint, in order. */
  function MatchingServices(catalog: seq<Service>, t: string): (r: seq<Service>)
    ensures forall s :: s in r <==> s in catalog && s.serviceType == t && |s.endpoints| > 0
    ensures |r| <= |catalog|
  {
    if catalog == [] then []
    else
      var rest := MatchingServices(catalog[1..], t);
      if catalog[0].serviceType == t && |catalog[0].endpoints| > 0 then [catalog[0]] + rest else rest
  }

  /** The public endpoints of `eps` in `region`, in order. */
  function PublicInRegion(eps: seq<Endpoint>, region: Option<string>): (r: seq<Endpoint>)
    ensures forall e :: e in r <==> e in eps && e.interface == "public" && e.region == region
  {
    if eps == [] then []
    else
      var rest := PublicInRegion(eps[1..], region);
      if eps[0].interface == "public" && eps[0].region == region then [eps[0]] + rest else rest
  }

  /**
   * `url` is the URL of the first public endpoint of `eps` in `region`: some such
   * endpoint has it, and no earlier endpoint is public in the region.
   */
  predicate FirstPublicUrl(eps: seq<Endpoint>, region: Option<string>, url: string)
  {
    exists i :: 0 <= i < |eps| && eps[i].interface == "public" && eps[i].region == region && eps[i].url == url &&
      forall j :: 0 <= j < i ==> !(eps[j].interface == "public" && eps[j].region == region)
  }

  /** The head of the filtered list is the first endpoint of the list that passes the filter. */
  lemma {:induction false} PublicInRegionFirst(eps: seq<Endpoint>, region: Option<string>)
    requires PublicInRegion(eps, region) != []
    ensures FirstPublicUrl(eps, region, PublicInRegion(eps, region)[0].url)
  {
    if !(eps[0].interface == "public" && eps[0].region == region) {
      var rest := eps[1..];
      PublicInRegionFirst(rest, region);
      var url := PublicInRegion(rest, region)[0].url;
      var i :| 0 <= i < |rest| && rest[i].interface == "public" && rest[i].region == region && rest[i].url == url &&
        forall j :: 0 <= j < i ==> !(rest[j].interface == "public" && rest[j].region == region);
      assert eps[i + 1] == rest[i];
      assert forall j :: 1 <= j < i + 1 ==> eps[j] == rest[j - 1];
    }
  }

  /**
   * `Auth.endpoint`: the URL of the first public endpoint in the configured region of
   * the one service of type `t`. No service or several services are RuntimeErrors; a
   * service without such an endpoint fails indexing the empty list.
   */
  function EndpointFor(catalog: seq<Service>, t: string, region: Option<string>): (r: Result<string>)
    ensures r.Ok? <==> |MatchingServices(catalog, t)| == 1 && PublicInRegion(MatchingServices(catalog, t)[0].endpoints, region) != []
    ensures r.Ok? ==>
      exists s, e :: s in catalog && s.serviceType == t && e in s.endpoints &&
        e.interface == "public" && e.region == region && e.url == r.value
    ensures MatchingServices(catalog, t) == [] ==> r.Err? && r.error.RuntimeError?
    ensures |MatchingServices(catalog, t)| > 1 ==> r.Err? && r.error.RuntimeError?
    ensures |MatchingServices(catalog, t)| == 1 && r.Err? ==> r.error == IndexError
    ensures r.Ok? ==> r.value == PublicInRegion(MatchingServices(catalog, t)[0].endpoints, region)[0].url
    ensures |MatchingServices(catalog, t)| == 1 && r.Ok? ==>
      FirstPublicUrl(MatchingServices(catalog, t)[0].endpoints, region, r.value)
  {
    var services := MatchingServices(catalog, t);
    if |services| < 1 then Err(RuntimeError("didn't find any services matching type"))
    else if |services| > 1 then Err(RuntimeError("found multiple services matching type"))
    else
      var candidates := PublicInRegion(services[0].endpoints, region);
      if candidates == [] then Err(IndexError)
      else
        assert services[0] in services && candidates[0] in candidates;
        PublicInRegionFirst(services[0].endpoints, region);
        Ok(candidates[0].url)
  }

  /** An authenticated Keystone v3 session: its validated RC values, URL, region, token and catalog. */
  class Auth {
    const rc: map<string, string>
    const authUrl: string
    const region: Option<string>
    var token: string
    var expiry: int
    var catalog: seq<Service>

    /** The session built from a validated RC map and a successful token response. */
    constructor (rc: map<string, string>, response: TokenResponse)
      requires MissingVars(rc) == {}
      requires response.status == 201
      ensures this.rc == rc
      ensures authUrl == FixAuthUrl(rc["OS_AUTH_URL"])
      ensures region == (if "OS_REGION_NAME" in rc then Some(rc["OS_REGION_NAME"]) else None)
      ensures token == response.token && expiry == response.expiresAt && catalog == response.catalog
    {
      this.rc := rc;
      authUrl := FixAuthUrl(rc["OS_AUTH_URL"]);
      region := if "OS_REGION_NAME" in rc then Some(rc["OS_REGION_NAME"]) else None;
      token := response.token;
      expiry := response.expiresAt;
      catalog := response.catalog;
    }

    /**
     * `Auth(rc)`: a RuntimeError naming the missing variables, or a RuntimeError when
     * Keystone does not answer 201 Created; otherwise a fresh session.
     */
    static method Create(rc: map<string, string>, response: TokenResponse) returns (r: Result<Auth>)
      ensures MissingVars(rc) != {} ==> r.Err? && r.error.RuntimeError?
      ensures MissingVars(rc) == {} && response.status != 201 ==> r.Err? && r.error.RuntimeError?
      ensures r.Ok? <==> MissingVars(rc) == {} && response.status == 201
      ensures r.Ok? ==> (fresh(r.value) && r.value.rc == rc && r.value.token == response.token
        && r.value.authUrl == FixAuthUrl(rc["OS_AUTH_URL"]))
    {
      if MissingVars(rc) != {} {
        return Err(RuntimeError("Missing required OS values"));
      }
      if response.status != 201 {
        return Err(RuntimeError("HTTP error from Keystone"));
      }
      var a := new Auth(rc, response);
      return Ok(a);
    }

    /**
     * The `token` property: with less than a minute left before expiry the session
     * re-authenticates with `response` (a RuntimeError unless it is 201 Created, leaving
     * the session as it was); the current token is returned.
     */
    method Token(now: int, response: TokenResponse) returns (r: Result<string>)
      modifies this
      ensures old(expiry) - now >= 60 ==> r == Ok(old(token)) && unchanged(this)
      ensures old(expiry) - now < 60 && response.status != 201 ==> r.Err? && unchanged(this)
      ensures old(expiry) - now < 60 && response.status == 201 ==>
        (r == Ok(response.token) && token == response.token && expiry == response.expiresAt && catalog == response.catalog)
    {
      if expiry - now < 60 {
        if response.status != 201 {
          return Err(RuntimeError("HTTP error from Keystone"));
        }
        token := response.token;
        expiry := response.expiresAt;
        catalog := response.catalog;
      }
      return Ok(token);
    }

    /** `Auth.endpoint(t)` over the session's catalog and region. */
    function Endpoint(t: string): (r: Result<string>)
      reads this
      ensures r.Ok? <==> |MatchingServices(catalog, t)| == 1 && PublicInRegion(MatchingServices(catalog, t)[0].endpoints, region) != []
      ensures |MatchingServices(catalog, t)| != 1 ==> r.Err? && r.error.RuntimeError?
      ensures |MatchingServices(catalog, t)| == 1 && r.Err? ==> r.error == IndexError
      ensures |MatchingServices(catalog, t)| == 1 && r.Ok? ==>
        FirstPublicUrl(MatchingServices(catalog, t)[0].endpoints, region, r.value)
      ensures r == EndpointFor(catalog, t, region)
    {
      EndpointFor(catalog, t, region)
    }
  }

  const RequiredV2Vars: set<string> := {"OS_USERNAME", "OS_PASSWORD", "OS_TENANT_NAME", "OS_AUTH_URL"}

  /** A link of a Keystone version document. */
  datatype Link = Link(rel: Option<string>, href: string)
  /** A version entry of a Keystone discovery document. */
  datatype Version = Version(id: string, links: seq<Link>)
  /** The discovery document: a single `version`, or a list under `versions`. */
  datatype Discovery = Discovery(version: Option<Version>, versions: Option<seq<Version>>)

  /** Link `i` is the first whose rel is `self`. */
  predicate FirstSelfAt(links: seq<Link>, i: int)
  {
    0 <= i < |links| && links[i].rel == Some("self") && forall j :: 0 <= j < i ==> links[j].rel != Some("self")
  }

  /** The href of the first self link, if any. */
  function SelfLink(links: seq<Link>): (r: Option<string>)
    ensures r.Some? ==> exists i :: FirstSelfAt(links, i) && links[i].href == r.value
    ensures r.None? <==> forall l :: l in links ==> l.rel != Some("self")
  {
    if links == [] then None
    else if links[0].rel == Some("self") then Some(links[0].href)
    else SelfLink(links[1..])
  }

  /** Entry `i` is the first v2.0 entry. */
  predicate FirstV2At(vs: seq<Version>, i: int)
  {
    0 <= i < |vs| && vs[i].id == "v2.0" && forall j :: 0 <= j < i ==> vs[j].id != "v2.0"
  }

  /** The search over the versions: the first v2.0 entry decides; its self link is the root. */
  function FindV2Root(vs: seq<Version>): (r: Result<string>)
    ensures r.Ok? ==> exists v :: v in vs && v.id == "v2.0" && SelfLink(v.links) == Some(r.value)
    ensures (forall v :: v in vs ==> v.id != "v2.0") <==> r == Err(RuntimeError("could not find Keystone v2 root"))
    ensures r.Err? ==> r.error.RuntimeError?
  {
    if vs == [] then Err(RuntimeError("could not find Keystone v2 root"))
    else if vs[0].id != "v2.0" then FindV2Root(vs[1..])
    else match SelfLink(vs[0].links)
      case Some(h) => Ok(h)
      case None => Err(RuntimeError("could not find self-link among v2 data"))
  }

  /**
   * `Authv2._find_keystone2_root`: a lone `version` replaces the list; a document with
   * neither fails with a KeyError.
   */
  function FindKeystone2Root(doc: Discovery): (r: Result<string>)
    ensures doc.version.None? && doc.versions.None? ==> r == Err(KeyError("versions"))
    ensures doc.version.Some? && doc.version.value.id != "v2.0" ==> r == Err(RuntimeError("could not find Keystone v2 root"))
    ensures doc.version.Some? && doc.version.value.id == "v2.0" ==> (r.Ok? <==> SelfLink(doc.version.value.links).Some?)
  {
    if doc.version.Some? then FindV2Root([doc.version.value])
    else if doc.versions.None? then Err(KeyError("versions"))
    else FindV2Root(doc.versions.value)
  }

  /**
   * The first v2.0 entry decides the search: its first self link is the root, and
   * without one the search fails there, whatever later entries hold.
   */
  lemma {:induction false} FirstV2Rule(vs: seq<Version>, i: int)
    requires FirstV2At(vs, i)
    ensures FindV2Root(vs) == (if SelfLink(vs[i].links).Some? then Ok(SelfLink(vs[i].links).value)
                               else Err(RuntimeError("could not find self-link among v2 data")))
  {
    if i > 0 {
      assert FirstV2At(vs[1..], i - 1) by {
        forall j | 0 <= j < i - 1 ensures vs[1..][j].id != "v2.0" {
          assert vs[1..][j] == vs[j + 1];
        }
      }
      FirstV2Rule(vs[1..], i - 1);
    }
  }

  /** A v2.0 entry without a self link ends the search even if a later v2.0 entry has one. */
  lemma FirstV2Decides(v1: Version, v2: Version, root: string)
    requires v1.id == "v2.0" && v1.links == [Link(Some("up"), "x")]
    requires v2 == Version("v2.0", [Link(Some("self"), root)])
    ensures FindV2Root([v1, v2]).Err?
  {
  }

  /** `Authv2(rc)` up to authentication: missing variables, then the root search, then the region. */
  function Authv2Init(rc: map<string, string>, doc: Discovery): (r: Result<(string, Option<string>)>)
    ensures RequiredV2Vars - rc.Keys != {} ==> r.Err? && r.error.RuntimeError?
    ensures r.Ok? <==> RequiredV2Vars <= rc.Keys && FindKeystone2Root(doc).Ok?
    ensures r.Ok? ==> r.value.0 == FindKeystone2Root(doc).value
  {
    NoneMissing(RequiredV2Vars, rc.Keys);
    if RequiredV2Vars - rc.Keys != {} then Err(RuntimeError("Missing required OS values"))
    else match FindKeystone2Root(doc)
      case Err(e) => Err(e)
      case Ok(root) => Ok((root, if "OS_REGION_NAME" in rc then Some(rc["OS_REGION_NAME"]) else None))
  }
}

=== FILE: query.dfy ===
/**
 * The query registry and the parts of the database queries (hammers/query.py) that
 * are computed outside SQL: the project column per release, the merge of the two
 * Nova databases of the Ocata release, the table choices and the placeholder list.
 * The SQL text itself is not modelled; each statement's rows are parameters.
 */
module Query {
  import opened Wrappers
  import Strs

  const Liberty := "liberty"
  const Ocata := "ocata"

  /** A registered query: its name and how many positional arguments it takes after the connection. */
  datatype QueryDef = QueryDef(name: string, minArgs: nat, maxArgs: nat)

  /** The `QUERIES` dictionary that the `@query` decorator fills. */
  class Registry {
    var queries: map<string, QueryDef>

    constructor ()
      ensures queries == map[]
    {
      queries := map[];
    }

    /** `@query`: registers `q` under its name (replacing an earlier one) and hands it back unchanged. */
    method Register(q: QueryDef) returns (r: QueryDef)
      modifies this
      ensures r == q
      ensures queries == old(queries)[q.name := q]
    {
      queries := queries[q.name := q];
      r := q;
    }
  }

  /** `project_col`: the column naming a project, renamed between the Liberty and Ocata releases. */
  function ProjectCol(version: string): (r: Result<string>)
    ensures r.Ok? <==> version == Liberty || version == Ocata
    ensures version == Liberty ==> r == Ok("tenant_id")
    ensures version == Ocata ==> r == Ok("project_id")
    ensures r.Err? ==> r.error == KeyError(version)
  {
    if version == Liberty then Ok("tenant_id")
    else if version == Ocata then Ok("project_id")
    else Err(KeyError(version))
  }

  /** A row of `idle_projects`: project id, name and the time its latest instance was deleted. */
  datatype IdleRow = IdleRow(id: string, name: string, latestDeletion: Option<int>)

  /** The merge's dictionary: one row per project id, and the ids in insertion order. */
  datatype MergeState = MergeState(latest: map<string, IdleRow>, order: seq<string>)

  function Max(a: int, b: int): int { if a >= b then a else b }

  /** Does project `id` appear in `rows`? */
  predicate Appears(rows: seq<IdleRow>, id: string)
  {
    exists i :: 0 <= i < |rows| && rows[i].id == id
  }

  /** Does some row of project `id` carry no deletion date? */
  predicate AnyNone(rows: seq<IdleRow>, id: string)
  {
    exists i :: 0 <= i < |rows| && rows[i].id == id && rows[i].latestDeletion.None?
  }

  /** The deletion dates of project `id`, in row order. */
  function DatesOf(rows: seq<IdleRow>, id: string): (r: seq<int>)
    ensures !AnyNone(rows, id) && Appears(rows, id) ==> r != []
  {
    if rows == [] then []
    else
      var init := rows[..|rows| - 1];
      var last := rows[|rows| - 1];
      assert forall i :: 0 <= i < |init| ==> init[i] == rows[i];
      if last.id == id && last.latestDeletion.Some? then DatesOf(init, id) + [last.latestDeletion.value]
      else DatesOf(init, id)
  }

  function SeqMax(s: seq<int>): (m: int)
    requires s != []
    ensures m in s && forall x :: x in s ==> x <= m
  {
    if |s| == 1 then s[0]
    else
      assert forall x :: x in s ==> x in s[..|s| - 1] || x == s[|s| - 1];
      Max(SeqMax(s[..|s| - 1]), s[|s| - 1])
  }

  /**
   * One iteration of the merge as the source intends it: the first row of a project is
   * stored; once a project has a row without a date it stays without one; otherwise the
   * later of the two dates is kept.
   */
  function Step(st: MergeState, row: IdleRow): MergeState
  {
    if row.id in st.latest then
      var stored := st.latest[row.id];
      if stored.latestDeletion.None? then st
      else if row.latestDeletion.None? then MergeState(st.latest[row.id := stored.(latestDeletion := None)], st.order)
      else MergeState(st.latest[row.id := stored.(latestDeletion := Some(Max(row.latestDeletion.value, stored.latestDeletion.value)))], st.order)
    else MergeState(st.latest[row.id := row], st.order + [row.id])
  }

  /**
   * One iteration of the merge as written: the "already ignored" test looks at the stored
   * row instead of its date, so it never fires; a dated row after an undated one then
   * compares a date with None, a TypeError in Python 3.
   */
  function StepAsWritten(st: MergeState, row: IdleRow): Result<MergeState>
  {
    if row.id in st.latest then
      var stored := st.latest[row.id];
      if row.latestDeletion.None? then Ok(MergeState(st.latest[row.id := stored.(latestDeletion := None)], st.order))
      else if stored.latestDeletion.None? then Err(TypeError("'>' not supported between instances of 'NoneType' and 'datetime'"))
      else Ok(MergeState(st.latest[row.id := stored.(latestDeletion := Some(Max(row.latestDeletion.value, stored.latestDeletion.value)))], st.order))
    else Ok(MergeState(st.latest[row.id := row], st.order + [row.id]))
  }

  /** The dictionary after the intended merge of `rows`. */
  function Fold(rows: seq<IdleRow>): (st: MergeState)
    ensures forall id :: id in st.order ==> id in st.latest
    ensures forall id :: id in st.latest <==> Appears(rows, id)
    ensures forall a, b :: 0 <= a < b < |st.order| ==> st.order[a] != st.order[b]
    ensures forall id :: id in st.latest ==> st.latest[id].id == id
  {
    if rows == [] then MergeState(map[], [])
    else
      var init := rows[..|rows| - 1];
      assert forall i :: 0 <= i < |init| ==> init[i] == rows[i];
      Step(Fold(init), rows[|rows| - 1])
  }

  /** The dictionary after the merge of `rows` as written. */
  function FoldAsWritten(rows: seq<IdleRow>): Result<MergeState>
  {
    if rows == [] then Ok(MergeState(map[], []))
    else
      match FoldAsWritten(rows[..|rows| - 1])
      case Err(e) => Err(e)
      case Ok(st) => StepAsWritten(st, rows[|rows| - 1])
  }

  /** `[row for row in latest_for_project.values() if row['latest_deletion']]` over ids in `order`. */
  function Kept(latest: map<string, IdleRow>, order: seq<string>): (r: seq<IdleRow>)
    requires forall id :: id in order ==> id in latest
    ensures forall x :: x in r ==> x.latestDeletion.Some? && exists id :: id in order && latest[id] == x
    ensures forall id :: id in order && latest[id].latestDeletion.Some? ==> latest[id] in r
  {
    if order == [] then []
    else
      var init := order[..|order| - 1];
      var id := order[|order| - 1];
      assert forall x :: x in init ==> x in order;
      var rest := Kept(latest, init);
      if latest[id].latestDeletion.Some? then rest + [latest[id]] else rest
  }

  /** The stored date of a project after the intended merge: none when any of its rows had none, else the latest of its dates. */
  lemma {:induction false} FoldLatest(rows: seq<IdleRow>, id: string)
    requires Appears(rows, id)
    ensures Fold(rows).latest[id].latestDeletion ==
      if AnyNone(rows, id) then None else Some(SeqMax(DatesOf(rows, id)))
  {
    var init := rows[..|rows| - 1];
    var last := rows[|rows| - 1];
    assert forall i :: 0 <= i < |init| ==> init[i] == rows[i];
    assert rows == init + [last];
    if last.id != id {
      assert Appears(init, id);
      FoldLatest(init, id);
      assert AnyNone(rows, id) == AnyNone(init, id);
    } else if !Appears(init, id) {
      assert !AnyNone(init, id);
      assert AnyNone(rows, id) <==> last.latestDeletion.None?;
      assert DatesOf(init, id) == [] by {
        DatesOfAbsent(init, id);
      }
    } else {
      FoldLatest(init, id);
      assert AnyNone(rows, id) <==> AnyNone(init, id) || last.latestDeletion.None?;
    }
  }

  lemma {:induction false} DatesOfAbsent(rows: seq<IdleRow>, id: string)
    requires !Appears(rows, id)
    ensures DatesOf(rows, id) == []
  {
    if rows != [] {
      var init := rows[..|rows| - 1];
      assert forall i :: 0 <= i < |init| ==> init[i] == rows[i];
      DatesOfAbsent(init, id);
    }
  }

  /** Does a dated row of some project follow an undated row of the same project? */
  predicate NoneThenDate(rows: seq<IdleRow>)
  {
    exists i, j :: 0 <= i < j < |rows| && rows[i].id == rows[j].id &&
      rows[i].latestDeletion.None? && rows[j].latestDeletion.Some?
  }

  /** `NoneThenDate` computed row by row: the last row is dated and its project had an undated row before. */
  predicate DatedAfterUndated(rows: seq<IdleRow>)
  {
    rows != [] &&
    var init := rows[..|rows| - 1];
    var last := rows[|rows| - 1];
    DatedAfterUndated(init) || (last.latestDeletion.Some? && AnyNone(init, last.id))
  }

  lemma {:induction false} DatedAfterUndatedIff(rows: seq<IdleRow>)
    ensures DatedAfterUndated(rows) <==> NoneThenDate(rows)
  {
    if rows != [] {
      var init := rows[..|rows| - 1];
      var last := rows[|rows| - 1];
      assert forall i :: 0 <= i < |init| ==> init[i] == rows[i];
      DatedAfterUndatedIff(init);
      if NoneThenDate(rows) {
        var i, j :| 0 <= i < j < |rows| && rows[i].id == rows[j].id &&
          rows[i].latestDeletion.None? && rows[j].latestDeletion.Some?;
        if j < |init| {
          assert NoneThenDate(init);
        } else {
          assert AnyNone(init, last.id);
        }
      }
      if DatedAfterUndated(rows) {
        if DatedAfterUndated(init) {
          var i, j :| 0 <= i < j < |init| && init[i].id == init[j].id &&
            init[i].latestDeletion.None? && init[j].latestDeletion.Some?;
          assert rows[i] == init[i] && rows[j] == init[j];
        } else {
          var i :| 0 <= i < |init| && init[i].id == last.id && init[i].latestDeletion.None?;
          assert rows[i] == init[i];
          assert 0 <= i < |rows| - 1 < |rows|;
        }
      }
    }
  }

  /** The merge as written fails, with a TypeError, exactly on a dated row after an undated one of the same project, and otherwise agrees with the intended merge. */
  lemma FoldAsWrittenAgrees(rows: seq<IdleRow>)
    ensures NoneThenDate(rows) <==> FoldAsWritten(rows).Err?
    ensures FoldAsWritten(rows).Err? ==> FoldAsWritten(rows).error.TypeError?
    ensures FoldAsWritten(rows).Ok? ==> FoldAsWritten(rows).value == Fold(rows)
  {
    DatedAfterUndatedIff(rows);
    FoldAsWrittenRec(rows);
  }

  lemma {:induction false} FoldAsWrittenRec(rows: seq<IdleRow>)
    ensures DatedAfterUndated(rows) <==> FoldAsWritten(rows).Err?
    ensures FoldAsWritten(rows).Err? ==> FoldAsWritten(rows).error.TypeError?
    ensures FoldAsWritten(rows).Ok? ==> FoldAsWritten(rows).value == Fold(rows)
  {
    if rows != [] {
      var init := rows[..|rows| - 1];
      var last := rows[|rows| - 1];
      assert forall i :: 0 <= i < |init| ==> init[i] == rows[i];
      FoldAsWrittenRec(init);
      if !DatedAfterUndated(init) {
        var st := Fold(init);
        if last.id in st.latest {
          FoldLatest(init, last.id);
          var stored := st.latest[last.id];
          if last.latestDeletion.None? && stored.latestDeletion.None? {
            assert stored.(latestDeletion := None) == stored;
            assert st.latest[last.id := stored] == st.latest;
          }
        }
      }
    }
  }

  /** The smallest input that makes the merge as written fail. */
  lemma MergeAsWrittenCounterexample()
    ensures FoldAsWritten([IdleRow("p", "proj", None), IdleRow("p", "proj", Some(5))]).Err?
  {
    var rows := [IdleRow("p", "proj", None), IdleRow("p", "proj", Some(5))];
    assert rows[..1] == [IdleRow("p", "proj", None)];
    assert rows[..1][..0] == [];
  }

  /**
   * The merge loop of `idle_projects` as written: one pass over the rows filling the
   * dictionary, then the rows that kept a date.
   */
  method MergeLatestAsWritten(rows: seq<IdleRow>) returns (r: Result<seq<IdleRow>>)
    ensures r.Err? <==> NoneThenDate(rows)
    ensures r.Ok? ==> r.value == Kept(Fold(rows).latest, Fold(rows).order)
  {
    FoldAsWrittenAgrees(rows);
    var latest: map<string, IdleRow> := map[];
    var order: seq<string> := [];
    var i := 0;
    while i < |rows|
      invariant 0 <= i <= |rows|
      invariant FoldAsWritten(rows[..i]) == Ok(MergeState(latest, order))
    {
      assert rows[..i + 1][..i] == rows[..i];
      var row := rows[i];
      if row.id in latest {
        if row.latestDeletion.None? {
          latest := latest[row.id := latest[row.id].(latestDeletion := None)];
        } else if latest[row.id].latestDeletion.None? {
          FoldPrefixErr(rows, i + 1);
          assert rows[..|rows|] == rows;
          return Err(TypeError("'>' not supported between instances of 'NoneType' and 'datetime'"));
        } else {
          var stored := latest[row.id];
          latest := latest[row.id := stored.(latestDeletion := Some(Max(row.latestDeletion.value, stored.latestDeletion.value)))];
        }
      } else {
        latest := latest[row.id := row];
        order := order + [row.id];
      }
      i := i + 1;
    }
    assert rows[..i] == rows;
    var kept := CollectKept(latest, order);
    r := Ok(kept);
  }

  /** Once a prefix of the rows fails, the whole merge fails. */
  lemma {:induction false} FoldPrefixErr(rows: seq<IdleRow>, n: nat)
    requires n <= |rows| && FoldAsWritten(rows[..n]).Err?
    ensures FoldAsWritten(rows).Err?
    decreases |rows| - n
  {
    if n < |rows| {
      assert rows[..n + 1][..n] == rows[..n];
      FoldPrefixErr(rows, n + 1);
    } else {
      assert rows[..n] == rows;
    }
  }

  /** The merge loop with the "already ignored" test reading the stored date, as intended. */
  method MergeLatest(rows: seq<IdleRow>) returns (r: seq<IdleRow>)
    ensures r == Kept(Fold(rows).latest, Fold(rows).order)
  {
    var latest: map<string, IdleRow> := map[];
    var order: seq<string> := [];
    var i := 0;
    while i < |rows|
      invariant 0 <= i <= |rows|
      invariant Fold(rows[..i]) == MergeState(latest, order)
    {
      assert rows[..i + 1][..i] == rows[..i];
      var row := rows[i];
      if row.id in latest {
        if latest[row.id].latestDeletion.None? {
          // already ignored
        } else if row.latestDeletion.None? {
          latest := latest[row.id := latest[row.id].(latestDeletion := None)];
        } else {
          var stored := latest[row.id];
          latest := latest[row.id := stored.(latestDeletion := Some(Max(row.latestDeletion.value, stored.latestDeletion.value)))];
        }
      } else {
        latest := latest[row.id := row];
        order := order + [row.id];
      }
      i := i + 1;
    }
    assert rows[..i] == rows;
    r := CollectKept(latest, order);
  }

  /** The final comprehension over the dictionary's values, in insertion order. */
  method CollectKept(latest: map<string, IdleRow>, order: seq<string>) returns (r: seq<IdleRow>)
    requires forall id :: id in order ==> id in latest
    ensures r == Kept(latest, order)
  {
    r := [];
    var k := 0;
    while k < |order|
      invariant 0 <= k <= |order|
      invariant forall id :: id in order[..k] ==> id in latest
      invariant r == Kept(latest, order[..k])
    {
      assert order[..k + 1][..k] == order[..k];
      if latest[order[k]].latestDeletion.Some? {
        r := r + [latest[order[k]]];
      }
      k := k + 1;
    }
    assert order[..k] == order;
  }

  /**
   * What the intended merge reports: exactly the projects none of whose rows lacks a date,
   * each once, with the latest of its dates.
   */
  lemma MergeLatestMeaning(rows: seq<IdleRow>)
    ensures forall x :: x in Kept(Fold(rows).latest, Fold(rows).order) ==>
      Appears(rows, x.id) && !AnyNone(rows, x.id) && x.latestDeletion == Some(SeqMax(DatesOf(rows, x.id)))
    ensures forall id :: Appears(rows, id) && !AnyNone(rows, id) ==>
      exists x :: x in Kept(Fold(rows).latest, Fold(rows).order) && x.id == id
  {
    var st := Fold(rows);
    forall x | x in Kept(st.latest, st.order)
      ensures Appears(rows, x.id) && !AnyNone(rows, x.id) && x.latestDeletion == Some(SeqMax(DatesOf(rows, x.id)))
    {
      var id :| id in st.order && st.latest[id] == x;
      FoldLatest(rows, id);
    }
    forall id | Appears(rows, id) && !AnyNone(rows, id)
      ensures exists x :: x in Kept(st.latest, st.order) && x.id == id
    {
      FoldLatest(rows, id);
      OrderHasKeys(rows, id);
      assert st.latest[id] in Kept(st.latest, st.order);
    }
  }

  /** Every stored project is listed in the insertion order. */
  lemma {:induction false} OrderHasKeys(rows: seq<IdleRow>, id: string)
    requires Appears(rows, id)
    ensures id in Fold(rows).order
  {
    var init := rows[..|rows| - 1];
    assert forall i :: 0 <= i < |init| ==> init[i] == rows[i];
    if Appears(init, id) {
      OrderHasKeys(init, id);
    }
  }

  /**
   * `idle_projects`: the project column is looked up first (a KeyError for an unknown
   * release); under Ocata the rows of the `nova` and `nova_cell0` statements are merged,
   * otherwise the `nova` rows are returned as they are.
   */
  method IdleProjects(version: string, novaRows: seq<IdleRow>, cell0Rows: seq<IdleRow>) returns (r: Result<seq<IdleRow>>)
    ensures ProjectCol(version).Err? ==> r == Err(KeyError(version))
    ensures version == Liberty ==> r == Ok(novaRows)
    ensures version == Ocata ==>
      r.Ok? && r.value == Kept(Fold(novaRows + cell0Rows).latest, Fold(novaRows + cell0Rows).order)
  {
    var col := ProjectCol(version);
    if col.Err? {
      return Err(col.error);
    }
    if version == Ocata {
      var merged := MergeLatest(novaRows + cell0Rows);
      return Ok(merged);
    }
    return Ok(novaRows);
  }

  /** Where `latest_instance_interaction` reads: table expression and the name and id columns. */
  datatype InteractionSource = InteractionSource(table: string, nameCol: string, idCol: string)

  /**
   * `latest_instance_interaction`'s choices: only the `nova` and `nova_cell0` databases
   * are accepted (a RuntimeError otherwise); the KVM site reads the project id for both
   * columns, the bare-metal sites join the project table for its name.
   */
  function LatestInstanceInteraction(kvm: bool, novaDbName: string): (r: Result<InteractionSource>)
    ensures r.Ok? <==> novaDbName == "nova" || novaDbName == "nova_cell0"
    ensures r.Err? ==> r.error.RuntimeError?
    ensures r.Ok? ==> novaDbName + ".instances" <= r.value.table
    ensures r.Ok? && kvm ==> r.value.nameCol == "project_id" && r.value.idCol == "project_id"
    ensures r.Ok? && !kvm ==> r.value.nameCol == "proj.name" && r.value.idCol == "proj.id"
  {
    if novaDbName != "nova" && novaDbName != "nova_cell0" then Err(RuntimeError("invalid database selection"))
    else if kvm then Ok(InteractionSource(novaDbName + ".instances", "project_id", "project_id"))
    else
      var instances := novaDbName + ".instances";
      var table := instances + " AS inst INNER JOIN keystone.project AS proj ON inst.project_id = proj.id";
      assert instances <= table;
      Ok(InteractionSource(table, "proj.name", "proj.id"))
  }

  /** `','.join(['%s'] * n)`: the placeholders of an `IN` list of `n` values. */
  function Placeholders(n: nat): (r: string)
    ensures n == 0 ==> r == []
    ensures n > 0 ==> |r| == 3 * n - 1
    ensures forall i :: 0 <= i < n ==> r[3 * i] == '%' && r[3 * i + 1] == 's'
    ensures forall i :: 0 <= i < n - 1 ==> r[3 * i + 2] == ','
  {
    if n == 0 then [] else if n == 1 then "%s" else Placeholders(n - 1) + ",%s"
  }

  /** The placeholder list is the join of `n` copies of `%s`. */
  lemma {:induction false} PlaceholdersJoin(n: nat)
    ensures Placeholders(n) == Strs.Join(seq(n, _ => "%s"), ",")
  {
    if n > 1 {
      PlaceholdersJoin(n - 1);
      assert seq(n, _ => "%s") == seq(n - 1, _ => "%s") + ["%s"];
      Strs.JoinAppend(seq(n - 1, _ => "%s"), "%s", ",");
    }
  }

  /**
   * `orphans`: the tables to scan for an orphan type (a RuntimeError for other types),
   * then the project column (a KeyError for an unknown release); the result is the
   * concatenation of each table's rows. The instance tables come from a set, so their
   * order is the caller's `instanceTableOrder`.
   */
  function Orphans<R>(orphanType: string, version: string, instanceTableOrder: seq<string>, rowsOf: map<string, seq<R>>): (r: Result<seq<R>>)
    requires instanceTableOrder == ["nova.instances", "nova_cell0.instances"] || instanceTableOrder == ["nova_cell0.instances", "nova.instances"]
    ensures orphanType != "lease" && orphanType != "instance" ==> r.Err? && r.error.RuntimeError?
    ensures (orphanType == "lease" || orphanType == "instance") && ProjectCol(version).Err? ==> r == Err(KeyError(version))
    ensures orphanType == "lease" && ProjectCol(version).Ok? ==> r == Ok(RowsOf("blazar.leases", rowsOf))
    ensures orphanType == "instance" && ProjectCol(version).Ok? ==>
      r == Ok(RowsOf(instanceTableOrder[0], rowsOf) + RowsOf(instanceTableOrder[1], rowsOf))
  {
    if orphanType != "lease" && orphanType != "instance" then Err(RuntimeError("Orphan type is not supported"))
    else
      var tables := if orphanType == "lease" then ["blazar.leases"] else instanceTableOrder;
      match ProjectCol(version)
      case Err(e) => Err(e)
      case Ok(_) => Ok(ConcatRows(tables, rowsOf))
  }

  /** The rows a table's statement returns (none when the table is not listed). */
  function RowsOf<R>(t: string, rowsOf: map<string, seq<R>>): seq<R>
  {
    if t in rowsOf then rowsOf[t] else []
  }

  function ConcatRows<R>(tables: seq<string>, rowsOf: map<string, seq<R>>): (r: seq<R>)
    ensures |tables| == 1 ==> r == RowsOf(tables[0], rowsOf)
    ensures |tables| == 2 ==> r == RowsOf(tables[0], rowsOf) + RowsOf(tables[1], rowsOf)
  {
    if tables == [] then [] else RowsOf(tables[0], rowsOf) + ConcatRows(tables[1..], rowsOf)
  }

  /** How `main` ends: the query ran, -1 for too many arguments, or the TypeError re-raised. */
  datatype MainOutcome = Ran | InvalidArgumentCount | Raised(e: Error)

  /**
   * `main`'s handling of the argument count. Python reports too many positional
   * arguments as "f() takes ..." (the -1 path) but too few as "f() missing ...", which
   * matches neither handled message and is re-raised.
   */
  function MainArity(q: QueryDef, nQargs: nat): (r: MainOutcome)
    ensures r == InvalidArgumentCount <==> nQargs > q.maxArgs
    ensures r.Raised? <==> nQargs < q.minArgs && nQargs <= q.maxArgs
    ensures r == Ran <==> q.minArgs <= nQargs <= q.maxArgs
  {
    if nQargs > q.maxArgs then InvalidArgumentCount
    else if nQargs < q.minArgs then Raised(TypeError(q.name + "() missing required positional argument"))
    else Ran
  }
}

=== FILE: reaper.dfy ===
/**
 * Reclaiming resources of idle projects (hammers/scripts/reaper.py): name
 * normalisation, the future-reservation guard, the idle filter and the two output modes.
 * The clock is the parameter `now`, in seconds.
 */
module Reaper {
  import opened Wrappers
  import opened Strs
  import opened Query

  /** `normalize_project_name`: lower-case, drop every '-', strip surrounding whitespace. */
  function NormalizeProjectName(s: string): (r: string)
    ensures forall c :: c in r ==> !IsUpper(c) && c != '-'
    ensures r == [] || (!IsSpace(r[0]) && !IsSpace(r[|r| - 1]))
  {
    var t := RemoveChar(Lower(s), '-');
    StripChars(t);
    Strip(t)
  }

  lemma LowerNoUpper(s: string)
    requires forall c :: c in s ==> !IsUpper(c)
    ensures Lower(s) == s
  {
    assert forall i :: 0 <= i < |s| ==> Lower(s)[i] == s[i] by {
      forall i | 0 <= i < |s| ensures Lower(s)[i] == s[i] {
        assert s[i] in s;
      }
    }
  }

  /** Normalising a normalised name changes nothing. */
  lemma NormalizeIdempotent(s: string)
    ensures NormalizeProjectName(NormalizeProjectName(s)) == NormalizeProjectName(s)
  {
    var t := NormalizeProjectName(s);
    LowerNoUpper(t);
    RemoveAbsent(t, '-');
    StripStripped(t);
  }

  /** `days_past`: the days elapsed since `dt`, as an exact fraction. */
  function DaysPast(now: int, dt: int): (r: real)
    ensures r > 0.0 <==> now > dt
    ensures r * 86400.0 == (now - dt) as real
  {
    (now - dt) as real / 86400.0
  }

  /** What `query.future_reservations` gives: the project ids, or the `ProgrammingError` it raises. */
  datatype FutureQuery = FutureRows(projectIds: seq<string>) | Failed(message: string)

  const MissingLeasesTable := "Table 'blazar.leases' doesn't exist"

  /**
   * The normalised ids of projects with future reservations; a database without Blazar's
   * lease table yields none, any other database error propagates.
   */
  function FutureProjects(q: FutureQuery): (r: Result<set<string>>)
    ensures q.FutureRows? ==> r.Ok? && forall p :: p in r.value <==> exists id :: id in q.projectIds && NormalizeProjectName(id) == p
    ensures q.Failed? && Contains(q.message, MissingLeasesTable) ==> r == Ok({})
    ensures q.Failed? && !Contains(q.message, MissingLeasesTable) ==> r == Err(ProgrammingError(q.message))
  {
    match q
    case FutureRows(ids) => Ok(set id | id in ids :: NormalizeProjectName(id))
    case Failed(msg) => if Contains(msg, MissingLeasesTable) then Ok({}) else Err(ProgrammingError(msg))
  }

  /** The test of the `too_idle_projects` comprehension for a row with a deletion time. */
  predicate Selected(p: IdleRow, now: int, idleDays: real, future: set<string>, whitelist: set<string>)
    requires p.latestDeletion.Some?
  {
    DaysPast(now, p.latestDeletion.value) > idleDays &&
    NormalizeProjectName(p.id) !in future &&
    NormalizeProjectName(p.id) !in whitelist &&
    NormalizeProjectName(p.name) !in whitelist
  }

  /**
   * `too_idle_projects`: the selected rows in order. `days_past` is evaluated first for
   * every row, so a row without a deletion time raises `TypeError`.
   */
  function TooIdle(rows: seq<IdleRow>, now: int, idleDays: real, future: set<string>, whitelist: set<string>): (r: Result<seq<IdleRow>>)
    ensures r.Err? <==> exists p :: p in rows && p.latestDeletion.None?
    ensures r.Err? ==> r.error.TypeError?
    ensures r.Ok? ==> forall p :: p in r.value <==> p in rows && Selected(p, now, idleDays, future, whitelist)
  {
    if rows == [] then Ok([])
    else if rows[0].latestDeletion.None? then Err(TypeError("unsupported operand type(s) for -: 'datetime.datetime' and 'NoneType'"))
    else match TooIdle(rows[1..], now, idleDays, future, whitelist)
      case Err(e) => Err(e)
      case Ok(rest) =>
        assert forall p :: p in rows <==> p == rows[0] || p in rows[1..];
        Ok((if Selected(rows[0], now, idleDays, future, whitelist) then [rows[0]] else []) + rest)
  }

  /** Whitelist file lines, normalised (which also removes their newline). */
  function Whitelist(lines: seq<string>): (r: set<string>)
    ensures forall w :: w in r <==> exists l :: l in lines && NormalizeProjectName(l) == w
  {
    set l | l in lines :: NormalizeProjectName(l)
  }

  /** A row of the per-project resource query; `info` is the row without `id` and `project_id`. */
  datatype Resource = Resource(id: string, projectId: string, info: map<string, string>)

  datatype ResourceType = Ip | Port

  function DeleteCommand(t: ResourceType): string
  {
    match t
    case Ip => "floatingip-delete"
    case Port => "port-delete"
  }

  function ResourcesOf(resources: map<string, seq<Resource>>, p: string): seq<Resource>
  {
    if p in resources then resources[p] else []
  }

  /** The lines printed outside describe mode: one delete command per resource of each idle project. */
  function Commands(t: ResourceType, ids: seq<string>, resources: map<string, seq<Resource>>): (r: seq<string>)
    ensures ids == [] ==> r == []
  {
    if ids == [] then []
    else
      Commands(t, ids[..|ids| - 1], resources) +
      seq(|ResourcesOf(resources, ids[|ids| - 1])|, i requires 0 <= i < |ResourcesOf(resources, ids[|ids| - 1])| =>
        DeleteCommand(t) + " " + ResourcesOf(resources, ids[|ids| - 1])[i].id)
  }

  lemma {:induction false} CommandsCount(t: ResourceType, ids: seq<string>, resources: map<string, seq<Resource>>)
    ensures |Commands(t, ids, resources)| == TotalResources(ids, resources)
  {
    if ids != [] {
      CommandsCount(t, ids[..|ids| - 1], resources);
    }
  }

  function TotalResources(ids: seq<string>, resources: map<string, seq<Resource>>): nat
  {
    if ids == [] then 0 else TotalResources(ids[..|ids| - 1], resources) + |ResourcesOf(resources, ids[|ids| - 1])|
  }

  type Groups = map<string, map<string, map<string, string>>>

  /** A project's resources filed by id over `base`, the last of an id winning. */
  function Filed(base: map<string, map<string, string>>, rs: seq<Resource>): (r: map<string, map<string, string>>)
  {
    if rs == [] then base else Filed(base, rs[..|rs| - 1])[rs[|rs| - 1].id := rs[|rs| - 1].info]
  }

  lemma {:induction false} FiledKeys(base: map<string, map<string, string>>, rs: seq<Resource>)
    ensures Filed(base, rs).Keys == base.Keys + set r | r in rs :: r.id
  {
    if rs != [] {
      var init := rs[..|rs| - 1];
      FiledKeys(base, init);
      assert rs == init + [rs[|rs| - 1]];
      assert (set r | r in rs :: r.id) == (set r | r in init :: r.id) + {rs[|rs| - 1].id};
    }
  }

  /**
   * Filing one project's resources under it; a resource of another project fails the
   * `assert` (the partly filled dictionary is then lost with the exception).
   */
  function GroupProject(acc: Groups, p: string, rs: seq<Resource>): (r: Result<Groups>)
    ensures r.Ok? <==> forall x :: x in rs ==> x.projectId == p
  {
    if exists x :: x in rs && x.projectId != p then Err(AssertionError)
    else if rs == [] then Ok(acc)
    else Ok(acc[p := Filed(if p in acc then acc[p] else map[], rs)])
  }

  /**
   * The inner loop of describe mode: each resource of the project is filed under it by
   * id; the `assert` stops at the first resource of another project.
   */
  method FileProject(projects0: Groups, projId: string, rs: seq<Resource>) returns (r: Result<Groups>)
    ensures r == GroupProject(projects0, projId, rs)
  {
    var projects := projects0;
    ghost var base := if projId in projects0 then projects0[projId] else map[];
    for j := 0 to |rs|
      invariant forall x :: x in rs[..j] ==> x.projectId == projId
      invariant projects == if j == 0 then projects0 else projects0[projId := Filed(base, rs[..j])]
    {
      var resource := rs[j];
      assert rs[..j + 1][..j] == rs[..j];
      if resource.projectId != projId {
        assert resource in rs;
        return Err(AssertionError);
      }
      var filed := if projId in projects then projects[projId] else map[];
      projects := projects[projId := filed[resource.id := resource.info]];
    }
    assert rs[..|rs|] == rs;
    return Ok(projects);
  }

  /** The `projects` dictionary of describe mode. */
  function Describe(ids: seq<string>, resources: map<string, seq<Resource>>): (r: Result<Groups>)
    ensures r.Err? ==> r.error == AssertionError
  {
    if ids == [] then Ok(map[])
    else match Describe(ids[..|ids| - 1], resources)
      case Err(e) => Err(e)
      case Ok(g) => GroupProject(g, ids[|ids| - 1], ResourcesOf(resources, ids[|ids| - 1]))
  }

  predicate Consistent(ids: seq<string>, resources: map<string, seq<Resource>>)
  {
    forall p, r :: p in ids && r in ResourcesOf(resources, p) ==> r.projectId == p
  }

  /**
   * Describe mode succeeds iff every resource belongs to the project it was queried for;
   * then exactly the projects with resources appear, each holding its resources by id.
   */
  lemma {:induction false} DescribeOk(ids: seq<string>, resources: map<string, seq<Resource>>)
    ensures Describe(ids, resources).Ok? <==> Consistent(ids, resources)
  {
    if ids != [] {
      var init := ids[..|ids| - 1];
      var p := ids[|ids| - 1];
      DescribeOk(init, resources);
      assert forall q :: q in ids <==> q in init || q == p;
    }
  }

  lemma {:induction false} DescribeMeaning(ids: seq<string>, resources: map<string, seq<Resource>>)
    ensures Describe(ids, resources).Ok? <==> Consistent(ids, resources)
    ensures Describe(ids, resources).Ok? ==>
      Describe(ids, resources).value.Keys == set p | p in ids && ResourcesOf(resources, p) != []
    ensures Describe(ids, resources).Ok? ==> forall p :: p in Describe(ids, resources).value ==>
      Describe(ids, resources).value[p].Keys == set r | r in ResourcesOf(resources, p) :: r.id
  {
    DescribeOk(ids, resources);
    if ids != [] {
      var init := ids[..|ids| - 1];
      var p := ids[|ids| - 1];
      DescribeMeaning(init, resources);
      match Describe(init, resources)
      case Err(_) =>
      case Ok(g) =>
        var rs := ResourcesOf(resources, p);
        if GroupProject(g, p, rs).Ok? {
          var g' := GroupProject(g, p, rs).value;
          assert forall q :: q in ids <==> q in init || q == p;
          if rs != [] {
            FiledKeys(if p in g then g[p] else map[], rs);
            if p in g {
              assert g[p].Keys == set r | r in rs :: r.id;
            }
            assert g'.Keys == g.Keys + {p};
          }
        }
    }
  }


  /** The describe-mode loops of `reaper`. */
  method DescribeProjects(ids: seq<string>, resources: map<string, seq<Resource>>) returns (r: Result<Groups>)
    ensures r == Describe(ids, resources)
  {
    var projects: Groups := map[];
    for i := 0 to |ids|
      invariant Describe(ids[..i], resources) == Ok(projects)
    {
      var projId := ids[i];
      assert ids[..i + 1][..i] == ids[..i];
      var rs := ResourcesOf(resources, projId);
      var filed := FileProject(projects, projId, rs);
      if filed.Err? {
        DescribeErrExtends(ids, resources, i + 1);
        return Err(AssertionError);
      }
      projects := filed.value;
    }
    assert ids[..|ids|] == ids;
    return Ok(projects);
  }

  lemma {:induction false} DescribeErrExtends(ids: seq<string>, resources: map<string, seq<Resource>>, k: nat)
    requires k <= |ids| && Describe(ids[..k], resources).Err?
    ensures Describe(ids, resources) == Err(AssertionError)
    decreases |ids| - k
  {
    if k < |ids| {
      assert ids[..k + 1][..k] == ids[..k];
      DescribeErrExtends(ids, resources, k + 1);
    } else {
      assert ids[..k] == ids;
    }
  }

  /** What `reaper` prints: delete commands, or the grouped description. */
  datatype Output = Printed(lines: seq<string>) | Described(projects: Groups)

  /**
   * `reaper(db, type_, idle_days, whitelist, describe)`, with the database's answers given:
   * the future-reservation query, the idle-project rows and each project's resources.
   */
  function ReaperRun(t: ResourceType, idleDays: real, whitelist: set<string>, describe: bool, now: int,
                     future: FutureQuery, idleProjects: seq<IdleRow>, resources: map<string, seq<Resource>>): (r: Result<Output>)
    ensures r.Ok? && !describe ==> r.value.Printed?
    ensures r.Ok? && describe ==> r.value.Described?
    ensures future.Failed? && !Contains(future.message, MissingLeasesTable) ==> r == Err(ProgrammingError(future.message))
  {
    var future :- FutureProjects(future);
    var tooIdle :- TooIdle(idleProjects, now, idleDays, future, whitelist);
    var ids := seq(|tooIdle|, i requires 0 <= i < |tooIdle| => tooIdle[i].id);
    if !describe then Ok(Printed(Commands(t, ids, resources)))
    else
      var g :- Describe(ids, resources);
      Ok(Described(g))
  }
}

=== FILE: stack.dfy ===
/**
 * A Heat stack driven through the `openstack` command line (ccmanage/stack.py). The
 * commands' exit codes and the stack id printed by `stack show` are parameters; the
 * model records which commands run.
 */
module Stack {
  import opened Wrappers
  import Strs

  /** Python truthiness of an optional string: present and non-empty. */
  predicate Truthy(s: Option<string>) { s.Some? && s.value != "" }

  function Count(b: bool): nat { if b then 1 else 0 }

  /** `' '.join('--parameter {}={}'.format(k, v) for k, v in parameters.items())`. */
  function ParamString(parameters: seq<(string, string)>): string
  {
    Strs.Join(seq(|parameters|, i requires 0 <= i < |parameters| => "--parameter " + parameters[i].0 + "=" + parameters[i].1), " ")
  }

  /** Each further parameter adds one space-separated `--parameter key=value`; none gives the empty string. */
  lemma ParamStringAppend(ps: seq<(string, string)>, k: string, v: string)
    ensures ParamString([]) == ""
    ensures ParamString([(k, v)]) == "--parameter " + k + "=" + v
    ensures ps != [] ==> ParamString(ps + [(k, v)]) == ParamString(ps) + " --parameter " + k + "=" + v
  {
    var parts := seq(|ps|, i requires 0 <= i < |ps| => "--parameter " + ps[i].0 + "=" + ps[i].1);
    var ps2 := ps + [(k, v)];
    var parts2 := seq(|ps2|, i requires 0 <= i < |ps2| => "--parameter " + ps2[i].0 + "=" + ps2[i].1);
    assert parts2 == parts + ["--parameter " + k + "=" + v];
    if ps != [] {
      Strs.JoinAppend(parts, "--parameter " + k + "=" + v, " ");
      assert ParamString(ps) + " " + ("--parameter " + k + "=" + v) == ParamString(ps) + " --parameter " + k + "=" + v;
    }
  }

  /** `_popen`'s check: with `check` set, a non-zero exit code raises a RuntimeError. */
  function PopenCheck(check: bool, returnCode: int): (r: Result<int>)
    ensures r.Err? <==> check && returnCode != 0
    ensures r.Ok? ==> r.value == returnCode
  {
    if check && returnCode != 0 then Err(RuntimeError("command returned code")) else Ok(returnCode)
  }

  /** The exit codes of the commands a run would execute, and the id `stack show` prints. */
  datatype Shell = Shell(createCode: int, showCode: int, deleteCode: int, shownId: string)

  function CreateCommand(path: string, params: string, name: string): string
  {
    "openstack stack create --template " + path + " " + params + " --wait --format json " + name
  }

  function ShowCommand(name: string): string { "openstack stack show --format json " + name }
  function DeleteCommand(id: string): string { "openstack stack delete --yes --wait " + id }

  class HeatStack {
    const stackName: string
    var stackId: Option<string>
    const path: Option<string>
    const template: Option<string>
    const parameters: seq<(string, string)>
    const verbose: bool
    const exitDelay: int

    constructor (stackName: string, path: Option<string>, template: Option<string>, parameters: seq<(string, string)>, verbose: bool, exitDelay: int)
      ensures this.stackName == stackName && this.path == path && this.template == template
      ensures this.parameters == parameters && stackId.None?
      ensures this.verbose == verbose && this.exitDelay == exitDelay
    {
      this.stackName := stackName;
      this.path := path;
      this.template := template;
      this.parameters := parameters;
      this.verbose := verbose;
      this.exitDelay := exitDelay;
      stackId := None;
    }

    /**
     * `Stack(...)`: a ValueError without a (non-empty) name, or unless exactly one of url,
     * path and template is given; the url or path becomes the template location, otherwise
     * the template text is kept and there is no location. Parameters default to none.
     */
    static method New(stackName: Option<string>, url: Option<string>, path: Option<string>, template: Option<string>,
                      parameters: Option<seq<(string, string)>>, verbose: bool, exitDelay: int) returns (r: Result<HeatStack>)
      ensures !Truthy(stackName) ==> r.Err? && r.error.ValueError?
      ensures Truthy(stackName) && Count(Truthy(url)) + Count(Truthy(path)) + Count(Truthy(template)) != 1 ==>
        r.Err? && r.error.ValueError?
      ensures r.Ok? <==> Truthy(stackName) && Count(Truthy(url)) + Count(Truthy(path)) + Count(Truthy(template)) == 1
      ensures r.Ok? ==> fresh(r.value) && r.value.stackId.None? && r.value.stackName == stackName.value
      ensures r.Ok? && Truthy(url) ==> r.value.path == url && r.value.template.None?
      ensures r.Ok? && Truthy(path) ==> r.value.path == path && r.value.template.None?
      ensures r.Ok? && Truthy(template) ==> r.value.path.None? && r.value.template == template
      ensures r.Ok? ==> r.value.parameters == if parameters.Some? then parameters.value else []
    {
      if !Truthy(stackName) {
        return Err(ValueError("Stack name is required!"));
      }
      if Count(Truthy(url)) + Count(Truthy(path)) + Count(Truthy(template)) != 1 {
        return Err(ValueError("only provide one of url, path, or template."));
      }
      var loc: Option<string>;
      var tmpl: Option<string>;
      if Truthy(url) || Truthy(path) {
        loc := if Truthy(url) then url else path;
        tmpl := None;
      } else {
        loc := None;
        tmpl := template;
      }
      var s := new HeatStack(stackName.value, loc, tmpl, if parameters.Some? then parameters.value else [], verbose, exitDelay);
      return Ok(s);
    }

    /**
     * `create`. A template given as text fails with a NameError (the temporary-file module
     * is not imported). Otherwise `stack create` runs; when it fails, `stack show` checks
     * whether the stack exists, a found stack is deleted, and a RuntimeError is raised.
     * On success `stack show` must succeed and its id becomes the stack's id.
     */
    method Create(sh: Shell) returns (r: Result<()>, cmds: seq<string>)
      modifies this`stackId
      ensures path.None? ==> r == Err(NameError("tempfile")) && cmds == [] && stackId == old(stackId)
      ensures path.Some? ==> cmds != [] && cmds[0] == CreateCommand(path.value, ParamString(parameters), stackName)
      ensures path.Some? && sh.createCode != 0 ==>
        r.Err? && r.error.RuntimeError? && stackId == old(stackId) &&
        cmds == [CreateCommand(path.value, ParamString(parameters), stackName), ShowCommand(stackName)] +
                (if sh.showCode == 0 then [DeleteCommand(stackName)] else [])
      ensures path.Some? && sh.createCode == 0 ==>
        cmds == [CreateCommand(path.value, ParamString(parameters), stackName), ShowCommand(stackName)] &&
        (r.Ok? <==> sh.showCode == 0) &&
        (r.Ok? ==> stackId == Some(sh.shownId)) && (r.Err? ==> stackId == old(stackId))
    {
      var params := ParamString(parameters);
      if path.None? {
        return Err(NameError("tempfile")), [];
      }
      var cmd := CreateCommand(path.value, params, stackName);
      cmds := [cmd];
      var created := PopenCheck(true, sh.createCode);
      if created.Err? {
        cmds := cmds + [ShowCommand(stackName)];
        var shown := PopenCheck(false, sh.showCode);
        if shown.value == 0 {
          cmds := cmds + [DeleteCommand(stackName)];
          var deleted := PopenCheck(true, sh.deleteCode);
          if deleted.Err? {
            return Err(deleted.error), cmds;
          }
        }
        return Err(created.error), cmds;
      }
      cmds := cmds + [ShowCommand(stackName)];
      var shown := PopenCheck(true, sh.showCode);
      if shown.Err? {
        return Err(shown.error), cmds;
      }
      stackId := Some(sh.shownId);
      return Ok(()), cmds;
    }

    /**
     * `delete`: a stack with an id is deleted by id, and forgets its id once the command
     * succeeds; a failing command raises and keeps the id; without an id nothing runs.
     */
    method Delete(sh: Shell) returns (r: Result<()>, cmds: seq<string>)
      modifies this`stackId
      ensures !Truthy(old(stackId)) ==> r.Ok? && cmds == [] && stackId == old(stackId)
      ensures Truthy(old(stackId)) ==> cmds == [DeleteCommand(old(stackId).value)]
      ensures Truthy(old(stackId)) && sh.deleteCode != 0 ==> r.Err? && r.error.RuntimeError? && stackId == old(stackId)
      ensures Truthy(old(stackId)) && sh.deleteCode == 0 ==> r.Ok? && stackId.None?
    {
      if !Truthy(stackId) {
        return Ok(()), [];
      }
      cmds := [DeleteCommand(stackId.value)];
      var deleted := PopenCheck(true, sh.deleteCode);
      if deleted.Err? {
        return Err(deleted.error), cmds;
      }
      stackId := None;
      return Ok(()), cmds;
    }
  }
}

=== FILE: strs.dfy ===
/** The few Python string operations the scripts rely on, over `seq<char>` (ASCII case mapping). */
module Strs {
  predicate IsUpper(c: char) { 'A' <= c <= 'Z' }

  function LowerChar(c: char): (r: char)
    ensures !IsUpper(r)
    ensures !IsUpper(c) ==> r == c
  {
    if IsUpper(c) then (c as int + 32) as char else c
  }

  /** `str.lower()` restricted to ASCII letters. */
  function Lower(s: string): (r: string)
    ensures |r| == |s|
    ensures forall i :: 0 <= i < |s| ==> r[i] == LowerChar(s[i])
  {
    if s == [] then [] else [LowerChar(s[0])] + Lower(s[1..])
  }

  lemma LowerIdempotent(s: string)
    ensures Lower(Lower(s)) == Lower(s)
  {
  }

  /** `sub in s` for Python strings. */
  predicate Contains(s: string, sub: string)
    decreases |s|
  {
    sub <= s || (s != [] && Contains(s[1..], sub))
  }

  /** `sep.join(parts)`. */
  function Join(parts: seq<string>, sep: string): (r: string)
    ensures parts == [] ==> r == []
    ensures |parts| == 1 ==> r == parts[0]
  {
    if parts == [] then []
    else if |parts| == 1 then parts[0]
    else parts[0] + sep + Join(parts[1..], sep)
  }

  lemma {:induction false} JoinAppend(parts: seq<string>, p: string, sep: string)
    requires parts != []
    ensures Join(parts + [p], sep) == Join(parts, sep) + sep + p
    decreases |parts|
  {
    if |parts| == 1 {
      assert parts + [p] == [parts[0], p];
    } else {
      assert (parts + [p])[1..] == parts[1..] + [p];
      JoinAppend(parts[1..], p, sep);
    }
  }

  /** `s.split(c)` for a one-character separator: the pieces between separators, at least one. */
  function Split(s: string, c: char): (r: seq<string>)
    ensures |r| >= 1
    decreases |s|
  {
    if s == [] then [""]
    else
      var rest := Split(s[1..], c);
      if s[0] == c then [""] + rest else [[s[0]] + rest[0]] + rest[1..]
  }

  /** Text without the separator only lengthens the first piece. */
  lemma {:induction false} SplitPrefix(a: string, t: string, c: char)
    requires c !in a
    ensures Split(a + t, c) == [a + Split(t, c)[0]] + Split(t, c)[1..]
    decreases |a|
  {
    if a == [] {
      var r := Split(t, c);
      assert a + t == t && a + r[0] == r[0] && [r[0]] + r[1..] == r;
    } else {
      assert (a + t)[0] == a[0] && (a + t)[1..] == a[1..] + t;
      SplitPrefix(a[1..], t, c);
      assert [a[0]] + (a[1..] + Split(t, c)[0]) == a + Split(t, c)[0];
    }
  }

  /** Splitting undoes joining, as long as no piece holds the separator. */
  lemma {:induction false} SplitJoin(parts: seq<string>, c: char)
    requires parts != []
    requires forall i :: 0 <= i < |parts| ==> c !in parts[i]
    ensures Split(Join(parts, [c]), c) == parts
    decreases |parts|
  {
    SplitPrefix(parts[0], "", c);
    assert parts[0] + "" == parts[0];
    if |parts| > 1 {
      var rest := Join(parts[1..], [c]);
      SplitJoin(parts[1..], c);
      SplitPrefix(parts[0], [c] + rest, c);
      assert ([c] + rest)[1..] == rest;
      assert parts[0] + [c] + rest == parts[0] + ([c] + rest);
      assert parts == [parts[0]] + parts[1..];
    }
  }

  /** Decimal digit of a number in 0..9. */
  function DigitChar(d: int): char
    requires 0 <= d < 10
  {
    "0123456789"[d]
  }

  /** `str(n)` of a Python int. */
  function IntToString(n: int): (r: string)
    ensures r != []
    decreases if n < 0 then 1 - n else n
  {
    if n < 0 then "-" + IntToString(-n)
    else if n < 10 then [DigitChar(n)]
    else IntToString(n / 10) + [DigitChar(n % 10)]
  }

  lemma {:induction false} NatToStringDigits(n: nat)
    ensures forall i :: 0 <= i < |IntToString(n)| ==> '0' <= IntToString(n)[i] <= '9'
  {
    if n >= 10 {
      NatToStringDigits(n / 10);
    }
  }

  /** The whitespace characters `str.strip()` removes: those `str.isspace` accepts. */
  predicate IsSpace(c: char)
  {
    c == ' ' || c == '\t' || c == '\n' || c == '\r' || c == '\U{000b}' || c == '\U{000c}' ||
    ('\U{001c}' <= c <= '\U{001f}') || c == '\U{0085}' || c == '\U{00a0}' || c == '\U{1680}' ||
    ('\U{2000}' <= c <= '\U{200a}') || c == '\U{2028}' || c == '\U{2029}' || c == '\U{202f}' ||
    c == '\U{205f}' || c == '\U{3000}'
  }

  function StripLeft(s: string): (r: string)
    ensures r <= s || (|r| <= |s| && r == s[|s| - |r|..])
    ensures r == [] || !IsSpace(r[0])
    decreases |s|
  {
    if s != [] && IsSpace(s[0]) then StripLeft(s[1..]) else s
  }

  function StripRight(s: string): (r: string)
    ensures r <= s
    ensures r == [] || !IsSpace(r[|r| - 1])
  {
    if s != [] && IsSpace(s[|s| - 1]) then StripRight(s[..|s| - 1]) else s
  }

  /** `str.strip()`: drop leading and trailing whitespace. */
  function Strip(s: string): string { StripRight(StripLeft(s)) }

  /** `s.replace(c, d)` for single characters. */
  function ReplaceChar(s: string, c: char, d: char): (r: string)
    ensures |r| == |s|
    ensures forall i :: 0 <= i < |s| ==> r[i] == (if s[i] == c then d else s[i])
  {
    if s == [] then [] else [if s[0] == c then d else s[0]] + ReplaceChar(s[1..], c, d)
  }

  /** `s.replace(c, '')` for a single character. */
  function RemoveChar(s: string, c: char): (r: string)
    ensures c !in r
    ensures |r| <= |s|
    ensures forall x :: x in r ==> x in s
  {
    if s == [] then [] else (if s[0] == c then [] else [s[0]]) + RemoveChar(s[1..], c)
  }

  lemma {:induction false} RemoveAbsent(s: string, c: char)
    requires c !in s
    ensures RemoveChar(s, c) == s
  {
    if s != [] {
      RemoveAbsent(s[1..], c);
    }
  }

  /** Every character `Strip` keeps comes from its input. */
  lemma StripChars(s: string)
    ensures forall x :: x in Strip(s) ==> x in s
  {
    var l := StripLeft(s);
    assert forall x :: x in StripRight(l) ==> x in l;
    assert forall x :: x in l ==> x in s;
  }

  /** A string without surrounding whitespace is its own strip. */
  lemma StripStripped(s: string)
    requires s == [] || (!IsSpace(s[0]) && !IsSpace(s[|s| - 1]))
    ensures Strip(s) == s
  {
  }
}

=== FILE: times.dfy ===
/**
 * Calendar times as the scripts read them with `datetime.strptime` and compare them:
 * a proleptic-Gregorian date and time of day, its count of seconds since
 * 1970-01-01 00:00:00 UTC, and the fixed-width text layouts `%Y-%m-%d %H:%M:%S` and
 * `%Y-%m-%dT%H:%M:%S`.
 */
module Times {
  import opened Wrappers
  import opened Strs

  datatype DateTime = DateTime(year: int, month: int, day: int, hour: int, minute: int, second: int)

  predicate IsLeap(y: int)
  {
    y % 4 == 0 && (y % 100 != 0 || y % 400 == 0)
  }

  function DaysInMonth(y: int, m: int): int
    requires 1 <= m <= 12
  {
    if m == 2 then (if IsLeap(y) then 29 else 28)
    else if m == 4 || m == 6 || m == 9 || m == 11 then 30
    else 31
  }

  function DaysInYear(y: int): int
  {
    if IsLeap(y) then 366 else 365
  }

  /** The values `datetime` accepts (years 1 to 9999). */
  predicate Valid(t: DateTime)
  {
    1 <= t.year <= 9999 && 1 <= t.month <= 12 && 1 <= t.day <= DaysInMonth(t.year, t.month) &&
    0 <= t.hour < 24 && 0 <= t.minute < 60 && 0 <= t.second < 60
  }

  /** Days in the months of year `y` before month `m`. */
  function DaysBeforeMonth(y: int, m: int): nat
    requires 1 <= m <= 13
  {
    if m == 1 then 0 else DaysBeforeMonth(y, m - 1) + DaysInMonth(y, m - 1)
  }

  /** Days in the years 1 .. y-1. */
  function DaysBeforeYear(y: int): nat
    requires y >= 1
  {
    if y == 1 then 0 else DaysBeforeYear(y - 1) + DaysInYear(y - 1)
  }

  /** `date.toordinal()`: 1 for 0001-01-01. */
  function Ordinal(t: DateTime): int
    requires Valid(t)
  {
    DaysBeforeYear(t.year) + DaysBeforeMonth(t.year, t.month) + t.day
  }

  /** The ordinal of 1970-01-01. */
  const EpochOrdinal := 719163

  /** Seconds since 1970-01-01 00:00:00 (negative before it). */
  function EpochSeconds(t: DateTime): int
    requires Valid(t)
  {
    (Ordinal(t) - EpochOrdinal) * 86400 + t.hour * 3600 + t.minute * 60 + t.second
  }

  /** The closed form of `DaysBeforeYear`, the one `datetime` uses. */
  lemma {:induction false} DaysBeforeYearClosed(y: int)
    requires y >= 1
    ensures DaysBeforeYear(y) == 365 * (y - 1) + (y - 1) / 4 - (y - 1) / 100 + (y - 1) / 400
  {
    if y > 1 {
      DaysBeforeYearClosed(y - 1);
      var x := y - 1;
      DivStep(x);
      DivisorsOfLeap(x);
    }
  }

  lemma DivStep(x: int)
    requires x >= 1
    ensures x / 4 - (x - 1) / 4 == if x % 4 == 0 then 1 else 0
    ensures x / 100 - (x - 1) / 100 == if x % 100 == 0 then 1 else 0
    ensures x / 400 - (x - 1) / 400 == if x % 400 == 0 then 1 else 0
  {
  }

  lemma DivisorsOfLeap(x: int)
    ensures x % 400 == 0 ==> x % 100 == 0
    ensures x % 100 == 0 ==> x % 4 == 0
  {
    if x % 400 == 0 {
      assert x == 400 * (x / 400);
      assert x == 100 * (4 * (x / 400));
    }
    if x % 100 == 0 {
      assert x == 100 * (x / 100);
      assert x == 4 * (25 * (x / 100));
    }
  }

  /** `EpochOrdinal` is the ordinal of 1970-01-01. */
  lemma EpochOrdinalIsJanFirst1970()
    ensures Ordinal(DateTime(1970, 1, 1, 0, 0, 0)) == EpochOrdinal
  {
    DaysBeforeYearClosed(1970);
  }

  /** Field-by-field (lexicographic) order, the order of the text layouts. */
  predicate Before(a: DateTime, b: DateTime)
  {
    a.year < b.year ||
    (a.year == b.year && (a.month < b.month ||
    (a.month == b.month && (a.day < b.day ||
    (a.day == b.day && (a.hour < b.hour ||
    (a.hour == b.hour && (a.minute < b.minute ||
    (a.minute == b.minute && a.second < b.second)))))))))
  }

  lemma {:induction false} MonthsFit(y: int, m1: int, m2: int)
    requires 1 <= m1 < m2 <= 13
    ensures DaysBeforeMonth(y, m1) + DaysInMonth(y, m1) <= DaysBeforeMonth(y, m2)
    decreases m2 - m1
  {
    if m1 + 1 < m2 {
      MonthsFit(y, m1 + 1, m2);
    }
  }

  lemma YearFits(y: int)
    ensures DaysBeforeMonth(y, 13) == DaysInYear(y)
  {
    assert DaysBeforeMonth(y, 2) == 31;
    assert DaysBeforeMonth(y, 3) == 31 + DaysInMonth(y, 2);
    assert DaysBeforeMonth(y, 5) == DaysBeforeMonth(y, 3) + 61;
    assert DaysBeforeMonth(y, 7) == DaysBeforeMonth(y, 5) + 61;
    assert DaysBeforeMonth(y, 9) == DaysBeforeMonth(y, 7) + 62;
    assert DaysBeforeMonth(y, 11) == DaysBeforeMonth(y, 9) + 61;
    assert DaysBeforeMonth(y, 13) == DaysBeforeMonth(y, 11) + 61;
  }

  lemma {:induction false} YearsFit(y1: int, y2: int)
    requires 1 <= y1 < y2
    ensures DaysBeforeYear(y1) + DaysInYear(y1) <= DaysBeforeYear(y2)
    decreases y2 - y1
  {
    if y1 + 1 < y2 {
      YearsFit(y1 + 1, y2);
    }
  }

  lemma OrdinalBelowNextYear(t: DateTime)
    requires Valid(t)
    ensures Ordinal(t) <= DaysBeforeYear(t.year) + DaysInYear(t.year)
  {
    if t.month < 12 {
      MonthsFit(t.year, t.month, 13);
    }
    YearFits(t.year);
  }

  /** Later dates have larger ordinals: counting days preserves calendar order. */
  lemma OrdinalMonotone(a: DateTime, b: DateTime)
    requires Valid(a) && Valid(b)
    requires a.year < b.year || (a.year == b.year && (a.month < b.month || (a.month == b.month && a.day < b.day)))
    ensures Ordinal(a) < Ordinal(b)
  {
    if a.year < b.year {
      OrdinalBelowNextYear(a);
      YearsFit(a.year, b.year);
    } else if a.month < b.month {
      MonthsFit(a.year, a.month, b.month);
    }
  }

  /** Comparing epoch seconds is comparing the calendar fields. */
  lemma EpochMonotone(a: DateTime, b: DateTime)
    requires Valid(a) && Valid(b) && Before(a, b)
    ensures EpochSeconds(a) < EpochSeconds(b)
  {
    if a.year < b.year || (a.year == b.year && (a.month < b.month || (a.month == b.month && a.day < b.day))) {
      OrdinalMonotone(a, b);
    }
  }

  predicate IsDigit(c: char) { '0' <= c <= '9' }

  /** The value of a string of decimal digits. */
  function DigitsValue(s: string): (r: nat)
    requires forall c :: c in s ==> IsDigit(c)
  {
    if s == [] then 0
    else
      var c := s[|s| - 1];
      assert c in s;
      assert IsDigit(c);
      assert '0' as int <= c as int;
      DigitsValue(s[..|s| - 1]) * 10 + (c as int - '0' as int)
  }

  /** `n` in exactly `width` decimal digits, zero-padded. */
  function Padded(n: nat, width: nat): (r: string)
    ensures |r| == width
    ensures forall c :: c in r ==> IsDigit(c)
  {
    if width == 0 then [] else Padded(n / 10, width - 1) + [DigitChar(n % 10)]
  }

  function Pow10(k: nat): nat
  {
    if k == 0 then 1 else 10 * Pow10(k - 1)
  }

  lemma {:induction false} PaddedValue(n: nat, width: nat)
    requires n < Pow10(width)
    ensures DigitsValue(Padded(n, width)) == n
  {
    if width > 0 {
      PaddedValue(n / 10, width - 1);
      var p := Padded(n, width);
      assert p[..|p| - 1] == Padded(n / 10, width - 1);
    }
  }

  /** The two layouts differ only in the character between date and time. */
  function Format(t: DateTime, sep: char): (r: string)
    requires Valid(t)
    ensures |r| == 19
  {
    Padded(t.year, 4) + "-" + Padded(t.month, 2) + "-" + Padded(t.day, 2) + [sep] +
    Padded(t.hour, 2) + ":" + Padded(t.minute, 2) + ":" + Padded(t.second, 2)
  }

  predicate DigitsAt(s: string, i: nat, j: nat)
  {
    i <= j <= |s| && forall k :: i <= k < j ==> IsDigit(s[k])
  }

  function Field(s: string, i: nat, j: nat): nat
    requires DigitsAt(s, i, j)
  {
    DigitsValue(s[i..j])
  }

  /**
   * `datetime.strptime(s, '%Y-%m-%d' + sep + '%H:%M:%S')` for zero-padded fields:
   * `ValueError` when the text does not have the layout or names no valid time.
   */
  function Parse(s: string, sep: char): (r: Result<DateTime>)
    ensures r.Ok? ==> Valid(r.value)
    ensures r.Err? ==> r.error.ValueError?
  {
    if |s| == 19 && DigitsAt(s, 0, 4) && s[4] == '-' && DigitsAt(s, 5, 7) && s[7] == '-' && DigitsAt(s, 8, 10) &&
       s[10] == sep && DigitsAt(s, 11, 13) && s[13] == ':' && DigitsAt(s, 14, 16) && s[16] == ':' && DigitsAt(s, 17, 19)
    then
      var t := DateTime(Field(s, 0, 4), Field(s, 5, 7), Field(s, 8, 10), Field(s, 11, 13), Field(s, 14, 16), Field(s, 17, 19));
      if Valid(t) then Ok(t) else Err(ValueError("time data does not match format"))
    else Err(ValueError("time data does not match format"))
  }

  /** Where each field and separator of the formatted text sits. */
  lemma FormatLayout(t: DateTime, sep: char)
    requires Valid(t)
    ensures var s := Format(t, sep);
      s[0..4] == Padded(t.year, 4) && s[5..7] == Padded(t.month, 2) && s[8..10] == Padded(t.day, 2) &&
      s[11..13] == Padded(t.hour, 2) && s[14..16] == Padded(t.minute, 2) && s[17..19] == Padded(t.second, 2) &&
      s[4] == '-' && s[7] == '-' && s[10] == sep && s[13] == ':' && s[16] == ':'
  {
  }

  /** A field holding the padded digits of `n` reads back as `n`. */
  lemma FieldPadded(s: string, i: nat, n: nat, width: nat)
    requires i + width <= |s| && s[i..i + width] == Padded(n, width) && n < Pow10(width)
    ensures DigitsAt(s, i, i + width) && Field(s, i, i + width) == n
  {
    PaddedValue(n, width);
    forall k | i <= k < i + width ensures IsDigit(s[k]) {
      assert s[k] == s[i..i + width][k - i];
      assert s[k] in Padded(n, width);
    }
  }

  /** Any text with the layout, holding the padded fields of a valid time, parses as that time. */
  lemma ParseLaidOut(s: string, sep: char, t: DateTime)
    requires Valid(t) && |s| == 19
    requires s[0..4] == Padded(t.year, 4) && s[5..7] == Padded(t.month, 2) && s[8..10] == Padded(t.day, 2)
    requires s[11..13] == Padded(t.hour, 2) && s[14..16] == Padded(t.minute, 2) && s[17..19] == Padded(t.second, 2)
    requires s[4] == '-' && s[7] == '-' && s[10] == sep && s[13] == ':' && s[16] == ':'
    ensures Parse(s, sep) == Ok(t)
  {
    assert Pow10(2) == 100 && Pow10(4) == 10000;
    FieldPadded(s, 0, t.year, 4);
    FieldPadded(s, 5, t.month, 2);
    FieldPadded(s, 8, t.day, 2);
    FieldPadded(s, 11, t.hour, 2);
    FieldPadded(s, 14, t.minute, 2);
    FieldPadded(s, 17, t.second, 2);
    assert DateTime(Field(s, 0, 4), Field(s, 5, 7), Field(s, 8, 10), Field(s, 11, 13), Field(s, 14, 16), Field(s, 17, 19)) == t;
  }

  /** Parsing reads back exactly the time that was formatted. */
  lemma ParseFormat(t: DateTime, sep: char)
    requires Valid(t)
    ensures Parse(Format(t, sep), sep) == Ok(t)
  {
    FormatLayout(t, sep);
    ParseLaidOut(Format(t, sep), sep, t);
  }

  /** Parsing and counting seconds in one step; a text that does not parse is `Err(ValueError)`. */
  function ParseSeconds(s: string, sep: char): (r: Result<int>)
    ensures r.Ok? <==> Parse(s, sep).Ok?
    ensures r.Ok? ==> r.value == EpochSeconds(Parse(s, sep).value)
  {
    match Parse(s, sep)
    case Err(e) => Err(e)
    case Ok(t) => Ok(EpochSeconds(t))
  }
}

=== FILE: undead_instances.dfy ===
/**
 * Ironic nodes that still refer to instances Nova no longer has
 * (hammers/scripts/undead_instances.py): clearing a node's instance data, the set of
 * unbound instances, the sanity limits of delete mode and what delete mode does to each
 * node.
 */
module UndeadInstances {
  import opened Wrappers
  import OsApi
  import Util
  import Strs

  const Subcommand := "undead-instances"

  datatype IronicNode = IronicNode(uuid: string, instanceUuid: Option<string>, provisionState: string,
                                   instanceInfo: map<string, string>)

  /** Nova's answer to `GET /servers/<id>`: the instance, or an HTTP error status. */
  datatype NovaAnswer = Found(status: string) | HttpStatus(code: int)

  /** An id Nova has no answer for is a 404. */
  function NovaGet(nova: map<string, NovaAnswer>, id: string): NovaAnswer
  {
    if id in nova then nova[id] else HttpStatus(404)
  }

  /** Ironic, as far as these operations see and change it. */
  class Ironic {
    var nodes: map<string, IronicNode>
    /** The `(node, state)` provision-state changes requested so far. */
    var stateRequests: seq<(string, string)>

    constructor (nodes: map<string, IronicNode>)
      ensures this.nodes == nodes && stateRequests == []
    {
      this.nodes := nodes;
      stateRequests := [];
    }

    /**
     * `clear_node_instance_data(auth, node, validate)`. With validation the node must name
     * an instance and Nova must answer 404 for it; any other HTTP error propagates. On
     * success the node's instance uuid becomes `None` and its instance info `{}`; nothing
     * else changes. An unknown node is Ironic's 404.
     */
    method ClearNodeInstanceData(nova: map<string, NovaAnswer>, node: string, validate: bool) returns (r: Result<()>)
      modifies this
      ensures stateRequests == old(stateRequests)
      ensures node !in old(nodes) ==> r == Err(HttpError(404)) && nodes == old(nodes)
      ensures node in old(nodes) && validate && old(nodes)[node].instanceUuid.None? ==>
        r.Err? && r.error.RuntimeError? && nodes == old(nodes)
      ensures node in old(nodes) && validate && old(nodes)[node].instanceUuid.Some? ==>
        match NovaGet(nova, old(nodes)[node].instanceUuid.value)
        case Found(_) => r.Err? && r.error.RuntimeError? && nodes == old(nodes)
        case HttpStatus(c) => if c == 404 then r.Ok? else r == Err(HttpError(c)) && nodes == old(nodes)
      ensures r.Ok? <==> node in old(nodes) && Clearable(old(nodes)[node], nova, validate)
      ensures r.Ok? ==> nodes == old(nodes)[node := Cleared(old(nodes)[node])]
      ensures r.Err? ==> nodes == old(nodes)
    {
      if node !in nodes {
        return Err(HttpError(404));
      }
      if validate {
        var nodeData := nodes[node];
        if nodeData.instanceUuid.None? {
          return Err(RuntimeError("there is no instance set on node \"" + node + "\""));
        }
        var instanceUuid := nodeData.instanceUuid.value;
        match NovaGet(nova, instanceUuid) {
          case Found(status) =>
            return Err(RuntimeError("node \"" + node + "\" refers to instance \"" + instanceUuid + "\" that is status \"" + status + "\""));
          case HttpStatus(code) =>
            if code != 404 {
              return Err(HttpError(code));
            }
        }
      }
      nodes := nodes[node := Cleared(nodes[node])];
      return Ok(());
    }

    /** `ironic_node_set_state`; an unknown node is Ironic's 404. */
    method SetState(node: string, state: string) returns (r: Result<()>)
      modifies this
      ensures nodes == old(nodes)
      ensures node in nodes ==> r.Ok? && stateRequests == old(stateRequests) + [(node, state)]
      ensures node !in nodes ==> r == Err(HttpError(404)) && stateRequests == old(stateRequests)
    {
      if node !in nodes {
        return Err(HttpError(404));
      }
      stateRequests := stateRequests + [(node, state)];
      return Ok(());
    }

    /**
     * The delete-mode loop of `main` over the unbound instances in `order`: available
     * nodes are cleared (with validation), every other node is set to "deleted"; the first
     * failure propagates.
     */
    method FixUnbound(nova: map<string, NovaAnswer>, nodeInstanceMap: map<string, IronicNode>, order: seq<string>)
      returns (r: Result<()>)
      requires forall i :: i in order ==> i in nodeInstanceMap
      modifies this
      ensures Framed(old(nodes), nodes, Targets(nodeInstanceMap, order))
      ensures r.Ok? ==> AvailableCleared(nodes, nodeInstanceMap, order)
      ensures r.Ok? ==> stateRequests == old(stateRequests) + DeleteRequests(nodeInstanceMap, order)
      ensures r.Err? ==> exists k :: FailedAt(nodeInstanceMap, order, k, old(nodes), old(stateRequests), stateRequests, r)
    {
      ghost var nodes0 := nodes;
      ghost var requests0 := stateRequests;
      for k := 0 to |order|
        invariant forall i :: i in order[..k] ==> i in nodeInstanceMap
        invariant Framed(nodes0, nodes, Targets(nodeInstanceMap, order[..k]))
        invariant AvailableCleared(nodes, nodeInstanceMap, order[..k])
        invariant stateRequests == requests0 + DeleteRequests(nodeInstanceMap, order[..k])
      {
        r := FixOne(nova, nodeInstanceMap, order, k, nodes0, requests0);
        if r.Err? {
          TargetsGrow(nodeInstanceMap, order, k);
          return;
        }
      }
      assert order[..|order|] == order;
      return Ok(());
    }

    /**
     * One pass of the delete-mode loop: the node of the instance at position `k` is
     * cleared when available and otherwise set to "deleted".
     */
    method FixOne(nova: map<string, NovaAnswer>, nodeInstanceMap: map<string, IronicNode>, order: seq<string>, k: nat,
                  ghost nodes0: map<string, IronicNode>, ghost requests0: seq<(string, string)>)
      returns (r: Result<()>)
      requires k < |order| && forall i :: i in order ==> i in nodeInstanceMap
      requires Framed(nodes0, nodes, Targets(nodeInstanceMap, order[..k]))
      requires AvailableCleared(nodes, nodeInstanceMap, order[..k])
      requires stateRequests == requests0 + DeleteRequests(nodeInstanceMap, order[..k])
      modifies this
      ensures forall i :: i in order[..k + 1] ==> i in nodeInstanceMap
      ensures r.Ok? ==> Framed(nodes0, nodes, Targets(nodeInstanceMap, order[..k + 1]))
      ensures r.Ok? ==> AvailableCleared(nodes, nodeInstanceMap, order[..k + 1])
      ensures r.Ok? ==> stateRequests == requests0 + DeleteRequests(nodeInstanceMap, order[..k + 1])
      ensures r.Err? ==> Framed(nodes0, nodes, Targets(nodeInstanceMap, order[..k]))
      ensures r.Err? ==> FailedAt(nodeInstanceMap, order, k, nodes0, requests0, stateRequests, r)
    {
      var node := nodeInstanceMap[order[k]];
      var nodeId := node.uuid;
      TargetsStep(nodeInstanceMap, order, k);
      DeleteRequestsStep(nodeInstanceMap, order, k);
      ghost var before := nodes;
      if node.provisionState == "available" {
        r := ClearNodeInstanceData(nova, nodeId, true);
        if r.Ok? {
          ClearedStep(nodes0, before, nodeInstanceMap, order, k);
        }
      } else {
        r := SetState(nodeId, "deleted");
        if r.Ok? {
          RequestedStep(nodes0, nodes, nodeInstanceMap, order, k);
        }
      }
    }
  }

  /** The nodes the unbound instances of `order` point at. */
  function Targets(nodeInstanceMap: map<string, IronicNode>, order: seq<string>): (r: set<string>)
    requires forall i :: i in order ==> i in nodeInstanceMap
    ensures forall k :: 0 <= k < |order| ==> nodeInstanceMap[order[k]].uuid in r
  {
    set i | i in order :: nodeInstanceMap[i].uuid
  }

  /**
   * Only nodes in `targets` may have changed since `nodes0`, and those only by being
   * cleared; no node came or went.
   */
  ghost predicate Framed(nodes0: map<string, IronicNode>, nodes: map<string, IronicNode>, targets: set<string>)
  {
    (forall id :: id in nodes0 <==> id in nodes) &&
    forall id :: id in nodes ==> nodes[id] == nodes0[id] || (id in targets && nodes[id] == Cleared(nodes0[id]))
  }

  /** Every available node of the instances in `s` is cleared in `nodes`. */
  predicate AvailableCleared(nodes: map<string, IronicNode>, nodeInstanceMap: map<string, IronicNode>, s: seq<string>)
    requires forall i :: i in s ==> i in nodeInstanceMap
  {
    forall j :: 0 <= j < |s| && nodeInstanceMap[s[j]].provisionState == "available" ==>
      nodeInstanceMap[s[j]].uuid in nodes && nodes[nodeInstanceMap[s[j]].uuid].instanceUuid.None? &&
      nodes[nodeInstanceMap[s[j]].uuid].instanceInfo == map[]
  }

  /** Clearing the node of the instance at position `k` keeps both loop facts. */
  lemma ClearedStep(nodes0: map<string, IronicNode>, nodes: map<string, IronicNode>,
                    nodeInstanceMap: map<string, IronicNode>, order: seq<string>, k: nat)
    requires k < |order| && forall i :: i in order ==> i in nodeInstanceMap
    requires nodeInstanceMap[order[k]].uuid in nodes
    requires Framed(nodes0, nodes, Targets(nodeInstanceMap, order[..k]))
    requires AvailableCleared(nodes, nodeInstanceMap, order[..k])
    ensures forall i :: i in order[..k + 1] ==> i in nodeInstanceMap
    ensures var id := nodeInstanceMap[order[k]].uuid;
      Framed(nodes0, nodes[id := Cleared(nodes[id])], Targets(nodeInstanceMap, order[..k + 1])) &&
      AvailableCleared(nodes[id := Cleared(nodes[id])], nodeInstanceMap, order[..k + 1])
  {
    TargetsStep(nodeInstanceMap, order, k);
    var id := nodeInstanceMap[order[k]].uuid;
    var s := order[..k + 1];
    assert forall j :: 0 <= j < k ==> s[j] == order[..k][j];
  }

  /** A "deleted" request for the node at position `k` changes no node and keeps both loop facts. */
  lemma RequestedStep(nodes0: map<string, IronicNode>, nodes: map<string, IronicNode>,
                      nodeInstanceMap: map<string, IronicNode>, order: seq<string>, k: nat)
    requires k < |order| && forall i :: i in order ==> i in nodeInstanceMap
    requires nodeInstanceMap[order[k]].provisionState != "available"
    requires Framed(nodes0, nodes, Targets(nodeInstanceMap, order[..k]))
    requires AvailableCleared(nodes, nodeInstanceMap, order[..k])
    ensures forall i :: i in order[..k + 1] ==> i in nodeInstanceMap
    ensures Framed(nodes0, nodes, Targets(nodeInstanceMap, order[..k + 1]))
    ensures AvailableCleared(nodes, nodeInstanceMap, order[..k + 1])
  {
    TargetsStep(nodeInstanceMap, order, k);
    var s := order[..k + 1];
    assert forall j :: 0 <= j < k ==> s[j] == order[..k][j];
  }

  /** Every node that is not available gets its "deleted" request. */
  lemma {:induction false} DeleteRequestsHas(nodeInstanceMap: map<string, IronicNode>, order: seq<string>)
    requires forall i :: i in order ==> i in nodeInstanceMap
    ensures forall k :: 0 <= k < |order| && nodeInstanceMap[order[k]].provisionState != "available" ==>
      (nodeInstanceMap[order[k]].uuid, "deleted") in DeleteRequests(nodeInstanceMap, order)
  {
    if order != [] {
      var init := order[..|order| - 1];
      assert forall i :: i in init ==> i in order;
      DeleteRequestsHas(nodeInstanceMap, init);
      assert forall k :: 0 <= k < |init| ==> order[k] == init[k];
    }
  }

  /** Nodes framed by the targets of a prefix are framed by the targets of the whole order. */
  lemma TargetsGrow(nodeInstanceMap: map<string, IronicNode>, order: seq<string>, k: nat)
    requires k <= |order| && forall i :: i in order ==> i in nodeInstanceMap
    ensures forall i :: i in order[..k] ==> i in nodeInstanceMap
    ensures Targets(nodeInstanceMap, order[..k]) <= Targets(nodeInstanceMap, order)
    ensures forall n0, n :: Framed(n0, n, Targets(nodeInstanceMap, order[..k])) ==> Framed(n0, n, Targets(nodeInstanceMap, order))
  {
  }

  /** One more unbound instance adds its node to the targets. */
  lemma TargetsStep(nodeInstanceMap: map<string, IronicNode>, order: seq<string>, k: nat)
    requires k < |order| && forall i :: i in order ==> i in nodeInstanceMap
    ensures forall i :: i in order[..k + 1] ==> i in nodeInstanceMap
    ensures Targets(nodeInstanceMap, order[..k + 1]) == Targets(nodeInstanceMap, order[..k]) + {nodeInstanceMap[order[k]].uuid}
  {
    assert order[..k + 1] == order[..k] + [order[k]];
  }

  /** One more unbound instance adds at most its node's "deleted" request. */
  lemma DeleteRequestsStep(nodeInstanceMap: map<string, IronicNode>, order: seq<string>, k: nat)
    requires k < |order| && forall i :: i in order ==> i in nodeInstanceMap
    ensures forall i :: i in order[..k + 1] ==> i in nodeInstanceMap
    ensures var node := nodeInstanceMap[order[k]];
      DeleteRequests(nodeInstanceMap, order[..k + 1]) ==
        DeleteRequests(nodeInstanceMap, order[..k]) + (if node.provisionState != "available" then [(node.uuid, "deleted")] else [])
  {
    assert order[..k + 1][..k] == order[..k];
  }

  /**
   * The loop stopped at position `k`: the requests of the earlier positions were made,
   * and a node that is not available failed only because Ironic does not know it.
   */
  predicate FailedAt(nodeInstanceMap: map<string, IronicNode>, order: seq<string>, k: int,
                     nodes0: map<string, IronicNode>, requests0: seq<(string, string)>, requests: seq<(string, string)>, r: Result<()>)
    requires forall i :: i in order ==> i in nodeInstanceMap
  {
    0 <= k < |order| &&
    (forall i :: i in order[..k] ==> i in nodeInstanceMap) &&
    requests == requests0 + DeleteRequests(nodeInstanceMap, order[..k]) &&
    (nodeInstanceMap[order[k]].provisionState != "available" ==>
      nodeInstanceMap[order[k]].uuid !in nodes0 && r == Err(HttpError(404)))
  }

  /**
   * The state requests the delete-mode loop makes over `order`: a "deleted" request
   * for each node that is not available, in order.
   */
  function DeleteRequests(nodeInstanceMap: map<string, IronicNode>, order: seq<string>): (r: seq<(string, string)>)
    requires forall i :: i in order ==> i in nodeInstanceMap
    ensures forall p :: p in r ==> (p.1 == "deleted" &&
      exists i :: i in order && nodeInstanceMap[i].uuid == p.0 && nodeInstanceMap[i].provisionState != "available")
    ensures |r| <= |order|
  {
    if order == [] then []
    else
      var init := order[..|order| - 1];
      var node := nodeInstanceMap[order[|order| - 1]];
      assert forall i :: i in init ==> i in order;
      DeleteRequests(nodeInstanceMap, init) + (if node.provisionState != "available" then [(node.uuid, "deleted")] else [])
  }

  function Cleared(n: IronicNode): (r: IronicNode)
    ensures r.instanceUuid.None? && r.instanceInfo == map[]
    ensures r.uuid == n.uuid && r.provisionState == n.provisionState
  {
    n.(instanceUuid := None, instanceInfo := map[])
  }

  /** When `clear_node_instance_data` reaches the update. */
  predicate Clearable(n: IronicNode, nova: map<string, NovaAnswer>, validate: bool)
  {
    !validate || (n.instanceUuid.Some? && NovaGet(nova, n.instanceUuid.value) == HttpStatus(404))
  }

  /** `node_instance_map`: nodes by the instance they name; of two nodes naming one instance the later wins. */
  function NodeInstanceMap(nodes: seq<IronicNode>): (r: map<string, IronicNode>)
    ensures forall i :: i in r ==> r[i].instanceUuid == Some(i)
    ensures forall i :: i in r <==> exists n :: n in nodes && n.instanceUuid == Some(i)
  {
    if nodes == [] then map[]
    else
      var m := NodeInstanceMap(nodes[..|nodes| - 1]);
      var n := nodes[|nodes| - 1];
      assert forall x :: x in nodes <==> x in nodes[..|nodes| - 1] || x == n;
      if n.instanceUuid.Some? then m[n.instanceUuid.value := n] else m
  }

  /** The instances that nodes name and Nova does not list. */
  function UnboundInstances(nodes: seq<IronicNode>, instanceIds: set<string>): (r: set<string>)
    ensures forall i :: i in r <==> i !in instanceIds && exists n :: n in nodes && n.instanceUuid == Some(i)
  {
    NodeInstanceMap(nodes).Keys - instanceIds
  }

  /**
   * The sanity checks of delete mode, skipped only with `--force-sane` and no
   * `--force-insane`: zero Nova instances with unbound ones, or more unbound than the
   * limit (20, or -1 with `--force-insane`), raise RuntimeError after the optional Slack
   * post.
   */
  function SanityCheck(forceSane: bool, forceInsane: bool, instanceCount: nat, unboundCount: nat, slack: bool)
    : (r: (seq<Util.SlackPost>, Result<()>))
    ensures forceSane && !forceInsane ==> r == ([], Ok(()))
    ensures forceInsane ==> r.1.Err? && r.1.error.RuntimeError?
    ensures !forceSane && !forceInsane ==> (r.1.Err? <==> (instanceCount == 0 && unboundCount != 0) || unboundCount > 20)
  {
    if forceSane && !forceInsane then ([], Ok(()))
    else if instanceCount == 0 && unboundCount != 0 then
      var (posts, e) := Util.ErrorWithMessage(Subcommand, "(in)sanity check: 0 running instances(?!)", slack);
      (posts, Err(e))
    else
      var limit := if forceInsane then -1 else 20;
      if unboundCount > limit then
        var (posts, e) := Util.ErrorWithMessage(Subcommand, "(in)sanity check: it thinks there are " + Strs.IntToString(unboundCount) + " unbound instances", slack);
        (posts, Err(e))
      else ([], Ok(()))
  }

  /** `main` gives up with -1 exactly when a required OS variable is missing from env and rc file. */
  function Precheck(osVars: map<string, string>): (r: int)
    ensures r == -1 <==> !(OsApi.RequiredOsVars <= osVars.Keys)
    ensures r == 0 || r == -1
  {
    OsApi.NoneMissing(OsApi.RequiredOsVars, osVars.Keys);
    if OsApi.RequiredOsVars - osVars.Keys != {} then -1 else 0
  }
}

=== FILE: unutilized_lease_reaper.dfy ===
/**
 * Idle-lease reclamation (hammers/scripts/unutilized_lease_reaper.py): ACTIVE Blazar
 * leases are joined with the Ironic nodes they hold, and a lease is in violation when
 * none of its nodes was provisioned since the lease started, some hours ago. Leases past
 * the warning period are warned, leases past the grace period are deleted.
 */
module UnutilizedLeaseReaper {
  import opened Wrappers
  import opened Dicts
  import Strs
  import Times

  const DefaultWarnHours := 6
  const DefaultGraceHours := 9

  /** The Chameleon TACC, Chameleon UC and maintenance projects, which are never reclaimed. */
  const ExcludedProjectIds := [
    "f6c7696906c04b3c89fc3bda9a1b8be0",
    "4140e5f9f65545dbb9f0bdc90ef68d23",
    "4ffe61cf850d4b45aef86b46411d33e1"]

  /** `s.split(c)[0]`: the text before the first `c`, or all of it. */
  function UpTo(s: string, c: char): (r: string)
    ensures r <= s && c !in r
    ensures r == s || s[|r|] == c
  {
    if s == [] || s[0] == c then [] else [s[0]] + UpTo(s[1..], c)
  }

  lemma {:induction false} UpToAppend(a: string, b: string, c: char)
    requires c !in a
    ensures UpTo(a + b, c) == a + UpTo(b, c)
  {
    if a == [] {
      assert a + b == b;
    } else {
      assert (a + b)[0] == a[0] && (a + b)[1..] == a[1..] + b;
      UpToAppend(a[1..], b, c);
      assert a == [a[0]] + a[1..];
    }
  }

  /**
   * `parse_time`: seconds since the epoch of a UTC time. By default the text is cut at
   * the first '+' and then at the first '.', and read as `%Y-%m-%dT%H:%M:%S`; the
   * alternate layout is `%Y-%m-%d %H:%M:%S`.
   */
  function ParseTime(time: string, altFormat: bool): (r: Result<int>)
    ensures r.Err? ==> r.error.ValueError?
  {
    if altFormat then Times.ParseSeconds(time, ' ')
    else Times.ParseSeconds(UpTo(UpTo(time, '+'), '.'), 'T')
  }

  lemma FormatChars(t: Times.DateTime, sep: char)
    requires Times.Valid(t)
    ensures forall c :: c in Times.Format(t, sep) ==> Times.IsDigit(c) || c == '-' || c == ':' || c == sep
  {
  }

  /**
   * A time as Ironic writes it — the `T` layout followed by an optional fraction and
   * UTC offset — reads back as that time.
   */
  lemma ParseTimeIronic(t: Times.DateTime, suffix: string)
    requires Times.Valid(t)
    requires suffix == [] || suffix[0] == '.' || suffix[0] == '+'
    ensures ParseTime(Times.Format(t, 'T') + suffix, false) == Ok(Times.EpochSeconds(t))
  {
    var f := Times.Format(t, 'T');
    FormatChars(t, 'T');
    UpToAppend(f, suffix, '+');
    var u := UpTo(suffix, '+');
    assert u == [] || u[0] == '.' by {
      if suffix != [] && suffix[0] == '.' {
        assert u == ['.'] + UpTo(suffix[1..], '+');
      }
    }
    UpToAppend(f, u, '.');
    assert UpTo(u, '.') == [];
    assert f + [] == f;
    Times.ParseFormat(t, 'T');
  }

  /** The alternate layout reads back exactly the time it writes. */
  lemma ParseTimeAlternate(t: Times.DateTime)
    requires Times.Valid(t)
    ensures ParseTime(Times.Format(t, ' '), true) == Ok(Times.EpochSeconds(t))
  {
    Times.ParseFormat(t, ' ');
  }

  datatype Event = Event(eventType: string, updatedAt: string)
  /** An Ironic node; `provision_updated_at` is null for a node never provisioned. */
  datatype Node = Node(uuid: string, provisionState: string, provisionUpdatedAt: Option<string>)

  /**
   * `parse_time(x['provision_updated_at'])`: a null time has no `split`, which raises an
   * AttributeError; a text is read in the default layout.
   */
  function ProvisionTime(time: Option<string>): (r: Result<int>)
    ensures time.None? <==> r == Err(AttributeError("split"))
    ensures r.Err? ==> r.error.ValueError? || r.error == AttributeError("split")
  {
    if time.None? then Err(AttributeError("split")) else ParseTime(time.value, false)
  }

  /** A Blazar lease after `leases_with_node_details` attached its `nodes`. */
  datatype Lease = Lease(id: string, name: string, projectId: string, userId: string, status: string, events: seq<Event>, nodes: seq<Node>)

  /** The last "start_lease" event, the one `.pop()` takes. */
  function LastStartEvent(events: seq<Event>): (r: Option<Event>)
    ensures r.Some? ==> r.value in events && r.value.eventType == "start_lease"
    ensures r.None? <==> forall e :: e in events ==> e.eventType != "start_lease"
  {
    if events == [] then None
    else if events[|events| - 1].eventType == "start_lease" then Some(events[|events| - 1])
    else
      assert forall e :: e in events ==> e in events[..|events| - 1] || e == events[|events| - 1];
      LastStartEvent(events[..|events| - 1])
  }

  /** Every value in order, or the first error. */
  function AllOk(rs: seq<Result<int>>): Result<seq<int>>
  {
    if rs == [] then Ok([])
    else
      var init := AllOk(rs[..|rs| - 1]);
      if init.Err? then init
      else if rs[|rs| - 1].Err? then Err(rs[|rs| - 1].error)
      else Ok(init.value + [rs[|rs| - 1].value])
  }

  /** The values are all read, or the error is one of the results, and some result failed. */
  lemma {:induction false} AllOkMeaning(rs: seq<Result<int>>)
    ensures AllOk(rs).Ok? ==> |AllOk(rs).value| == |rs| && forall i :: 0 <= i < |rs| ==> rs[i] == Ok(AllOk(rs).value[i])
    ensures AllOk(rs).Err? ==> exists i :: 0 <= i < |rs| && rs[i] == Err(AllOk(rs).error)
    ensures AllOk(rs).Err? <==> exists i :: 0 <= i < |rs| && rs[i].Err?
  {
    if rs != [] {
      var init := rs[..|rs| - 1];
      AllOkMeaning(init);
      assert forall i :: 0 <= i < |init| ==> init[i] == rs[i];
    }
  }

  /** The `provision_updated_at` times of the nodes, in order; the first unreadable one fails. */
  function ProvisionTimes(nodes: seq<Node>): (r: Result<seq<int>>)
    ensures r.Err? ==> r.error.ValueError? || r.error == AttributeError("split")
  {
    var rs := seq(|nodes|, i requires 0 <= i < |nodes| => ProvisionTime(nodes[i].provisionUpdatedAt));
    AllOkMeaning(rs);
    AllOk(rs)
  }

  /** The times are read node by node; reading fails iff some node's time is unreadable. */
  lemma ProvisionTimesMeaning(nodes: seq<Node>)
    ensures var r := ProvisionTimes(nodes);
      r.Ok? ==> |r.value| == |nodes| && forall i :: 0 <= i < |nodes| ==> ProvisionTime(nodes[i].provisionUpdatedAt) == Ok(r.value[i])
    ensures ProvisionTimes(nodes).Err? <==> exists i :: 0 <= i < |nodes| && ProvisionTime(nodes[i].provisionUpdatedAt).Err?
  {
    var rs := seq(|nodes|, i requires 0 <= i < |nodes| => ProvisionTime(nodes[i].provisionUpdatedAt));
    AllOkMeaning(rs);
  }

  /**
   * The predicate `inviolation_filter(hours)` builds, with `now` the clock reading it
   * takes (whole seconds: the start time has none, so its strict comparison with the
   * threshold does not depend on the fraction of `now`).
   */
  function InViolation(lease: Lease, now: int, hours: int): (r: Result<bool>)
    ensures LastStartEvent(lease.events).None? ==> r == Err(IndexError)
    ensures r.Err? ==> r.error == IndexError || r.error.ValueError? || r.error == AttributeError("split")
  {
    match LastStartEvent(lease.events)
    case None => Err(IndexError)
    case Some(startEvent) =>
      match ParseTime(startEvent.updatedAt, true)
      case Err(e) => Err(e)
      case Ok(start) =>
        if lease.projectId in ExcludedProjectIds then Ok(false)
        else if |lease.nodes| == 0 then Ok(false)
        else if start > now - hours * 3600 then Ok(false)
        else
          match ProvisionTimes(lease.nodes)
          case Err(e) => Err(e)
          case Ok(times) =>
            var activeNodes := exists i :: 0 <= i < |lease.nodes| && lease.nodes[i].provisionState == "active";
            var provisionStateChange := exists i :: 0 <= i < |times| && times[i] > start;
            Ok(!activeNodes && !provisionStateChange)
  }

  /**
   * A lease is in violation iff it has a readable start event, its project is not
   * excluded, it holds nodes, it started at least `hours` ago, every node's provision
   * time is readable, and no node is active or was provisioned after the start.
   */
  lemma InViolationMeaning(lease: Lease, now: int, hours: int)
    ensures InViolation(lease, now, hours) == Ok(true) <==>
      LastStartEvent(lease.events).Some? &&
      ParseTime(LastStartEvent(lease.events).value.updatedAt, true).Ok? &&
      lease.projectId !in ExcludedProjectIds && |lease.nodes| > 0 &&
      ParseTime(LastStartEvent(lease.events).value.updatedAt, true).value <= now - hours * 3600 &&
      forall i :: 0 <= i < |lease.nodes| ==>
        lease.nodes[i].provisionState != "active" &&
        ProvisionTime(lease.nodes[i].provisionUpdatedAt).Ok? &&
        ProvisionTime(lease.nodes[i].provisionUpdatedAt).value <= ParseTime(LastStartEvent(lease.events).value.updatedAt, true).value
  {
    ProvisionTimesMeaning(lease.nodes);
  }

  /**
   * A lease that passes the start, project, node and age tests but holds a node never
   * provisioned makes the filter raise instead of answering.
   */
  lemma NullProvisionTimeRaises(lease: Lease, now: int, hours: int, k: nat)
    requires LastStartEvent(lease.events).Some? && ParseTime(LastStartEvent(lease.events).value.updatedAt, true).Ok?
    requires lease.projectId !in ExcludedProjectIds
    requires ParseTime(LastStartEvent(lease.events).value.updatedAt, true).value <= now - hours * 3600
    requires k < |lease.nodes| && lease.nodes[k].provisionUpdatedAt.None?
    ensures InViolation(lease, now, hours).Err?
  {
    ProvisionTimesMeaning(lease.nodes);
    assert ProvisionTime(lease.nodes[k].provisionUpdatedAt).Err?;
  }

  /** A lease in violation at a threshold is in violation at every later threshold. */
  lemma InViolationMonotone(lease: Lease, nowA: int, hoursA: int, nowB: int, hoursB: int)
    requires nowB - hoursB * 3600 <= nowA - hoursA * 3600
    requires InViolation(lease, nowB, hoursB) == Ok(true)
    ensures InViolation(lease, nowA, hoursA) == Ok(true)
  {
    InViolationMeaning(lease, nowB, hoursB);
    InViolationMeaning(lease, nowA, hoursA);
  }

  /** `list(filter(pred, leases))`: the first lease on which `pred` raises aborts. */
  function FilterBy(leases: seq<Lease>, pred: Lease -> Result<bool>): (r: Result<seq<Lease>>)
    ensures r.Ok? ==> |r.value| <= |leases|
  {
    if leases == [] then Ok([])
    else
      match FilterBy(leases[..|leases| - 1], pred)
      case Err(e) => Err(e)
      case Ok(kept) =>
        match pred(leases[|leases| - 1])
        case Err(e) => Err(e)
        case Ok(b) => Ok(if b then kept + [leases[|leases| - 1]] else kept)
  }

  /** The filter with the predicate `inviolation_filter(hours)` builds. */
  function Filter(leases: seq<Lease>, now: int, hours: int): Result<seq<Lease>>
  {
    FilterBy(leases, l => InViolation(l, now, hours))
  }

  /** The filter succeeds iff the predicate does on every lease. */
  lemma {:induction false} FilterOk(leases: seq<Lease>, pred: Lease -> Result<bool>)
    ensures FilterBy(leases, pred).Ok? <==> forall i :: 0 <= i < |leases| ==> pred(leases[i]).Ok?
  {
    if leases != [] {
      var init := leases[..|leases| - 1];
      FilterOk(init, pred);
      assert forall i :: 0 <= i < |init| ==> init[i] == leases[i];
    }
  }

  /** A successful filter keeps exactly the leases on which the predicate holds. */
  lemma {:induction false} FilterKeeps(leases: seq<Lease>, pred: Lease -> Result<bool>)
    requires FilterBy(leases, pred).Ok?
    ensures forall l :: l in FilterBy(leases, pred).value <==> l in leases && pred(l) == Ok(true)
  {
    if leases != [] {
      var init := leases[..|leases| - 1];
      var last := leases[|leases| - 1];
      FilterKeeps(init, pred);
      var kept := FilterBy(init, pred).value;
      assert forall l :: l in leases <==> l in init || l == last;
      if pred(last) == Ok(true) {
        assert FilterBy(leases, pred).value == kept + [last];
      } else {
        assert FilterBy(leases, pred).value == kept;
      }
    }
  }

  /**
   * With `grace > warn` and the grace filter's clock read at most `grace - warn` hours
   * after the warning filter's (in particular with one clock reading), every lease to
   * terminate was also warned.
   */
  lemma TerminateWithinWarn(leases: seq<Lease>, nowWarn: int, nowGrace: int, warnHours: int, graceHours: int)
    requires graceHours > warnHours
    requires nowWarn <= nowGrace <= nowWarn + (graceHours - warnHours) * 3600
    requires Filter(leases, nowWarn, warnHours).Ok? && Filter(leases, nowGrace, graceHours).Ok?
    ensures forall l :: l in Filter(leases, nowGrace, graceHours).value ==> l in Filter(leases, nowWarn, warnHours).value
  {
    FilterKeeps(leases, l => InViolation(l, nowWarn, warnHours));
    FilterKeeps(leases, l => InViolation(l, nowGrace, graceHours));
    forall l | l in Filter(leases, nowGrace, graceHours).value
      ensures l in Filter(leases, nowWarn, warnHours).value
    {
      InViolationMonotone(l, nowWarn, warnHours, nowGrace, graceHours);
    }
  }

  /** A Blazar lease as listed, before its nodes are attached. */
  datatype BlazarLease = BlazarLease(id: string, name: string, projectId: string, userId: string, status: string, events: seq<Event>)
  datatype BlazarHost = BlazarHost(id: string, hypervisorHostname: string)
  /** A host allocation: the host and the lease id of each of its reservations. */
  datatype Allocation = Allocation(resourceId: string, reservationLeaseIds: seq<string>)

  /** `hosts_by_node_uuid`: hypervisor hostname to host id, the last host winning. */
  function HostsByNodeUuid(hosts: seq<BlazarHost>): (r: map<string, string>)
    ensures forall h :: h in hosts ==> h.hypervisorHostname in r
  {
    if hosts == [] then map[]
    else
      assert forall h :: h in hosts ==> h in hosts[..|hosts| - 1] || h == hosts[|hosts| - 1];
      HostsByNodeUuid(hosts[..|hosts| - 1])[hosts[|hosts| - 1].hypervisorHostname := hosts[|hosts| - 1].id]
  }

  /**
   * `nodes_by_host`: each Ironic node under the id of its Blazar host; the KeyError of
   * the first node (in listing order) that no host names.
   */
  function NodesByHost(nodeIds: seq<string>, nodes: map<string, Node>, hostIds: map<string, string>): (r: Result<map<string, Node>>)
    requires forall k :: k in nodeIds ==> k in nodes
    ensures r.Ok? <==> forall k :: k in nodeIds ==> k in hostIds
    ensures r.Ok? ==> forall k :: k in nodeIds ==> hostIds[k] in r.value
    ensures r.Err? ==> r.error.KeyError?
  {
    if nodeIds == [] then Ok(map[])
    else
      var k := nodeIds[|nodeIds| - 1];
      assert forall x :: x in nodeIds ==> x in nodeIds[..|nodeIds| - 1] || x == k;
      match NodesByHost(nodeIds[..|nodeIds| - 1], nodes, hostIds)
      case Err(e) => Err(e)
      case Ok(m) => if k in hostIds then Ok(m[hostIds[k] := nodes[k]]) else Err(KeyError(k))
  }

  /** The allocations whose host is known, in order. */
  function KnownAllocations(allocations: seq<Allocation>, nodesByHost: map<string, Node>): (r: seq<Allocation>)
    ensures forall a :: a in r <==> a in allocations && a.resourceId in nodesByHost
  {
    if allocations == [] then []
    else
      var a := allocations[|allocations| - 1];
      assert forall x :: x in allocations <==> x in allocations[..|allocations| - 1] || x == a;
      KnownAllocations(allocations[..|allocations| - 1], nodesByHost) + (if a.resourceId in nodesByHost then [a] else [])
  }

  /** One allocation's contribution to a lease: its node once per reservation of the lease. */
  function AllocNodes(leaseIds: seq<string>, node: Node, leaseId: string): (r: seq<Node>)
    ensures forall n :: n in r ==> n == node
    ensures r == [] <==> leaseId !in leaseIds
  {
    if leaseIds == [] then []
    else
      assert forall x :: x in leaseIds <==> x in leaseIds[..|leaseIds| - 1] || x == leaseIds[|leaseIds| - 1];
      AllocNodes(leaseIds[..|leaseIds| - 1], node, leaseId) + (if leaseIds[|leaseIds| - 1] == leaseId then [node] else [])
  }

  /**
   * `allocs_by_lease[lease_id]` after the given allocations (all of them on known hosts,
   * as `KnownAllocations` leaves them; another contributes nothing).
   */
  function NodesOf(allocations: seq<Allocation>, nodesByHost: map<string, Node>, leaseId: string): (r: seq<Node>)
  {
    if allocations == [] then []
    else
      var a := allocations[|allocations| - 1];
      NodesOf(allocations[..|allocations| - 1], nodesByHost, leaseId) +
        (if a.resourceId in nodesByHost then AllocNodes(a.reservationLeaseIds, nodesByHost[a.resourceId], leaseId) else [])
  }

  /**
   * A lease's nodes are the nodes of the allocations that reserve it, and it has none
   * iff no allocation does.
   */
  lemma {:induction false} NodesOfMeaning(allocations: seq<Allocation>, nodesByHost: map<string, Node>, leaseId: string)
    requires forall a :: a in allocations ==> a.resourceId in nodesByHost
    ensures NodesOf(allocations, nodesByHost, leaseId) == [] <==> forall a :: a in allocations ==> leaseId !in a.reservationLeaseIds
    ensures forall n :: n in NodesOf(allocations, nodesByHost, leaseId) ==>
      exists a :: a in allocations && leaseId in a.reservationLeaseIds && nodesByHost[a.resourceId] == n
  {
    if allocations != [] {
      var init := allocations[..|allocations| - 1];
      var a := allocations[|allocations| - 1];
      assert forall x :: x in allocations <==> x in init || x == a;
      NodesOfMeaning(init, nodesByHost, leaseId);
    }
  }

  lemma AllocNodesStep(leaseIds: seq<string>, j: int, node: Node, leaseId: string)
    requires 0 <= j < |leaseIds|
    ensures AllocNodes(leaseIds[..j + 1], node, leaseId) ==
      AllocNodes(leaseIds[..j], node, leaseId) + (if leaseIds[j] == leaseId then [node] else [])
  {
    assert leaseIds[..j + 1][..j] == leaseIds[..j];
  }

  lemma NodesOfStep(allocations: seq<Allocation>, i: int, nodesByHost: map<string, Node>, leaseId: string)
    requires 0 <= i < |allocations| && allocations[i].resourceId in nodesByHost
    ensures NodesOf(allocations[..i + 1], nodesByHost, leaseId) ==
      NodesOf(allocations[..i], nodesByHost, leaseId) + AllocNodes(allocations[i].reservationLeaseIds, nodesByHost[allocations[i].resourceId], leaseId)
  {
    assert allocations[..i + 1][..i] == allocations[..i];
  }

  function Lookup(m: map<string, seq<Node>>, k: string): seq<Node>
  {
    if k in m then m[k] else []
  }

  /** The nested loop that fills `allocs_by_lease`. */
  method AllocsByLease(allocations: seq<Allocation>, nodesByHost: map<string, Node>) returns (byLease: map<string, seq<Node>>)
    requires forall a :: a in allocations ==> a.resourceId in nodesByHost
    ensures forall id :: Lookup(byLease, id) == NodesOf(allocations, nodesByHost, id)
  {
    byLease := map[];
    for i := 0 to |allocations|
      invariant forall id :: Lookup(byLease, id) == NodesOf(allocations[..i], nodesByHost, id)
    {
      var alloc := allocations[i];
      assert alloc in allocations;
      ghost var before := byLease;
      byLease := AddReservations(byLease, alloc.reservationLeaseIds, nodesByHost[alloc.resourceId]);
      forall id ensures Lookup(byLease, id) == NodesOf(allocations[..i + 1], nodesByHost, id) {
        NodesOfStep(allocations, i, nodesByHost, id);
      }
    }
    assert allocations[..|allocations|] == allocations;
  }

  /** The inner loop: the allocation's node, once per reservation, under the reservation's lease. */
  method AddReservations(byLease: map<string, seq<Node>>, leaseIds: seq<string>, node: Node) returns (r: map<string, seq<Node>>)
    ensures forall id :: Lookup(r, id) == Lookup(byLease, id) + AllocNodes(leaseIds, node, id)
  {
    r := byLease;
    for j := 0 to |leaseIds|
      invariant forall id :: Lookup(r, id) == Lookup(byLease, id) + AllocNodes(leaseIds[..j], node, id)
    {
      var leaseId := leaseIds[j];
      forall id ensures Lookup(r[leaseId := Lookup(r, leaseId) + [node]], id) == Lookup(byLease, id) + AllocNodes(leaseIds[..j + 1], node, id) {
        AddReservationAt(byLease, r, leaseIds, j, node, id);
      }
      r := r[leaseId := Lookup(r, leaseId) + [node]];
    }
    assert leaseIds[..|leaseIds|] == leaseIds;
  }

  /** One more reservation of the allocation: its lease gets the node appended, no other lease changes. */
  lemma AddReservationAt(byLease: map<string, seq<Node>>, prev: map<string, seq<Node>>, leaseIds: seq<string>, j: int, node: Node, id: string)
    requires 0 <= j < |leaseIds|
    requires Lookup(prev, id) == Lookup(byLease, id) + AllocNodes(leaseIds[..j], node, id)
    ensures Lookup(prev[leaseIds[j] := Lookup(prev, leaseIds[j]) + [node]], id) ==
      Lookup(byLease, id) + AllocNodes(leaseIds[..j + 1], node, id)
  {
    AllocNodesStep(leaseIds, j, node, id);
    var added := AllocNodes(leaseIds[..j], node, id);
    if id != leaseIds[j] {
      assert added + [] == added;
    }
  }

  /** The ACTIVE leases, in listing order, each with the nodes the allocations give it. */
  function Attach(leases: seq<BlazarLease>, byLease: string -> seq<Node>): (r: seq<Lease>)
    ensures |r| <= |leases|
  {
    if leases == [] then []
    else
      var l := leases[|leases| - 1];
      Attach(leases[..|leases| - 1], byLease) +
        (if l.status == "ACTIVE" then [Lease(l.id, l.name, l.projectId, l.userId, l.status, l.events, byLease(l.id))] else [])
  }

  /** `leases_with_node_details` over the four listings. */
  function LeasesWithNodeDetails(leases: seq<BlazarLease>, hosts: seq<BlazarHost>, nodes: Dict<string, Node>, allocations: seq<Allocation>): (r: Result<seq<Lease>>)
    requires nodes.Valid()
  {
    match NodesByHost(nodes.keys, nodes.vals, HostsByNodeUuid(hosts))
    case Err(e) => Err(e)
    case Ok(nodesByHost) =>
      var known := KnownAllocations(allocations, nodesByHost);
      Ok(Attach(leases, id => NodesOf(known, nodesByHost, id)))
  }

  /**
   * Exactly the ACTIVE leases come out, in order, and each carries the nodes of the
   * known allocations that reserve it — none when no such allocation does.
   */
  lemma {:induction false} AttachMeaning(leases: seq<BlazarLease>, byLease: string -> seq<Node>)
    ensures forall l :: l in Attach(leases, byLease) ==> l.status == "ACTIVE" && l.nodes == byLease(l.id)
    ensures forall b :: b in leases && b.status == "ACTIVE" ==>
      Lease(b.id, b.name, b.projectId, b.userId, b.status, b.events, byLease(b.id)) in Attach(leases, byLease)
  {
    if leases != [] {
      AttachMeaning(leases[..|leases| - 1], byLease);
      assert forall x :: x in leases ==> x in leases[..|leases| - 1] || x == leases[|leases| - 1];
    }
  }

  /** `leases_with_node_details` with its `allocs_by_lease` loop. */
  method JoinLeases(leases: seq<BlazarLease>, hosts: seq<BlazarHost>, nodes: Dict<string, Node>, allocations: seq<Allocation>)
    returns (r: Result<seq<Lease>>)
    requires nodes.Valid()
    ensures r == LeasesWithNodeDetails(leases, hosts, nodes, allocations)
  {
    var nodesByHost := NodesByHost(nodes.keys, nodes.vals, HostsByNodeUuid(hosts));
    if nodesByHost.Err? {
      return Err(nodesByHost.error);
    }
    var known := KnownAllocations(allocations, nodesByHost.value);
    var byLease := AllocsByLease(known, nodesByHost.value);
    var f := id => NodesOf(known, nodesByHost.value, id);
    var g := id => Lookup(byLease, id);
    AttachSame(leases, f, g);
    return Ok(Attach(leases, g));
  }

  lemma {:induction false} AttachSame(leases: seq<BlazarLease>, f: string -> seq<Node>, g: string -> seq<Node>)
    requires forall id :: f(id) == g(id)
    ensures Attach(leases, f) == Attach(leases, g)
  {
    if leases != [] {
      AttachSame(leases[..|leases| - 1], f, g);
    }
  }

  /** What a run does once the leases are joined. */
  datatype Outcome =
    | AssertionFailed
    | Raised(error: Error)
    | NothingToDo
    | Listed(warn: seq<string>, terminate: seq<string>)
    | Reclaimed(warned: seq<string>, deleted: seq<string>, message: string)

  function Ids(leases: seq<Lease>): (r: seq<string>)
    ensures |r| == |leases| && forall i :: 0 <= i < |leases| ==> r[i] == leases[i].id
  {
    if leases == [] then [] else [leases[0].id] + Ids(leases[1..])
  }

  /** The warning-only leases: those to warn that are not also terminated, in order. */
  function WarnOnly(warn: seq<Lease>, terminate: seq<Lease>): (r: seq<Lease>)
    ensures forall l :: l in r <==> l in warn && l !in terminate
  {
    if warn == [] then []
    else
      assert forall x :: x in warn <==> x == warn[0] || x in warn[1..];
      (if warn[0] in terminate then [] else [warn[0]]) + WarnOnly(warn[1..], terminate)
  }

  /**
   * `main` after the join: the grace period must exceed the warning period; the two
   * filters read the clock at `nowWarn` and `nowGrace`. In delete mode the warning-only
   * leases are emailed and the terminated ones deleted (and emailed).
   */
  function UnutilizedMain(leases: seq<Lease>, nowWarn: int, nowGrace: int, warnHours: int, graceHours: int, delete: bool): (r: Outcome)
    ensures graceHours <= warnHours <==> r == AssertionFailed
  {
    if graceHours <= warnHours then AssertionFailed
    else
      match Filter(leases, nowWarn, warnHours)
      case Err(e) => Raised(e)
      case Ok(warn) =>
        match Filter(leases, nowGrace, graceHours)
        case Err(e) => Raised(e)
        case Ok(terminate) =>
          if |warn| + |terminate| == 0 then NothingToDo
          else if !delete then Listed(Ids(warn), Ids(terminate))
          else
            Reclaimed(Ids(WarnOnly(warn, terminate)), Ids(terminate),
              "Warned deletion of *" + Strs.IntToString(|warn|) + " idle leases* Commanded deletion of *" +
              Strs.IntToString(|terminate|) + " idle leases* (Unutilized lease violation)")
  }

  /**
   * In delete mode with one clock reading, the deleted leases are exactly those in
   * violation for the grace period, and the warning-only emails go to exactly the leases
   * in violation for the warning period but not the grace period.
   */
  lemma ReclaimMeaning(leases: seq<Lease>, now: int, warnHours: int, graceHours: int)
    requires graceHours > warnHours
    requires UnutilizedMain(leases, now, now, warnHours, graceHours, true).Reclaimed?
    ensures forall id :: id in UnutilizedMain(leases, now, now, warnHours, graceHours, true).deleted <==>
      exists l :: l in leases && l.id == id && InViolation(l, now, graceHours) == Ok(true)
    ensures forall id :: id in UnutilizedMain(leases, now, now, warnHours, graceHours, true).warned <==>
      exists l :: l in leases && l.id == id && InViolation(l, now, warnHours) == Ok(true) && InViolation(l, now, graceHours) != Ok(true)
  {
    FilterKeeps(leases, l => InViolation(l, now, warnHours));
    FilterKeeps(leases, l => InViolation(l, now, graceHours));
    var warn := Filter(leases, now, warnHours).value;
    var terminate := Filter(leases, now, graceHours).value;
    IdsMeaning(terminate);
    IdsMeaning(WarnOnly(warn, terminate));
  }

  /** An id is listed iff some lease has it. */
  lemma IdsMeaning(leases: seq<Lease>)
    ensures forall id :: id in Ids(leases) <==> exists l :: l in leases && l.id == id
  {
    forall id ensures id in Ids(leases) <==> exists l :: l in leases && l.id == id {
      if id in Ids(leases) {
        var i :| 0 <= i < |leases| && Ids(leases)[i] == id;
        assert leases[i] in leases;
      }
      if exists l :: l in leases && l.id == id {
        var l :| l in leases && l.id == id;
        var i :| 0 <= i < |leases| && leases[i] == l;
        assert Ids(leases)[i] == id;
      }
    }
  }

}

=== FILE: util.dfy ===
/** String helpers and the error-reporting helper shared by the scripts (hammers/util.py). */
module Util {
  import opened Wrappers

  /**
   * `drop_prefix(s, start)`: `s` without its leading `start`; a ValueError when `s`
   * does not begin with `start`. Python's `s[:len(start)]` is `s` itself when `start`
   * is longer, so that case fails too.
   */
  function DropPrefix(s: string, start: string): (r: Result<string>)
    ensures r.Ok? <==> start <= s
    ensures r.Ok? ==> start + r.value == s
    ensures r.Err? ==> r.error.ValueError?
  {
    var l := |start|;
    var head := if l <= |s| then s[..l] else s;
    if head != start then Err(ValueError("string does not start with expected value"))
    else Ok(s[l..])
  }

  /** Dropping a prefix undoes prepending it. */
  lemma DropPrefixRoundTrip(p: string, t: string)
    ensures DropPrefix(p + t, p) == Ok(t)
  {
    assert (p + t)[..|p|] == p;
    assert (p + t)[|p|..] == t;
  }

  /** The self-checks at the foot of the source file. */
  lemma DropPrefixExamples()
    ensures DropPrefix("x:1234", "x:") == Ok("1234")
    ensures DropPrefix("abcde", "abc") == Ok("de")
    ensures DropPrefix("1234", "a").Err?
  {
    DropPrefixRoundTrip("x:", "1234");
    DropPrefixRoundTrip("abc", "de");
    assert "1234"[0] != "a"[0];
  }

  /** A message posted to Slack: the subcommand as title and the reason as text. */
  datatype SlackPost = SlackPost(title: string, text: string, color: string)

  /**
   * `error_with_message`: always ends in a RuntimeError carrying `reason`; when a
   * Slack client is given the reason is posted first, in red.
   */
  function ErrorWithMessage(subcommand: string, reason: string, slack: bool): (r: (seq<SlackPost>, Error))
    ensures r.1 == RuntimeError(reason)
    ensures slack <==> r.0 != []
    ensures forall p :: p in r.0 ==> p.title == subcommand && p.text == reason
  {
    (if slack then [SlackPost(subcommand, reason, "xkcd:red")] else [], RuntimeError(reason))
  }
}

=== FILE: wrappers.dfy ===
/** Option and Result values, and the Python exceptions the scripts raise or catch. */
module Wrappers {
  datatype Option<T> = None | Some(value: T)

  /** The exceptions of the modelled scripts, by their Python class. */
  datatype Error =
    | ValueError(msg: string)
    | KeyError(key: string)
    | IndexError
    | TypeError(msg: string)
    | AttributeError(name: string)
    | NameError(name: string)
    | RuntimeError(msg: string)
    | AssertionError
    | ZeroDivisionError
    | HttpError(status: int)
    | ProgrammingError(msg: string)

  datatype Result<T> = Ok(value: T) | Err(error: Error)
  {
    predicate IsFailure() { Err? }
    function PropagateFailure<U>(): Result<U>
      requires Err?
    {
      Err(error)
    }
    function Extract(): T
      requires Ok?
    {
      value
    }
  }
}
